=== FILE: README.md ===
# A verified model of the jarzarr engine's retained-mode UI core

This project models, in Dafny, the retained-mode UI tree of the jarzarr 2D game engine (`org.jarzarr.ui`) and the
small deterministic state machines around it, and proves what they guarantee.

**The UI tree.** The tree is an arena: a map from node id to a `Node` record that holds its local box, padding,
preferred size, anchors, computed global bounds, parent and child ids, interaction flags and dirty flag. A `Kind` tag
carries what each container adds: a DockPane's two slot maps, a GridPanel's cell records, a StackPanel's or
WrapPanel's settings, or a Center's remembered child. A ghost rank that grows strictly from parent to child witnesses
that the tree is acyclic. This lets the recursions of `markLayoutDirty`, `computeLayout`, `hitTest` and
`collectFocusable` terminate.

The modules are:
- `UITree` and `UIEdits` say, as functions, what `add`, `remove`, `markLayoutDirty` and the container setters do to
  the arena, and prove that each keeps it well formed.
- `UIArena.Arena` is the class that performs these operations in place, proved equal to those functions.
- `UILayout` specifies the layout pass and hit-testing.
- The container modules (`AnchorPanes`, `DockPanes`, `GridPanels`, `StackPanels`, `WrapPanels`, `Centers`) model each
  `onLayout`, proved against a specification of its geometry: a loop over the children where the source loops, and
  for `Center` the placement of its one remembered child.
- `RootInput` describes one call of `UIRoot.handleInput` as functions over the hovered, pressed and focused
  references and the callbacks fired so far. `UIRoots.UIRoot` is the root class, with its modal stack, proved to
  follow them.

**Around the tree.** The other modules are:
- the widgets' editing state (`TextFields`, `CheckBoxes`, `Sliders`);
- the deferred scene stack and its transition wrapper (`SceneStack`, `Transitions`);
- edge-triggered input and action bindings (`Input`, `Actions`);
- path normalisation, the sprite-atlas descriptor parser and region table, and sprite-sheet arithmetic (`Resources`,
  `Atlas`, `Sprites`);
- the animation frame stepper and the task scheduler (`Animations`, `Scheduling`);
- rectangle and collision predicates and the 2D camera (`Rects`, `Collision`, `Camera`).

**Modelling choices.**
- Java `float` and `double` are `real`; Java `int` is `int`, with truncating division written out where the sign
  matters.
- `null` is `None` of an `Option`; exceptions are `Err` of a `Result`.
- Callbacks into code the model cannot see (node handlers, `onChanged`, scheduled `Runnable`s, scene hooks) are
  recorded as events or counted. Where the caller reads a handler's answer, that answer is a parameter.

The following quirks of the source are modelled as written:
- Containers write child offsets that already include their padding, and `computeLayout` adds the padding again.
- `pushModal` drops the hovered reference without clearing the node's hovered flag.
- `Center.set` empties its child list without clearing the old children's parent links.
- `SpriteAtlas` stores each region under the untrimmed name while the descriptor parser trims it.
- `add` does not check for cycles, so the model requires that the new parent is not inside the child's subtree.

## Model

| member | source | states |
|---|---|---|
| UIInsets.Insets.Horizontal | GameEngine/src/org/jarzarr/ui/Insets.java:35-37 | left plus right padding; no contract of its own, its values are stated by All, Hv and ZeroHasNoExtent |
| UIInsets.Insets.Vertical | GameEngine/src/org/jarzarr/ui/Insets.java:40-42 | top plus bottom padding; no contract of its own, its values are stated by All, Hv and ZeroHasNoExtent |
| UIInsets.All | GameEngine/src/org/jarzarr/ui/Insets.java:50-52 | every side is `v`, so the horizontal and vertical sums are both `2v` |
| UIInsets.Hv | GameEngine/src/org/jarzarr/ui/Insets.java:61-63 | left and right are `h`, top and bottom are `v`; the sums are `2h` and `2v` |
| UIInsets.ZeroHasNoExtent | GameEngine/src/org/jarzarr/ui/Insets.java:17 | `ZERO` has horizontal and vertical sums of 0, and equals both `all(0)` and `hv(0, 0)` |
| UIAnchors.Fill | GameEngine/src/org/jarzarr/ui/layout/Anchors.java:39-41 | both axes are stretched with offsets 0 on every side |
| UIAnchors.TopLeft | GameEngine/src/org/jarzarr/ui/layout/Anchors.java:44-46 | only left and top are pinned; right and bottom are absent |
| UIAnchors.TopRight | GameEngine/src/org/jarzarr/ui/layout/Anchors.java:49-51 | only right and top are pinned; left and bottom are absent |
| UIAnchors.BottomLeft | GameEngine/src/org/jarzarr/ui/layout/Anchors.java:54-56 | only left and bottom are pinned; right and top are absent |
| UIAnchors.BottomRight | GameEngine/src/org/jarzarr/ui/layout/Anchors.java:59-61 | only right and bottom are pinned; left and top are absent |
| UIAnchors.StretchTop | GameEngine/src/org/jarzarr/ui/layout/Anchors.java:64-66 | the horizontal axis is stretched between left and right; only top is pinned vertically, bottom absent |
| UIAnchors.StretchBottom | GameEngine/src/org/jarzarr/ui/layout/Anchors.java:69-71 | the horizontal axis is stretched between left and right; only bottom is pinned vertically, top absent |
| UIAnchors.StretchVertical | GameEngine/src/org/jarzarr/ui/layout/Anchors.java:80-82 | with the source's argument order (top, bottom, left): the vertical axis is stretched, left is pinned and right is absent |
| UIAnchors.StretchAll | GameEngine/src/org/jarzarr/ui/layout/Anchors.java:85-87 | both axes are stretched with the four given offsets |
| UIAnchors.ModesDetermineAnchors | GameEngine/src/org/jarzarr/ui/layout/Anchors.java:29 | two descriptors with the same horizontal and vertical modes are equal, so each factory fixes exactly the edges it names and the descriptor is an immutable value |
| Rects.Rectf.Left | GameEngine/src/org/jarzarr/math/Rectf.java:20-22 | the left edge is `x`; no contract of its own, ContainsIsBetweenEdges relates it to `contains` |
| Rects.Rectf.Right | GameEngine/src/org/jarzarr/math/Rectf.java:24-26 | the right edge is `x + w`; no contract of its own, ContainsIsBetweenEdges relates it to `contains` |
| Rects.Rectf.Top | GameEngine/src/org/jarzarr/math/Rectf.java:28-30 | the top edge is `y`; no contract of its own, ContainsIsBetweenEdges relates it to `contains` |
| Rects.Rectf.Bottom | GameEngine/src/org/jarzarr/math/Rectf.java:32-34 | the bottom edge is `y + h`; no contract of its own, ContainsIsBetweenEdges relates it to `contains` |
| Rects.Rectf.Contains | GameEngine/src/org/jarzarr/math/Rectf.java:36-38 | inclusive containment on all four edges; its properties are ContainsIsBetweenEdges, CornersInside, NegativeSizeContainsNothing and EmptyContainsOnlyOrigin |
| Rects.ContainsIsBetweenEdges | GameEngine/src/org/jarzarr/math/Rectf.java:20-38 | `contains` holds iff the point lies between `left()`/`right()` and between `top()`/`bottom()`, edges included |
| Rects.CornersInside | GameEngine/src/org/jarzarr/math/Rectf.java:36-38 | all four corners of a rectangle of non-negative size are contained (inclusive edges) |
| Rects.NegativeSizeContainsNothing | GameEngine/src/org/jarzarr/math/Rectf.java:36-38 | a rectangle with negative width or height contains no point |
| Rects.EmptyContainsOnlyOrigin | GameEngine/src/org/jarzarr/math/Rectf.java:9-11 | the no-argument rectangle contains the origin and no other point |
| Collision.Vec2.constructor | GameEngine/src/org/jarzarr/math/Vec2.java:15-18 | the vector holds the two given components |
| Collision.Overlaps | GameEngine/src/org/jarzarr/math/Collision.java:11-13 | the overlap test is strict: boxes that meet along an edge (right of one on left of the other, or bottom on top) never overlap, and overlapping boxes have a positive combined width and height |
| Collision.Mtv | GameEngine/src/org/jarzarr/math/Collision.java:19-42 | returns true exactly when the boxes overlap, and only then writes the minimum translation vector into `outMTV`; on no overlap `outMTV` is untouched |
| Collision.OverlapsSymmetric | GameEngine/src/org/jarzarr/math/Collision.java:11-13 | the overlap test does not depend on the argument order |
| Collision.TouchingDoNotOverlap | GameEngine/src/org/jarzarr/math/Collision.java:11-13 | the overlap test is strict: boxes that share an edge do not overlap |
| Collision.OverlapMeansPenetration | GameEngine/src/org/jarzarr/math/Collision.java:20-32 | overlapping boxes have positive penetration depth on both axes |
| Collision.MtvIsMinimal | GameEngine/src/org/jarzarr/math/Collision.java:31-40 | the vector moves along one axis only, by the smaller of the two penetration depths (y on a tie) |
| Collision.MtvSeparates | GameEngine/src/org/jarzarr/math/Collision.java:34-40 | translating `a` by the vector leaves the boxes no longer overlapping (they touch) |
| Collision.Clamp | GameEngine/src/org/jarzarr/math/Collision.java:44-50 | with ordered bounds the result lies in [lo, hi]; a value already inside is returned unchanged; a value below `lo` gives `lo` even when the bounds cross; a value above `hi` and not below `lo` gives `hi` |
| Collision.Lerp | GameEngine/src/org/jarzarr/math/Collision.java:52-54 | interpolation gives `a` at t = 0, `b` at t = 1, and `a` for every t when the end points coincide |
| Collision.LerpBetween | GameEngine/src/org/jarzarr/math/Collision.java:52-54 | for t in [0, 1] and a <= b the result stays between `a` and `b` |
| Camera.Camera2D.constructor | GameEngine/src/org/jarzarr/render/Camera2D.java:29-63 | the default camera sits at the origin with zoom 1, an 800 by 600 viewport, smoothing on, follow speed 5 and no deadzone |
| Camera.Camera2D.WithViewport | GameEngine/src/org/jarzarr/render/Camera2D.java:71-74 | the sized constructor stores the viewport exactly as given (no clamp), with the other defaults |
| Camera.Camera2D.WorldToScreenX | GameEngine/src/org/jarzarr/render/Camera2D.java:108-112 | the camera's x is drawn at the horizontal centre of the viewport; with the clamped zoom, world points right of the camera are drawn right of the centre and points left of it left of the centre |
| Camera.Camera2D.WorldToScreenY | GameEngine/src/org/jarzarr/render/Camera2D.java:108-112 | the camera's y is drawn at the vertical centre of the viewport; with the clamped zoom, world points below the camera are drawn below the centre and points above it above the centre |
| Camera.Camera2D.ScreenToWorldX | GameEngine/src/org/jarzarr/render/Camera2D.java:121-125 | the result is the world x that `worldToScreen` draws at the given screen x |
| Camera.Camera2D.ScreenToWorldY | GameEngine/src/org/jarzarr/render/Camera2D.java:121-125 | the result is the world y that `worldToScreen` draws at the given screen y |
| Camera.Camera2D.WorldScreenRoundTrip | GameEngine/src/org/jarzarr/render/Camera2D.java:108-125 | `screenToWorld(worldToScreen(p)) == p` on both axes, because the zoom clamp keeps the zoom non-zero |
| Camera.Camera2D.ScreenWorldRoundTrip | GameEngine/src/org/jarzarr/render/Camera2D.java:108-125 | `worldToScreen(screenToWorld(p)) == p` on both axes |
| Camera.Camera2D.SetViewport | GameEngine/src/org/jarzarr/render/Camera2D.java:133-136 | the viewport becomes `max(1, w)` by `max(1, h)`, so it is at least one pixel on each side |
| Camera.Camera2D.FollowSnap | GameEngine/src/org/jarzarr/render/Camera2D.java:145-148 | the camera position becomes the target |
| Camera.Camera2D.FollowSmooth | GameEngine/src/org/jarzarr/render/Camera2D.java:162-184 | with smoothing off the camera snaps to the target; inside a positive deadzone it stays put; otherwise it moves the fraction `1 - decay` of the way on each axis, so for a decay in [0, 1] it ends between its old position and the target |
| Camera.Camera2D.SetSmoothingEnabled | GameEngine/src/org/jarzarr/render/Camera2D.java:200-202 | stores the flag |
| Camera.Camera2D.SetFollowSpeed | GameEngine/src/org/jarzarr/render/Camera2D.java:214-216 | the speed becomes `max(0.01, speed)`, which keeps the camera's lower bounds |
| Camera.Camera2D.SetDeadzoneRadius | GameEngine/src/org/jarzarr/render/Camera2D.java:228-230 | the radius becomes `max(0, radius)`, so a negative radius means no deadzone |
| Camera.Camera2D.SetPosition | GameEngine/src/org/jarzarr/render/Camera2D.java:252-255 | the camera position becomes the given point |
| Camera.Camera2D.SetZoom | GameEngine/src/org/jarzarr/render/Camera2D.java:267-269 | the zoom becomes `max(0.05, zoom)`, so it is never zero and the round trips hold |
| JavaStrings.TrimLeading | GameEngine/src/org/jarzarr/assets/Resources.java:52 | the result is a suffix of the input; every character dropped is at or below U+0020 and the result does not start with one (the leading half of `String.trim`) |
| JavaStrings.TrimTrailing | GameEngine/src/org/jarzarr/assets/Resources.java:52 | the result is a prefix of the input; every character dropped is at or below U+0020 and the result does not end with one |
| JavaStrings.Trim | GameEngine/src/org/jarzarr/assets/Resources.java:52 | `trim` returns the empty string or a string whose first and last characters are both above U+0020 |
| JavaStrings.TrimDropsOnlyTrimmable | GameEngine/src/org/jarzarr/assets/Resources.java:52 | the trim is a slice `s[i..j]` of the input such that every character before `i` and from `j` on is at or below U+0020; with the ends of `Trim` kept, that makes it the longest such slice |
| JavaStrings.TrimFixpoint | GameEngine/src/org/jarzarr/assets/SpriteAtlas.java:84 | a string that starts and ends with a kept character is its own trim |
| JavaStrings.TrimIdempotent | GameEngine/src/org/jarzarr/assets/SpriteAtlas.java:70 | trimming twice is trimming once |
| JavaStrings.TokenLength | GameEngine/src/org/jarzarr/assets/SpriteAtlas.java:88 | the leading run of non-`\s` characters: all of them are non-space and the run stops at the end or at a space |
| JavaStrings.SpaceLength | GameEngine/src/org/jarzarr/assets/SpriteAtlas.java:88 | the leading run of `\s` characters: all of them are spaces and the run stops at the end or at a non-space |
| JavaStrings.SplitSpaces | GameEngine/src/org/jarzarr/assets/SpriteAtlas.java:88 | `split("\\s+")` on a trimmed, non-blank line gives at least one field, the first being a non-empty prefix of the line |
| JavaStrings.SplitSpacesFields | GameEngine/src/org/jarzarr/assets/SpriteAtlas.java:88 | every field of the split is non-empty and contains no `\s` character |
| JavaStrings.TokenLengthOfToken | GameEngine/src/org/jarzarr/assets/SpriteAtlas.java:88 | a field followed by a `\s` character, or by nothing, is exactly the leading run of non-`\s` characters |
| JavaStrings.SplitStep | GameEngine/src/org/jarzarr/assets/SpriteAtlas.java:88 | a field, one space and more text split into that field followed by the split of the rest |
| JavaStrings.SplitJoin | GameEngine/src/org/jarzarr/assets/SpriteAtlas.java:88 | splitting non-empty, space-free fields joined by single spaces gives back exactly those fields, so the split neither loses nor invents a field |
| JavaIntegers.DigitChar | GameEngine/src/org/jarzarr/assets/SpriteAtlas.java:93-96 | the digit character of a value below 10 is a digit with that value |
| JavaIntegers.ParseInt | GameEngine/src/org/jarzarr/assets/SpriteAtlas.java:93-96 | `Integer.parseInt` accepts only text that starts with a digit or a sign, and every value it returns is in the 32-bit range |
| JavaIntegers.DecimalString | GameEngine/src/org/jarzarr/assets/SpriteAtlas.java:93-96 | the decimal text of a natural number is a non-empty string of digits |
| JavaIntegers.DigitsOfDecimal | GameEngine/src/org/jarzarr/assets/SpriteAtlas.java:93-96 | reading back the decimal text of a number gives the number |
| JavaIntegers.ParseDecimal | GameEngine/src/org/jarzarr/assets/SpriteAtlas.java:93-96 | `parseInt` accepts the decimal text of every 32-bit value, with a leading '-' for negatives |
| JavaIntegers.ParseIntRejects | GameEngine/src/org/jarzarr/assets/SpriteAtlas.java:93-96 | the empty string, a lone sign, and every number beyond 32 bits are rejected |
| Resources.Normalize | GameEngine/src/org/jarzarr/assets/Resources.java:51-56 | a null path is a NullPointerException; otherwise the result is the trimmed path with exactly one leading '/' removed when present |
| Resources.NormalizeFixpoints | GameEngine/src/org/jarzarr/assets/Resources.java:51-56 | a path is returned unchanged exactly when it is already trimmed and does not start with '/' |
| Resources.DoubleSlashKeepsOne | GameEngine/src/org/jarzarr/assets/Resources.java:53-54 | only one leading slash is removed: "//a" becomes "/a" |
| Atlas.FirstBadNumber | GameEngine/src/org/jarzarr/assets/SpriteAtlas.java:93-96 | no coordinate token is reported exactly when all four parse, and a reported token is one of the four and does not parse |
| Atlas.ParseLine | GameEngine/src/org/jarzarr/assets/SpriteAtlas.java:84-98 | a line is skipped exactly when it is blank or starts with '#' after trimming; a line rejected for its field count carries its trimmed text and does not split into five fields |
| Atlas.ParseFields | GameEngine/src/org/jarzarr/assets/SpriteAtlas.java:88-98 | a non-blank, non-comment line is never skipped; one rejected for its field count carries the line and does not split into five fields |
| Atlas.ParseLineEntry | GameEngine/src/org/jarzarr/assets/SpriteAtlas.java:88-98 | a parsed entry is named by the first field and placed by the four integers that follow |
| Atlas.ParseLineBadNumber | GameEngine/src/org/jarzarr/assets/SpriteAtlas.java:93-96 | a number error names one of the four coordinate fields, and that field does not parse |
| Atlas.Classify | GameEngine/src/org/jarzarr/assets/SpriteAtlas.java:83-99 | the descriptor gives one line kind per line |
| Atlas.ClassifyAt | GameEngine/src/org/jarzarr/assets/SpriteAtlas.java:83-99 | each line is classified on its own, independently of its neighbours |
| Atlas.ParseDescriptor | GameEngine/src/org/jarzarr/assets/SpriteAtlas.java:80-99 | the descriptor loads exactly when none of its lines is bad, and then its entries are those of the parsed lines, in order |
| Atlas.ReadKindsOk | GameEngine/src/org/jarzarr/assets/SpriteAtlas.java:80-99 | reading the lines succeeds exactly when no line is bad |
| Atlas.ReadKinds | GameEngine/src/org/jarzarr/assets/SpriteAtlas.java:80-99 | a "Bad atlas line" error names a line number between 1 and the number of lines |
| Atlas.ReadLine | GameEngine/src/org/jarzarr/assets/SpriteAtlas.java:80-99 | an earlier failure is never overwritten, and a new "Bad atlas line" error carries the current line number |
| Atlas.FirstBadLineWins | GameEngine/src/org/jarzarr/assets/SpriteAtlas.java:89-96 | reading stops at the first bad line: its exception, with its 1-based line number, is the result whatever follows |
| Atlas.SkippedLinesAddNothing | GameEngine/src/org/jarzarr/assets/SpriteAtlas.java:85-86 | blank and comment lines do not change the result |
| Atlas.AllGoodLines | GameEngine/src/org/jarzarr/assets/SpriteAtlas.java:80-99 | a descriptor without bad lines loads, and its entries are the parsed lines in order |
| Atlas.AddEntry | GameEngine/src/org/jarzarr/assets/SpriteAtlas.java:67-71 | `add` ignores blank names, stores the trimmed name under the untrimmed key, and leaves every other key alone |
| Atlas.LastEntryWins | GameEngine/src/org/jarzarr/assets/SpriteAtlas.java:67-71 | when a name appears several times, its last entry decides the region |
| Atlas.SpriteAtlas.constructor | GameEngine/src/org/jarzarr/assets/SpriteAtlas.java:39-41 | a new atlas has no regions, no cached sprites and has cut nothing |
| Atlas.SpriteAtlas.RegionOf | GameEngine/src/org/jarzarr/assets/SpriteAtlas.java:47-49 | `region` finds exactly the names that were added, and null finds nothing |
| Atlas.SpriteAtlas.Sprite | GameEngine/src/org/jarzarr/assets/SpriteAtlas.java:51-65 | null gives null; a cached sprite comes back unchanged; an unknown name throws; a known name is cut once from the image and cached |
| Atlas.SpriteAtlas.Add | GameEngine/src/org/jarzarr/assets/SpriteAtlas.java:67-71 | null and blank names change nothing; otherwise the region map becomes `AddEntry` of the old map |
| Atlas.Load | GameEngine/src/org/jarzarr/assets/SpriteAtlas.java:73-106 | `load` fails exactly when the descriptor has a bad line, with that line's exception; otherwise it returns a fresh atlas whose regions are all the entries added in order, with nothing cached |
| Atlas.ReadDescriptorLine | GameEngine/src/org/jarzarr/assets/SpriteAtlas.java:84-98 | one loop turn fails exactly on a bad line, with the exception `load` throws; a skipped line changes nothing and a parsed one adds its region |
| Atlas.AddNumbered | GameEngine/src/org/jarzarr/assets/SpriteAtlas.java:93-98 | the four parsed numbers and the name go to `add` |
| Atlas.FailureIsFinal | GameEngine/src/org/jarzarr/assets/SpriteAtlas.java:80-99 | once a prefix of the descriptor fails, the whole descriptor fails in the same way |
| Sprites.JavaDivRem | GameEngine/src/org/jarzarr/assets/SpriteSheet.java:93-94 | Java's truncating `/` and `%` recombine to the dividend, and the remainder takes the dividend's sign |
| Sprites.IndexCell | GameEngine/src/org/jarzarr/assets/SpriteSheet.java:93-94 | zero columns throws ArithmeticException; otherwise row times columns plus column gives back the index |
| Sprites.IndexCellInGrid | GameEngine/src/org/jarzarr/assets/SpriteSheet.java:92-95 | a non-negative index in a grid with positive columns lands on a real cell: column below the column count, row not negative |
| Sprites.NegativeIndexCell | GameEngine/src/org/jarzarr/assets/SpriteSheet.java:93-94 | index -1 with 4 columns gives column -1, row 0: Java truncates toward zero instead of wrapping to the last column |
| Sprites.SpriteSheet.constructor | GameEngine/src/org/jarzarr/assets/SpriteSheet.java:44-48 | a new sheet keeps its tile size and has cut nothing |
| Sprites.SpriteSheet.SpritePx | GameEngine/src/org/jarzarr/assets/SpriteSheet.java:60-69 | a cached rectangle returns the same image without cutting; a new one is cut once, cached and returned; the cache holds exactly the rectangles ever cut, each once |
| Sprites.SpriteSheet.SpriteGrid | GameEngine/src/org/jarzarr/assets/SpriteSheet.java:79-83 | the sprite of cell (col, row) is the tile-sized rectangle at (col * tileW, row * tileH); a tile already cached comes back as the cached image with cache and slices unchanged, and a new one is cut once and cached |
| Sprites.SpriteSheet.SpriteIndex | GameEngine/src/org/jarzarr/assets/SpriteSheet.java:92-96 | zero columns throws and leaves cache and slices alone; otherwise the sprite is the tile at the column and row of the index, returned from the cache when present and otherwise cut once and cached |
| Animations.Steps | GameEngine/src/org/jarzarr/assets/Animation.java:69-75 | the number of times `update`'s loop runs: that many whole frame durations fit in the timer, and one more does not |
| Animations.StepsShift | GameEngine/src/org/jarzarr/assets/Animation.java:69-70 | removing one frame duration from the timer leaves exactly one pass fewer |
| Animations.Advance | GameEngine/src/org/jarzarr/assets/Animation.java:71-74 | one frame advance stays on a valid frame: past the end it wraps to 0 when looping, otherwise it stays on the last frame |
| Animations.AdvanceBy | GameEngine/src/org/jarzarr/assets/Animation.java:69-75 | any number of advances stays on a valid frame |
| Animations.AdvanceByStep | GameEngine/src/org/jarzarr/assets/Animation.java:69-75 | one more pass of the loop is one more advance |
| Animations.LoopingWraps | GameEngine/src/org/jarzarr/assets/Animation.java:71-74 | a looping animation is at frame (i + k) mod n after k advances |
| Animations.ClampedStops | GameEngine/src/org/jarzarr/assets/Animation.java:71-74 | a non-looping animation is at frame min(i + k, n - 1) after k advances: it stops on the last frame |
| Animations.Animation.SecondsPerFrame | GameEngine/src/org/jarzarr/assets/Animation.java:38 | the frame duration is positive and is the reciprocal of the fps |
| Animations.Animation.constructor | GameEngine/src/org/jarzarr/assets/Animation.java:36-39 | a new animation has its frames and fps, starts at frame 0 with an empty timer, and loops |
| Animations.Animation.SetLoop | GameEngine/src/org/jarzarr/assets/Animation.java:46-48 | sets the looping flag |
| Animations.Animation.Reset | GameEngine/src/org/jarzarr/assets/Animation.java:53-56 | back to frame 0 with an empty timer |
| Animations.Animation.Update | GameEngine/src/org/jarzarr/assets/Animation.java:64-76 | with at most one frame nothing changes; at fps 0 the timer grows but the frame never moves; otherwise the frame advances once per whole frame duration in the timer plus dt, and the leftover time is below one frame duration |
| Animations.Animation.Drain | GameEngine/src/org/jarzarr/assets/Animation.java:69-75 | the loop advances the frame once per whole frame duration and leaves less than one duration on the timer, never a negative one when it started non-negative |
| Animations.Animation.Frame | GameEngine/src/org/jarzarr/assets/Animation.java:101-103 | the current frame is one of the frames; with no frames the array access throws |
| Animations.BuildRowAnim | GameEngine/src/org/jarzarr/assets/Animation.java:88-94 | a negative column count throws; otherwise a fresh animation at frame 0 whose frame c is tile (c, row) of the sheet, cut through the sheet's cache |
| TimerHandles.TimerHandle.constructor | GameEngine/src/org/jarzarr/core/time/TimerHandle.java:7 | a new handle is not cancelled |
| TimerHandles.TimerHandle.Cancel | GameEngine/src/org/jarzarr/core/time/TimerHandle.java:9-11 | after cancelling, the handle is cancelled whatever it was before |
| TimerHandles.TimerHandle.IsCancelled | GameEngine/src/org/jarzarr/core/time/TimerHandle.java:13-15 | reports the cancelled flag |
| Scheduling.TaskStep | GameEngine/src/org/jarzarr/core/time/Scheduler.java:56-77 | a cancelled task is dropped without running; otherwise it runs exactly when its time left minus dt reaches zero and it has a runnable; it stays exactly when it is not yet due or it repeats; a kept task keeps its handle, runnable and interval, and its time left is `remaining - dt`, plus one interval when it fell due |
| Scheduling.Tick | GameEngine/src/org/jarzarr/core/time/Scheduler.java:54-78 | an update keeps no more tasks, and runs no more runnables, than there were tasks; TickSplit, TickOne, TickRunsDue and TickKeepsDue state which, and in what order |
| Scheduling.TickKeepsLiveTasks | GameEngine/src/org/jarzarr/core/time/Scheduler.java:57-60 | only tasks that were scheduled survive an update, and none of them is cancelled |
| Scheduling.CancelledTaskDropped | GameEngine/src/org/jarzarr/core/time/Scheduler.java:57-60 | a cancelled task does not survive the update |
| Scheduling.RanAreDueTasks | GameEngine/src/org/jarzarr/core/time/Scheduler.java:62-69 | every runnable run in an update belongs to a task that was not cancelled and had fallen due |
| Scheduling.TickRunsDue | GameEngine/src/org/jarzarr/core/time/Scheduler.java:62-66 | a live task whose time left drops to zero or below runs its runnable in that update |
| Scheduling.TickKeepsDue | GameEngine/src/org/jarzarr/core/time/Scheduler.java:62-76 | a live task that is not yet due, or that repeats, survives the update with the time left its step gives it |
| Scheduling.TickSplit | GameEngine/src/org/jarzarr/core/time/Scheduler.java:54-57 | the iterator walks the list front to back: the survivors of an earlier part of the list precede those of a later part, in their original order, and runnables run in list order |
| Scheduling.TickOne | GameEngine/src/org/jarzarr/core/time/Scheduler.java:56-77 | an update of one task is that task's step, so with TickSplit an update is the per-task steps concatenated in list order |
| Scheduling.Scheduler.constructor | GameEngine/src/org/jarzarr/core/time/Scheduler.java:31 | a new scheduler has no tasks and has run nothing |
| Scheduling.Scheduler.After | GameEngine/src/org/jarzarr/core/time/Scheduler.java:33-37 | appends a one-shot task under a fresh, uncancelled handle, due in the delay clamped at 0 |
| Scheduling.Scheduler.Every | GameEngine/src/org/jarzarr/core/time/Scheduler.java:39-44 | appends a repeating task under a fresh handle whose period, and first delay, is at least 0.001 s |
| Scheduling.Scheduler.Clear | GameEngine/src/org/jarzarr/core/time/Scheduler.java:46-48 | removes every task |
| Scheduling.Scheduler.Update | GameEngine/src/org/jarzarr/core/time/Scheduler.java:50-79 | the task list becomes the tasks `Tick` keeps, in order, and the runnables `Tick` runs are appended to the run log in list order |
| Scheduling.OneShotFiresOnce | GameEngine/src/org/jarzarr/core/time/Scheduler.java:62-76 | a one-shot task whose delay has elapsed runs once and is removed |
| Scheduling.RepeatingRearms | GameEngine/src/org/jarzarr/core/time/Scheduler.java:71-73 | a due repeating task runs and is re-armed one period after its overshoot, so it keeps its phase |
| Input.InputManager.constructor | GameEngine/src/org/jarzarr/InputManager.java:8-28 | six fresh, distinct flag arrays (512 keys, 8 buttons), all false, with the position, deltas and scroll at 0 |
| Input.InputManager.Update | GameEngine/src/org/jarzarr/InputManager.java:33-45 | every pressed and released flag is cleared, the deltas and scroll restart at 0, and held keys, held buttons and the position stay |
| Input.InputManager.IsKeyDown | GameEngine/src/org/jarzarr/InputManager.java:134-136 | an out-of-range key code is never down |
| Input.InputManager.IsKeyPressed | GameEngine/src/org/jarzarr/InputManager.java:138-140 | an out-of-range key code is never pressed |
| Input.InputManager.IsKeyReleased | GameEngine/src/org/jarzarr/InputManager.java:142-144 | an out-of-range key code is never released |
| Input.InputManager.IsMouseDown | GameEngine/src/org/jarzarr/InputManager.java:146-148 | an out-of-range button is never down |
| Input.InputManager.IsMousePressed | GameEngine/src/org/jarzarr/InputManager.java:150-152 | an out-of-range button is never pressed |
| Input.InputManager.IsMouseReleased | GameEngine/src/org/jarzarr/InputManager.java:154-156 | an out-of-range button is never released |
| Input.InputManager.KeyPressed | GameEngine/src/org/jarzarr/InputManager.java:52-60 | an in-range key becomes down, and pressed only if it was up, so auto-repeat does not fire again; no other key changes and out-of-range codes are ignored |
| Input.InputManager.KeyReleased | GameEngine/src/org/jarzarr/InputManager.java:63-69 | an in-range key becomes up and released; no other key changes |
| Input.InputManager.MousePressed | GameEngine/src/org/jarzarr/InputManager.java:81-89 | the key rule for buttons 0 to 7: down, and pressed only on the up-to-down edge |
| Input.InputManager.MouseReleased | GameEngine/src/org/jarzarr/InputManager.java:92-98 | an in-range button becomes up and released |
| Input.InputManager.MouseMoved | GameEngine/src/org/jarzarr/InputManager.java:109-114 | the position becomes the event's, and the deltas add up the movement since the last `update` |
| Input.InputManager.MouseDragged | GameEngine/src/org/jarzarr/InputManager.java:117-119 | a drag moves the mouse exactly as a move does |
| Input.InputManager.MouseWheelMoved | GameEngine/src/org/jarzarr/InputManager.java:126-128 | wheel rotations add into the scroll total |
| Actions.Down | GameEngine/src/org/jarzarr/input/KeyTrigger.java:31-33 | a key trigger asks `isKeyDown` of its code and a mouse trigger `isMouseDown` of its button (MouseButtonTrigger.java:32-34); ActionMap.IsDown states the action-level result |
| Actions.Pressed | GameEngine/src/org/jarzarr/input/KeyTrigger.java:39-41 | a key trigger asks `isKeyPressed` and a mouse trigger `isMousePressed` (MouseButtonTrigger.java:40-42); ActionMap.IsPressed states the action-level result |
| Actions.Released | GameEngine/src/org/jarzarr/input/KeyTrigger.java:47-49 | a key trigger asks `isKeyReleased` and a mouse trigger `isMouseReleased` (MouseButtonTrigger.java:48-50); ActionMap.IsReleased states the action-level result |
| Actions.ActionMap.constructor | GameEngine/src/org/jarzarr/input/ActionMap.java:66-71 | a new map holds the input manager, has no bindings and has consumed nothing |
| Actions.ActionMap.Bound | GameEngine/src/org/jarzarr/input/ActionMap.java:115-117 | an action that was never bound has no triggers |
| Actions.ActionMap.Update | GameEngine/src/org/jarzarr/input/ActionMap.java:77-80 | both consumed sets are emptied and the bindings stay |
| Actions.ActionMap.Bind | GameEngine/src/org/jarzarr/input/ActionMap.java:88-90 | the trigger is appended to the action's list, keeping the earlier triggers and every other action's |
| Actions.ActionMap.UnbindAll | GameEngine/src/org/jarzarr/input/ActionMap.java:98-102 | the action loses its triggers and both consumption marks; other actions keep theirs |
| Actions.ActionMap.IsDown | GameEngine/src/org/jarzarr/input/ActionMap.java:114-122 | true exactly when some trigger bound to the action is down, so an unbound action is never down |
| Actions.ActionMap.IsPressed | GameEngine/src/org/jarzarr/input/ActionMap.java:130-141 | true exactly when the press is not consumed and some bound trigger was pressed this tick |
| Actions.ActionMap.IsReleased | GameEngine/src/org/jarzarr/input/ActionMap.java:149-160 | true exactly when the release is not consumed and some bound trigger was released this tick |
| Actions.ActionMap.ConsumePressed | GameEngine/src/org/jarzarr/input/ActionMap.java:173-175 | marks the press consumed, so `isPressed` answers false for the rest of the tick |
| Actions.ActionMap.ConsumeReleased | GameEngine/src/org/jarzarr/input/ActionMap.java:183-185 | marks the release consumed, so `isReleased` answers false for the rest of the tick |
| Actions.ActionMap.Consume | GameEngine/src/org/jarzarr/input/ActionMap.java:192-195 | both the press and the release count as handled for the rest of the tick |
| Actions.ActionMap.IsPressedConsumed | GameEngine/src/org/jarzarr/input/ActionMap.java:201-203 | membership in the consumed-press set; ConsumePressed ensures it holds afterwards and Update that it is cleared |
| Actions.ActionMap.IsReleasedConsumed | GameEngine/src/org/jarzarr/input/ActionMap.java:209-211 | membership in the consumed-release set; ConsumeReleased ensures it holds afterwards and Update that it is cleared |
| SceneStack.Issue | GameEngine/src/org/jarzarr/scene/SceneManager.java:46-75 | a request only changes what is pending, never the stack or the callbacks already made |
| SceneStack.IssueAll | GameEngine/src/org/jarzarr/scene/SceneManager.java:46-75 | any run of requests leaves the stack and the callbacks alone |
| SceneStack.IssueAllSnoc | GameEngine/src/org/jarzarr/scene/SceneManager.java:46-75 | issuing one more request at the end is one more `Issue` |
| SceneStack.ExitAllTopDown | GameEngine/src/org/jarzarr/scene/SceneManager.java:210-213 | clearing the stack exits every scene exactly once, top first |
| SceneStack.Top | GameEngine/src/org/jarzarr/scene/SceneManager.java:77-79 | the top is the last pushed scene, and there is none exactly when the stack is empty |
| SceneStack.Apply | GameEngine/src/org/jarzarr/scene/SceneManager.java:207-253 | after an apply nothing is pending, so each request takes effect at most once; with nothing pending an apply changes nothing; the event log only grows |
| SceneStack.ApplyIdempotent | GameEngine/src/org/jarzarr/scene/SceneManager.java:207-253 | a second apply in a row changes nothing |
| SceneStack.SetReplacesAll | GameEngine/src/org/jarzarr/scene/SceneManager.java:209-222 | a pending set exits every old scene top-down, enters the new scene, and leaves it alone on the stack |
| SceneStack.ApplyStackSize | GameEngine/src/org/jarzarr/scene/SceneManager.java:226-252 | without a set, the stack grows by one for a push and for a replaceTop on an empty stack, and shrinks by one for a pop when it is not empty |
| SceneStack.PopOnEmptyIsSilent | GameEngine/src/org/jarzarr/scene/SceneManager.java:245-252 | a pop on an empty stack exits nobody |
| SceneStack.ReplaceTopOnEmptyEnters | GameEngine/src/org/jarzarr/scene/SceneManager.java:226-235 | a replaceTop on an empty stack still pushes and enters the new scene |
| SceneStack.PushThenPopInOneApply | GameEngine/src/org/jarzarr/scene/SceneManager.java:238-252 | because push applies before pop, a push and a pop in the same tick leave the stack as it was, with the pushed scene entered and exited |
| SceneStack.UpdateWithoutRequests | GameEngine/src/org/jarzarr/scene/SceneManager.java:170-179 | an update in which the top scene issues no request changes the stack as one apply does, and updates that top scene once |
| SceneStack.SceneManager.State | GameEngine/src/org/jarzarr/scene/SceneManager.java:24-43 | the state's stack and log are the manager's fields |
| SceneStack.SceneManager.constructor | GameEngine/src/org/jarzarr/scene/SceneManager.java:27-43 | a new manager has an empty stack and nothing pending |
| SceneStack.SceneManager.Set | GameEngine/src/org/jarzarr/scene/SceneManager.java:46-51 | the set becomes pending and cancels any pending replaceTop, push and pop |
| SceneStack.SceneManager.Push | GameEngine/src/org/jarzarr/scene/SceneManager.java:54-56 | the push becomes pending, replacing an earlier pending push |
| SceneStack.SceneManager.Pop | GameEngine/src/org/jarzarr/scene/SceneManager.java:59-61 | a pop becomes pending |
| SceneStack.SceneManager.ReplaceTop | GameEngine/src/org/jarzarr/scene/SceneManager.java:68-75 | the replaceTop becomes pending and cancels a pending push and pop, but keeps a pending set |
| SceneStack.SceneManager.TopScene | GameEngine/src/org/jarzarr/scene/SceneManager.java:77-79 | the top of the stack, or null when empty |
| SceneStack.SceneManager.IsEmpty | GameEngine/src/org/jarzarr/scene/SceneManager.java:81-83 | empty exactly when there is no top scene |
| SceneStack.SceneManager.PeekBelowTop | GameEngine/src/org/jarzarr/scene/SceneManager.java:150-163 | the scene just under the top, or null with fewer than two scenes; the stack is put back exactly as it was |
| SceneStack.SceneManager.ApplyPending | GameEngine/src/org/jarzarr/scene/SceneManager.java:207-253 | one apply of the pending requests: a set wins and discards the rest; otherwise replaceTop, then push, then pop |
| SceneStack.ApplySet | GameEngine/src/org/jarzarr/scene/SceneManager.java:209-222 | exits the whole stack top-down, then enters the new scene alone, clearing every request; SetReplacesAll states it and ApplySetStep is proved equal to it |
| SceneStack.ApplyReplaceTop | GameEngine/src/org/jarzarr/scene/SceneManager.java:226-235 | exits and replaces the top, or on an empty stack just pushes and enters; ReplaceTopOnEmptyEnters and ApplyStackSize state it and ApplyReplaceTopStep is proved equal to it |
| SceneStack.ApplyPush | GameEngine/src/org/jarzarr/scene/SceneManager.java:238-242 | pushes and enters the pending scene; ApplyStackSize states it and ApplyPushStep is proved equal to it |
| SceneStack.ApplyPop | GameEngine/src/org/jarzarr/scene/SceneManager.java:245-252 | exits and removes the top, silently on an empty stack; PopOnEmptyIsSilent and ApplyStackSize state it and ApplyPopStep is proved equal to it |
| SceneStack.SceneManager.ApplySetStep | GameEngine/src/org/jarzarr/scene/SceneManager.java:209-222 | pops and exits every scene, then pushes and enters the new one and clears every pending request |
| SceneStack.SceneManager.ApplyReplaceTopStep | GameEngine/src/org/jarzarr/scene/SceneManager.java:226-235 | exits and removes the old top, if any, then pushes and enters the replacement |
| SceneStack.SceneManager.ApplyPushStep | GameEngine/src/org/jarzarr/scene/SceneManager.java:238-242 | pushes and enters the pending overlay |
| SceneStack.SceneManager.ApplyPopStep | GameEngine/src/org/jarzarr/scene/SceneManager.java:245-252 | removes and exits the top when there is one, and always clears the request |
| SceneStack.SceneManager.Update | GameEngine/src/org/jarzarr/scene/SceneManager.java:170-179 | apply, update the top scene if any (its requests are recorded), then apply again |
| SceneStack.SceneManager.Issue1 | GameEngine/src/org/jarzarr/scene/SceneManager.java:46-75 | a scene's request goes through the matching public method |
| SceneStack.RenderEvents | GameEngine/src/org/jarzarr/scene/SceneManager.java:193-195 | one render event per scene, in order from the bottom of the run to its top |
| SceneStack.SceneManager.Render | GameEngine/src/org/jarzarr/scene/SceneManager.java:182-196 | drawing starts at the highest scene that is not an overlay (or at the bottom) and draws every scene from there to the top, bottom first; an empty stack draws nothing |
| Transitions.FinishRequest | GameEngine/src/org/jarzarr/scene/TransitionScene.java:123-129 | SET finishes with set(to), PUSH with replaceTop(to) and POP with pop() |
| Transitions.UpdateOf | GameEngine/src/org/jarzarr/scene/TransitionScene.java:84-87 | a null scene is not updated |
| Transitions.TransitionScene.constructor | GameEngine/src/org/jarzarr/scene/TransitionScene.java:42-51 | a new transition is at time 0, not completed, and has not finished |
| Transitions.TransitionScene.OnEnter | GameEngine/src/org/jarzarr/scene/TransitionScene.java:54-65 | for SET and PUSH the incoming scene, when not null, is entered; for POP nothing is entered again |
| Transitions.TransitionScene.Update | GameEngine/src/org/jarzarr/scene/TransitionScene.java:78-95 | a completed transition ignores updates; otherwise both scenes update, the clock advances by dt, and on the first update that reaches the duration it completes and issues its finishing request, exactly once |
| Transitions.TransitionScene.Finish | GameEngine/src/org/jarzarr/scene/TransitionScene.java:123-129 | issues the request matching the mode |
| Transitions.TransitionScene.Alpha | GameEngine/src/org/jarzarr/scene/TransitionScene.java:99-103 | render progress lies in [0, 1]: 1 when the duration is not positive or has elapsed, otherwise elapsed time over duration |
| Transitions.TransitionScene.IsOverlay | GameEngine/src/org/jarzarr/scene/TransitionScene.java:117-121 | PUSH and POP transitions are overlays; SET is not |
| CheckBoxes.CheckBox.constructor | GameEngine/src/org/jarzarr/ui/widgets/CheckBox.java:37-44 | a new box has its label and initial state, is enabled and unfocused, and has no change handler |
| CheckBoxes.CheckBox.SetChecked | GameEngine/src/org/jarzarr/ui/widgets/CheckBox.java:52-55 | `checked(v)` sets the state without notifying |
| CheckBoxes.CheckBox.IsInteractive | GameEngine/src/org/jarzarr/ui/widgets/CheckBox.java:71-74 | a check box is always interactive |
| CheckBoxes.CheckBox.IsFocusable | GameEngine/src/org/jarzarr/ui/widgets/CheckBox.java:76-79 | a check box can always take focus |
| CheckBoxes.CheckBox.OnMouseDown | GameEngine/src/org/jarzarr/ui/widgets/CheckBox.java:81-84 | a press on the box is always consumed |
| CheckBoxes.CheckBox.OnMouseUp | GameEngine/src/org/jarzarr/ui/widgets/CheckBox.java:86-89 | a release on the box is always consumed |
| CheckBoxes.CheckBox.Toggle | GameEngine/src/org/jarzarr/ui/widgets/CheckBox.java:95-97 | the state flips, and the change handler runs once when one is installed |
| CheckBoxes.CheckBox.OnClick | GameEngine/src/org/jarzarr/ui/widgets/CheckBox.java:92-98 | an enabled box toggles and notifies; a disabled box ignores the click |
| CheckBoxes.CheckBox.OnKeyDown | GameEngine/src/org/jarzarr/ui/widgets/CheckBox.java:101-112 | the key is consumed exactly when the box is focused and enabled and the key is Space or Enter, and then the box toggles once; otherwise nothing changes |
| Sliders.Clamp01 | GameEngine/src/org/jarzarr/ui/widgets/Slider.java:205-211 | the result lies in [0, 1], equals the input inside that range, and is the nearer bound outside it |
| Sliders.Slider.constructor | GameEngine/src/org/jarzarr/ui/widgets/Slider.java:40-47 | the initial value is clamped into [0, 1], the padding is 10 on both axes, and nothing is pressed, focused or installed |
| Sliders.Slider.SetValue | GameEngine/src/org/jarzarr/ui/widgets/Slider.java:53-61 | `value(v)` stores the clamped value and runs the change handler only when the value actually changes |
| Sliders.Slider.OnKeyDown | GameEngine/src/org/jarzarr/ui/widgets/Slider.java:111-124 | consumed exactly when focused, enabled and Left or Right; Left moves down by 0.05 and stops at 0, Right moves up by 0.05 and stops at 1; the handler runs only on a real change |
| Sliders.Slider.SetFromMouse | GameEngine/src/org/jarzarr/ui/widgets/Slider.java:178-193 | with an inner width above one pixel the value becomes the mouse's clamped fraction of the inner track; otherwise nothing changes |
| Sliders.Slider.OnMouseDown | GameEngine/src/org/jarzarr/ui/widgets/Slider.java:89-92 | a press is always consumed; with an inner track wider than one pixel the value becomes the clamped fraction of the track at the mouse and the change listener runs once on a real change, otherwise nothing changes |
| Sliders.Slider.OnMouseMove | GameEngine/src/org/jarzarr/ui/widgets/Slider.java:95-103 | a move is consumed exactly when the slider is pressed and some button 0 to 7 is held; a consumed move sets the value to the clamped fraction of the inner track at the mouse (when it is wider than one pixel), notifying on a real change; otherwise nothing changes |
| Sliders.AnyMouseDown | GameEngine/src/org/jarzarr/ui/widgets/Slider.java:195-203 | true exactly when one of the buttons 0 to 7 is down |
| TextFields.TruncToInt | GameEngine/src/org/jarzarr/ui/widgets/TextField.java:272 | Java's `(int)` cast of a float truncates toward zero: a non-negative value keeps its whole part, and a negative one rounds up |
| TextFields.ClampToText | GameEngine/src/org/jarzarr/ui/widgets/TextField.java:301-305 | the clamped scroll lies between 0 and the text width minus the inner width (at least 0), and a scroll already in that range is kept |
| TextFields.CaretVisible | GameEngine/src/org/jarzarr/ui/widgets/TextField.java:290-305 | when the caret lies within the text and the view is at least a margin wide, the scroll chosen shows the caret inside the view |
| TextFields.CaretScroll | GameEngine/src/org/jarzarr/ui/widgets/TextField.java:267-306 | the scroll `ensureCaretVisible` leaves: unchanged without a font, 0 with no room or no text, otherwise within 0 and the text width minus the inner width, and showing the caret whenever its offset lies within the text and the view is at least a margin wide |
| TextFields.TextField.constructor | GameEngine/src/org/jarzarr/ui/widgets/TextField.java:41-64 | a new field is empty, with the caret and scroll at 0, unfocused, with padding 10 on both axes |
| TextFields.TextField.GetText | GameEngine/src/org/jarzarr/ui/widgets/TextField.java:76-78 | the text has the buffer's length |
| TextFields.TextField.SetText | GameEngine/src/org/jarzarr/ui/widgets/TextField.java:80-87 | the text is replaced, null becoming empty; the caret is pulled back inside the new text; the scroll resets to 0 and the layout is marked dirty |
| TextFields.TextField.EnsureCaretVisible | GameEngine/src/org/jarzarr/ui/widgets/TextField.java:267-306 | without a font nothing changes; with no room or no text the scroll is 0; otherwise it moves towards the caret by the 6-pixel margin rule and ends within 0 and the text width minus the inner width; in every case it is the scroll `CaretScroll` describes |
| TextFields.TextField.ClampScroll | GameEngine/src/org/jarzarr/ui/widgets/TextField.java:312-333 | without a font or without room the scroll is 0; otherwise the scroll is clamped to the text |
| TextFields.TextField.OnKeyDown | GameEngine/src/org/jarzarr/ui/widgets/TextField.java:114-156 | an unfocused field refuses every key and changes nothing; a focused field consumes exactly Backspace, Delete, Left, Right, Home and End; Backspace deletes before the caret and moves it back, Delete deletes at it, the arrows move by one within the text, and Home and End jump to its ends; the caret stays within the text; every consumed key except Backspace at the start and Delete at the end leaves the scroll `CaretScroll` gives for the new text and caret, and those two keep the scroll |
| TextFields.TextField.OnTextInput | GameEngine/src/org/jarzarr/ui/widgets/TextField.java:159-167 | consumed exactly when focused and the text is neither null nor empty; then the text is inserted at the caret, the caret moves past it, the text before the caret is kept, and the scroll is the one `CaretScroll` gives for the new text and caret |
| AnchorPanes.AnchorAxis | GameEngine/src/org/jarzarr/ui/layout/AnchorPane.java:37-59 | with both edges set the child starts at the leading offset, never has a negative size, and ends the trailing offset before the far content edge whenever the offsets fit; with the leading edge only its size is kept; with the trailing edge only its size is resolved (explicit, else preferred, else 0) and its far edge is pinned; with neither it is left alone |
| AnchorPanes.AnchorAxisStable | GameEngine/src/org/jarzarr/ui/layout/AnchorPane.java:24-61 | anchoring an anchored child again changes nothing, so repeated layouts are stable |
| AnchorPanes.Anchored | GameEngine/src/org/jarzarr/ui/layout/AnchorPane.java:36-59 | only the child's box changes: left and right fix the horizontal span, top and bottom the vertical one |
| AnchorPanes.Layout | GameEngine/src/org/jarzarr/ui/layout/AnchorPane.java:24-61 | a layout pass changes only the boxes of the pane's own children |
| AnchorPanes.UnanchoredUntouched | GameEngine/src/org/jarzarr/ui/layout/AnchorPane.java:29-34 | an invisible child, or one without anchors, keeps its box exactly |
| AnchorPanes.LayoutChildren | GameEngine/src/org/jarzarr/ui/layout/AnchorPane.java:24-61 | the loop over the children leaves the arena as `Layout` describes |
| Centers.Centered | GameEngine/src/org/jarzarr/ui/layout/Center.java:45-54 | only the child's box changes: its size becomes its explicit or preferred size (else 0), and its midpoint sits on the midpoint of the content area |
| Centers.Layout | GameEngine/src/org/jarzarr/ui/layout/Center.java:41-55 | with no child, or an invisible one, nothing changes; otherwise only the remembered child's box changes, to the centred box |
| Centers.CenteredFits | GameEngine/src/org/jarzarr/ui/layout/Center.java:45-54 | a child that fits lies inside the content area, with equal room on both sides |
| DockPanes.GetDock | GameEngine/src/org/jarzarr/ui/layout/DockPane.java:102-104 | a registered node reads its slot, and any other node reads as CENTER |
| DockPanes.GetDockFindsSlot | GameEngine/src/org/jarzarr/ui/layout/DockPane.java:41-45 | with the two tables inverse, a slot holds a node exactly when `getDock` of that registered node names the slot |
| DockPanes.OneSlotPerNode | GameEngine/src/org/jarzarr/ui/layout/DockPane.java:41-45 | with the two tables inverse, no node occupies two slots |
| DockPanes.Unregister | GameEngine/src/org/jarzarr/ui/layout/DockPane.java:94-97 | the table part of `remove`: the child loses its slot, its slot is emptied only if it still holds the child, every other entry is kept, and the tables stay inverse |
| DockPanes.Register | GameEngine/src/org/jarzarr/ui/layout/DockPane.java:79-80 | the table part of `setDock`: the node reads the new slot, the slot holds the node, and the tables stay inverse |
| DockPanes.SlotNode | GameEngine/src/org/jarzarr/ui/layout/DockPane.java:114-115 | only a slot that holds a present, visible node is laid out |
| DockPanes.Taken | GameEngine/src/org/jarzarr/ui/layout/DockPane.java:169-183 | an empty or hidden slot takes no room |
| DockPanes.Carving | GameEngine/src/org/jarzarr/ui/layout/DockPane.java:107-167 | the heights taken by TOP and BOTTOM plus the CENTER height add up to the content height, the widths of LEFT, CENTER and RIGHT add up to the content width, and CENTER starts right after LEFT and TOP |
| DockPanes.Layout | GameEngine/src/org/jarzarr/ui/layout/DockPane.java:107-167 | a layout pass keeps every node and changes only the boxes of docked nodes |
| DockPanes.LayoutAt | GameEngine/src/org/jarzarr/ui/layout/DockPane.java:113-166 | each occupied visible slot's node gets exactly that slot's box |
| DockPanes.AgreesPending | GameEngine/src/org/jarzarr/ui/layout/DockPane.java:107-167 | a slot not yet laid out still finds its node unchanged |
| DockPanes.AgreesSkip | GameEngine/src/org/jarzarr/ui/layout/DockPane.java:115 | an empty or hidden slot places nothing |
| DockPanes.AgreesPlace | GameEngine/src/org/jarzarr/ui/layout/DockPane.java:115-122 | an occupied visible slot places its node and nothing else |
| DockPanes.Cut | GameEngine/src/org/jarzarr/ui/layout/DockPane.java:113-166 | one block of `onLayout`: the box a slot's node receives from the remaining rectangle, and what remains; CENTER receives all of it |
| DockPanes.CutMatches | GameEngine/src/org/jarzarr/ui/layout/DockPane.java:113-166 | cutting the remaining rectangle step by step gives the closed-form box of each slot, and the closed-form rectangle for the next slot |
| DockPanes.PlaceSlot | GameEngine/src/org/jarzarr/ui/layout/DockPane.java:113-166 | one block of `onLayout` places its slot's node, if present and visible, and hands the shrunk rectangle on |
| DockPanes.AgreesAll | GameEngine/src/org/jarzarr/ui/layout/DockPane.java:107-167 | once all five slots are laid out, the arena is the layout |
| DockPanes.PlaceSides | GameEngine/src/org/jarzarr/ui/layout/DockPane.java:136-166 | the LEFT, RIGHT and CENTER blocks, in that order |
| DockPanes.LayoutSlots | GameEngine/src/org/jarzarr/ui/layout/DockPane.java:107-167 | `onLayout` leaves every visible docked node in its slot's box and every other node as it was |
| DockPanes.Tiling | GameEngine/src/org/jarzarr/ui/layout/DockPane.java:107-167 | the five boxes tile the content area: TOP above CENTER above BOTTOM, and LEFT beside CENTER beside RIGHT, with no gap and no overlap |
| DockPanes.EmptySlotsTakeNothing | GameEngine/src/org/jarzarr/ui/layout/DockPane.java:114-166 | with every edge slot empty or hidden, CENTER receives the whole content area |
| DockPanes.CenterExample | GameEngine/src/org/jarzarr/ui/layout/DockPane.java:107-167 | a worked case: in a 100 by 100 area, a TOP 20 high and a LEFT 30 wide leave CENTER at (30, 20), sized 70 by 80 |
| GridPanels.NewCell | GameEngine/src/org/jarzarr/ui/layout/GridPanel.java:34-40 | a cell keeps its node, row and column, and a span below 1 becomes 1 |
| GridPanels.NewGrid | GameEngine/src/org/jarzarr/ui/layout/GridPanel.java:43-64 | a new grid has at least one row and one column, gaps of 10, no weights and no cells |
| GridPanels.Clamp | GameEngine/src/org/jarzarr/ui/layout/GridPanel.java:210-216 | in range the value is kept; below the range it becomes `lo` and above it `hi` |
| GridPanels.Usable | GameEngine/src/org/jarzarr/ui/layout/GridPanel.java:180-181 | the room left for the tracks after the gaps, never negative, and exact whenever the gaps fit |
| GridPanels.Weight | GameEngine/src/org/jarzarr/ui/layout/GridPanel.java:196-200 | a track's weight is always positive: its given weight when that is positive, else 1 |
| GridPanels.Normalized | GameEngine/src/org/jarzarr/ui/layout/GridPanel.java:194-202 | one normalised weight per track |
| GridPanels.Shares | GameEngine/src/org/jarzarr/ui/layout/GridPanel.java:204-205 | one share per track |
| GridPanels.Sizes | GameEngine/src/org/jarzarr/ui/layout/GridPanel.java:179-208 | `computeSizes` gives exactly one size per track |
| GridPanels.EqualShares | GameEngine/src/org/jarzarr/ui/layout/GridPanel.java:186-190 | without weights (null or empty), every track is the same non-negative share and together they fill the usable room |
| GridPanels.ProportionalShares | GameEngine/src/org/jarzarr/ui/layout/GridPanel.java:204-205 | positive weights split the usable room in proportion: every share is the same multiple of its weight, none is negative, and together they fill the room |
| GridPanels.SharesFill | GameEngine/src/org/jarzarr/ui/layout/GridPanel.java:204-205 | shares computed against the weights' own sum add up to the usable room |
| GridPanels.WeightedShares | GameEngine/src/org/jarzarr/ui/layout/GridPanel.java:193-207 | with weights, each track is its normalised weight times usable over the weights' sum, and together they fill the usable room |
| GridPanels.SizesShare | GameEngine/src/org/jarzarr/ui/layout/GridPanel.java:179-208 | either way, no track is negative and together the tracks fill the usable room |
| GridPanels.WeightedExample | GameEngine/src/org/jarzarr/ui/layout/GridPanel.java:193-207 | a worked case: weights 1 and 3 over 400 pixels with no gap give tracks of 100 and 300 |
| GridPanels.SpanEnds | GameEngine/src/org/jarzarr/ui/layout/GridPanel.java:150-161 | a span from track c0 to track c1 ends exactly where track c1 ends |
| GridPanels.TracksFill | GameEngine/src/org/jarzarr/ui/layout/GridPanel.java:129-139 | when the gaps fit, the last track ends exactly at the far content edge |
| GridPanels.OriginMonotone | GameEngine/src/org/jarzarr/ui/layout/GridPanel.java:129-133 | with a non-negative gap, track origins never move backwards |
| GridPanels.GridGeometry | GameEngine/src/org/jarzarr/ui/layout/GridPanel.java:118-124 | one column size per column and one row size per row |
| GridPanels.CellTracks | GameEngine/src/org/jarzarr/ui/layout/GridPanel.java:145-148 | a cell's clamped first and last row and column always name real tracks, first before last |
| GridPanels.PlaceCells | GameEngine/src/org/jarzarr/ui/layout/GridPanel.java:141-167 | the cell pass keeps every node and adds none |
| GridPanels.PlaceCellsBoxesOnly | GameEngine/src/org/jarzarr/ui/layout/GridPanel.java:141-167 | the cell pass rewrites only boxes, and only those of visible cells' nodes |
| GridPanels.PlaceCellsAt | GameEngine/src/org/jarzarr/ui/layout/GridPanel.java:141-167 | with one cell per node, a visible cell's node gets exactly that cell's box |
| GridPanels.CellOnTracks | GameEngine/src/org/jarzarr/ui/layout/GridPanel.java:150-161 | a cell's node starts at the origin of its first track and ends where its last track ends, on both axes |
| GridPanels.CellInside | GameEngine/src/org/jarzarr/ui/layout/GridPanel.java:117-167 | when the gaps are non-negative and fit, every cell lies inside the content area |
| GridPanels.AxisInside | GameEngine/src/org/jarzarr/ui/layout/GridPanel.java:129-161 | on one axis, a span of tracks lies between the content start and the far edge |
| GridPanels.FarEdgeMonotone | GameEngine/src/org/jarzarr/ui/layout/GridPanel.java:129-133 | no track ends beyond the last track's far edge |
| GridPanels.ComputeSizes | GameEngine/src/org/jarzarr/ui/layout/GridPanel.java:179-208 | the array `computeSizes` fills is exactly the track sizes |
| GridPanels.FillEqual | GameEngine/src/org/jarzarr/ui/layout/GridPanel.java:187-190 | every track gets the same size |
| GridPanels.NormalizeWeights | GameEngine/src/org/jarzarr/ui/layout/GridPanel.java:194-202 | the loop writes the normalised weights and sums them |
| GridPanels.FillShares | GameEngine/src/org/jarzarr/ui/layout/GridPanel.java:204-205 | the loop writes each track's share |
| GridPanels.Origins | GameEngine/src/org/jarzarr/ui/layout/GridPanel.java:129-139 | the origin loop gives each track its leading edge: the start plus every earlier track and gap |
| GridPanels.SpanOf | GameEngine/src/org/jarzarr/ui/layout/GridPanel.java:153-161 | the span loop adds the tracks from c0 to c1 and the gaps between them |
| GridPanels.CellBoxOf | GameEngine/src/org/jarzarr/ui/layout/GridPanel.java:145-161 | one turn of the cell pass measures exactly the cell's box |
| GridPanels.PlaceAll | GameEngine/src/org/jarzarr/ui/layout/GridPanel.java:141-167 | the loop over the cells places exactly what the cell pass describes |
| GridPanels.Layout | GameEngine/src/org/jarzarr/ui/layout/GridPanel.java:117-168 | a layout pass keeps every node and changes only the boxes of the nodes of visible cells |
| GridPanels.LayoutCells | GameEngine/src/org/jarzarr/ui/layout/GridPanel.java:117-168 | `onLayout` (sizes, origins, then the cell pass) leaves the arena as `Layout` describes |
| StackPanels.MainSize | GameEngine/src/org/jarzarr/ui/layout/StackPanel.java:80-81 | a child's own main-axis extent (explicit, else preferred, else 0) is never negative |
| StackPanels.Slot | GameEngine/src/org/jarzarr/ui/layout/StackPanel.java:87-101 | on the main axis the child starts after the cursor and the margin and keeps its own size; across it starts after the margin and either keeps its own size or, when filling, is never negative and reaches the far content edge less the margin whenever the margins fit |
| StackPanels.Step | GameEngine/src/org/jarzarr/ui/layout/StackPanel.java:76-104 | one turn of the loop keeps every node and adds none |
| StackPanels.Stack | GameEngine/src/org/jarzarr/ui/layout/StackPanel.java:73-104 | the pass keeps every node, and places at most one child per entry |
| StackPanels.Shown | GameEngine/src/org/jarzarr/ui/layout/StackPanel.java:76-78 | no more children are shown than are listed |
| StackPanels.Gaps | GameEngine/src/org/jarzarr/ui/layout/StackPanel.java:83-85 | spacing goes only between placed children: one gap fewer than the children placed |
| StackPanels.SpacingsScale | GameEngine/src/org/jarzarr/ui/layout/StackPanel.java:84-85 | n spacings take n times the spacing |
| StackPanels.SpacingsGrow | GameEngine/src/org/jarzarr/ui/layout/StackPanel.java:84-85 | with a non-negative spacing, more spacings take more room |
| StackPanels.StackTouches | GameEngine/src/org/jarzarr/ui/layout/StackPanel.java:67-105 | the pass rewrites only boxes, and only those of the listed children |
| StackPanels.StackCursor | GameEngine/src/org/jarzarr/ui/layout/StackPanel.java:73-104 | after the pass every shown child is counted, and the cursor has advanced by the shown children's sizes and margins plus one spacing between each two of them, none after the last |
| StackPanels.StepCursor | GameEngine/src/org/jarzarr/ui/layout/StackPanel.java:84-103 | placing a shown child adds the spacing (unless it is the first), its size and its margins to the cursor, and counts it |
| StackPanels.StackAt | GameEngine/src/org/jarzarr/ui/layout/StackPanel.java:76-104 | with each child listed once, a shown child lands in the slot at the cursor reached by the shown children before it |
| StackPanels.StackAtLast | GameEngine/src/org/jarzarr/ui/layout/StackPanel.java:76-104 | the last child, when shown, lands at the cursor the others left |
| StackPanels.StackLead | GameEngine/src/org/jarzarr/ui/layout/StackPanel.java:87-101 | a shown child starts at the leading padding plus the room taken before it and its margin, and keeps its own main-axis size |
| StackPanels.UsedGrows | GameEngine/src/org/jarzarr/ui/layout/StackPanel.java:93-100 | with non-negative margins, the room used and the count shown only grow along the list |
| StackPanels.StackOrdered | GameEngine/src/org/jarzarr/ui/layout/StackPanel.java:67-105 | with non-negative spacing and margins, a later shown child starts after an earlier one ends, by at least the margin and the spacing: stacked children never overlap |
| StackPanels.SlotMain | GameEngine/src/org/jarzarr/ui/layout/StackPanel.java:87-101 | where a slot puts a child on the main axis |
| StackPanels.Layout | GameEngine/src/org/jarzarr/ui/layout/StackPanel.java:67-105 | a layout pass keeps every node and changes only the boxes of the pane's children |
| StackPanels.LayoutChildren | GameEngine/src/org/jarzarr/ui/layout/StackPanel.java:67-105 | the loop, with its cursor and placed count, leaves the arena as `Layout` describes |
| WrapPanels.Step | GameEngine/src/org/jarzarr/ui/layout/WrapPanel.java:46-68 | one turn of the loop keeps every node, and skipping an invisible child changes nothing |
| WrapPanels.StepPlaces | GameEngine/src/org/jarzarr/ui/layout/WrapPanel.java:50-67 | a shown child keeps its own size and lands either at the cursor or, after a wrap, at the start of the next line, the vertical gap below the tallest child of the line; it either starts a line or ends inside the content; the cursor moves past it by the horizontal gap; only its box changes |
| WrapPanels.Wrap | GameEngine/src/org/jarzarr/ui/layout/WrapPanel.java:42-68 | the pass keeps every node and adds none |
| WrapPanels.WrapTouches | GameEngine/src/org/jarzarr/ui/layout/WrapPanel.java:37-69 | the pass rewrites only boxes, and only those of the listed children |
| WrapPanels.WrapKeeps | GameEngine/src/org/jarzarr/ui/layout/WrapPanel.java:46-68 | with each child listed once, a child's box is final once the pass has gone past it |
| WrapPanels.WrapPlaced | GameEngine/src/org/jarzarr/ui/layout/WrapPanel.java:46-68 | a shown child is placed from the state the children before it left |
| WrapPanels.WrapFits | GameEngine/src/org/jarzarr/ui/layout/WrapPanel.java:50-63 | every shown child keeps its own size and either starts a line or ends within the right content edge, so only a child wider than the line overflows, alone at its start |
| WrapPanels.WrapSettled | GameEngine/src/org/jarzarr/ui/layout/WrapPanel.java:53-67 | with a non-negative vertical gap, every child placed so far is on the current line (no taller than it) or ends at least the gap above it |
| WrapPanels.WrapSettles | GameEngine/src/org/jarzarr/ui/layout/WrapPanel.java:53-67 | placing one more child keeps every earlier child settled |
| WrapPanels.WrapLines | GameEngine/src/org/jarzarr/ui/layout/WrapPanel.java:37-69 | with a non-negative vertical gap, a later child is never above an earlier one, and when it is lower it clears the earlier one by at least the gap |
| WrapPanels.Layout | GameEngine/src/org/jarzarr/ui/layout/WrapPanel.java:37-69 | a layout pass keeps every node and changes only the boxes of the pane's children |
| WrapPanels.LayoutChildren | GameEngine/src/org/jarzarr/ui/layout/WrapPanel.java:37-69 | the loop, with its cursor and line height, leaves the arena as `Layout` describes |
| UINodes.Fresh | GameEngine/src/org/jarzarr/ui/UINode.java:41-101 | a new node is visible, enabled, unpadded, detached, childless, not hovered, pressed or focused, has no preferred size and needs layout |
| UINodes.Resolve | GameEngine/src/org/jarzarr/ui/UINode.java:258-260 | a positive explicit size wins; otherwise a positive preferred size; when neither is positive the result is exactly the fallback |
| UINodes.Resolve0 | GameEngine/src/org/jarzarr/ui/UINode.java:258-260 | the containers' sizing of a child with fallback 0: never negative, and a positive result is the explicit or the preferred size |
| UINodes.Resolve0Idempotent | GameEngine/src/org/jarzarr/ui/UINode.java:258-260 | resolving a resolved size again gives the same size, so a container writing the size back is stable |
| UINodes.Interactive | GameEngine/src/org/jarzarr/ui/UINode.java:365-371 | only widgets can be interactive; containers and the root never are |
| UINodes.Focusable | GameEngine/src/org/jarzarr/ui/UINode.java:373-379 | only widgets can be focusable |
| UINodes.Clickable | GameEngine/src/org/jarzarr/ui/UINode.java:365-371 | only widgets can be clickable |
| UINodes.CanFocus | GameEngine/src/org/jarzarr/ui/UINode.java:467-470 | a node can take focus exactly when it is visible, enabled and focusable |
| UINodes.Contains | GameEngine/src/org/jarzarr/ui/UINode.java:330-339 | a node holds a point exactly when it is visible and the point lies within its global bounds, edges included |
| UINodes.ContainsOrigin | GameEngine/src/org/jarzarr/ui/UINode.java:337-339 | a visible node of non-negative size holds both its top-left and its bottom-right corner |
| UINodes.WithBox | GameEngine/src/org/jarzarr/ui/UINode.java:170-189 | setting a local box changes the position and size and nothing else of the node |
| UINodes.Placed | GameEngine/src/org/jarzarr/ui/UINode.java:285-290 | a container placing a child sets exactly its local box and leaves every other field alone |
| UINodes.ContentW | GameEngine/src/org/jarzarr/ui/UINode.java:265-269 | the content width is the width minus horizontal padding when that is not negative, and never negative |
| UINodes.ContentH | GameEngine/src/org/jarzarr/ui/UINode.java:265-269 | the content height is the height minus vertical padding when that is not negative, and never negative |
| UITree.Within | GameEngine/src/org/jarzarr/ui/UINode.java:81-85 | being within a node's subtree never lowers the rank, so following parent links ends |
| UITree.Ancestry | GameEngine/src/org/jarzarr/ui/UINode.java:145-149 | a node's ancestry holds the node itself and only nodes of the arena |
| UITree.AncestryStep | GameEngine/src/org/jarzarr/ui/UINode.java:145-149 | a node's ancestry is the node alone at a root, and otherwise the node plus its parent's ancestry, which is the recursion of `markLayoutDirty` |
| UITree.Flagged | GameEngine/src/org/jarzarr/ui/UINode.java:145-149 | marking nodes dirty keeps every id |
| UITree.FlaggedTree | GameEngine/src/org/jarzarr/ui/UINode.java:145-149 | marking changes no link and no kind, and afterwards a node is dirty exactly when it was dirty before or is in the marked set |
| UITree.FlaggedWf | GameEngine/src/org/jarzarr/ui/UINode.java:100-101 | dirty flags play no part in the tree invariant, so marking keeps the arena well formed |
| UITree.FlaggedIdle | GameEngine/src/org/jarzarr/ui/UINode.java:145-149 | marking nodes that are all dirty already leaves the arena unchanged |
| UITree.FlaggedAncestry | GameEngine/src/org/jarzarr/ui/UINode.java:145-149 | marking leaves every parent chain and every ancestry as it was |
| UITree.FlaggedUp | GameEngine/src/org/jarzarr/ui/UINode.java:145-149 | setting a node's own flag and then marking its parent's chain marks exactly the node's ancestry |
| UITree.Without | GameEngine/src/org/jarzarr/ui/UINode.java:126 | `List.remove` of an absent id leaves the list unchanged, and of a present id shortens it by one |
| UITree.WithoutMembers | GameEngine/src/org/jarzarr/ui/UINode.java:126 | removing an id keeps every other element and adds none |
| UITree.WithoutDistinct | GameEngine/src/org/jarzarr/ui/UINode.java:126 | in a list without repeats, removing an id removes it altogether, keeps exactly the other ids and leaves no repeats |
| UITree.MovedLast | GameEngine/src/org/jarzarr/ui/UINode.java:108-116 | re-adding a child moves it to the end of the list without creating a repeat |
| UITree.Sweep | GameEngine/src/org/jarzarr/ui/layout/GridPanel.java:109-113 | dropping a node's cell records never lengthens the list |
| UITree.SweepKeeps | GameEngine/src/org/jarzarr/ui/layout/GridPanel.java:103-114 | after the sweep no record names the node, every other record is kept, and one record per node and valid spans are kept |
| UITree.SweepCells | GameEngine/src/org/jarzarr/ui/layout/GridPanel.java:109-113 | the backwards loop that deletes by index leaves exactly the records `Sweep` keeps |
| UITree.Forget | GameEngine/src/org/jarzarr/ui/layout/DockPane.java:89-100 | a container's own `remove` changes only a DockPane's maps or a GridPanel's cells, and every other kind keeps its state |
| UITree.ForgetDrops | GameEngine/src/org/jarzarr/ui/layout/DockPane.java:94-97 | after forgetting a child no table names it; the DockPane maps stay inverse and keep every other registration; the GridPanel keeps every other cell |
| UITree.Removed | GameEngine/src/org/jarzarr/ui/UINode.java:123-130 | removing keeps every id |
| UITree.Detach | GameEngine/src/org/jarzarr/ui/UINode.java:123-130 | the base `remove`: a child is cut from the list and loses its parent, a non-child leaves the arena alone; RemovedOutcome and RemovedStale state the outcome |
| UITree.RemovedOutcome | GameEngine/src/org/jarzarr/ui/UINode.java:123-130 | after `p.remove(c)` the arena is well formed, `c` is not a child of `p` and in no table of `p`; a removed child's parent is cleared, otherwise `c` keeps its old parent; no other node changes links or kind |
| UITree.RemovedStale | GameEngine/src/org/jarzarr/ui/UINode.java:126-129 | removing a node that is not a child changes no child list and no parent link |
| UITree.RemovedWf | GameEngine/src/org/jarzarr/ui/UINode.java:123-130 | `remove` keeps the arena well formed |
| UITree.RemovedPlain | GameEngine/src/org/jarzarr/ui/UINode.java:123-130 | for a kind without its own override, `remove` is the base removal alone |
| UITree.GridRemoveOrder | GameEngine/src/org/jarzarr/ui/layout/GridPanel.java:103-114 | the grid's order, the base removal first and the sweep after it, ends in the state `Removed` describes |
| UITree.ListedByParent | GameEngine/src/org/jarzarr/ui/UINode.java:84-85 | a child list names a node only when that node's parent is the owner of the list |
| UITree.Unparented | GameEngine/src/org/jarzarr/ui/UINode.java:111-112 | detaching a node from its old parent keeps every id |
| UITree.UnparentedWf | GameEngine/src/org/jarzarr/ui/UINode.java:111-112 | after a node leaves its parent the arena is well formed, no list names it, and every other parent link is unchanged |
| UITree.Link | GameEngine/src/org/jarzarr/ui/UINode.java:113-114 | linking keeps every id |
| UITree.LinkWf | GameEngine/src/org/jarzarr/ui/UINode.java:113-114 | linking a node that no list names under a node outside its subtree keeps the arena well formed, with a larger rank bound |
| UITree.Added | GameEngine/src/org/jarzarr/ui/UINode.java:108-116 | `add` keeps every id |
| UITree.AddedWf | GameEngine/src/org/jarzarr/ui/UINode.java:108-116 | `add` keeps the arena well formed, so the tree stays acyclic, when the new parent is not inside the child's subtree |
| UITree.AddedLinks | GameEngine/src/org/jarzarr/ui/UINode.java:108-116 | after `p.add(c)`, `c`'s parent is `p`, `c` ends `p`'s child list and no other list names it |
| UITree.BornWf | GameEngine/src/org/jarzarr/ui/UINode.java:41-101 | a newly built node under an unused id keeps the arena well formed |
| UILayout.ChildRank | GameEngine/src/org/jarzarr/ui/UINode.java:81-85 | a listed child names its lister as parent and sits strictly below it in rank, so the recursion over children ends |
| UILayout.WithinParent | GameEngine/src/org/jarzarr/ui/UINode.java:81-85 | whatever lies in a child's subtree lies in its parent's |
| UILayout.SiblingApart | GameEngine/src/org/jarzarr/ui/UINode.java:84-85 | a child is in the subtree of no sibling |
| UILayout.ReshapedWf | GameEngine/src/org/jarzarr/ui/UINode.java:248-276 | a layout-only change keeps the arena well formed, since it touches no link or kind |
| UILayout.ContentArea | GameEngine/src/org/jarzarr/ui/UINode.java:265-269 | the area a node hands its children starts at its global position plus the left and top padding, and its size is the bounds minus padding, never negative |
| UILayout.OnLayoutBoxes | GameEngine/src/org/jarzarr/ui/UINode.java:285-290 | every container's `onLayout` rewrites local boxes only, and only those of its children or a Center's recorded child |
| UILayout.RunOnLayout | GameEngine/src/org/jarzarr/ui/UINode.java:262-263 | the dispatch runs the node's own container loop and ends where `OnLayout` says |
| UILayout.PlaceMovesBoxes | GameEngine/src/org/jarzarr/ui/UINode.java:285-290 | the `onLayout` hook changes neither shape nor global bounds nor dirty flags |
| UILayout.Sized | GameEngine/src/org/jarzarr/ui/UINode.java:255-260 | the node's own step puts it at the parent's content origin plus its offset and sizes it by the sizing rule, touching nothing else |
| UILayout.PreparedShape | GameEngine/src/org/jarzarr/ui/UINode.java:253-263 | sizing and `onLayout` keep the tree's shape, and `onLayout` keeps the global bounds the sizing wrote |
| UILayout.LaidKidsStep | GameEngine/src/org/jarzarr/ui/UINode.java:271-273 | one turn of the children loop is the next child's pass on the state the earlier turns left |
| UILayout.Laid | GameEngine/src/org/jarzarr/ui/UINode.java:248-276 | no contract of its own: the arena after `computeLayout` on a node (an invisible node returns at once; else size, `onLayout`, each child in its content area, dirty flag cleared); its properties are the contracts of LaidShape, LaidVisible, LaidFrame and LaidOwn |
| UILayout.LaidShape | GameEngine/src/org/jarzarr/ui/UINode.java:248-276 | the layout pass changes only layout: every node keeps its links, kind, flags and settings |
| UILayout.LaidVisible | GameEngine/src/org/jarzarr/ui/UINode.java:248-276 | a visible node's pass runs the children loop on the prepared arena and then clears the node's flag |
| UILayout.LaidFrame | GameEngine/src/org/jarzarr/ui/UINode.java:248-276 | a pass started at a node writes global bounds and dirty flags only inside that node's subtree |
| UILayout.LaidOwn | GameEngine/src/org/jarzarr/ui/UINode.java:248-260 | an invisible node leaves the whole arena as it was; a visible one ends at the parent's content origin plus its own offset, sized by the sizing rule, and clean |
| UILayout.LaidKidsKeeps | GameEngine/src/org/jarzarr/ui/UINode.java:271-273 | with each child listed once, the later siblings' passes leave an earlier child's global bounds alone |
| UILayout.LaidKidsChild | GameEngine/src/org/jarzarr/ui/UINode.java:271-273 | a visible child is laid out in the loop's area at its own offset |
| UILayout.LaidChild | GameEngine/src/org/jarzarr/ui/UINode.java:265-273 | a visible child ends at its parent's global position plus the parent's padding, counted once, plus its own offset, sized against the parent's content size, and clean |
| UILayout.Hit | GameEngine/src/org/jarzarr/ui/UINode.java:352-363 | no contract of its own: `hitTest` on a node (nothing outside its bounds, else the first hit among its children from the last drawn, else the node when interactive); its properties are the contracts of HitSound, HitComplete and HitKidsTopmost |
| UILayout.HitSound | GameEngine/src/org/jarzarr/ui/UINode.java:352-363 | a hit is an interactive node that contains the point, lies within the searched subtree, and the searched node contains the point too |
| UILayout.HitKidsSound | GameEngine/src/org/jarzarr/ui/UINode.java:356-361 | what the children loop finds is a sound hit inside one of the children |
| UILayout.HitComplete | GameEngine/src/org/jarzarr/ui/UINode.java:352-363 | an interactive node that contains the point is never missed: the search under it finds some node |
| UILayout.HitKidsTopmost | GameEngine/src/org/jarzarr/ui/UINode.java:356-361 | the loop finds nothing exactly when no child is hit, and otherwise returns the hit of the last hit child, so the node drawn on top wins |
| UIEdits.AddedKind | GameEngine/src/org/jarzarr/ui/UINode.java:108-116 | `add` changes the new parent's tables only when the child was already its own, and then exactly as its `remove` does |
| UIEdits.AddedDirty | GameEngine/src/org/jarzarr/ui/UINode.java:108-116 | after `add` the new parent and all its ancestors are marked dirty |
| UIEdits.AddedAgrees | GameEngine/src/org/jarzarr/ui/UINode.java:108-116 | `add` re-links only the added child; every other node keeps its parent |
| UIEdits.AddedCells | GameEngine/src/org/jarzarr/ui/layout/GridPanel.java:89-93 | after the base `add` the grid lists the child and holds no record for it, so a re-added child loses its old cell; other nodes' records are kept |
| UIEdits.GridAdded | GameEngine/src/org/jarzarr/ui/layout/GridPanel.java:89-97 | no contract of its own: the base `add` followed by a cell record for the child at the end of the list; GridAddedWf and GridAddedCells state its properties |
| UIEdits.GridAddedWf | GameEngine/src/org/jarzarr/ui/layout/GridPanel.java:89-97 | after `GridPanel.add` the arena is well formed, the child is the grid's last child and its parent is the grid |
| UIEdits.GridAddedCells | GameEngine/src/org/jarzarr/ui/layout/GridPanel.java:89-97 | the new record, with spans of at least one, ends the list and is the only one for the child; every other node's records are kept |
| UIEdits.CellAppended | GameEngine/src/org/jarzarr/ui/layout/GridPanel.java:34-40 | a record with spans of at least one for a child without a record keeps the grid's tables consistent |
| UIEdits.Occupant | GameEngine/src/org/jarzarr/ui/layout/DockPane.java:72-76 | an occupied slot holds a child of the pane that is registered under that slot |
| UIEdits.Vacated | GameEngine/src/org/jarzarr/ui/layout/DockPane.java:71-76 | no contract of its own: the occupant of the slot, if any, leaves the pane; VacatedWf states its properties |
| UIEdits.VacatedWf | GameEngine/src/org/jarzarr/ui/layout/DockPane.java:71-76 | emptying a slot keeps the arena well formed and the pane's ancestry; the slot is free, every other slot keeps its node, and the old occupant is detached |
| UIEdits.Docking | GameEngine/src/org/jarzarr/ui/layout/DockPane.java:78 | adding the node to the emptied pane keeps every id, and the pane stays a DockPane |
| UIEdits.DockingWf | GameEngine/src/org/jarzarr/ui/layout/DockPane.java:78 | after the `add` of `setDock` the arena is well formed and the node is the pane's last child; only the node was re-linked |
| UIEdits.DockingTables | GameEngine/src/org/jarzarr/ui/layout/DockPane.java:71-78 | just before the node is recorded, the pane's maps are inverse and within its children, the slot is free and the node is in no slot |
| UIEdits.RedockedKeepsWf | GameEngine/src/org/jarzarr/ui/layout/DockPane.java:67-84 | `setDock` keeps the arena well formed |
| UIEdits.Redocked | GameEngine/src/org/jarzarr/ui/layout/DockPane.java:67-84 | no contract of its own: `setDock(d, c)` as the slot vacated, `c` added to the pane and both tables recording `c` in `d`; RedockedKeepsWf, RedockedWf, RedockedSlots and RedockedEvicts state its properties |
| UIEdits.RedockedWf | GameEngine/src/org/jarzarr/ui/layout/DockPane.java:67-84 | after `setDock(d, n)` the node is the pane's last child and points at it, and both maps hold the node in slot `d` |
| UIEdits.RedockedSlots | GameEngine/src/org/jarzarr/ui/layout/DockPane.java:67-84 | every other slot keeps its node unless that node was the one docked, and no slot other than `d` is gained |
| UIEdits.RedockedEvicts | GameEngine/src/org/jarzarr/ui/layout/DockPane.java:72-76 | a different node that held the slot is afterwards detached and in no table |
| UIEdits.Cleared | GameEngine/src/org/jarzarr/ui/layout/Center.java:32-33 | clearing a Center's list leaves it listing nothing and remembering the given child |
| UIEdits.ClearedWf | GameEngine/src/org/jarzarr/ui/layout/Center.java:32-33 | emptying the list keeps the arena well formed and changes no parent link |
| UIEdits.Recentered | GameEngine/src/org/jarzarr/ui/layout/Center.java:31-38 | no contract of its own: `Center.set(c)` as the children list emptied, `c` remembered and, when given, added, then the ancestry marked; RecenteredWf, RecenteredChild and RecenteredStale state its properties |
| UIEdits.RecenteredWf | GameEngine/src/org/jarzarr/ui/layout/Center.java:31-38 | `Center.set` keeps the arena well formed |
| UIEdits.RecenteredChild | GameEngine/src/org/jarzarr/ui/layout/Center.java:31-38 | after `Center.set(c)` the Center is marked, remembers `c` and lists exactly `c`, or nothing when none is given, and `c`'s parent is the Center |
| UIEdits.AddedToEmpty | GameEngine/src/org/jarzarr/ui/UINode.java:108-116 | adding to a node that lists nothing leaves it listing exactly the new child, marked dirty |
| UIEdits.UnparentedEmpty | GameEngine/src/org/jarzarr/ui/UINode.java:111-112 | a node that lists nothing still lists nothing after another node leaves its parent |
| UIEdits.RecenteredStale | GameEngine/src/org/jarzarr/ui/layout/Center.java:32 | the children a Center listed before `set`, other than the new one, still name it as their parent though it no longer lists them |
| UIEdits.Reordered | GameEngine/src/org/jarzarr/ui/UIRoot.java:91-92 | moving a child to the end of the list keeps every id |
| UIEdits.Raised | GameEngine/src/org/jarzarr/ui/UIRoot.java:91-93 | the move followed by marking keeps every id |
| UIEdits.ReorderedWf | GameEngine/src/org/jarzarr/ui/UIRoot.java:89-94 | moving a child to the end of its parent's list keeps the arena well formed and every ancestry |
| UIEdits.RaisedOrder | GameEngine/src/org/jarzarr/ui/UIRoot.java:89-94 | after the move the child is its parent's last child and listed once, the list holds the same nodes, and every node keeps its parent |
| UIArena.Arena.constructor | GameEngine/src/org/jarzarr/ui/UINode.java:85 | a new arena holds no node and has recorded no callback |
| UIArena.Arena.Holding | GameEngine/src/org/jarzarr/ui/UIRoot.java:53-58 | an arena holding one detached, childless node is well formed |
| UIArena.Arena.NewNode | GameEngine/src/org/jarzarr/ui/UINode.java:41-101 | a constructor adds a fresh node under an unused id and keeps the arena well formed |
| UIArena.Arena.MarkLayoutDirty | GameEngine/src/org/jarzarr/ui/UINode.java:145-149 | the recursion up the parent chain marks exactly the node's ancestry, which `UITree.FlaggedTree` then describes |
| UIArena.Arena.BaseRemove | GameEngine/src/org/jarzarr/ui/UINode.java:123-130 | a listed child is cut out, detached and the parent's chain marked; an unlisted node changes nothing |
| UIArena.Arena.Remove | GameEngine/src/org/jarzarr/ui/UINode.java:123-130 | `remove` as dispatched on the parent's class keeps the arena well formed and ends where `UITree.Removed` says |
| UIArena.Arena.DockRemove | GameEngine/src/org/jarzarr/ui/layout/DockPane.java:89-100 | the pane forgets the child's slot, then does the base removal, ending where `UITree.Removed` says |
| UIArena.Arena.GridRemove | GameEngine/src/org/jarzarr/ui/layout/GridPanel.java:103-114 | the base removal, then the backwards sweep of the child's records, ends where `UITree.Removed` says |
| UIArena.Arena.Add | GameEngine/src/org/jarzarr/ui/UINode.java:108-116 | `add` keeps the arena well formed, ends where `UITree.Added` says, and keeps the new parent's ancestry |
| UIArena.Arena.LinkUnder | GameEngine/src/org/jarzarr/ui/UINode.java:113-115 | appending a node that no list names marks the parent's chain and keeps the arena well formed |
| UIArena.Arena.Restyle | GameEngine/src/org/jarzarr/ui/UINode.java:170-189 | a setter replaces the node's settings, keeps its links, and marks it and its ancestors dirty |
| UIArena.Arena.SetSize | GameEngine/src/org/jarzarr/ui/UINode.java:170-175 | `size` sets the explicit size and marks the node's chain dirty |
| UIArena.Arena.SetPos | GameEngine/src/org/jarzarr/ui/UINode.java:184-189 | `pos` sets the local position and marks the node's chain dirty |
| UIArena.Arena.GridGaps | GameEngine/src/org/jarzarr/ui/layout/GridPanel.java:66-71 | `gaps` sets the grid's two gaps and marks its chain dirty |
| UIArena.Arena.GridColWeights | GameEngine/src/org/jarzarr/ui/layout/GridPanel.java:73-77 | `colWeights` sets the column weights, possibly null, and marks the grid's chain dirty |
| UIArena.Arena.GridRowWeights | GameEngine/src/org/jarzarr/ui/layout/GridPanel.java:79-83 | `rowWeights` sets the row weights, possibly null, and marks the grid's chain dirty |
| UIArena.Arena.StackSpacing | GameEngine/src/org/jarzarr/ui/layout/StackPanel.java:48-52 | `spacing` sets the spacing and marks the panel's chain dirty |
| UIArena.Arena.StackFill | GameEngine/src/org/jarzarr/ui/layout/StackPanel.java:54-58 | `fillCrossAxis` sets the flag and marks the panel's chain dirty |
| UIArena.Arena.StackMargin | GameEngine/src/org/jarzarr/ui/layout/StackPanel.java:60-64 | `childMargin` sets the margin, a null one becoming zero insets, and marks the panel's chain dirty |
| UIArena.Arena.WrapGaps | GameEngine/src/org/jarzarr/ui/layout/WrapPanel.java:29-34 | `gaps` sets the two gaps and marks the panel's chain dirty |
| UIArena.Arena.ComputeLayout | GameEngine/src/org/jarzarr/ui/UINode.java:248-276 | the recursive walk ends exactly where the specification `UILayout.Laid` says |
| UIArena.Arena.Prepare | GameEngine/src/org/jarzarr/ui/UINode.java:253-263 | the node's own step sizes it and runs its `onLayout`, as `UILayout.Prepared` says |
| UIArena.Arena.LayoutKids | GameEngine/src/org/jarzarr/ui/UINode.java:265-273 | the children loop lays out each child in order inside the content area, as `UILayout.LaidKids` says |
| UIArena.Arena.Layout | GameEngine/src/org/jarzarr/ui/UINode.java:248-276 | a pass keeps the arena well formed and changes only layout |
| UIArena.Arena.Raise | GameEngine/src/org/jarzarr/ui/UIRoot.java:89-94 | moving a child to the end of the list and marking the parent's chain keeps the arena well formed |
| UIArena.Arena.Fire | GameEngine/src/org/jarzarr/ui/UINode.java:381-417 | a fired callback joins the end of the record |
| UIArena.Arena.HitTest | GameEngine/src/org/jarzarr/ui/UINode.java:352-363 | the loop from the last child to the first, then the node itself, returns exactly the hit of the specification `UILayout.Hit` |
| UIArena.Arena.Retable | GameEngine/src/org/jarzarr/ui/layout/GridPanel.java:94-95 | recording a table entry after an `add` changes only the parent's tables; the closing mark changes nothing more |
| UIArena.Arena.GridAdd | GameEngine/src/org/jarzarr/ui/layout/GridPanel.java:89-97 | a null node changes nothing; otherwise the arena ends where `UIEdits.GridAdded` says and stays well formed |
| UIArena.Arena.DockSet | GameEngine/src/org/jarzarr/ui/layout/DockPane.java:67-84 | a null node changes nothing; otherwise the arena ends where `UIEdits.Redocked` says and stays well formed |
| UIArena.Arena.DockIn | GameEngine/src/org/jarzarr/ui/layout/DockPane.java:71-78 | the old occupant leaves and the node is added, leaving the pane's chain marked |
| UIArena.Arena.Vacate | GameEngine/src/org/jarzarr/ui/layout/DockPane.java:71-76 | the node in the slot, if any, leaves the pane, as `UIEdits.Vacated` says |
| UIArena.Arena.CenterSet | GameEngine/src/org/jarzarr/ui/layout/Center.java:31-38 | `set` ends where `UIEdits.Recentered` says and keeps the arena well formed |
| UIArena.Arena.SetHovered | GameEngine/src/org/jarzarr/ui/UINode.java:421-430 | an unchanged value does nothing; a change flips the flag of that node alone and fires enter or exit |
| UIArena.Arena.SetPressed | GameEngine/src/org/jarzarr/ui/UINode.java:432-435 | sets the pressed flag of that node alone |
| UIArena.Arena.SetFocused | GameEngine/src/org/jarzarr/ui/UINode.java:437-440 | sets the focused flag of that node alone |
| RootInput.Hover | GameEngine/src/org/jarzarr/ui/UINode.java:421-430 | the hover setter changes only flags and appends callbacks, leaving the three references alone |
| RootInput.HoverFlags | GameEngine/src/org/jarzarr/ui/UINode.java:421-430 | the hover setter changes the hovered flag of that node alone |
| RootInput.Press | GameEngine/src/org/jarzarr/ui/UINode.java:432-435 | the press setter fires nothing and leaves the references alone |
| RootInput.PressFlags | GameEngine/src/org/jarzarr/ui/UINode.java:432-435 | the press setter changes the pressed flag of that node alone |
| RootInput.Mark | GameEngine/src/org/jarzarr/ui/UINode.java:437-440 | the focus setter fires nothing and leaves the references alone |
| RootInput.MarkFlags | GameEngine/src/org/jarzarr/ui/UINode.java:437-440 | the focus setter changes the focused flag of that node alone |
| RootInput.Fire | GameEngine/src/org/jarzarr/ui/UIRoot.java:169 | a handler's callback is appended and its answer is or-ed into `consumed` |
| RootInput.Refocus | GameEngine/src/org/jarzarr/ui/UIRoot.java:236-244 | `setFocus(n)` makes `n` the focused reference, fires nothing and keeps the other references |
| RootInput.RefocusCoherent | GameEngine/src/org/jarzarr/ui/UIRoot.java:236-244 | after `setFocus(n)` exactly `n` is marked focused, and the hovered and pressed nodes keep their flags |
| RootInput.Track | GameEngine/src/org/jarzarr/ui/UIRoot.java:160-169 | hover tracking makes the hit the hovered reference and keeps the pressed and focused ones |
| RootInput.Rehover | GameEngine/src/org/jarzarr/ui/UIRoot.java:161-167 | the change of hovered node sets the new reference and keeps the others |
| RootInput.TrackEvents | GameEngine/src/org/jarzarr/ui/UIRoot.java:160-169 | an unchanged target fires no enter or exit; a changed one fires the old node's exit, then the new node's enter unless its flag was set, then the move to the hovered node |
| RootInput.TrackCoherent | GameEngine/src/org/jarzarr/ui/UIRoot.java:160-169 | the hover step keeps the references and the flags in agreement |
| RootInput.Down | GameEngine/src/org/jarzarr/ui/UIRoot.java:173-183 | a press keeps the hovered reference and only ever appends callbacks |
| RootInput.DownPresses | GameEngine/src/org/jarzarr/ui/UIRoot.java:173-183 | a press takes effect exactly over a hovered, enabled node, which becomes pressed and flagged and receives the mouse down last; it takes the focus exactly when it can be focused |
| RootInput.Up | GameEngine/src/org/jarzarr/ui/UIRoot.java:184-196 | a release always leaves no node pressed and keeps the hovered and focused references |
| RootInput.UpClicks | GameEngine/src/org/jarzarr/ui/UIRoot.java:184-196 | a release un-flags the pressed node and sends it the mouse up; the click follows exactly when that node is still hovered and clickable, and then the input counts as consumed |
| RootInput.Clicked | GameEngine/src/org/jarzarr/ui/UIRoot.java:189-193 | a click is recorded and always counts as consumed |
| RootInput.DownCoherent | GameEngine/src/org/jarzarr/ui/UIRoot.java:173-183 | a press keeps references and flags in agreement |
| RootInput.UpCoherent | GameEngine/src/org/jarzarr/ui/UIRoot.java:184-196 | a release keeps references and flags in agreement |
| RootInput.Button | GameEngine/src/org/jarzarr/ui/UIRoot.java:172-197 | one turn of the button loop keeps the hovered reference |
| RootInput.Buttons | GameEngine/src/org/jarzarr/ui/UIRoot.java:172-197 | the button loop keeps the hovered reference |
| RootInput.ButtonsNext | GameEngine/src/org/jarzarr/ui/UIRoot.java:172 | the loop over one more button is one more turn after the loop so far |
| RootInput.ButtonsSplit | GameEngine/src/org/jarzarr/ui/UIRoot.java:172 | the loop so far followed by the rest of it is the whole loop over buttons 1 to 7 |
| RootInput.ButtonsCoherent | GameEngine/src/org/jarzarr/ui/UIRoot.java:172-197 | the whole button loop keeps the pressed node flagged and exactly the focused node marked focused |
| RootInput.Wheel | GameEngine/src/org/jarzarr/ui/UIRoot.java:199-202 | a non-zero wheel amount goes to the hovered node, and nothing happens otherwise |
| RootInput.IndexOf | GameEngine/src/org/jarzarr/ui/UIRoot.java:263 | `indexOf` is -1 exactly when the id is absent, and otherwise its first position |
| RootInput.NextIndex | GameEngine/src/org/jarzarr/ui/UIRoot.java:268-272 | the wrapped step always lands inside the list |
| RootInput.NextIndexModular | GameEngine/src/org/jarzarr/ui/UIRoot.java:268-272 | the wrap-around is a step of one modulo the list length, in both directions |
| RootInput.NextIndexInverse | GameEngine/src/org/jarzarr/ui/UIRoot.java:268-272 | Tab followed by Shift+Tab, or the other way round, comes back to the same entry |
| RootInput.FocusNext | GameEngine/src/org/jarzarr/ui/UIRoot.java:252-275 | an empty list clears the focus; otherwise the focus lands on an entry of the list, firing nothing |
| RootInput.FocusNextCycles | GameEngine/src/org/jarzarr/ui/UIRoot.java:261-274 | from the focused entry's first position, or from entry 0 when the focus is not listed, Tab focuses the next entry modulo the length and Shift+Tab the previous one |
| RootInput.FocusNextCoherent | GameEngine/src/org/jarzarr/ui/UIRoot.java:252-275 | focus traversal keeps references and flags in agreement |
| RootInput.Tab | GameEngine/src/org/jarzarr/ui/UIRoot.java:204-209 | a Tab press moves the focus and always counts as consumed; without it nothing changes |
| RootInput.Key | GameEngine/src/org/jarzarr/ui/UIRoot.java:213-218 | one turn of the key loop changes no node and no reference |
| RootInput.Keys | GameEngine/src/org/jarzarr/ui/UIRoot.java:213-218 | the key loop changes no node and no reference |
| RootInput.KeysSplit | GameEngine/src/org/jarzarr/ui/UIRoot.java:213-218 | the loop over codes up to `n` sends what the loop up to `n-1` sent, then code `n-1`'s key down and key up |
| RootInput.KeysStream | GameEngine/src/org/jarzarr/ui/UIRoot.java:213-218 | the key loop appends exactly its stream of key callbacks to what was sent before |
| RootInput.StreamTarget | GameEngine/src/org/jarzarr/ui/UIRoot.java:213-218 | every callback of the key stream is a key event for the focused node |
| RootInput.StreamDown | GameEngine/src/org/jarzarr/ui/UIRoot.java:214-215 | the stream holds a code's key down exactly when the code is in range and was pressed |
| RootInput.StreamUp | GameEngine/src/org/jarzarr/ui/UIRoot.java:216-217 | the stream holds a code's key up exactly when the code is in range and was released |
| RootInput.KeysTarget | GameEngine/src/org/jarzarr/ui/UIRoot.java:213-218 | the key loop sends only key events, all to the focused node |
| RootInput.KeysDown | GameEngine/src/org/jarzarr/ui/UIRoot.java:214-215 | the focused node receives a code's key down exactly when the code is in range and was pressed |
| RootInput.KeysUp | GameEngine/src/org/jarzarr/ui/UIRoot.java:216-217 | the focused node receives a code's key up exactly when the code is in range and was released |
| RootInput.Typing | GameEngine/src/org/jarzarr/ui/UIRoot.java:211-225 | keys and typed text change no node and no reference |
| RootInput.TypingTargets | GameEngine/src/org/jarzarr/ui/UIRoot.java:211-225 | keys and text reach the focused node only |
| RootInput.TypingText | GameEngine/src/org/jarzarr/ui/UIRoot.java:211-225 | without an enabled focused node nothing happens; non-empty typed text goes to the focused node last |
| RootInput.Pointer | GameEngine/src/org/jarzarr/ui/UIRoot.java:154-202 | the mouse half ends with the hit as the hovered reference |
| RootInput.PointerCoherent | GameEngine/src/org/jarzarr/ui/UIRoot.java:154-202 | the mouse half keeps references and flags in agreement |
| RootInput.Keyboard | GameEngine/src/org/jarzarr/ui/UIRoot.java:204-225 | the keyboard half keeps the hovered reference, and a Tab press makes it consumed |
| RootInput.KeyboardCoherent | GameEngine/src/org/jarzarr/ui/UIRoot.java:204-225 | the keyboard half keeps references and flags in agreement |
| RootInput.Handle | GameEngine/src/org/jarzarr/ui/UIRoot.java:151-228 | `handleInput` changes only interaction flags, only appends callbacks, and starts from an unconsumed state |
| RootInput.HandleCoherent | GameEngine/src/org/jarzarr/ui/UIRoot.java:151-228 | the pass keeps the references and the flags in agreement, so exactly the focused node is marked focused |
| RootInput.FocusUnique | GameEngine/src/org/jarzarr/ui/UIRoot.java:236-244 | in a coherent state at most one node is marked focused |
| RootInput.HandleHalves | GameEngine/src/org/jarzarr/ui/UIRoot.java:151-228 | a pass that starts unconsumed is its mouse half followed by its keyboard half |
| RootInput.HandleTab | GameEngine/src/org/jarzarr/ui/UIRoot.java:204-209 | a Tab press is always consumed, and the pass ends with the hit as the hovered node |
| UIRoots.Focusables | GameEngine/src/org/jarzarr/ui/UIRoot.java:283-294 | what `collectFocusable` appends: the children's focusable nodes in list order, then the node itself when it can focus; FocusablesSound, FocusablesComplete and FocusablesDistinct state it |
| UIRoots.FocusablesKids | GameEngine/src/org/jarzarr/ui/UIRoot.java:288-290 | the children loop over the first `i` children; FocusablesKidsSound, FocusablesKidsInclude and FocusablesKidsDistinct state it |
| UIRoots.FocusablesSound | GameEngine/src/org/jarzarr/ui/UIRoot.java:283-294 | every collected node can take the focus and lies in the searched subtree; the searched node is collected exactly when it can take the focus, and then last |
| UIRoots.FocusablesKidsSound | GameEngine/src/org/jarzarr/ui/UIRoot.java:288-290 | the children loop collects only focusable nodes of the parent's subtree |
| UIRoots.Reaches | GameEngine/src/org/jarzarr/ui/UIRoot.java:283-294 | the nodes `collectFocusable` visits from a node: the node itself and, through children lists, its descendants; every one of them is a node of the arena |
| UIRoots.FocusablesComplete | GameEngine/src/org/jarzarr/ui/UIRoot.java:283-294 | every node reachable through children lists that can take the focus is collected |
| UIRoots.FocusablesKidsInclude | GameEngine/src/org/jarzarr/ui/UIRoot.java:288-290 | the children loop keeps what each earlier child's subtree contributed |
| UIRoots.FocusablesDistinct | GameEngine/src/org/jarzarr/ui/UIRoot.java:283-294 | in a well-formed tree no node is collected twice |
| UIRoots.FocusablesKidsDistinct | GameEngine/src/org/jarzarr/ui/UIRoot.java:288-290 | in a well-formed tree the children loop collects no node twice, and each node it collects lies in the subtree of one of the children visited so far |
| UIRoots.SiblingSubtreesApart | GameEngine/src/org/jarzarr/ui/UIRoot.java:288-290 | the subtrees of two different children of one parent share no node, so the loop's recursive calls collect disjoint lists |
| UIRoots.WithinLinear | GameEngine/src/org/jarzarr/ui/UINode.java:81-85 | two ancestors of one node along parent links lie on one chain: one is in the other's subtree |
| UIRoots.FocusablesKept | GameEngine/src/org/jarzarr/ui/UIRoot.java:252-254 | hovering, pressing and focusing change neither the ranking nor the focus order, so the list collected mid-pass is the one the pass started with |
| UIRoots.WithinFlags | GameEngine/src/org/jarzarr/ui/UIRoot.java:321-333 | changing interaction flags keeps every node in the same subtrees |
| UIRoots.CoherentDropped | GameEngine/src/org/jarzarr/ui/UIRoot.java:98-100 | dropping the hovered or the pressed reference keeps the references coherent |
| UIRoots.RaisedTop | GameEngine/src/org/jarzarr/ui/UIRoot.java:89-94 | a raised modal is the root's last child, still points at the root, and the root keeps its kind |
| UIRoots.RemovedKind | GameEngine/src/org/jarzarr/ui/UIRoot.java:124-125 | the root's `remove` changes its kind only as the forget step says, which for the root is not at all |
| UIRoots.RemovedFlags | GameEngine/src/org/jarzarr/ui/UIRoot.java:124-125 | removing a modal touches no interaction flag |
| UIRoots.AddedFlags | GameEngine/src/org/jarzarr/ui/UIRoot.java:86-88 | adding a modal touches no interaction flag |
| UIRoots.RaisedFlags | GameEngine/src/org/jarzarr/ui/UIRoot.java:89-94 | raising a modal touches no interaction flag |
| UIRoots.ReshapedFlags | GameEngine/src/org/jarzarr/ui/UIRoot.java:133-136 | a layout pass touches no interaction flag |
| UIRoots.StepIndex | GameEngine/src/org/jarzarr/ui/UIRoot.java:261-272 | the index arithmetic of `focusNext` lands inside the list, one step on from the focused entry's first position, or from 0, wrapping at both ends as `RootInput.NextIndex` says |
| UIRoots.UIRoot.FocusList | GameEngine/src/org/jarzarr/ui/UIRoot.java:252-254 | the focus order of the active tree names only nodes of the arena |
| UIRoots.UIRoot.Target | GameEngine/src/org/jarzarr/ui/UIRoot.java:310-316 | a hit of the active tree is a node of the arena |
| UIRoots.UIRoot.constructor | GameEngine/src/org/jarzarr/ui/UIRoot.java:53-58 | a new root sits at the origin with width and height -1, detached, visible, enabled and dirty, alone in its arena, with no modal and no reference |
| UIRoots.UIRoot.SetSize | GameEngine/src/org/jarzarr/ui/UIRoot.java:66-70 | each side is clamped to at least 1 and the root's chain is marked dirty |
| UIRoots.UIRoot.LayoutIfNeeded | GameEngine/src/org/jarzarr/ui/UIRoot.java:133-136 | a clean root changes nothing; a dirty one is laid out in the area of its own width and height at the origin, and a visible root is clean afterwards |
| UIRoots.UIRoot.PushModal | GameEngine/src/org/jarzarr/ui/UIRoot.java:82-101 | a null modal changes nothing; otherwise the modal becomes the root's last child (added, or moved to the end), goes on top of the stack, and hovered and pressed are dropped while focus stays |
| UIRoots.UIRoot.Mount | GameEngine/src/org/jarzarr/ui/UIRoot.java:86-94 | the tree half ends with the modal as the root's last child |
| UIRoots.UIRoot.Stack | GameEngine/src/org/jarzarr/ui/UIRoot.java:96-100 | the modal goes on top of the stack and hovered and pressed are dropped |
| UIRoots.UIRoot.AddModal | GameEngine/src/org/jarzarr/ui/UIRoot.java:87-88 | a modal hanging elsewhere is added as the root's last child |
| UIRoots.UIRoot.RaiseModal | GameEngine/src/org/jarzarr/ui/UIRoot.java:89-94 | a modal the root already holds moves to the end of its children |
| UIRoots.UIRoot.PopModal | GameEngine/src/org/jarzarr/ui/UIRoot.java:107-126 | with no modal nothing changes; otherwise the top modal leaves the stack, each reference lying in its subtree is dropped (the focus through `setFocus(null)`), and the root removes it |
| UIRoots.UIRoot.DropInside | GameEngine/src/org/jarzarr/ui/UIRoot.java:113-122 | each of focus, hovered and pressed is dropped exactly when it lies in the modal's subtree |
| UIRoots.UIRoot.DropPointer | GameEngine/src/org/jarzarr/ui/UIRoot.java:117-122 | the hovered or pressed reference is dropped exactly when it lies in the modal's subtree |
| UIRoots.UIRoot.DropFocus | GameEngine/src/org/jarzarr/ui/UIRoot.java:113-116 | the focus is cleared exactly when it lies in the modal's subtree |
| UIRoots.UIRoot.DropChild | GameEngine/src/org/jarzarr/ui/UIRoot.java:124-125 | the root's `remove` ends where `UITree.Removed` says |
| UIRoots.UIRoot.IsDescendantOf | GameEngine/src/org/jarzarr/ui/UIRoot.java:321-333 | the walk up the parent links answers true exactly when both are given and the node lies in the other's subtree |
| UIRoots.UIRoot.HitTreeRoot | GameEngine/src/org/jarzarr/ui/UIRoot.java:300-304 | the traversal root is the root itself or an open modal |
| UIRoots.UIRoot.HitTarget | GameEngine/src/org/jarzarr/ui/UIRoot.java:310-316 | the hit of the active tree is an interactive node under the point inside that tree |
| UIRoots.UIRoot.CollectFocusable | GameEngine/src/org/jarzarr/ui/UIRoot.java:283-294 | the recursion appends the focus order of the node's subtree to the list |
| UIRoots.UIRoot.SetFocus | GameEngine/src/org/jarzarr/ui/UIRoot.java:236-244 | the state after `setFocus` is the one `RootInput.Refocus` describes |
| UIRoots.UIRoot.MarkStep | GameEngine/src/org/jarzarr/ui/UIRoot.java:240-243 | the focus flag step follows `RootInput.Mark` |
| UIRoots.UIRoot.FocusNext | GameEngine/src/org/jarzarr/ui/UIRoot.java:252-275 | the focus order is collected and the focus steps through it as `RootInput.FocusNext` says |
| UIRoots.UIRoot.ChangeHover | GameEngine/src/org/jarzarr/ui/UIRoot.java:161-167 | the hover change follows `RootInput.Rehover` |
| UIRoots.UIRoot.HoverStep | GameEngine/src/org/jarzarr/ui/UIRoot.java:163-166 | the hover flag step follows `RootInput.Hover` |
| UIRoots.UIRoot.TrackHover | GameEngine/src/org/jarzarr/ui/UIRoot.java:160-169 | hover tracking and the move follow `RootInput.Track` |
| UIRoots.UIRoot.PressButton | GameEngine/src/org/jarzarr/ui/UIRoot.java:173-183 | a press follows `RootInput.Down` |
| UIRoots.UIRoot.ReleaseButton | GameEngine/src/org/jarzarr/ui/UIRoot.java:184-196 | a release follows `RootInput.Up` |
| UIRoots.UIRoot.PollButton | GameEngine/src/org/jarzarr/ui/UIRoot.java:173-196 | one turn of the button loop follows `RootInput.Button` |
| UIRoots.UIRoot.PollButtons | GameEngine/src/org/jarzarr/ui/UIRoot.java:172-197 | the loop over buttons 1 to 7 follows `RootInput.Buttons` |
| UIRoots.UIRoot.PollKey | GameEngine/src/org/jarzarr/ui/UIRoot.java:214-217 | one turn of the key loop follows `RootInput.Key` |
| UIRoots.UIRoot.PollKeyCodes | GameEngine/src/org/jarzarr/ui/UIRoot.java:213-218 | the loop over codes 0 to 511 follows `RootInput.Keys` |
| UIRoots.UIRoot.PollKeys | GameEngine/src/org/jarzarr/ui/UIRoot.java:211-225 | keys, then the typed text, to an enabled focused node follow `RootInput.Typing` |
| UIRoots.UIRoot.HandlePointer | GameEngine/src/org/jarzarr/ui/UIRoot.java:154-202 | the mouse half follows `RootInput.Pointer` and leaves the focus order as it was |
| UIRoots.UIRoot.RollWheel | GameEngine/src/org/jarzarr/ui/UIRoot.java:199-202 | the wheel step follows `RootInput.Wheel` |
| UIRoots.UIRoot.HandleKeyboard | GameEngine/src/org/jarzarr/ui/UIRoot.java:204-225 | the keyboard half follows `RootInput.Keyboard` |
| UIRoots.UIRoot.RunPass | GameEngine/src/org/jarzarr/ui/UIRoot.java:151-228 | both halves in turn follow `RootInput.Handle` |
| UIRoots.UIRoot.HandleInput | GameEngine/src/org/jarzarr/ui/UIRoot.java:151-228 | one pass over the polled input ends where `RootInput.Handle` says, from the hit and focus order before the pass, and keeps the references coherent |

## Left out

- Rendering: every `onRender`/`render` body, FadeTransition's drawing and the camera's `apply` draw to a `Graphics2D`. Only the scene stack's choice of which scenes to render, and the transition's alpha, are modelled.
- `onMeasure`: the base hook does nothing, and the widgets that override it need font metrics, so preferred sizes are inputs.
- `update` on nodes: the tree walk only forwards to the children. TextField's caret blink in `update` (TextField.java:170-186) depends on the frame clock and is not modelled.
- Font metrics: the text width a TextField measures is a function parameter `measure`, and whether a font is available is a parameter. `onMouseDown`/`placeCaretFromMouse` (TextField.java:105-111, 339-370) turn a pixel position into a caret index through those metrics and are not modelled. Neither are TextField's `font` and `placeholder` setters nor its `onClick`, which only serve drawing and that caret placement.
- Widget setters that only store drawing state or a callback (`label`, `font`, `onChanged` of CheckBox and Slider) are not methods of the model. Whether a change listener is present is a field, and notifications are counted. Slider's `onMouseUp` only answers true, and the widgets' `isInteractive`/`isFocusable` are constant answers; in the tree they are the `Widget` kind's flags.
- SceneManager's `transitionTo`, `transitionPush` and `transitionPop` (SceneManager.java:95-148) build a wrapper scene around a caller's `SceneTransition` object, and `onResize` (SceneManager.java:198-201) only forwards. They are not modelled; the wrapper's own behaviour is, in `Transitions`. TransitionScene's `onExit` and `onResize` only forward to the wrapped scenes and are not modelled either.
- Scene callbacks (`onEnter`, `onExit`, `update`) are recorded as events. A scene that changes the stack from inside its own `update` is a parameter of `SceneStack.SceneManager.Update`: the requests it issues. No other re-entrant change of the stack is modelled.
- Input delivery: the AWT listener registration and the handlers that do nothing are left out. The handlers are methods called one at a time with integer codes. `UIRoot.handleInput` reads the input manager through a snapshot (`Polled`) taken at the start of the pass. Nothing in the pass writes the input manager, so the snapshot gives the same answers. The typed text, which that input manager does not provide, is a parameter.
- The UI context (`UIContext`): its mouse coordinates are the snapshot's, and it carries nothing else the modelled code reads.
- Asset I/O: `SpriteAtlas.load` reads its descriptor through the class path and wraps I/O failures. The model takes the descriptor's lines as a sequence. The `Resources.normalize` of the descriptor path, and image loading and slicing (SpriteSheet keeps the sub-image an opaque value), are left out.
- SpriteSheet's getters for the sheet and tile sizes (SpriteSheet.java:99-116) only return fields and are not modelled as members.
- Floating point: every `float`/`double` is a `real`, with no rounding, overflow or NaN. Java `int` arithmetic is unbounded except where the model writes out truncating division. In particular, `UIRoot.setSize` and the sprite-sheet index arithmetic do not wrap around.
- The exponential blend of `Camera2D.followSmooth` is computed outside the model. `Camera.Camera2D.FollowSmooth` takes the blend factor e^(-followSpeed*dt) as a parameter `decay`.
- Animations.Animation.Update: requires a non-negative frame rate. With a negative rate the source's catch-up loop never ends, because the frame duration is negative.
- Scheduling.Scheduler.Update: a runnable is recorded by its identifier when it runs. What it does is not modelled: a runnable that schedules or clears tasks during `update` (which the Java list iterator would reject), and the exceptions the source catches and prints.
- UIArena.Arena.Add: requires that the new parent is not inside the added node's subtree. The source does not check this, and such an `add` would make the tree cyclic.
- TextFields.TextField.OnKeyDown: a `char` of the model is a Unicode scalar value, while Java's `StringBuilder` indexes UTF-16 code units. For text outside the Basic Multilingual Plane the caret positions and deletions differ: Backspace after "a😀" removes only the low surrogate in Java and the whole character in the model. A lone surrogate cannot be a Dafny `char`, so this is not modelled.
- TextFields.TextField.OnTextInput: the caret advances by the inserted text's length in scalar values, not in UTF-16 code units as `caret += text.length()` counts, for the same reason.
- TextFields.TextField.SetText: the caret is clamped to the length in scalar values, not in UTF-16 code units.
- JavaStrings.SplitSpaces: defined only on a non-empty string whose first character is not a `\s` character, which is all `load` passes it (a trimmed line that is neither blank nor a comment). On other input Java's `split("\\s+")` also returns a leading empty field (`" a"` gives `["", "a"]`), and `""` gives `[""]`; those cases are not modelled.
- JavaIntegers.ParseInt: accepts only the ASCII digits 0 to 9. `Integer.parseInt` also accepts every other Unicode decimal digit (through `Character.digit`), so a sprite-atlas line whose numbers use, say, Arabic-Indic digits loads in Java and is rejected by the model. The Unicode digit tables are not modelled.
- Node identity: a Java `new` is modelled by a caller-chosen id not yet in the arena (`UIArena.Arena.NewNode`).
- Concurrency: none; everything is sequential, as the engine's single UI thread runs it.

=== FILE: action_map.dfy ===
/**
 * Named actions bound to key and mouse-button triggers, with per-tick consumption
 * (input/ActionMap.java, with the two trigger kinds of input/KeyTrigger.java and
 * input/MouseButtonTrigger.java). The action enum is the type parameter `A`.
 */
module Actions {
  import opened Input

  /** A trigger asks the input manager about one key code or one mouse button. */
  datatype Trigger = KeyTrigger(keyCode: int) | MouseButtonTrigger(button: int)

  function Down(t: Trigger, input: InputManager): (b: bool)
    requires input.Valid()
    reads input, input.keysDown, input.mouseDown
  {
    match t
    case KeyTrigger(k) => input.IsKeyDown(k)
    case MouseButtonTrigger(m) => input.IsMouseDown(m)
  }

  function Pressed(t: Trigger, input: InputManager): (b: bool)
    requires input.Valid()
    reads input, input.keysPressed, input.mousePressed
  {
    match t
    case KeyTrigger(k) => input.IsKeyPressed(k)
    case MouseButtonTrigger(m) => input.IsMousePressed(m)
  }

  function Released(t: Trigger, input: InputManager): (b: bool)
    requires input.Valid()
    reads input, input.keysReleased, input.mouseReleased
  {
    match t
    case KeyTrigger(k) => input.IsKeyReleased(k)
    case MouseButtonTrigger(m) => input.IsMouseReleased(m)
  }

  class ActionMap<A(==)> {
    const input: InputManager
    /** Triggers per action, in binding order; an action without an entry is unbound. */
    var bindings: map<A, seq<Trigger>>
    var consumedPressed: set<A>
    var consumedReleased: set<A>

    constructor (input: InputManager)
      ensures this.input == input
      ensures bindings == map[] && consumedPressed == {} && consumedReleased == {}
    {
      this.input := input;
      bindings := map[];
      consumedPressed, consumedReleased := {}, {};
    }

    /** The triggers bound to an action (none when unbound). */
    function Bound(action: A): (ts: seq<Trigger>)
      reads this
      ensures action !in bindings ==> ts == []
    {
      if action in bindings then bindings[action] else []
    }

    /** The action is held: some bound trigger is down. */
    ghost predicate DownSpec(action: A)
      requires input.Valid()
      reads this, input, input.keysDown, input.mouseDown
    {
      exists t :: t in Bound(action) && Down(t, input)
    }

    /** The action was pressed this tick and its press is not consumed. */
    ghost predicate PressedSpec(action: A)
      requires input.Valid()
      reads this, input, input.keysPressed, input.mousePressed
    {
      action !in consumedPressed && exists t :: t in Bound(action) && Pressed(t, input)
    }

    /** The action was released this tick and its release is not consumed. */
    ghost predicate ReleasedSpec(action: A)
      requires input.Valid()
      reads this, input, input.keysReleased, input.mouseReleased
    {
      action !in consumedReleased && exists t :: t in Bound(action) && Released(t, input)
    }

    /** Once per tick: both consumed sets are emptied; bindings stay. */
    method Update()
      modifies this`consumedPressed, this`consumedReleased
      ensures consumedPressed == {} && consumedReleased == {}
    {
      consumedPressed, consumedReleased := {}, {};
    }

    /** `bind`: the trigger is appended to the action's list, keeping earlier ones. */
    method Bind(action: A, trigger: Trigger)
      modifies this`bindings
      ensures bindings == old(bindings)[action := old(Bound(action)) + [trigger]]
      ensures Bound(action) == old(Bound(action)) + [trigger]
    {
      var list := if action in bindings then bindings[action] else [];
      bindings := bindings[action := list + [trigger]];
    }

    /** `unbindAll`: the action loses its triggers and its consumption marks; other actions keep theirs. */
    method UnbindAll(action: A)
      modifies this`bindings, this`consumedPressed, this`consumedReleased
      ensures bindings == old(bindings) - {action}
      ensures consumedPressed == old(consumedPressed) - {action}
      ensures consumedReleased == old(consumedReleased) - {action}
      ensures Bound(action) == []
    {
      bindings := bindings - {action};
      consumedPressed := consumedPressed - {action};
      consumedReleased := consumedReleased - {action};
    }

    /** `isDown`: scans the bound triggers for one that is down. */
    method IsDown(action: A) returns (b: bool)
      requires input.Valid()
      ensures b == DownSpec(action)
      ensures action !in bindings ==> !b
    {
      if action !in bindings {
        return false;
      }
      var list := bindings[action];
      for i := 0 to |list|
        invariant forall j :: 0 <= j < i ==> !Down(list[j], input)
      {
        if Down(list[i], input) {
          return true;
        }
      }
      return false;
    }

    /** `isPressed`: false once consumed this tick; otherwise scans for a pressed trigger. */
    method IsPressed(action: A) returns (b: bool)
      requires input.Valid()
      ensures b == PressedSpec(action)
      ensures action in consumedPressed || action !in bindings ==> !b
    {
      if action in consumedPressed {
        return false;
      }
      if action !in bindings {
        return false;
      }
      var list := bindings[action];
      for i := 0 to |list|
        invariant forall j :: 0 <= j < i ==> !Pressed(list[j], input)
      {
        if Pressed(list[i], input) {
          return true;
        }
      }
      return false;
    }

    /** `isReleased`: false once consumed this tick; otherwise scans for a released trigger. */
    method IsReleased(action: A) returns (b: bool)
      requires input.Valid()
      ensures b == ReleasedSpec(action)
      ensures action in consumedReleased || action !in bindings ==> !b
    {
      if action in consumedReleased {
        return false;
      }
      if action !in bindings {
        return false;
      }
      var list := bindings[action];
      for i := 0 to |list|
        invariant forall j :: 0 <= j < i ==> !Released(list[j], input)
      {
        if Released(list[i], input) {
          return true;
        }
      }
      return false;
    }

    method ConsumePressed(action: A)
      requires input.Valid()
      modifies this`consumedPressed
      ensures consumedPressed == old(consumedPressed) + {action}
      ensures IsPressedConsumed(action) && !PressedSpec(action)
    {
      consumedPressed := consumedPressed + {action};
    }

    method ConsumeReleased(action: A)
      requires input.Valid()
      modifies this`consumedReleased
      ensures consumedReleased == old(consumedReleased) + {action}
      ensures IsReleasedConsumed(action) && !ReleasedSpec(action)
    {
      consumedReleased := consumedReleased + {action};
    }

    /** `consume`: both the press and the release of the action count as handled for the rest of the tick. */
    method Consume(action: A)
      requires input.Valid()
      modifies this`consumedPressed, this`consumedReleased
      ensures consumedPressed == old(consumedPressed) + {action}
      ensures consumedReleased == old(consumedReleased) + {action}
      ensures !PressedSpec(action) && !ReleasedSpec(action)
    {
      ConsumePressed(action);
      ConsumeReleased(action);
    }

    function IsPressedConsumed(action: A): (b: bool)
      reads this
    {
      action in consumedPressed
    }

    function IsReleasedConsumed(action: A): (b: bool)
      reads this
    {
      action in consumedReleased
    }
  }
}

=== FILE: anchor_pane.dfy ===
/**
 * AnchorPane layout (ui/layout/AnchorPane.java): each visible child with anchors gets its
 * position and size on each axis from the optional edge offsets, inside the pane's content
 * area. Offsets are written relative to the pane (they include its padding).
 */
module AnchorPanes {
  import opened Base
  import opened UIInsets
  import opened UIAnchors
  import opened UINodes

  /** Position and size along one axis. */
  datatype Span = Span(pos: real, size: real)

  /**
   * One axis of one child. `padStart` is the pane's leading padding and `content` its content
   * extent on that axis (already clamped at 0).
   */
  function AnchorAxis(mode: AxisMode, pos: real, size: real, pref: real, padStart: real, content: real): (s: Span)
    requires content >= 0.0
    // both edges pinned: the leading edge is at the offset, the size never negative, and when the
    // offsets fit, the trailing edge sits exactly `end` before the content's far edge
    ensures mode.Stretch? ==> s.pos == padStart + mode.start && s.size >= 0.0 &&
                              (mode.start + mode.end <= content ==> s.pos + s.size == padStart + content - mode.end)
    // leading edge only: the size the child asked for is kept
    ensures mode.PinStart? ==> s.pos == padStart + mode.start && s.size == size
    // trailing edge only: the size is resolved (explicit, preferred, 0) and the far edge is pinned
    ensures mode.PinEnd? ==> s.size == Resolve0(size, pref) && s.pos + s.size == padStart + content - mode.end
    ensures mode.Free? ==> s == Span(pos, size)
  {
    match mode
    case Stretch(l, r) => Span(padStart + l, Max(0.0, content - l - r))
    case PinStart(l) => Span(padStart + l, size)
    case PinEnd(r) =>
      var w := Resolve0(size, pref);
      Span(padStart + (content - r - w), w)
    case Free => Span(pos, size)
  }

  /** Anchoring an already anchored child again changes nothing: the layout is stable. */
  lemma AnchorAxisStable(mode: AxisMode, pos: real, size: real, pref: real, padStart: real, content: real)
    requires content >= 0.0
    ensures var s := AnchorAxis(mode, pos, size, pref, padStart, content);
            AnchorAxis(mode, s.pos, s.size, pref, padStart, content) == s
  {
    if mode.PinEnd? {
      Resolve0Idempotent(size, pref);
    }
  }

  /** The child after anchoring: horizontal from left/right, vertical from top/bottom. */
  function Anchored(c: Node, a: Anchors, pad: Insets, contentW: real, contentH: real): (r: Node)
    requires contentW >= 0.0 && contentH >= 0.0
    ensures SameExceptBox(c, r)
    ensures Span(r.x, r.width) == AnchorAxis(HMode(a), c.x, c.width, c.prefW, pad.left, contentW)
    ensures Span(r.y, r.height) == AnchorAxis(VMode(a), c.y, c.height, c.prefH, pad.top, contentH)
  {
    var h := AnchorAxis(HMode(a), c.x, c.width, c.prefW, pad.left, contentW);
    var v := AnchorAxis(VMode(a), c.y, c.height, c.prefH, pad.top, contentH);
    WithBox(c, h.pos, v.pos, h.size, v.size)
  }

  /** Whether the pane repositions child `c`: visible and anchored. */
  predicate Moves(c: Node)
  {
    c.visible && c.anchors.Some?
  }

  /** What `onLayout` leaves in the arena: every visible anchored child anchored, all else as it was. */
  function Layout(ns: map<Id, Node>, pane: Node): (r: map<Id, Node>)
    ensures BoxesOnly(ns, r, set k | k in pane.children)
  {
    map k | k in ns ::
      if k in pane.children && Moves(ns[k]) then Anchored(ns[k], ns[k].anchors.value, pane.padding, ContentW(pane), ContentH(pane))
      else ns[k]
  }

  /** A child without anchors, or an invisible one, keeps its box exactly. */
  lemma UnanchoredUntouched(ns: map<Id, Node>, pane: Node, k: Id)
    requires k in ns && !Moves(ns[k])
    ensures Layout(ns, pane)[k] == ns[k]
  {
  }

  /** The pane's `onLayout`: a pass over the children writing each anchored child's box. */
  method LayoutChildren(ns: map<Id, Node>, pane: Node) returns (r: map<Id, Node>)
    requires Distinct(pane.children) && AllIn(pane.children, ns)
    ensures r == Layout(ns, pane)
  {
    var contentW := Max(0.0, pane.gw - pane.padding.left - pane.padding.right);
    var contentH := Max(0.0, pane.gh - pane.padding.top - pane.padding.bottom);
    var kids := pane.children;
    r := ns;
    var i := 0;
    while i < |kids|
      invariant 0 <= i <= |kids|
      invariant r.Keys == ns.Keys
      invariant forall k :: k in ns ==>
                  r[k] == if k in kids[..i] && Moves(ns[k]) then Anchored(ns[k], ns[k].anchors.value, pane.padding, contentW, contentH)
                          else ns[k]
    {
      var id := kids[i];
      assert id !in kids[..i];
      var c := r[id];
      assert kids[..i + 1] == kids[..i] + [id];
      if c.visible && c.anchors.Some? {
        r := r[id := Anchored(c, c.anchors.value, pane.padding, contentW, contentH)];
      }
      i := i + 1;
    }
    assert kids[..i] == kids;
  }
}

=== FILE: anchors.dfy ===
/**
 * Immutable edge constraints of a node inside an AnchorPane (ui/layout/Anchors.java).
 * Each edge offset is optional; a missing offset is Java's `null`.
 */
module UIAnchors {
  import opened Base

  datatype Anchors = Anchors(left: Option<real>, right: Option<real>, top: Option<real>, bottom: Option<real>)

  /** How an AnchorPane treats one axis of a child, given the two opposite edge offsets. */
  datatype AxisMode =
    | Stretch(start: real, end: real)  // both edges pinned: position and size follow the pane
    | PinStart(start: real)            // only the leading edge pinned: position follows, size kept
    | PinEnd(end: real)                // only the trailing edge pinned: far edge follows
    | Free                             // neither: the axis is left alone

  function Mode(start: Option<real>, end: Option<real>): AxisMode
  {
    match (start, end)
    case (Some(s), Some(e)) => Stretch(s, e)
    case (Some(s), None) => PinStart(s)
    case (None, Some(e)) => PinEnd(e)
    case (None, None) => Free
  }

  /** Horizontal behaviour (left / right offsets). */
  function HMode(a: Anchors): AxisMode { Mode(a.left, a.right) }
  /** Vertical behaviour (top / bottom offsets). */
  function VMode(a: Anchors): AxisMode { Mode(a.top, a.bottom) }

  function Fill(): (a: Anchors)
    ensures HMode(a) == Stretch(0.0, 0.0) && VMode(a) == Stretch(0.0, 0.0)
  {
    Anchors(Some(0.0), Some(0.0), Some(0.0), Some(0.0))
  }

  function TopLeft(left: real, top: real): (a: Anchors)
    ensures HMode(a) == PinStart(left) && VMode(a) == PinStart(top)
  {
    Anchors(Some(left), None, Some(top), None)
  }

  function TopRight(right: real, top: real): (a: Anchors)
    ensures HMode(a) == PinEnd(right) && VMode(a) == PinStart(top)
  {
    Anchors(None, Some(right), Some(top), None)
  }

  function BottomLeft(left: real, bottom: real): (a: Anchors)
    ensures HMode(a) == PinStart(left) && VMode(a) == PinEnd(bottom)
  {
    Anchors(Some(left), None, None, Some(bottom))
  }

  function BottomRight(right: real, bottom: real): (a: Anchors)
    ensures HMode(a) == PinEnd(right) && VMode(a) == PinEnd(bottom)
  {
    Anchors(None, Some(right), None, Some(bottom))
  }

  function StretchTop(left: real, right: real, top: real): (a: Anchors)
    ensures HMode(a) == Stretch(left, right) && VMode(a) == PinStart(top)
  {
    Anchors(Some(left), Some(right), Some(top), None)
  }

  function StretchBottom(left: real, right: real, bottom: real): (a: Anchors)
    ensures HMode(a) == Stretch(left, right) && VMode(a) == PinEnd(bottom)
  {
    Anchors(Some(left), Some(right), None, Some(bottom))
  }

  /** Note the argument order of the source: top, bottom, then left. */
  function StretchVertical(top: real, bottom: real, left: real): (a: Anchors)
    ensures HMode(a) == PinStart(left) && VMode(a) == Stretch(top, bottom)
  {
    Anchors(Some(left), None, Some(top), Some(bottom))
  }

  function StretchAll(left: real, right: real, top: real, bottom: real): (a: Anchors)
    ensures HMode(a) == Stretch(left, right) && VMode(a) == Stretch(top, bottom)
  {
    Anchors(Some(left), Some(right), Some(top), Some(bottom))
  }

  /** The two axis modes determine the anchors completely, so each factory fixes exactly the edges it names. */
  lemma ModesDetermineAnchors(a: Anchors, b: Anchors)
    requires HMode(a) == HMode(b) && VMode(a) == VMode(b)
    ensures a == b
  {
  }
}

=== FILE: animation.dfy ===
/**
 * Time-based frame animation over sprite images (assets/Animation.java).
 * The frame duration is 1/fps; an fps of 0 gives Java an infinite duration, so the animation
 * never advances, which the model keeps as its own branch.
 */
module Animations {
  import opened Base
  import opened Sprites

  /** Number of whole frame durations `s` the accumulated time `t` holds: how often the source loop runs. */
  function Steps(t: real, s: real): (k: int)
    requires s > 0.0
    ensures k >= 0
    ensures k > 0 ==> k as real * s <= t < (k + 1) as real * s
    ensures k == 0 ==> t < s
  {
    if t < s then 0
    else
      var q := t / s;
      FloorBounds(q);
      FloorTimes(t, s);
      q.Floor
  }

  lemma FloorBounds(q: real)
    ensures q.Floor as real <= q < q.Floor as real + 1.0
  {
  }

  /** Multiplying back the quotient's floor brackets the dividend. */
  lemma FloorTimes(t: real, s: real)
    requires s > 0.0
    ensures (t / s).Floor as real * s <= t < ((t / s).Floor + 1) as real * s
  {
    var q := t / s;
    var f := q.Floor as real;
    FloorBounds(q);
    assert q * s == t;
    MulMono(f, q, s);
    var g := ((t / s).Floor + 1) as real;
    assert g == f + 1.0;
    MulMonoStrict(q, g, s);
    assert t < g * s;
  }

  lemma MulMono(a: real, b: real, s: real)
    requires a <= b && s > 0.0
    ensures a * s <= b * s
  {
  }

  lemma MulMonoStrict(a: real, b: real, s: real)
    requires a < b && s > 0.0
    ensures a * s < b * s
  {
  }

  /** Removing one frame duration removes exactly one step. */
  lemma StepsShift(t: real, s: real)
    requires s > 0.0 && t >= s
    ensures Steps(t - s, s) == Steps(t, s) - 1
  {
    var a := Steps(t - s, s);
    var b := Steps(t, s);
    NextMultiple(a, s);
    NextMultiple(a + 1, s);
    SameBracket(a + 1, b, s, t);
  }

  lemma NextMultiple(k: int, s: real)
    ensures (k + 1) as real * s == k as real * s + s
  {
  }

  /** At most one whole number of durations brackets a time. */
  lemma SameBracket(x: int, y: int, s: real, t: real)
    requires s > 0.0
    requires x as real * s <= t < (x + 1) as real * s
    requires y as real * s <= t < (y + 1) as real * s
    ensures x == y
  {
    if x < y {
      NextBelow(x, y, s);
      assert false;
    }
    if y < x {
      NextBelow(y, x, s);
      assert false;
    }
  }

  lemma NextBelow(a: int, b: int, s: real)
    requires a < b && s > 0.0
    ensures (a + 1) as real * s <= b as real * s
  {
    MulMono((a + 1) as real, b as real, s);
  }

  /** One frame advance: past the last frame, a looping animation wraps to 0 and a clamped one stays on the last. */
  function Advance(i: int, n: int, loop: bool): (j: int)
    requires 0 <= i < n
    ensures 0 <= j < n
  {
    if i + 1 >= n then (if loop then 0 else n - 1) else i + 1
  }

  /** `k` frame advances in a row. */
  function AdvanceBy(i: int, k: nat, n: int, loop: bool): (j: int)
    requires 0 <= i < n
    ensures 0 <= j < n
    decreases k
  {
    if k == 0 then i else AdvanceBy(Advance(i, n, loop), k - 1, n, loop)
  }

  /** A looping animation is at frame (i + k) mod n after k advances. */
  lemma {:induction false} LoopingWraps(i: int, k: nat, n: int)
    requires 0 <= i < n
    ensures AdvanceBy(i, k, n, true) == (i + k) % n
    decreases k
  {
    if k > 0 {
      LoopingWraps(Advance(i, n, true), k - 1, n);
      if i + 1 >= n {
        ModShift(k - 1, n);
        assert i + k == n + (k - 1);
      } else {
        assert i + 1 + (k - 1) == i + k;
      }
    }
  }

  lemma ModShift(x: nat, n: int)
    requires n > 0
    ensures (n + x) % n == x % n
  {
    var q := x / n;
    var r := x % n;
    assert x == q * n + r;
    assert n + x == (q + 1) * n + r;
    ModUnique(n + x, n, q + 1, r);
  }

  /** The remainder is the unique r in [0, n) with a == q * n + r. */
  lemma ModUnique(a: int, n: int, q: int, r: int)
    requires n > 0 && a == q * n + r && 0 <= r < n
    ensures a % n == r
  {
    var q' := a / n;
    var r' := a % n;
    assert a == q' * n + r';
    assert (q - q') * n == r' - r;
    if q > q' {
      AtLeastOne(q - q', n);
    } else if q < q' {
      AtLeastOne(q' - q, n);
    }
  }

  lemma AtLeastOne(d: int, n: int)
    requires d >= 1 && n > 0
    ensures d * n >= n
  {
  }

  /** A non-looping animation is at frame min(i + k, n - 1) after k advances: it stops on the last frame. */
  lemma {:induction false} ClampedStops(i: int, k: nat, n: int)
    requires 0 <= i < n
    ensures AdvanceBy(i, k, n, false) == IMin(i + k, n - 1)
    decreases k
  {
    if k > 0 {
      ClampedStops(Advance(i, n, false), k - 1, n);
    }
  }

  class Animation {
    const frames: seq<Image>
    const fps: real
    var frameIndex: int
    var timer: real
    var loop: bool

    /** The frame index always names a frame (or is 0 when there are none). */
    ghost predicate Valid()
      reads this
    {
      0 <= frameIndex && (frameIndex < |frames| || frameIndex == 0)
    }

    /** Seconds per frame, defined when fps is positive (at fps 0 it is infinite). */
    function SecondsPerFrame(): (s: real)
      requires fps > 0.0
      ensures s > 0.0 && s * fps == 1.0
    {
      1.0 / fps
    }

    constructor (fps: real, frames: seq<Image>)
      ensures this.fps == fps && this.frames == frames
      ensures frameIndex == 0 && timer == 0.0 && loop
      ensures Valid()
    {
      this.frames := frames;
      this.fps := fps;
      frameIndex := 0;
      timer := 0.0;
      loop := true;
    }

    method SetLoop(loop: bool)
      modifies this`loop
      ensures this.loop == loop
    {
      this.loop := loop;
    }

    method Reset()
      modifies this`frameIndex, this`timer
      ensures frameIndex == 0 && timer == 0.0 && Valid()
    {
      frameIndex := 0;
      timer := 0.0;
    }

    /**
     * Adds `dt` to the timer and advances one frame per whole frame duration it holds. A negative
     * fps makes the source loop forever (the timer grows on each pass), so it is excluded.
     */
    method Update(dt: real)
      requires Valid() && fps >= 0.0
      modifies this`frameIndex, this`timer
      ensures Valid()
      ensures |frames| <= 1 ==> frameIndex == old(frameIndex) && timer == old(timer)
      ensures |frames| > 1 && fps == 0.0 ==> frameIndex == old(frameIndex) && timer == old(timer) + dt
      ensures |frames| > 1 && fps > 0.0 ==>
                var k := Steps(old(timer) + dt, SecondsPerFrame());
                frameIndex == AdvanceBy(old(frameIndex), k, |frames|, loop) &&
                timer == old(timer) + dt - k as real * SecondsPerFrame() &&
                timer < SecondsPerFrame() &&
                (old(timer) >= 0.0 && dt >= 0.0 ==> timer >= 0.0)
    {
      if |frames| <= 1 {
        return;
      }
      timer := timer + dt;
      if fps == 0.0 {
        return;
      }
      var spf := 1.0 / fps;
      Drain(spf);
    }

    /** The source's loop: one frame advance, and one frame duration off the timer, per whole duration held. */
    method Drain(spf: real)
      requires 0 <= frameIndex < |frames| && spf > 0.0
      modifies this`frameIndex, this`timer
      ensures var k := Steps(old(timer), spf);
              frameIndex == AdvanceBy(old(frameIndex), k, |frames|, loop) &&
              timer == old(timer) - k as real * spf && timer < spf
      ensures old(timer) >= 0.0 ==> timer >= 0.0
    {
      ghost var i0 := frameIndex;
      ghost var t0 := timer;
      ghost var done: nat := 0;
      while timer >= spf
        invariant 0 <= frameIndex < |frames|
        invariant done + Steps(timer, spf) == Steps(t0, spf)
        invariant timer == t0 - done as real * spf
        invariant frameIndex == AdvanceBy(i0, done, |frames|, loop)
        decreases Steps(timer, spf)
      {
        StepsShift(timer, spf);
        AdvanceByStep(i0, done, |frames|, loop);
        timer := timer - spf;
        frameIndex := frameIndex + 1;
        if frameIndex >= |frames| {
          frameIndex := if loop then 0 else |frames| - 1;
        }
        done := done + 1;
      }
    }

    /** `frame()`: the current image; with no frames, Java's array access fails. */
    function Frame(): (r: Result<Image, JavaError>)
      requires Valid()
      reads this
      ensures |frames| == 0 <==> r == Err(IndexOutOfBounds)
      ensures r.Ok? ==> r.value in frames
    {
      if frameIndex < |frames| then Ok(frames[frameIndex]) else Err(IndexOutOfBounds)
    }
  }

  /** Taking one more advance at the end of a run equals one more step. */
  lemma {:induction false} AdvanceByStep(i: int, k: nat, n: int, loop: bool)
    requires 0 <= i < n
    ensures AdvanceBy(i, k + 1, n, loop) == Advance(AdvanceBy(i, k, n, loop), n, loop)
    decreases k
  {
    if k > 0 {
      AdvanceByStep(Advance(i, n, loop), k - 1, n, loop);
    }
  }

  /**
   * `buildRowAnim`: the animation of tiles 0..cols-1 of one sheet row, read through the sheet's
   * cache; a negative column count is Java's NegativeArraySizeException.
   */
  method BuildRowAnim(sheet: SpriteSheet, row: int, cols: int, fps: real) returns (r: Result<Animation, JavaError>)
    requires sheet.Valid()
    modifies sheet
    ensures sheet.Valid()
    ensures cols < 0 <==> r == Err(NegativeArraySize)
    ensures r.Ok? ==>
              fresh(r.value) && r.value.fps == fps && |r.value.frames| == cols &&
              r.value.frameIndex == 0 && r.value.Valid() &&
              forall c :: 0 <= c < cols ==>
                r.value.frames[c].rect == PixelRect(c * sheet.tileW, row * sheet.tileH, sheet.tileW, sheet.tileH)
  {
    if cols < 0 {
      return Err(NegativeArraySize);
    }
    var frames: seq<Image> := [];
    var c := 0;
    while c < cols
      invariant 0 <= c <= cols && |frames| == c
      invariant sheet.Valid()
      invariant forall j :: 0 <= j < c ==>
                  frames[j].rect == PixelRect(j * sheet.tileW, row * sheet.tileH, sheet.tileW, sheet.tileH)
    {
      var img := sheet.SpriteGrid(c, row);
      frames := frames + [img];
      c := c + 1;
    }
    var a := new Animation(fps, frames);
    return Ok(a);
  }
}

=== FILE: arena.dfy ===
/**
 * The UI tree as a mutable object: the arena of node records (module UITree) held in a class whose
 * methods update it in place, as the Java methods of ui/UINode.java and the containers update
 * their fields. The ghost rank and bound travel with the map and keep it well formed.
 */
module UIArena {
  import opened Base
  import opened UIInsets
  import opened UINodes
  import opened UITree
  import opened UILayout
  import opened UIEdits
  import DockPanes
  import GridPanels

  /**
   * The node arena: every node of the UI, keyed by id. Methods update `nodes` in place as the
   * Java setters update fields; `events` records the callbacks fired so far.
   */
  class Arena {
    var nodes: map<Id, Node>
    ghost var rank: map<Id, nat>
    ghost var bound: nat
    var events: seq<Event>

    ghost predicate Valid()
      reads this
    {
      Wf(nodes, rank, bound)
    }

    constructor ()
      ensures Valid() && nodes == map[] && events == []
    {
      nodes := map[];
      rank := map[];
      bound := 0;
      events := [];
    }

    /** An arena holding one detached, childless node, as a root's own constructor sets it up. */
    constructor Holding(id: Id, n: Node)
      requires n.parent.None? && n.children == [] && KindOk(n)
      ensures Valid() && nodes == map[id := n] && events == []
    {
      nodes := map[id := n];
      rank := map[id := 0];
      bound := 1;
      events := [];
    }

    /**
     * A node built by a constructor: a detached, dirty node of the given kind under an id no
     * node has yet (the identity a Java `new` hands out).
     */
    method NewNode(id: Id, kind: Kind)
      modifies this`nodes, this`rank, this`bound
      requires Valid() && id !in nodes && Newborn(kind)
      ensures Valid() && nodes == old(nodes)[id := Fresh(kind)]
    {
      BornWf(nodes, rank, bound, id, kind);
      nodes := nodes[id := Fresh(kind)];
      rank := rank[id := 0];
      bound := bound + 1;
    }

    /** `markLayoutDirty`: the node and every ancestor up to the root need layout again. */
    method MarkLayoutDirty(id: Id)
      modifies this`nodes
      requires Chained(nodes, rank) && id in nodes
      ensures nodes == Flagged(old(nodes), Ancestry(old(nodes), rank, id))
      decreases rank[id]
    {
      var n := nodes[id];
      FlaggedUp(nodes, rank, id);
      nodes := nodes[id := n.(layoutDirty := true)];
      if n.parent.Some? {
        MarkLayoutDirty(n.parent.value);
      }
    }

    /** `UINode.remove`: when `c` is a child of `p`, cut it out, clear its parent and mark `p` dirty. */
    method BaseRemove(p: Id, c: Id)
      modifies this`nodes
      requires Chained(nodes, rank) && Linked(nodes) && p in nodes && c in nodes
      ensures c in old(nodes)[p].children ==>
                nodes == Flagged(Detach(old(nodes), p, c), Ancestry(old(nodes), rank, p))
      ensures c !in old(nodes)[p].children ==> nodes == old(nodes)
    {
      var n := nodes[p];
      if c in n.children {
        ListedByParent(nodes, p, c);
        nodes := nodes[p := n.(children := Without(n.children, c))];
        nodes := nodes[c := nodes[c].(parent := None)];
        assert nodes == Detach(old(nodes), p, c);
        assert LinksAgree(old(nodes), nodes, Some(c));
        WithinAvoiding(old(nodes), old(nodes), rank, rank, None, p, c);
        AncestryKept(old(nodes), nodes, rank, rank, Some(c), p);
        MarkLayoutDirty(p);
      }
    }

    /**
     * `remove` as dispatched on the class of `p`: DockPane and GridPanel override it, every other
     * kind does the base removal. The arena stays well formed, and RemovedWf says what changed.
     */
    method Remove(p: Id, c: Id)
      modifies this`nodes
      requires Valid() && p in nodes && c in nodes
      ensures Valid() && nodes == Removed(old(nodes), rank, p, c)
    {
      ghost var ns := nodes;
      RemovedWf(ns, rank, bound, p, c);
      var k := nodes[p].kind;
      if k.DockPane? {
        DockRemove(p, c);
      } else if k.GridPanel? {
        GridRemove(p, c);
      } else {
        RemovedPlain(old(nodes), rank, p, c);
        BaseRemove(p, c);
      }
    }

    /** `DockPane.remove`: forget the child's slot (emptying it if it still holds the child), then the base removal. */
    method DockRemove(p: Id, c: Id)
      modifies this`nodes
      requires Valid() && p in nodes && c in nodes && nodes[p].kind.DockPane?
      ensures nodes == Removed(old(nodes), rank, p, c)
    {
      var n := nodes[p];
      assert KindOk(n);
      var t := DockPanes.Unregister(DockPanes.Tables(n.kind.docks, n.kind.slots), c);
      nodes := nodes[p := n.(kind := DockPane(t.docks, t.slots))];
      SameLinksPreserve(old(nodes), nodes);
      AncestryKept(old(nodes), nodes, rank, rank, None, p);
      BaseRemove(p, c);
    }

    /** `GridPanel.remove`: the base removal, then every cell record for the child is dropped. */
    method GridRemove(p: Id, c: Id)
      modifies this`nodes
      requires Valid() && p in nodes && c in nodes && nodes[p].kind.GridPanel?
      ensures nodes == Removed(old(nodes), rank, p, c)
    {
      var cells0 := nodes[p].kind.cells;
      BaseRemove(p, c);
      var cells := SweepCells(cells0, c);
      nodes := nodes[p := nodes[p].(kind := nodes[p].kind.(cells := cells))];
      GridRemoveOrder(old(nodes), rank, p, c);
    }

    /**
     * `add`: the node first leaves its current parent through that parent's own `remove`, then
     * becomes the last child of `p`, and `p` and its ancestors are marked dirty. The source does
     * not check for cycles; `p` outside `c`'s subtree is the condition under which the tree stays
     * a tree (AddedWf), and what changed is in AddedLinks.
     */
    method Add(p: Id, c: Id)
      modifies this`nodes, this`rank, this`bound
      requires Valid() && p in nodes && c in nodes && !Within(nodes, rank, p, c)
      ensures Valid() && nodes == Added(old(nodes), old(rank), p, c)
      ensures p in nodes && Ancestry(nodes, rank, p) == Ancestry(old(nodes), old(rank), p)
    {
      ghost var ns := nodes;
      UnparentedWf(ns, rank, bound, c);
      var n := nodes[c];
      if n.parent.Some? {
        Remove(n.parent.value, c);
      }
      WithinAvoiding(ns, nodes, rank, rank, Some(c), p, c);
      AncestryKept(ns, nodes, rank, rank, Some(c), p);
      LinkUnder(p, c);
    }

    /** The second half of `add`: link `c`, which no list names, as the last child of `p`, and mark `p` dirty. */
    method LinkUnder(p: Id, c: Id)
      modifies this`nodes, this`rank, this`bound
      requires Valid() && p in nodes && c in nodes && !Within(nodes, rank, p, c)
      requires forall k :: k in nodes ==> c !in nodes[k].children
      ensures Valid()
      ensures nodes == Flagged(Link(old(nodes), p, c), Ancestry(old(nodes), old(rank), p))
      ensures Ancestry(nodes, rank, p) == Ancestry(old(nodes), old(rank), p)
    {
      ghost var u := nodes;
      ghost var rk := rank;
      LinkFlagged(u, rank, bound, p, c);
      nodes := Link(nodes, p, c);
      rank := Rerank(u, rank, p, c);
      bound := bound + rk[p] + 1;
      MarkLayoutDirty(p);
    }

    /**
     * The shape of every setter that ends with `markLayoutDirty`: node `id` becomes `m`, which
     * keeps its links and has consistent tables, then it and its ancestors are marked dirty.
     */
    method Restyle(id: Id, m: Node)
      modifies this`nodes
      requires Valid() && id in nodes && m.parent == nodes[id].parent && m.children == nodes[id].children && KindOk(m)
      ensures Valid() && nodes == Flagged(old(nodes)[id := m], Ancestry(old(nodes), rank, id))
    {
      nodes := nodes[id := m];
      SameLinksWf(old(nodes), nodes, rank, bound);
      SameLinksPreserve(old(nodes), nodes);
      AncestryKept(old(nodes), nodes, rank, rank, None, id);
      FlaggedWf(nodes, Ancestry(nodes, rank, id), rank, bound);
      MarkLayoutDirty(id);
    }

    /** `size(w, h)`: the explicit size, then the node and its ancestors need layout. */
    method SetSize(id: Id, w: real, h: real)
      modifies this`nodes
      requires Valid() && id in nodes
      ensures Valid() && nodes == Flagged(old(nodes)[id := old(nodes)[id].(width := w, height := h)], Ancestry(old(nodes), rank, id))
    {
      Restyle(id, nodes[id].(width := w, height := h));
    }

    /** `pos(x, y)`: the local position, then the node and its ancestors need layout. */
    method SetPos(id: Id, x: real, y: real)
      modifies this`nodes
      requires Valid() && id in nodes
      ensures Valid() && nodes == Flagged(old(nodes)[id := old(nodes)[id].(x := x, y := y)], Ancestry(old(nodes), rank, id))
    {
      Restyle(id, nodes[id].(x := x, y := y));
    }

    /** `GridPanel.gaps(gx, gy)`. */
    method GridGaps(id: Id, gx: real, gy: real)
      modifies this`nodes
      requires Valid() && id in nodes && nodes[id].kind.GridPanel?
      ensures Valid()
      ensures var n := old(nodes)[id];
              nodes == Flagged(old(nodes)[id := n.(kind := n.kind.(gridGapX := gx, gridGapY := gy))], Ancestry(old(nodes), rank, id))
    {
      var n := nodes[id];
      assert KindOk(n);
      Restyle(id, n.(kind := n.kind.(gridGapX := gx, gridGapY := gy)));
    }

    /** `GridPanel.colWeights(w)`: `None` stands for a null array. */
    method GridColWeights(id: Id, w: Option<seq<real>>)
      modifies this`nodes
      requires Valid() && id in nodes && nodes[id].kind.GridPanel?
      ensures Valid()
      ensures var n := old(nodes)[id];
              nodes == Flagged(old(nodes)[id := n.(kind := n.kind.(colWeights := w))], Ancestry(old(nodes), rank, id))
    {
      var n := nodes[id];
      assert KindOk(n);
      Restyle(id, n.(kind := n.kind.(colWeights := w)));
    }

    /** `GridPanel.rowWeights(w)`: `None` stands for a null array. */
    method GridRowWeights(id: Id, w: Option<seq<real>>)
      modifies this`nodes
      requires Valid() && id in nodes && nodes[id].kind.GridPanel?
      ensures Valid()
      ensures var n := old(nodes)[id];
              nodes == Flagged(old(nodes)[id := n.(kind := n.kind.(rowWeights := w))], Ancestry(old(nodes), rank, id))
    {
      var n := nodes[id];
      assert KindOk(n);
      Restyle(id, n.(kind := n.kind.(rowWeights := w)));
    }

    /** `StackPanel.spacing(s)`. */
    method StackSpacing(id: Id, s: real)
      modifies this`nodes
      requires Valid() && id in nodes && nodes[id].kind.StackPanel?
      ensures Valid()
      ensures var n := old(nodes)[id];
              nodes == Flagged(old(nodes)[id := n.(kind := n.kind.(spacing := s))], Ancestry(old(nodes), rank, id))
    {
      var n := nodes[id];
      Restyle(id, n.(kind := n.kind.(spacing := s)));
    }

    /** `StackPanel.fillCrossAxis(v)`. */
    method StackFill(id: Id, v: bool)
      modifies this`nodes
      requires Valid() && id in nodes && nodes[id].kind.StackPanel?
      ensures Valid()
      ensures var n := old(nodes)[id];
              nodes == Flagged(old(nodes)[id := n.(kind := n.kind.(fillCrossAxis := v))], Ancestry(old(nodes), rank, id))
    {
      var n := nodes[id];
      Restyle(id, n.(kind := n.kind.(fillCrossAxis := v)));
    }

    /** `StackPanel.childMargin(m)`: a null margin (`None`) becomes `Insets.ZERO`. */
    method StackMargin(id: Id, m: Option<Insets>)
      modifies this`nodes
      requires Valid() && id in nodes && nodes[id].kind.StackPanel?
      ensures Valid()
      ensures var n := old(nodes)[id]; var margin := if m.Some? then m.value else ZERO;
              nodes == Flagged(old(nodes)[id := n.(kind := n.kind.(childMargin := margin))], Ancestry(old(nodes), rank, id))
    {
      var n := nodes[id];
      var margin := if m.Some? then m.value else ZERO;
      Restyle(id, n.(kind := n.kind.(childMargin := margin)));
    }

    /** `WrapPanel.gaps(gx, gy)`. */
    method WrapGaps(id: Id, gx: real, gy: real)
      modifies this`nodes
      requires Valid() && id in nodes && nodes[id].kind.WrapPanel?
      ensures Valid()
      ensures var n := old(nodes)[id];
              nodes == Flagged(old(nodes)[id := n.(kind := n.kind.(wrapGapX := gx, wrapGapY := gy))], Ancestry(old(nodes), rank, id))
    {
      var n := nodes[id];
      Restyle(id, n.(kind := n.kind.(wrapGapX := gx, wrapGapY := gy)));
    }

    /**
     * `computeLayout` on node `id` inside the area `a` its parent hands it, walking the arena as
     * the Java recursion does. The links come from the arena `t` the pass started from.
     */
    method ComputeLayout(ghost t: map<Id, Node>, id: Id, a: Area)
      modifies this`nodes
      requires Ranked(t, rank, bound) && MovesBoxes(Place) && Dispatchable(t) && Reshaped(t, nodes) && id in t
      ensures nodes == Laid(t, rank, bound, Place, old(nodes), id, a)
      decreases bound - rank[id], 1
    {
      var n := nodes[id];
      if !n.visible {
        return;
      }
      Prepare(t, id, a);
      PreparedShape(t, Place, old(nodes), id, a);
      SameArea(Sized(n, a), nodes[id]);
      LaidKidsShape(t, rank, bound, Place, nodes, id, |t[id].children|, ContentArea(nodes[id]));
      LayoutKids(t, id, ContentArea(nodes[id]));
      nodes := nodes[id := nodes[id].(layoutDirty := false)];
      LaidVisible(t, rank, bound, Place, old(nodes), id, a);
    }

    /** The node's own step in `computeLayout`: its global bounds by the sizing rule, then `onLayout`. */
    method Prepare(ghost t: map<Id, Node>, id: Id, a: Area)
      modifies this`nodes
      requires Dispatchable(t) && Reshaped(t, nodes) && id in t
      ensures nodes == Prepared(Place, old(nodes), id, a)
    {
      var n := nodes[id];
      nodes := nodes[id := n.(gx := a.x + n.x, gy := a.y + n.y,
                              gw := Resolve(n.width, n.prefW, a.w), gh := Resolve(n.height, n.prefH, a.h))];
      var pane := nodes[id];
      assert pane == Sized(n, a) && nodes == old(nodes)[id := pane];
      assert KindOk(pane) && Distinct(pane.children) && AllIn(pane.children, t);
      var laid := RunOnLayout(nodes, pane);
      assert laid == Place(nodes, pane);
      nodes := laid;
    }

    /** The children loop of `computeLayout`: each child in order, inside the content area `area`. */
    method LayoutKids(ghost t: map<Id, Node>, id: Id, area: Area)
      modifies this`nodes
      requires Ranked(t, rank, bound) && MovesBoxes(Place) && Dispatchable(t) && Reshaped(t, nodes) && id in t
      ensures nodes == LaidKids(t, rank, bound, Place, old(nodes), id, |t[id].children|, area)
      decreases bound - rank[id], 0
    {
      ghost var start := nodes;
      var kids := nodes[id].children;
      var i := 0;
      while i < |kids|
        invariant 0 <= i <= |kids| && kids == t[id].children
        invariant Reshaped(t, nodes)
        invariant nodes == LaidKids(t, rank, bound, Place, start, id, i, area)
      {
        ghost var before := nodes;
        ChildRank(t, rank, bound, id, kids[i]);
        LaidKidsStep(t, rank, bound, Place, start, id, i + 1, area);
        LaidShape(t, rank, bound, Place, before, kids[i], area);
        ComputeLayout(t, kids[i], area);
        assert nodes == Laid(t, rank, bound, Place, before, kids[i], area);
        i := i + 1;
      }
    }

    /** A pass over the arena as it stands keeps it well formed; what it computes is LaidOwn, LaidChild and LaidFrame. */
    method Layout(id: Id, a: Area)
      modifies this`nodes
      requires Valid() && id in nodes
      ensures Valid() && nodes == Laid(old(nodes), rank, bound, Place, old(nodes), id, a)
      ensures Reshaped(old(nodes), nodes)
    {
      ghost var t := nodes;
      WfRanked(t, rank, bound);
      WfDispatchable(t, rank, bound);
      PlaceMovesBoxes();
      ComputeLayout(t, id, a);
      LaidShape(t, rank, bound, Place, t, id, a);
      ReshapedWf(t, nodes, rank, bound);
    }

    /** `children.remove(c); children.add(c); markLayoutDirty()` on `p`: `c` is drawn last, on top. */
    method Raise(p: Id, c: Id)
      modifies this`nodes
      requires Valid() && p in nodes && c in nodes && nodes[c].parent == Some(p)
      ensures Valid() && nodes == Raised(old(nodes), rank, p, c)
    {
      ReorderedWf(nodes, rank, bound, p, c);
      nodes := Reordered(nodes, p, c);
      FlaggedWf(nodes, Ancestry(nodes, rank, p), rank, bound);
      MarkLayoutDirty(p);
    }

    /** A callback fires on a node: it joins the record. */
    method Fire(e: Event)
      modifies this`events
      ensures events == old(events) + [e]
    {
      events := events + [e];
    }

    /** `hitTest(mx, my)` on node `id`: the children from the last to the first, then the node itself. */
    method HitTest(id: Id, mx: real, my: real) returns (r: Option<Id>)
      requires Valid() && id in nodes
      ensures r == Hit(nodes, rank, bound, id, mx, my)
      decreases bound - rank[id]
    {
      WfRanked(nodes, rank, bound);
      var n := nodes[id];
      if !Contains(n, mx, my) {
        return None;
      }
      var i := |n.children|;
      while i > 0
        invariant 0 <= i <= |n.children|
        invariant HitKids(nodes, rank, bound, id, |n.children|, mx, my) == HitKids(nodes, rank, bound, id, i, mx, my)
      {
        var c := n.children[i - 1];
        ChildRank(nodes, rank, bound, id, c);
        var h := HitTest(c, mx, my);
        if h.Some? {
          return h;
        }
        i := i - 1;
      }
      if Interactive(n.kind) {
        return Some(id);
      }
      return None;
    }

    /**
     * The closing steps of the container setters that follow an `add`: `p`'s tables become `k`,
     * then `markLayoutDirty`, which finds `p` and its ancestors marked already.
     */
    method Retable(p: Id, k: Kind)
      modifies this`nodes
      requires Valid() && p in nodes && KindOk(nodes[p].(kind := k))
      requires forall q :: q in Ancestry(nodes, rank, p) ==> nodes[q].layoutDirty
      ensures Valid() && nodes == old(nodes)[p := old(nodes)[p].(kind := k)]
    {
      ReplacedWf(nodes, rank, bound, p, nodes[p].(kind := k), p);
      nodes := nodes[p := nodes[p].(kind := k)];
      FlaggedIdle(nodes, Ancestry(nodes, rank, p));
      MarkLayoutDirty(p);
    }

    /** `GridPanel.add(c, row, col, rowSpan, colSpan)`; a null node (`None`) changes nothing. */
    method GridAdd(p: Id, c: Option<Id>, row: int, col: int, rowSpan: int, colSpan: int)
      modifies this`nodes, this`rank, this`bound
      requires Valid() && p in nodes && nodes[p].kind.GridPanel?
      requires c.Some? ==> c.value in nodes && !Within(nodes, rank, p, c.value)
      ensures Valid()
      ensures c.None? ==> nodes == old(nodes)
      ensures c.Some? ==> nodes == GridAdded(old(nodes), old(rank), p, c.value, row, col, rowSpan, colSpan)
    {
      if c.None? {
        return;
      }
      var x := c.value;
      ghost var ns := nodes;
      AddedCells(ns, rank, bound, p, x);
      AddedDirty(ns, rank, p, x);
      Add(p, x);
      var cell := GridPanels.NewCell(x, row, col, rowSpan, colSpan);
      var k := nodes[p].kind;
      CellAppended(nodes[p], cell);
      Retable(p, k.(cells := k.cells + [cell]));
    }

    /**
     * `setDock(d, c)`, behind `setTop` ... `setCenter`; a null node changes nothing. The old
     * occupant of `d` is detached and dropped from the node-to-slot table. The source does this
     * with `super.remove` and `docks.remove`, leaving `slots[d]` for the later `put` to overwrite.
     * The model goes through the pane's own `remove`, which also clears `slots[d]`; the end state
     * is the same.
     */
    method DockSet(p: Id, d: Dock, c: Option<Id>)
      modifies this`nodes, this`rank, this`bound
      requires Valid() && p in nodes && nodes[p].kind.DockPane?
      requires c.Some? ==> c.value in nodes && !Within(nodes, rank, p, c.value)
      ensures Valid()
      ensures c.None? ==> nodes == old(nodes)
      ensures c.Some? ==> nodes == Redocked(old(nodes), old(rank), old(bound), p, d, c.value)
    {
      if c.None? {
        return;
      }
      var x := c.value;
      DockIn(p, d, x);
      DockingTables(old(nodes), old(rank), old(bound), p, d, x);
      var ka := nodes[p].kind;
      assert DockPanes.Register(DockPanes.Tables(ka.docks, ka.slots), d, x) == DockPanes.Tables(ka.docks[x := d], ka.slots[d := x]);
      Retable(p, DockPane(ka.docks[x := d], ka.slots[d := x]));
    }

    /** The first two steps of `setDock`: slot `d` emptied, then `c` added to the pane. */
    method DockIn(p: Id, d: Dock, c: Id)
      modifies this`nodes, this`rank, this`bound
      requires Valid() && p in nodes && nodes[p].kind.DockPane? && c in nodes && !Within(nodes, rank, p, c)
      ensures Valid() && nodes == Docking(old(nodes), old(rank), old(bound), p, d, c)
      ensures p in nodes && forall q :: q in Ancestry(nodes, rank, p) ==> nodes[q].layoutDirty
    {
      ghost var ns := nodes;
      VacatedWf(ns, rank, bound, p, d, c);
      Vacate(p, d);
      AddedDirty(nodes, rank, p, c);
      Add(p, c);
    }

    /** The first step of `setDock`: the node holding slot `d`, if any, leaves the pane and both of its tables. */
    method Vacate(p: Id, d: Dock)
      modifies this`nodes
      requires Valid() && p in nodes && nodes[p].kind.DockPane?
      ensures Valid() && nodes == Vacated(old(nodes), rank, bound, p, d)
    {
      var k := nodes[p].kind;
      if d in k.slots {
        Occupant(nodes, rank, bound, p, d);
        Remove(p, k.slots[d]);
      }
    }

    /** `Center.set(c)`: the list emptied, `c` remembered and, when given, added; then `markLayoutDirty`. */
    method CenterSet(p: Id, c: Option<Id>)
      modifies this`nodes, this`rank, this`bound
      requires Valid() && p in nodes && nodes[p].kind.Center?
      requires c.Some? ==> c.value in nodes && !Within(nodes, rank, p, c.value)
      ensures Valid() && nodes == Recentered(old(nodes), old(rank), old(bound), p, c)
    {
      ghost var ns := nodes;
      ClearedWf(nodes, rank, bound, p, c);
      nodes := nodes[p := nodes[p].(children := [], kind := Center(c))];
      assert nodes == Cleared(ns, p, c);
      if c.Some? {
        WithinAvoiding(ns, nodes, rank, rank, None, p, c.value);
        AddedDirty(nodes, rank, p, c.value);
        Add(p, c.value);
        FlaggedIdle(nodes, Ancestry(nodes, rank, p));
      } else {
        FlaggedWf(nodes, Ancestry(nodes, rank, p), rank, bound);
      }
      MarkLayoutDirty(p);
    }

    /** `setHovered(v)`: on a change the flag flips and `onMouseEnter` or `onMouseExit` fires; otherwise nothing happens. */
    method SetHovered(id: Id, v: bool)
      modifies this`nodes, this`events
      requires Valid() && id in nodes
      ensures Valid()
      ensures old(nodes)[id].hovered == v ==> nodes == old(nodes) && events == old(events)
      ensures old(nodes)[id].hovered != v ==>
                nodes == old(nodes)[id := old(nodes)[id].(hovered := v)] &&
                events == old(events) + [if v then MouseEnter(id) else MouseExit(id)]
    {
      var n := nodes[id];
      if n.hovered == v {
        return;
      }
      assert KindOk(n);
      ReplacedWf(nodes, rank, bound, id, n.(hovered := v), id);
      nodes := nodes[id := n.(hovered := v)];
      if v {
        events := events + [MouseEnter(id)];
      } else {
        events := events + [MouseExit(id)];
      }
    }

    /** `setPressed(v)`. */
    method SetPressed(id: Id, v: bool)
      modifies this`nodes
      requires Valid() && id in nodes
      ensures Valid() && nodes == old(nodes)[id := old(nodes)[id].(pressed := v)]
    {
      var n := nodes[id];
      assert KindOk(n);
      ReplacedWf(nodes, rank, bound, id, n.(pressed := v), id);
      nodes := nodes[id := n.(pressed := v)];
    }

    /** `setFocused(v)`. */
    method SetFocused(id: Id, v: bool)
      modifies this`nodes
      requires Valid() && id in nodes
      ensures Valid() && nodes == old(nodes)[id := old(nodes)[id].(focused := v)]
    {
      var n := nodes[id];
      assert KindOk(n);
      ReplacedWf(nodes, rank, bound, id, n.(focused := v), id);
      nodes := nodes[id := n.(focused := v)];
    }
  }
}

=== FILE: base.dfy ===
/** Shared vocabulary: optional values (Java `null`) and results (Java exceptions). */
module Base {
  datatype Option<T> = None | Some(value: T)

  datatype Result<T, E> = Ok(value: T) | Err(error: E)

  /** The Java exceptions the modelled code lets escape. */
  datatype JavaError =
    | NullPointer
    | IllegalArgument(message: string)
    | Arithmetic
    | NumberFormat
    | IndexOutOfBounds
    | NegativeArraySize

  /** Java's `Math.max` / `Math.min` on the values the engine uses. */
  function Max(a: real, b: real): real { if a >= b then a else b }
  function Min(a: real, b: real): real { if a <= b then a else b }
  function IMax(a: int, b: int): int { if a >= b then a else b }
  function IMin(a: int, b: int): int { if a <= b then a else b }
}

=== FILE: camera2d.dfy ===
/** World-to-screen camera (render/Camera2D.java). Applying the transform to a graphics context is not modelled. */
module Camera {
  import opened Base

  class Camera2D {
    var x: real
    var y: real
    var zoom: real
    var viewportW: int
    var viewportH: int
    var smoothingEnabled: bool
    var followSpeed: real
    var deadzoneRadius: real

    /** Every setter keeps these lower bounds; the initial values already meet them. */
    ghost predicate Valid()
      reads this
    {
      zoom >= 0.05 && followSpeed >= 0.01 && deadzoneRadius >= 0.0
    }

    /** Default camera: origin, zoom 1, 800x600 viewport, smoothing on. */
    constructor ()
      ensures Valid()
      ensures x == 0.0 && y == 0.0 && zoom == 1.0 && viewportW == 800 && viewportH == 600
      ensures smoothingEnabled && followSpeed == 5.0 && deadzoneRadius == 0.0
    {
      x, y, zoom := 0.0, 0.0, 1.0;
      viewportW, viewportH := 800, 600;
      smoothingEnabled, followSpeed, deadzoneRadius := true, 5.0, 0.0;
    }

    /** The sized constructor stores the viewport as given, without clamping. */
    constructor WithViewport(w: int, h: int)
      ensures Valid()
      ensures x == 0.0 && y == 0.0 && zoom == 1.0 && viewportW == w && viewportH == h
      ensures smoothingEnabled && followSpeed == 5.0 && deadzoneRadius == 0.0
    {
      x, y, zoom := 0.0, 0.0, 1.0;
      viewportW, viewportH := w, h;
      smoothingEnabled, followSpeed, deadzoneRadius := true, 5.0, 0.0;
    }

    function HalfW(): real reads this { viewportW as real / 2.0 }
    function HalfH(): real reads this { viewportH as real / 2.0 }

    /**
     * World to screen: the camera position is drawn at the centre of the viewport, and with
     * a positive zoom what lies right of (below) the camera is drawn right of (below) it.
     */
    function WorldToScreenX(wx: real): (sx: real)
      reads this
      ensures wx == x ==> sx == HalfW()
      ensures Valid() && wx > x ==> sx > HalfW()
      ensures Valid() && wx < x ==> sx < HalfW()
    {
      (wx - x) * zoom + HalfW()
    }

    function WorldToScreenY(wy: real): (sy: real)
      reads this
      ensures wy == y ==> sy == HalfH()
      ensures Valid() && wy > y ==> sy > HalfH()
      ensures Valid() && wy < y ==> sy < HalfH()
    {
      (wy - y) * zoom + HalfH()
    }

    /** Screen to world: the point that world-to-screen draws at the given screen position. */
    function ScreenToWorldX(sx: real): (wx: real)
      reads this
      requires Valid()
      ensures WorldToScreenX(wx) == sx
    {
      (sx - HalfW()) / zoom + x
    }

    function ScreenToWorldY(sy: real): (wy: real)
      reads this
      requires Valid()
      ensures WorldToScreenY(wy) == sy
    {
      (sy - HalfH()) / zoom + y
    }

    /** Screen-to-world undoes world-to-screen (zoom is never zero). */
    lemma {:induction false} WorldScreenRoundTrip(wx: real, wy: real)
      requires Valid()
      ensures ScreenToWorldX(WorldToScreenX(wx)) == wx
      ensures ScreenToWorldY(WorldToScreenY(wy)) == wy
    {
      var ox := (wx - x) * zoom;
      assert ox / zoom == wx - x;
      var oy := (wy - y) * zoom;
      assert oy / zoom == wy - y;
    }

    /** World-to-screen undoes screen-to-world. */
    lemma {:induction false} ScreenWorldRoundTrip(sx: real, sy: real)
      requires Valid()
      ensures WorldToScreenX(ScreenToWorldX(sx)) == sx
      ensures WorldToScreenY(ScreenToWorldY(sy)) == sy
    {
      var qx := (sx - HalfW()) / zoom;
      assert qx * zoom == sx - HalfW();
      var qy := (sy - HalfH()) / zoom;
      assert qy * zoom == sy - HalfH();
    }

    /** Resizing keeps the viewport at least one pixel on each side. */
    method SetViewport(w: int, h: int)
      modifies this`viewportW, this`viewportH
      ensures viewportW == IMax(1, w) && viewportH == IMax(1, h)
      ensures viewportW >= 1 && viewportH >= 1
    {
      viewportW := IMax(1, w);
      viewportH := IMax(1, h);
    }

    method FollowSnap(targetX: real, targetY: real)
      modifies this`x, this`y
      ensures x == targetX && y == targetY
    {
      x := targetX;
      y := targetY;
    }

    /**
     * One smoothing step towards the target. `decay` is the value of e^(-followSpeed * dt),
     * computed by the caller; the camera moves the fraction 1 - decay of the way.
     * With smoothing off the camera snaps; inside the deadzone it stays put.
     */
    method FollowSmooth(targetX: real, targetY: real, decay: real)
      requires Valid()
      modifies this`x, this`y
      ensures !smoothingEnabled ==> x == targetX && y == targetY
      ensures smoothingEnabled && InDeadzone(old(x), old(y), targetX, targetY) ==> x == old(x) && y == old(y)
      ensures smoothingEnabled && !InDeadzone(old(x), old(y), targetX, targetY) ==>
        x == old(x) + (targetX - old(x)) * (1.0 - decay) && y == old(y) + (targetY - old(y)) * (1.0 - decay)
      ensures smoothingEnabled && 0.0 <= decay <= 1.0 ==>
        Between(old(x), x, targetX) && Between(old(y), y, targetY)
    {
      if !smoothingEnabled {
        FollowSnap(targetX, targetY);
        return;
      }
      var dx := targetX - x;
      var dy := targetY - y;
      if deadzoneRadius > 0.0 {
        var dist2 := dx * dx + dy * dy;
        if dist2 <= deadzoneRadius * deadzoneRadius {
          return;
        }
      }
      var alpha := 1.0 - decay;
      StepBetween(x, targetX, alpha);
      StepBetween(y, targetY, alpha);
      x := x + dx * alpha;
      y := y + dy * alpha;
    }

    /** The deadzone test of FollowSmooth: a positive radius and the target within it. */
    predicate InDeadzone(cx: real, cy: real, tx: real, ty: real)
      reads this
    {
      deadzoneRadius > 0.0 && (tx - cx) * (tx - cx) + (ty - cy) * (ty - cy) <= deadzoneRadius * deadzoneRadius
    }

    method SetSmoothingEnabled(enabled: bool)
      modifies this`smoothingEnabled
      ensures smoothingEnabled == enabled
    {
      smoothingEnabled := enabled;
    }

    /** Follow speed is clamped to at least 0.01. */
    method SetFollowSpeed(speed: real)
      requires Valid()
      modifies this`followSpeed
      ensures Valid() && followSpeed == Max(0.01, speed)
    {
      followSpeed := Max(0.01, speed);
    }

    /** A negative deadzone radius becomes 0 (no deadzone). */
    method SetDeadzoneRadius(radius: real)
      requires Valid()
      modifies this`deadzoneRadius
      ensures Valid() && deadzoneRadius == Max(0.0, radius)
    {
      deadzoneRadius := Max(0.0, radius);
    }

    method SetPosition(nx: real, ny: real)
      modifies this`x, this`y
      ensures x == nx && y == ny
    {
      x := nx;
      y := ny;
    }

    /** Zoom is clamped to at least 0.05, so it never reaches zero. */
    method SetZoom(z: real)
      requires Valid()
      modifies this`zoom
      ensures Valid() && zoom == Max(0.05, z)
    {
      zoom := Max(0.05, z);
    }
  }

  /** `v` lies on the closed segment from `a` to `b`, in either direction. */
  predicate Between(a: real, v: real, b: real)
  {
    (a <= v <= b) || (b <= v <= a)
  }

  /** Moving a fraction in [0, 1] of the way from `a` to `b` lands between them. */
  lemma StepBetween(a: real, b: real, alpha: real)
    ensures 0.0 <= alpha <= 1.0 ==> Between(a, a + (b - a) * alpha, b)
  {
    if 0.0 <= alpha <= 1.0 {
      var d := b - a;
      var m := d * alpha;
      if d >= 0.0 {
        assert m <= d * 1.0;
        assert 0.0 <= m;
      } else {
        assert m >= d * 1.0;
        assert m <= 0.0;
      }
    }
  }
}

=== FILE: center.dfy ===
/**
 * Center layout (ui/layout/Center.java): the single remembered child is sized by its own
 * explicit or preferred size and centred in the content area. `set`, which changes the tree,
 * belongs to the arena (UIArena.Arena.CenterSet).
 */
module Centers {
  import opened Base
  import opened UIInsets
  import opened UINodes

  /** The child after centring in `pane`: its own size written back, its midpoint on the content's midpoint. */
  function Centered(c: Node, pane: Node): (r: Node)
    ensures SameExceptBox(c, r)
    ensures r.width == Resolve0(c.width, c.prefW) && r.height == Resolve0(c.height, c.prefH)
    ensures 2.0 * (r.x - pane.padding.left) + r.width == ContentW(pane)
    ensures 2.0 * (r.y - pane.padding.top) + r.height == ContentH(pane)
  {
    var cw := Max(0.0, pane.gw - pane.padding.left - pane.padding.right);
    var ch := Max(0.0, pane.gh - pane.padding.top - pane.padding.bottom);
    var w := Resolve0(c.width, c.prefW);
    var h := Resolve0(c.height, c.prefH);
    WithBox(c, pane.padding.left + (cw - w) * 0.5, pane.padding.top + (ch - h) * 0.5, w, h)
  }

  /** The remembered child, when there is one and it is visible. */
  predicate HasVisibleChild(ns: map<Id, Node>, pane: Node)
    requires pane.kind.Center?
  {
    pane.kind.child.Some? && pane.kind.child.value in ns && ns[pane.kind.child.value].visible
  }

  /**
   * `onLayout`: with no child or an invisible one nothing changes; otherwise only the child's box
   * does. The child is the one last given to `set`, whether or not it is still among the children.
   */
  function Layout(ns: map<Id, Node>, pane: Node): (r: map<Id, Node>)
    requires pane.kind.Center?
    ensures !HasVisibleChild(ns, pane) ==> r == ns
    ensures HasVisibleChild(ns, pane) ==> BoxesOnly(ns, r, {pane.kind.child.value})
    ensures HasVisibleChild(ns, pane) ==> r[pane.kind.child.value] == Centered(ns[pane.kind.child.value], pane)
  {
    if HasVisibleChild(ns, pane) then
      var c := pane.kind.child.value;
      ns[c := Centered(ns[c], pane)]
    else ns
  }

  /** A child that fits is centred inside the content area: equal room on both sides. */
  lemma CenteredFits(c: Node, pane: Node)
    requires Resolve0(c.width, c.prefW) <= ContentW(pane)
    ensures var r := Centered(c, pane);
            pane.padding.left <= r.x && r.x + r.width <= pane.padding.left + ContentW(pane) &&
            r.x - pane.padding.left == pane.padding.left + ContentW(pane) - (r.x + r.width)
  {
  }
}

=== FILE: check_box.dfy ===
/**
 * A check box toggled by a click or by Space/Enter (ui/widgets/CheckBox.java). The
 * `onChanged` runnable is opaque: `changes` counts how often it has run.
 */
module CheckBoxes {
  import opened KeyCodes

  class CheckBox {
    var checked: bool
    var labelText: string
    var enabled: bool
    var focused: bool
    /** Whether an `onChanged` runnable is installed, and how often it has run. */
    var hasOnChanged: bool
    var changes: nat

    constructor (labelText: string, initial: bool)
      ensures checked == initial && this.labelText == labelText
      ensures enabled && !focused && !hasOnChanged && changes == 0
    {
      this.labelText := labelText;
      checked := initial;
      enabled, focused := true, false;
      hasOnChanged, changes := false, 0;
    }

    /** `checked(v)`: sets the state without notifying. */
    method SetChecked(v: bool)
      modifies this`checked
      ensures checked == v
    {
      checked := v;
    }

    function IsInteractive(): (b: bool)
      ensures b
    {
      true
    }

    function IsFocusable(): (b: bool)
      ensures b
    {
      true
    }

    /** Mouse down and up are always reported as consumed. */
    function OnMouseDown(button: int): (consumed: bool)
      ensures consumed
    {
      true
    }

    function OnMouseUp(button: int): (consumed: bool)
      ensures consumed
    {
      true
    }

    /** One toggle, with a notification when a runnable is installed. */
    method Toggle()
      modifies this`checked, this`changes
      ensures checked == !old(checked)
      ensures changes == old(changes) + (if hasOnChanged then 1 else 0)
    {
      checked := !checked;
      if hasOnChanged {
        changes := changes + 1;
      }
    }

    /** `onClick`: an enabled box toggles and notifies; a disabled one ignores the click. */
    method OnClick(button: int)
      modifies this`checked, this`changes
      ensures enabled ==> checked == !old(checked) && changes == old(changes) + (if hasOnChanged then 1 else 0)
      ensures !enabled ==> checked == old(checked) && changes == old(changes)
    {
      if !enabled {
        return;
      }
      Toggle();
    }

    /** `onKeyDown`: a focused, enabled box toggles on Space or Enter and consumes it; nothing else is consumed. */
    method OnKeyDown(keyCode: int) returns (consumed: bool)
      modifies this`checked, this`changes
      ensures consumed <==> focused && enabled && (keyCode == VK_SPACE || keyCode == VK_ENTER)
      ensures consumed ==> checked == !old(checked) && changes == old(changes) + (if hasOnChanged then 1 else 0)
      ensures !consumed ==> checked == old(checked) && changes == old(changes)
    {
      if !focused || !enabled {
        return false;
      }
      if keyCode == VK_SPACE || keyCode == VK_ENTER {
        Toggle();
        return true;
      }
      return false;
    }
  }
}

=== FILE: collision.dfy ===
/** Axis-aligned box collision helpers (math/Collision.java). */
module Collision {
  import opened Rects

  /** Strict overlap: boxes that only share an edge do not overlap. */
  predicate Overlaps(a: Rectf, b: Rectf): (r: bool)
    ensures a.Right() == b.Left() || b.Right() == a.Left() || a.Bottom() == b.Top() || b.Bottom() == a.Top() ==> !r
    ensures r ==> a.w + b.w > 0.0 && a.h + b.h > 0.0
  {
    a.x < b.x + b.w && a.x + a.w > b.x && a.y < b.y + b.h && a.y + a.h > b.y
  }

  function Abs(v: real): real { if v < 0.0 then -v else v }

  /** Penetration depth along x: half extents minus the distance between the centres. */
  function PenX(a: Rectf, b: Rectf): real
  {
    (b.w * 0.5 + a.w * 0.5) - Abs((b.x + b.w * 0.5) - (a.x + a.w * 0.5))
  }

  /** Penetration depth along y. */
  function PenY(a: Rectf, b: Rectf): real
  {
    (b.h * 0.5 + a.h * 0.5) - Abs((b.y + b.h * 0.5) - (a.y + a.h * 0.5))
  }

  /** A translation vector. */
  datatype Vector = Vector(x: real, y: real)

  /**
   * The minimum translation vector that moves `a` out of `b`: along the axis of smaller
   * penetration (y on a tie), pointing from b's centre towards a's centre (negative on a tie).
   */
  function MtvOf(a: Rectf, b: Rectf): (v: Vector)
  {
    var dx := (b.x + b.w * 0.5) - (a.x + a.w * 0.5);
    var dy := (b.y + b.h * 0.5) - (a.y + a.h * 0.5);
    var px := PenX(a, b);
    var py := PenY(a, b);
    if px < py then Vector(if dx < 0.0 then px else -px, 0.0)
    else Vector(0.0, if dy < 0.0 then py else -py)
  }

  function Translate(r: Rectf, v: Vector): Rectf
  {
    Rectf(r.x + v.x, r.y + v.y, r.w, r.h)
  }

  /** Mutable two-component vector used as an out-parameter (math/Vec2.java). */
  class Vec2 {
    var x: real
    var y: real

    constructor (x: real, y: real)
      ensures this.x == x && this.y == y
    {
      this.x := x;
      this.y := y;
    }
  }

  /**
   * Reports whether the boxes overlap; only then writes the minimum translation vector
   * into `out`.
   */
  method Mtv(a: Rectf, b: Rectf, out: Vec2) returns (hit: bool)
    modifies out
    ensures hit == Overlaps(a, b)
    ensures hit ==> out.x == MtvOf(a, b).x && out.y == MtvOf(a, b).y
    ensures !hit ==> out.x == old(out.x) && out.y == old(out.y)
  {
    if !Overlaps(a, b) {
      return false;
    }
    var axCenter := a.x + a.w * 0.5;
    var ayCenter := a.y + a.h * 0.5;
    var bxCenter := b.x + b.w * 0.5;
    var byCenter := b.y + b.h * 0.5;
    var dx := bxCenter - axCenter;
    var dy := byCenter - ayCenter;
    var px := (b.w * 0.5 + a.w * 0.5) - Abs(dx);
    var py := (b.h * 0.5 + a.h * 0.5) - Abs(dy);
    if px < py {
      out.x := if dx < 0.0 then px else -px;
      out.y := 0.0;
    } else {
      out.x := 0.0;
      out.y := if dy < 0.0 then py else -py;
    }
    return true;
  }

  /** Overlap does not depend on the order of the arguments. */
  lemma OverlapsSymmetric(a: Rectf, b: Rectf)
    ensures Overlaps(a, b) <==> Overlaps(b, a)
  {
  }

  /** Boxes that touch along a vertical edge do not overlap. */
  lemma TouchingDoNotOverlap(a: Rectf, b: Rectf)
    requires a.Right() == b.Left()
    ensures !Overlaps(a, b)
  {
  }

  /** Overlapping boxes penetrate on both axes. */
  lemma OverlapMeansPenetration(a: Rectf, b: Rectf)
    requires Overlaps(a, b)
    ensures PenX(a, b) > 0.0 && PenY(a, b) > 0.0
  {
  }

  /**
   * The vector is minimal: it moves along one axis only, by the smaller of the two
   * penetration depths.
   */
  lemma MtvIsMinimal(a: Rectf, b: Rectf)
    requires Overlaps(a, b)
    ensures var v := MtvOf(a, b);
      (v.x == 0.0 || v.y == 0.0)
      && Abs(v.x) + Abs(v.y) == (if PenX(a, b) < PenY(a, b) then PenX(a, b) else PenY(a, b))
  {
    OverlapMeansPenetration(a, b);
  }

  /** Moving `a` by the vector separates the boxes, leaving them touching. */
  lemma MtvSeparates(a: Rectf, b: Rectf)
    requires Overlaps(a, b)
    ensures !Overlaps(Translate(a, MtvOf(a, b)), b)
  {
    var v := MtvOf(a, b);
    var a2 := Translate(a, v);
    var dx := (b.x + b.w * 0.5) - (a.x + a.w * 0.5);
    var dy := (b.y + b.h * 0.5) - (a.y + a.h * 0.5);
    if PenX(a, b) < PenY(a, b) {
      if dx < 0.0 {
        assert a2.x == b.x + b.w;
      } else {
        assert a2.x + a2.w == b.x;
      }
    } else {
      if dy < 0.0 {
        assert a2.y == b.y + b.h;
      } else {
        assert a2.y + a2.h == b.y;
      }
    }
  }

  /** Clamp to [lo, hi]; a value below `lo` wins over `hi` when the bounds are crossed. */
  function Clamp(v: real, lo: real, hi: real): (r: real)
    ensures lo <= hi ==> lo <= r <= hi
    ensures lo <= v <= hi ==> r == v
    ensures v < lo ==> r == lo
    ensures v >= lo && v > hi ==> r == hi
  {
    if v < lo then lo else if v > hi then hi else v
  }

  /** Linear interpolation: the end points at 0 and 1, a constant when they coincide. */
  function Lerp(a: real, b: real, t: real): (r: real)
    ensures t == 0.0 ==> r == a
    ensures t == 1.0 ==> r == b
    ensures a == b ==> r == a
  {
    a + (b - a) * t
  }

  /** For a fraction between 0 and 1 the result stays between the end points. */
  lemma LerpBetween(a: real, b: real, t: real)
    requires 0.0 <= t <= 1.0 && a <= b
    ensures a <= Lerp(a, b, t) <= b
  {
    var d := b - a;
    var m := d * t;
    ScaleBetween(d, t);
    assert 0.0 <= m <= d;
    assert Lerp(a, b, t) == a + m;
  }

  lemma ScaleBetween(d: real, t: real)
    requires d >= 0.0 && 0.0 <= t <= 1.0
    ensures 0.0 <= d * t <= d
  {
    assert d * t <= d * 1.0;
  }
}

=== FILE: dock_pane.dfy ===
/**
 * DockPane (ui/layout/DockPane.java): up to one node per slot TOP, BOTTOM, LEFT, RIGHT and
 * CENTER. Two side tables, node -> slot (`docks`) and slot -> node (`slots`), are kept inverse
 * to each other. Layout consumes the slots in that fixed order, each taking its extent off the
 * remaining rectangle; CENTER gets what is left. The table updates that also change the tree
 * (`setDock`, the `remove` override) are methods of the arena (UIArena.Arena).
 */
module DockPanes {
  import opened Base
  import opened UIInsets
  import opened UINodes

  /** `docks` and `slots` describe the same assignment, read in the two directions. */
  predicate Inverse(docks: map<Id, Dock>, slots: map<Dock, Id>)
  {
    (forall n :: n in docks ==> docks[n] in slots && slots[docks[n]] == n) &&
    (forall d :: d in slots ==> slots[d] in docks && docks[slots[d]] == d)
  }

  /** `getDock`: an unregistered node reads as CENTER. */
  function GetDock(docks: map<Id, Dock>, n: Id): (d: Dock)
    ensures n !in docks ==> d == CENTER
    ensures n in docks ==> d == docks[n]
  {
    if n in docks then docks[n] else CENTER
  }

  /** With inverse tables, a registered node is found in exactly the slot `getDock` names. */
  lemma GetDockFindsSlot(docks: map<Id, Dock>, slots: map<Dock, Id>, n: Id, d: Dock)
    requires Inverse(docks, slots)
    ensures (d in slots && slots[d] == n) <==> (n in docks && GetDock(docks, n) == d)
  {
  }

  /** A node occupies at most one slot: with inverse tables, `slots` never names a node twice. */
  lemma OneSlotPerNode(docks: map<Id, Dock>, slots: map<Dock, Id>, d1: Dock, d2: Dock)
    requires Inverse(docks, slots) && d1 in slots && d2 in slots && slots[d1] == slots[d2]
    ensures d1 == d2
  {
  }

  datatype Tables = Tables(docks: map<Id, Dock>, slots: map<Dock, Id>)

  /**
   * The table part of the `remove` override: forget the child's slot, and empty that slot when
   * it still holds the child.
   */
  function Unregister(t: Tables, child: Id): (r: Tables)
    requires Inverse(t.docks, t.slots)
    ensures Inverse(r.docks, r.slots)
    ensures child !in r.docks && forall d :: d in r.slots ==> r.slots[d] != child
    ensures forall n :: n in r.docks <==> n in t.docks && n != child
    ensures forall n :: n in r.docks ==> r.docks[n] == t.docks[n]
    ensures forall d :: d in r.slots <==> d in t.slots && t.slots[d] != child
    ensures forall d :: d in r.slots ==> r.slots[d] == t.slots[d]
  {
    if child in t.docks then
      var d := t.docks[child];
      var slots' := if d in t.slots && t.slots[d] == child then t.slots - {d} else t.slots;
      Tables(t.docks - {child}, slots')
    else t
  }

  /** The table part of `setDock` once the slot is free and the node unregistered. */
  function Register(t: Tables, d: Dock, n: Id): (r: Tables)
    requires Inverse(t.docks, t.slots) && d !in t.slots && n !in t.docks
    ensures Inverse(r.docks, r.slots)
    ensures GetDock(r.docks, n) == d && d in r.slots && r.slots[d] == n
  {
    Tables(t.docks[n := d], t.slots[d := n])
  }

  /** The node a slot holds, when it is there and visible; absent or hidden slots consume nothing. */
  function SlotNode(ns: map<Id, Node>, slots: map<Dock, Id>, d: Dock): (o: Option<Id>)
    ensures o.Some? ==> o.value in ns && ns[o.value].visible && d in slots && slots[d] == o.value
  {
    if d in slots && slots[d] in ns && ns[slots[d]].visible then Some(slots[d]) else None
  }

  /**
   * The extent a slot consumes: TOP and BOTTOM a height, LEFT and RIGHT a width, each explicit,
   * else preferred, else the remaining extent (`sizeH` / `sizeW`).
   */
  function Taken(ns: map<Id, Node>, slots: map<Dock, Id>, d: Dock, fallback: real): (e: real)
    ensures SlotNode(ns, slots, d).None? ==> e == 0.0
  {
    match SlotNode(ns, slots, d)
    case None => 0.0
    case Some(n) =>
      if d == TOP || d == BOTTOM then Resolve(ns[n].height, ns[n].prefH, fallback)
      else Resolve(ns[n].width, ns[n].prefW, fallback)
  }

  /** The rectangle CENTER receives, and the extents the four edge slots take. */
  datatype Carve = Carve(top: real, bottom: real, left: real, right: real,
                         x: real, y: real, w: real, h: real)

  /** The carving of the content area, stated in closed form. */
  function Carving(ns: map<Id, Node>, pane: Node): (c: Carve)
    requires pane.kind.DockPane?
    ensures c.top + c.h + c.bottom == ContentH(pane)
    ensures c.left + c.w + c.right == ContentW(pane)
    ensures c.x == pane.padding.left + c.left && c.y == pane.padding.top + c.top
  {
    var slots := pane.kind.slots;
    var cw := ContentW(pane);
    var ch := ContentH(pane);
    var tH := Taken(ns, slots, TOP, ch);
    var bH := Taken(ns, slots, BOTTOM, ch - tH);
    var lW := Taken(ns, slots, LEFT, cw);
    var rW := Taken(ns, slots, RIGHT, cw - lW);
    Carve(tH, bH, lW, rW, pane.padding.left + lW, pane.padding.top + tH, cw - lW - rW, ch - tH - bH)
  }

  /**
   * The box each slot receives from a carving: TOP across the top, BOTTOM flush to the bottom,
   * LEFT and RIGHT between them flush to their edges, CENTER the rest.
   */
  function SlotBox(c: Carve, pad: Insets, contentW: real, d: Dock): Box
  {
    match d
    case TOP => Box(pad.left, pad.top, contentW, c.top)
    case BOTTOM => Box(pad.left, c.y + c.h, contentW, c.bottom)
    case LEFT => Box(pad.left, c.y, c.left, c.h)
    case RIGHT => Box(c.x + c.w, c.y, c.right, c.h)
    case CENTER => Box(c.x, c.y, c.w, c.h)
  }

  /** Node `k` holds a slot and is visible, so layout places it. */
  predicate Docked(ns: map<Id, Node>, docks: map<Id, Dock>, k: Id)
  {
    k in docks && k in ns && ns[k].visible
  }

  /** What `onLayout` leaves in the arena: each visible docked node in its slot's box, all else as it was. */
  function Layout(ns: map<Id, Node>, pane: Node): (r: map<Id, Node>)
    requires pane.kind.DockPane?
    ensures BoxesOnly(ns, r, pane.kind.docks.Keys)
  {
    var c := Carving(ns, pane);
    map k | k in ns :: if Docked(ns, pane.kind.docks, k) then
                         Placed(ns[k], SlotBox(c, pane.padding, ContentW(pane), pane.kind.docks[k]))
                       else ns[k]
  }

  /** Each occupied visible slot's node gets that slot's box; with inverse tables, `SlotNode` finds it. */
  lemma LayoutAt(ns: map<Id, Node>, pane: Node, d: Dock)
    requires pane.kind.DockPane? && Inverse(pane.kind.docks, pane.kind.slots)
    requires SlotNode(ns, pane.kind.slots, d).Some?
    ensures Layout(ns, pane)[pane.kind.slots[d]] ==
            Placed(ns[pane.kind.slots[d]], SlotBox(Carving(ns, pane), pane.padding, ContentW(pane), d))
  {
  }

  /** The arena after the slots in `done` have been laid out. */
  predicate Agrees(r: map<Id, Node>, ns: map<Id, Node>, docks: map<Id, Dock>, boxes: map<Dock, Box>, done: set<Dock>)
  {
    r.Keys == ns.Keys &&
    forall k :: k in ns ==>
      r[k] == if Docked(ns, docks, k) && docks[k] in done && docks[k] in boxes then Placed(ns[k], boxes[docks[k]])
              else ns[k]
  }

  /** Slot `d` is not laid out yet, so its node is still as it was. */
  lemma AgreesPending(r: map<Id, Node>, ns: map<Id, Node>, docks: map<Id, Dock>, slots: map<Dock, Id>,
                      boxes: map<Dock, Box>, done: set<Dock>, d: Dock)
    requires Inverse(docks, slots) && Agrees(r, ns, docks, boxes, done) && d !in done
    ensures SlotNode(r, slots, d) == SlotNode(ns, slots, d)
    ensures d in slots && slots[d] in ns ==> r[slots[d]] == ns[slots[d]]
  {
    if d in slots && slots[d] in ns {
      var k := slots[d];
      assert r[k] == ns[k];
    }
  }

  /** An empty or hidden slot: nothing to lay out. */
  lemma AgreesSkip(r: map<Id, Node>, ns: map<Id, Node>, docks: map<Id, Dock>, slots: map<Dock, Id>,
                   boxes: map<Dock, Box>, done: set<Dock>, d: Dock)
    requires Inverse(docks, slots) && Agrees(r, ns, docks, boxes, done) && SlotNode(ns, slots, d).None?
    ensures Agrees(r, ns, docks, boxes, done + {d})
  {
    forall j | j in ns
      ensures r[j] == if Docked(ns, docks, j) && docks[j] in done + {d} && docks[j] in boxes then Placed(ns[j], boxes[docks[j]])
                      else ns[j]
    {
      if Docked(ns, docks, j) {
        assert docks[j] != d;
      }
    }
  }

  /** An occupied visible slot: its node takes the slot's box. */
  lemma AgreesPlace(r: map<Id, Node>, ns: map<Id, Node>, docks: map<Id, Dock>, slots: map<Dock, Id>,
                    boxes: map<Dock, Box>, done: set<Dock>, d: Dock)
    requires Inverse(docks, slots) && Agrees(r, ns, docks, boxes, done) && d in boxes
    requires SlotNode(ns, slots, d).Some?
    ensures Agrees(r[slots[d] := Placed(ns[slots[d]], boxes[d])], ns, docks, boxes, done + {d})
  {
    var k := slots[d];
    var r' := r[k := Placed(ns[k], boxes[d])];
    forall j | j in ns
      ensures r'[j] == if Docked(ns, docks, j) && docks[j] in done + {d} && docks[j] in boxes then Placed(ns[j], boxes[docks[j]])
                       else ns[j]
    {
      if j != k && Docked(ns, docks, j) {
        assert docks[j] != d;
      }
    }
  }

  /** The remaining rectangle just before slot `d` is laid out, in closed form. */
  function Stage(c: Carve, pad: Insets, contentW: real, contentH: real, d: Dock): Box
  {
    match d
    case TOP => Box(pad.left, pad.top, contentW, contentH)
    case BOTTOM => Box(pad.left, c.y, contentW, contentH - c.top)
    case LEFT => Box(pad.left, c.y, contentW, c.h)
    case RIGHT => Box(c.x, c.y, contentW - c.left, c.h)
    case CENTER => Box(c.x, c.y, c.w, c.h)
  }

  /** The slot laid out after `d`. */
  function Next(d: Dock): Dock
  {
    match d
    case TOP => BOTTOM
    case BOTTOM => LEFT
    case LEFT => RIGHT
    case RIGHT => CENTER
    case CENTER => CENTER
  }

  /**
   * One block of `onLayout` for a present, visible node `n` in slot `d`: the box it receives from
   * the remaining rectangle `rest` (TOP from its top, BOTTOM from its bottom, LEFT and RIGHT from
   * its sides, CENTER all of it), and what remains after it.
   */
  function Cut(d: Dock, rest: Box, n: Node): (p: (Box, Box))
    ensures d == CENTER ==> p.0 == rest
  {
    match d
    case TOP =>
      var h := Resolve(n.height, n.prefH, rest.h);
      (Box(rest.x, rest.y, rest.w, h), Box(rest.x, rest.y + h, rest.w, rest.h - h))
    case BOTTOM =>
      var h := Resolve(n.height, n.prefH, rest.h);
      (Box(rest.x, rest.y + (rest.h - h), rest.w, h), Box(rest.x, rest.y, rest.w, rest.h - h))
    case LEFT =>
      var w := Resolve(n.width, n.prefW, rest.w);
      (Box(rest.x, rest.y, w, rest.h), Box(rest.x + w, rest.y, rest.w - w, rest.h))
    case RIGHT =>
      var w := Resolve(n.width, n.prefW, rest.w);
      (Box(rest.x + (rest.w - w), rest.y, w, rest.h), Box(rest.x, rest.y, rest.w - w, rest.h))
    case CENTER => (rest, rest)
  }

  /** Cutting the closed-form remaining rectangle gives the slot's closed-form box and the next stage. */
  lemma CutMatches(ns: map<Id, Node>, pane: Node, d: Dock)
    requires pane.kind.DockPane?
    ensures var c := Carving(ns, pane);
            var rest := Stage(c, pane.padding, ContentW(pane), ContentH(pane), d);
            var o := SlotNode(ns, pane.kind.slots, d);
            (o.Some? ==> Cut(d, rest, ns[o.value]).0 == SlotBox(c, pane.padding, ContentW(pane), d)) &&
            (o.Some? && d != CENTER ==> Cut(d, rest, ns[o.value]).1 == Stage(c, pane.padding, ContentW(pane), ContentH(pane), Next(d))) &&
            (o.None? && d != CENTER ==> rest == Stage(c, pane.padding, ContentW(pane), ContentH(pane), Next(d)))
  {
  }

  /** One block of `onLayout`: place slot `d`'s node, if present and visible, and shrink the rectangle. */
  method PlaceSlot(r: map<Id, Node>, slots: map<Dock, Id>, d: Dock, rest: Box,
                   ghost ns: map<Id, Node>, ghost pane: Node, ghost done: set<Dock>)
    returns (r': map<Id, Node>, rest': Box)
    requires pane.kind.DockPane? && slots == pane.kind.slots && Inverse(pane.kind.docks, slots)
    requires Agrees(r, ns, pane.kind.docks, Boxes(ns, pane), done) && d !in done
    requires rest == Stage(Carving(ns, pane), pane.padding, ContentW(pane), ContentH(pane), d)
    ensures Agrees(r', ns, pane.kind.docks, Boxes(ns, pane), done + {d})
    ensures d != CENTER ==> rest' == Stage(Carving(ns, pane), pane.padding, ContentW(pane), ContentH(pane), Next(d))
  {
    ghost var boxes := Boxes(ns, pane);
    AllDocks(d);
    AgreesPending(r, ns, pane.kind.docks, slots, boxes, done, d);
    CutMatches(ns, pane, d);
    var o := SlotNode(r, slots, d);
    if o.None? {
      AgreesSkip(r, ns, pane.kind.docks, slots, boxes, done, d);
      return r, rest;
    }
    var k := o.value;
    var n := r[k];
    var p := Cut(d, rest, n);
    AgreesPlace(r, ns, pane.kind.docks, slots, boxes, done, d);
    r' := r[k := WithBox(n, p.0.x, p.0.y, p.0.w, p.0.h)];
    rest' := p.1;
  }

  lemma AllDocks(d: Dock)
    ensures d in {TOP, BOTTOM, LEFT, RIGHT, CENTER}
  {
    match d
    case TOP =>
    case BOTTOM =>
    case LEFT =>
    case RIGHT =>
    case CENTER =>
  }

  /** Every slot's closed-form box. */
  function Boxes(ns: map<Id, Node>, pane: Node): map<Dock, Box>
    requires pane.kind.DockPane?
  {
    var c := Carving(ns, pane);
    map d: Dock | d in {TOP, BOTTOM, LEFT, RIGHT, CENTER} :: SlotBox(c, pane.padding, ContentW(pane), d)
  }

  /** Once all five slots are done, the arena is the layout. */
  lemma AgreesAll(r: map<Id, Node>, ns: map<Id, Node>, pane: Node)
    requires pane.kind.DockPane?
    requires Agrees(r, ns, pane.kind.docks, Boxes(ns, pane), {TOP, BOTTOM, LEFT, RIGHT, CENTER})
    ensures r == Layout(ns, pane)
  {
    forall k | k in ns
      ensures r[k] == Layout(ns, pane)[k]
    {
      if Docked(ns, pane.kind.docks, k) {
        AllDocks(pane.kind.docks[k]);
      }
    }
  }

  /** The last three blocks of `onLayout`: the left, right and centre slots. */
  method PlaceSides(r: map<Id, Node>, slots: map<Dock, Id>, rest: Box, ghost ns: map<Id, Node>, ghost pane: Node)
    returns (r': map<Id, Node>)
    requires pane.kind.DockPane? && slots == pane.kind.slots && Inverse(pane.kind.docks, slots)
    requires Agrees(r, ns, pane.kind.docks, Boxes(ns, pane), {TOP, BOTTOM})
    requires rest == Stage(Carving(ns, pane), pane.padding, ContentW(pane), ContentH(pane), LEFT)
    ensures Agrees(r', ns, pane.kind.docks, Boxes(ns, pane), {TOP, BOTTOM, LEFT, RIGHT, CENTER})
  {
    var rest' := rest;
    r' := r;
    ghost var done := {TOP, BOTTOM};
    r', rest' := PlaceSlot(r', slots, LEFT, rest', ns, pane, done);
    done := done + {LEFT};
    r', rest' := PlaceSlot(r', slots, RIGHT, rest', ns, pane, done);
    done := done + {RIGHT};
    r', rest' := PlaceSlot(r', slots, CENTER, rest', ns, pane, done);
    assert done + {CENTER} == {TOP, BOTTOM, LEFT, RIGHT, CENTER};
  }

  /** The pane's `onLayout`: the five slots in order, each shrinking the remaining rectangle. */
  method LayoutSlots(ns: map<Id, Node>, pane: Node) returns (r: map<Id, Node>)
    requires pane.kind.DockPane? && Inverse(pane.kind.docks, pane.kind.slots)
    ensures r == Layout(ns, pane)
  {
    var slots := pane.kind.slots;
    var cx := pane.padding.left;
    var cy := pane.padding.top;
    var cw := Max(0.0, pane.gw - pane.padding.left - pane.padding.right);
    var ch := Max(0.0, pane.gh - pane.padding.top - pane.padding.bottom);
    var rest := Box(cx, cy, cw, ch);
    r := ns;
    r, rest := PlaceSlot(r, slots, TOP, rest, ns, pane, {});
    r, rest := PlaceSlot(r, slots, BOTTOM, rest, ns, pane, {TOP});
    r := PlaceSides(r, slots, rest, ns, pane);
    AgreesAll(r, ns, pane);
  }

  /**
   * The five boxes tile the content area: TOP above CENTER above BOTTOM, LEFT beside CENTER
   * beside RIGHT, with no gap and no overlap.
   */
  lemma Tiling(ns: map<Id, Node>, pane: Node)
    requires pane.kind.DockPane?
    ensures var c := Carving(ns, pane);
            var t := SlotBox(c, pane.padding, ContentW(pane), TOP);
            var b := SlotBox(c, pane.padding, ContentW(pane), BOTTOM);
            var l := SlotBox(c, pane.padding, ContentW(pane), LEFT);
            var r := SlotBox(c, pane.padding, ContentW(pane), RIGHT);
            var m := SlotBox(c, pane.padding, ContentW(pane), CENTER);
            t.y == pane.padding.top && t.y + t.h == m.y && m.y + m.h == b.y &&
            b.y + b.h == pane.padding.top + ContentH(pane) &&
            l.x == pane.padding.left && l.x + l.w == m.x && m.x + m.w == r.x &&
            r.x + r.w == pane.padding.left + ContentW(pane) &&
            l.y == m.y == r.y && l.h == m.h == r.h
  {
  }

  /** Absent or hidden edge slots take nothing, so CENTER gets the whole content area. */
  lemma EmptySlotsTakeNothing(ns: map<Id, Node>, pane: Node)
    requires pane.kind.DockPane?
    requires forall d :: d != CENTER ==> SlotNode(ns, pane.kind.slots, d).None?
    ensures SlotBox(Carving(ns, pane), pane.padding, ContentW(pane), CENTER) ==
            Box(pane.padding.left, pane.padding.top, ContentW(pane), ContentH(pane))
  {
    assert SlotNode(ns, pane.kind.slots, TOP).None? && SlotNode(ns, pane.kind.slots, BOTTOM).None?;
    assert SlotNode(ns, pane.kind.slots, LEFT).None? && SlotNode(ns, pane.kind.slots, RIGHT).None?;
  }

  /**
   * A worked case: a 100 x 100 content area at the pane's origin, a TOP 20 high, a LEFT 30 wide
   * and no BOTTOM or RIGHT: CENTER lands at (30, 20) with size 70 x 80.
   */
  lemma CenterExample(ns: map<Id, Node>, pane: Node)
    requires pane.kind.DockPane? && Inverse(pane.kind.docks, pane.kind.slots)
    requires pane.padding.left == 0.0 && pane.padding.top == 0.0
    requires ContentW(pane) == 100.0 && ContentH(pane) == 100.0
    requires BOTTOM !in pane.kind.slots && RIGHT !in pane.kind.slots
    requires SlotNode(ns, pane.kind.slots, TOP).Some? && SlotNode(ns, pane.kind.slots, LEFT).Some?
    requires SlotNode(ns, pane.kind.slots, CENTER).Some?
    requires ns[pane.kind.slots[TOP]].height == 20.0 && ns[pane.kind.slots[LEFT]].width == 30.0
    ensures var m := Layout(ns, pane)[pane.kind.slots[CENTER]];
            m.x == 30.0 && m.y == 20.0 && m.width == 70.0 && m.height == 80.0
  {
    var s := pane.kind.slots;
    assert Taken(ns, s, TOP, 100.0) == 20.0 && Taken(ns, s, BOTTOM, 80.0) == 0.0;
    assert Taken(ns, s, LEFT, 100.0) == 30.0 && Taken(ns, s, RIGHT, 70.0) == 0.0;
    assert Carving(ns, pane) == Carve(20.0, 0.0, 30.0, 0.0, 30.0, 20.0, 70.0, 80.0);
    LayoutAt(ns, pane, CENTER);
  }
}

=== FILE: grid_panel.dfy ===
/**
 * GridPanel layout (ui/layout/GridPanel.java): `rows` x `cols` tracks share the content area,
 * equally or by weight, with a fixed gap between neighbouring tracks. Each cell record places one
 * node at a clamped row and column, spanning one or more tracks. The table updates that also
 * change the tree (`add`, the `remove` override, the setters) are methods of the arena
 * (UIArena.Arena).
 */
module GridPanels {
  import opened Base
  import opened UINodes

  /** The gap a new grid leaves between tracks, on both axes. */
  const DEFAULT_GAP := 10.0

  /** The `Cell` constructor: spans below 1 become 1. */
  function NewCell(node: Id, row: int, col: int, rowSpan: int, colSpan: int): (c: Cell)
    ensures c.node == node && c.row == row && c.col == col
    ensures c.rowSpan >= 1 && c.colSpan >= 1
    ensures rowSpan >= 1 ==> c.rowSpan == rowSpan
    ensures colSpan >= 1 ==> c.colSpan == colSpan
  {
    Cell(node, row, col, IMax(1, rowSpan), IMax(1, colSpan))
  }

  /** The `GridPanel` constructor: at least one row and one column, default gaps, no weights, no cells. */
  function NewGrid(rows: int, cols: int): (k: Kind)
    ensures k.GridPanel? && k.rows >= 1 && k.cols >= 1
    ensures rows >= 1 ==> k.rows == rows
    ensures cols >= 1 ==> k.cols == cols
    ensures k.gridGapX == DEFAULT_GAP && k.gridGapY == DEFAULT_GAP
    ensures k.colWeights.None? && k.rowWeights.None? && k.cells == []
  {
    GridPanel(IMax(1, rows), IMax(1, cols), DEFAULT_GAP, DEFAULT_GAP, None, None, [])
  }

  /** Every cell record came from the `Cell` constructor. */
  predicate SpansOk(cells: seq<Cell>)
  {
    forall i :: 0 <= i < |cells| ==> cells[i].rowSpan >= 1 && cells[i].colSpan >= 1
  }

  /** What the constructors guarantee about a grid for its whole life. */
  predicate Shaped(k: Kind)
  {
    k.GridPanel? && k.rows >= 1 && k.cols >= 1 && SpansOk(k.cells)
  }

  /** `clamp`: below `lo` gives `lo`, above `hi` gives `hi`. */
  function Clamp(v: int, lo: int, hi: int): (r: int)
    ensures lo <= hi ==> lo <= r <= hi
    ensures lo <= v <= hi ==> r == v
    ensures v < lo ==> r == lo
    ensures lo <= hi < v ==> r == hi
  {
    if v < lo then lo else if v > hi then hi else v
  }

  /** The sum of a sequence, adding from the front. */
  function Sum(s: seq<real>): real
  {
    if |s| == 0 then 0.0 else Sum(s[..|s| - 1]) + s[|s| - 1]
  }

  lemma {:induction false} SumConcat(s: seq<real>, t: seq<real>)
    ensures Sum(s + t) == Sum(s) + Sum(t)
    decreases |t|
  {
    if |t| == 0 {
      assert s + t == s;
    } else {
      assert (s + t)[..|s + t| - 1] == s + t[..|t| - 1];
      SumConcat(s, t[..|t| - 1]);
    }
  }

  /** Splitting a prefix sum at `a`. */
  lemma SumSplit(s: seq<real>, a: nat, b: nat)
    requires a <= b <= |s|
    ensures Sum(s[..b]) == Sum(s[..a]) + Sum(s[a..b])
  {
    assert s[..b] == s[..a] + s[a..b];
    SumConcat(s[..a], s[a..b]);
  }

  lemma {:induction false} SumNonNegative(s: seq<real>)
    requires forall i :: 0 <= i < |s| ==> s[i] >= 0.0
    ensures Sum(s) >= 0.0
    decreases |s|
  {
    if |s| > 0 {
      SumNonNegative(s[..|s| - 1]);
    }
  }

  lemma {:induction false} SumPositive(s: seq<real>)
    requires |s| > 0 && forall i :: 0 <= i < |s| ==> s[i] > 0.0
    ensures Sum(s) > 0.0
    decreases |s|
  {
    if |s| > 1 {
      SumPositive(s[..|s| - 1]);
    }
  }

  /** n equal shares of `e` add up to n * e. */
  lemma {:induction false} SumConst(n: nat, e: real)
    ensures Sum(seq(n, _ => e)) == n as real * e
  {
    if n > 0 {
      assert seq(n, _ => e)[..n - 1] == seq(n - 1, _ => e);
      SumConst(n - 1, e);
    }
  }

  /** The gaps between `count` tracks fit in `total`. */
  predicate GapsFit(count: nat, total: real, gap: real)
  {
    total - gap * (count - 1) as real >= 0.0
  }

  /** The room left for the tracks once the gaps between them are taken, never negative. */
  function Usable(count: nat, total: real, gap: real): (u: real)
    ensures u >= 0.0
    ensures GapsFit(count, total, gap) ==> u == total - gap * (count - 1) as real
  {
    Max(0.0, total - gap * (count - 1) as real)
  }

  /** The weight of track `i`: a missing or non-positive weight counts as 1. */
  function Weight(weights: seq<real>, i: nat): (w: real)
    ensures w > 0.0
    ensures i < |weights| && weights[i] > 0.0 ==> w == weights[i]
    ensures !(i < |weights| && weights[i] > 0.0) ==> w == 1.0
  {
    var wi := if i < |weights| then weights[i] else 0.0;
    if wi <= 0.0 then 1.0 else wi
  }

  function Normalized(count: nat, weights: seq<real>): (ww: seq<real>)
    ensures |ww| == count && forall i :: 0 <= i < count ==> ww[i] == Weight(weights, i)
  {
    seq(count, i requires 0 <= i => Weight(weights, i))
  }

  /** Whether the weights, when given, are used at all: null and empty both mean equal tracks. */
  predicate Weighted(weights: Option<seq<real>>)
  {
    weights.Some? && |weights.value| > 0
  }

  /** A track's share of the usable room in proportion to its weight, as `computeSizes` writes it. */
  function Share(usable: real, w: real, sum: real): real
  {
    if sum > 0.0 then usable * (w / sum) else 0.0
  }

  /** A share is the weight scaled by usable / sum, so never negative. */
  lemma ShareFacts(usable: real, w: real, sum: real)
    requires sum > 0.0 && usable >= 0.0 && w > 0.0
    ensures Share(usable, w, sum) == usable / sum * w && Share(usable, w, sum) >= 0.0
  {
  }

  /** Every track's share for the given weights. */
  function Shares(usable: real, ww: seq<real>, sum: real): (s: seq<real>)
    ensures |s| == |ww| && forall i :: 0 <= i < |ww| ==> s[i] == Share(usable, ww[i], sum)
  {
    seq(|ww|, i requires 0 <= i < |ww| => Share(usable, ww[i], sum))
  }

  /** `computeSizes`: each track's extent. */
  function Sizes(count: nat, total: real, gap: real, weights: Option<seq<real>>): (s: seq<real>)
    ensures |s| == count
  {
    var usable := Usable(count, total, gap);
    if !Weighted(weights) then
      var each := if count > 0 then usable / count as real else 0.0;
      seq(count, _ => each)
    else
      var ww := Normalized(count, weights.value);
      Shares(usable, ww, Sum(ww))
  }

  /** Without weights, the tracks are equal shares of the usable room. */
  lemma EqualShares(count: nat, total: real, gap: real, weights: Option<seq<real>>)
    requires count > 0 && !Weighted(weights)
    ensures var s := Sizes(count, total, gap, weights);
            (forall i :: 0 <= i < count ==> s[i] >= 0.0 && s[i] * count as real == Usable(count, total, gap)) &&
            Sum(s) == Usable(count, total, gap)
  {
    var usable := Usable(count, total, gap);
    var each := usable / count as real;
    assert Sizes(count, total, gap, weights) == seq(count, _ => each);
    SumConst(count, each);
  }

  /** The shares add up to the weights' sum scaled by usable / sum. */
  lemma {:induction false} SumShares(usable: real, ww: seq<real>, sum: real)
    requires sum > 0.0
    ensures Sum(Shares(usable, ww, sum)) == usable / sum * Sum(ww)
    decreases |ww|
  {
    if |ww| > 0 {
      var n := |ww|;
      var s := Shares(usable, ww, sum);
      assert s[..n - 1] == Shares(usable, ww[..n - 1], sum);
      SumShares(usable, ww[..n - 1], sum);
      assert s[n - 1] == usable / sum * ww[n - 1];
    }
  }

  lemma DivCancels(a: real, b: real)
    requires b != 0.0
    ensures a / b * b == a
  {
  }

  /**
   * Positive weights summing to `sum` split `usable` in proportion: every share is the same
   * multiple of its weight, none is negative, and the shares add up to `usable`.
   */
  lemma ProportionalShares(usable: real, ww: seq<real>, sum: real)
    requires usable >= 0.0 && sum == Sum(ww) && sum > 0.0 && forall i :: 0 <= i < |ww| ==> ww[i] > 0.0
    ensures var s := Shares(usable, ww, sum);
            (forall i :: 0 <= i < |ww| ==> s[i] >= 0.0 && s[i] == usable / sum * ww[i]) &&
            Sum(s) == usable
  {
    var s := Shares(usable, ww, sum);
    forall i | 0 <= i < |ww|
      ensures s[i] >= 0.0 && s[i] == usable / sum * ww[i]
    {
      ShareAt(usable, ww, sum, i);
    }
    SharesFill(usable, ww, sum);
  }

  /** One track's share, read out of `Shares`. */
  lemma ShareAt(usable: real, ww: seq<real>, sum: real, i: int)
    requires usable >= 0.0 && sum > 0.0 && 0 <= i < |ww| && ww[i] > 0.0
    ensures Shares(usable, ww, sum)[i] >= 0.0 && Shares(usable, ww, sum)[i] == usable / sum * ww[i]
  {
    ShareFacts(usable, ww[i], sum);
  }

  /** Weights summing to `sum` give shares summing to `usable`. */
  lemma SharesFill(usable: real, ww: seq<real>, sum: real)
    requires sum == Sum(ww) && sum > 0.0
    ensures Sum(Shares(usable, ww, sum)) == usable
  {
    SumShares(usable, ww, sum);
    DivCancels(usable, sum);
  }

  /** With weights, each track is the same multiple of its weight, and together they fill the usable room. */
  lemma WeightedShares(count: nat, total: real, gap: real, weights: Option<seq<real>>)
    requires count > 0 && Weighted(weights)
    ensures var s := Sizes(count, total, gap, weights);
            var ww := Normalized(count, weights.value);
            Sum(ww) > 0.0 &&
            (forall i :: 0 <= i < count ==>
               s[i] >= 0.0 && s[i] == Usable(count, total, gap) / Sum(ww) * Weight(weights.value, i)) &&
            Sum(s) == Usable(count, total, gap)
  {
    var ww := Normalized(count, weights.value);
    var u := Usable(count, total, gap);
    SumPositive(ww);
    var sum := Sum(ww);
    ProportionalShares(u, ww, sum);
    assert Sizes(count, total, gap, weights) == Shares(u, ww, sum);
  }

  /** Either way, no track is negative and together they fill the usable room. */
  lemma SizesShare(count: nat, total: real, gap: real, weights: Option<seq<real>>)
    requires count > 0
    ensures var s := Sizes(count, total, gap, weights);
            (forall i :: 0 <= i < count ==> s[i] >= 0.0) && Sum(s) == Usable(count, total, gap)
  {
    if Weighted(weights) {
      WeightedShares(count, total, gap, weights);
    } else {
      EqualShares(count, total, gap, weights);
    }
  }

  /** A worked case: weights 1 and 3 over 400 pixels with no gap give tracks of 100 and 300. */
  lemma WeightedExample()
    ensures Sizes(2, 400.0, 0.0, Some([1.0, 3.0])) == [100.0, 300.0]
  {
    var ww := Normalized(2, [1.0, 3.0]);
    assert ww == [1.0, 3.0];
    assert Sum(ww) == 4.0 by {
      assert ww[..1] == [1.0];
      assert ww[..1][..0] == [];
    }
  }

  /** The leading edge of track `c`: the tracks and gaps before it, from `start`. */
  function Origin(start: real, sizes: seq<real>, gap: real, c: nat): (o: real)
    requires c <= |sizes|
  {
    start + Sum(sizes[..c]) + gap * c as real
  }

  /** The extent of a span of tracks `c0..c1`, with the gaps between them. */
  function Span(sizes: seq<real>, gap: real, c0: nat, c1: nat): real
    requires c0 <= c1 < |sizes|
  {
    Sum(sizes[c0..c1 + 1]) + gap * (c1 - c0) as real
  }

  /** A span starting at track `c0` ends exactly where track `c1` ends. */
  lemma SpanEnds(start: real, sizes: seq<real>, gap: real, c0: nat, c1: nat)
    requires c0 <= c1 < |sizes|
    ensures Origin(start, sizes, gap, c0) + Span(sizes, gap, c0, c1) == Origin(start, sizes, gap, c1) + sizes[c1]
  {
    SumSplit(sizes, c0, c1 + 1);
    assert sizes[..c1 + 1][..c1] == sizes[..c1];
  }

  /** When the gaps fit, the last track ends exactly at the far edge: the tracks fill the content area. */
  lemma TracksFill(start: real, total: real, gap: real, count: nat, weights: Option<seq<real>>)
    requires count > 0 && GapsFit(count, total, gap)
    ensures var s := Sizes(count, total, gap, weights);
            Origin(start, s, gap, count - 1) + s[count - 1] == start + total
  {
    var s := Sizes(count, total, gap, weights);
    SizesShare(count, total, gap, weights);
    SpanEnds(start, s, gap, 0, count - 1);
    assert s[0..count] == s;
    assert s[..0] == [];
  }

  /** Track origins never move backwards when the gap is not negative. */
  lemma OriginMonotone(start: real, sizes: seq<real>, gap: real, a: nat, b: nat)
    requires a <= b <= |sizes| && gap >= 0.0
    requires forall i :: 0 <= i < |sizes| ==> sizes[i] >= 0.0
    ensures Origin(start, sizes, gap, a) <= Origin(start, sizes, gap, b)
  {
    SumSplit(sizes, a, b);
    SumNonNegative(sizes[a..b]);
  }

  /** The grid's tracks and gaps, fixed by the pane's content area. */
  datatype Geometry = Geometry(x0: real, y0: real, cw: seq<real>, rh: seq<real>, gapX: real, gapY: real)

  predicate GeometryOk(g: Geometry)
  {
    |g.cw| >= 1 && |g.rh| >= 1
  }

  function GridGeometry(pane: Node): (g: Geometry)
    requires Shaped(pane.kind)
    ensures GeometryOk(g) && |g.cw| == pane.kind.cols && |g.rh| == pane.kind.rows
  {
    var k := pane.kind;
    Geometry(pane.padding.left, pane.padding.top,
             Sizes(k.cols, ContentW(pane), k.gridGapX, k.colWeights),
             Sizes(k.rows, ContentH(pane), k.gridGapY, k.rowWeights),
             k.gridGapX, k.gridGapY)
  }

  /** The tracks a cell covers: its clamped first and last column and row. */
  datatype Tracks = Tracks(c0: nat, c1: nat, r0: nat, r1: nat)

  function CellTracks(g: Geometry, cell: Cell): (t: Tracks)
    requires GeometryOk(g) && cell.rowSpan >= 1 && cell.colSpan >= 1
    ensures t.c0 <= t.c1 < |g.cw| && t.r0 <= t.r1 < |g.rh|
  {
    var cols := |g.cw|;
    var rows := |g.rh|;
    var r0 := Clamp(cell.row, 0, rows - 1);
    var c0 := Clamp(cell.col, 0, cols - 1);
    var r1 := Clamp(r0 + cell.rowSpan - 1, 0, rows - 1);
    var c1 := Clamp(c0 + cell.colSpan - 1, 0, cols - 1);
    Tracks(c0, c1, r0, r1)
  }

  /** The box a cell's node receives: from its first track's origin across its span. */
  function CellBox(g: Geometry, cell: Cell): (b: Box)
    requires GeometryOk(g) && cell.rowSpan >= 1 && cell.colSpan >= 1
  {
    var t := CellTracks(g, cell);
    Box(Origin(g.x0, g.cw, g.gapX, t.c0), Origin(g.y0, g.rh, g.gapY, t.r0),
        Span(g.cw, g.gapX, t.c0, t.c1), Span(g.rh, g.gapY, t.r0, t.r1))
  }

  /** The cell pass: each cell in order places its node when the node is visible. */
  function PlaceCells(ns: map<Id, Node>, g: Geometry, cells: seq<Cell>): (r: map<Id, Node>)
    requires GeometryOk(g) && SpansOk(cells)
    ensures r.Keys == ns.Keys
    decreases |cells|
  {
    if |cells| == 0 then ns
    else
      var r := PlaceCells(ns, g, cells[..|cells| - 1]);
      var cell := cells[|cells| - 1];
      if cell.node in r && r[cell.node].visible then r[cell.node := Placed(r[cell.node], CellBox(g, cell))]
      else r
  }

  /** What `onLayout` leaves in the arena: only the boxes of visible cells' nodes change. */
  function Layout(ns: map<Id, Node>, pane: Node): (r: map<Id, Node>)
    requires Shaped(pane.kind)
    ensures BoxesOnly(ns, r, CellNodes(ns, pane.kind.cells))
  {
    PlaceCellsBoxesOnly(ns, GridGeometry(pane), pane.kind.cells);
    PlaceCells(ns, GridGeometry(pane), pane.kind.cells)
  }

  /** The nodes of visible cells: the only ones the cell pass touches. */
  function CellNodes(ns: map<Id, Node>, cells: seq<Cell>): set<Id>
  {
    set c | c in cells && c.node in ns && ns[c.node].visible :: c.node
  }

  /** Placing one node rewrites that node's box and nothing else. */
  lemma PlacedOne(ns: map<Id, Node>, k: Id, b: Box)
    requires k in ns
    ensures BoxesOnly(ns, ns[k := Placed(ns[k], b)], {k})
  {
  }

  /** The cell pass rewrites only boxes, and only those of visible cells' nodes. */
  lemma {:induction false} PlaceCellsBoxesOnly(ns: map<Id, Node>, g: Geometry, cells: seq<Cell>)
    requires GeometryOk(g) && SpansOk(cells)
    ensures BoxesOnly(ns, PlaceCells(ns, g, cells), CellNodes(ns, cells))
    decreases |cells|
  {
    if |cells| > 0 {
      var prev := cells[..|cells| - 1];
      PlaceCellsBoxesOnly(ns, g, prev);
      var r := PlaceCells(ns, g, prev);
      var cell := cells[|cells| - 1];
      assert CellNodes(ns, prev) <= CellNodes(ns, cells);
      if cell.node in r && r[cell.node].visible {
        SameExceptBoxKeepsShape(ns[cell.node], r[cell.node]);
        assert cell.node in CellNodes(ns, cells);
        PlacedOne(r, cell.node, CellBox(g, cell));
        BoxesOnlyTrans(ns, r, PlaceCells(ns, g, cells), CellNodes(ns, prev), {cell.node});
      }
    }
  }

  /** No node has two cell records. */
  predicate DistinctNodes(cells: seq<Cell>)
  {
    forall i, j :: 0 <= i < j < |cells| ==> cells[i].node != cells[j].node
  }

  /** With one record per node, a visible cell's node gets exactly that cell's box. */
  lemma {:induction false} PlaceCellsAt(ns: map<Id, Node>, g: Geometry, cells: seq<Cell>, i: nat)
    requires GeometryOk(g) && SpansOk(cells) && DistinctNodes(cells) && i < |cells|
    requires cells[i].node in ns && ns[cells[i].node].visible
    ensures PlaceCells(ns, g, cells)[cells[i].node] == Placed(ns[cells[i].node], CellBox(g, cells[i]))
    decreases |cells|
  {
    var prev := cells[..|cells| - 1];
    var k := cells[i].node;
    var r := PlaceCells(ns, g, prev);
    if i == |cells| - 1 {
      PlaceCellsBoxesOnly(ns, g, prev);
      assert k !in CellNodes(ns, prev);
      assert r[k] == ns[k];
    } else {
      assert prev[i] == cells[i] && cells[|cells| - 1].node != k;
      PlaceCellsAt(ns, g, prev, i);
    }
  }

  /**
   * A visible cell's node lands on its tracks: its left edge is its first column's origin and
   * its right edge its last column's far edge, and likewise for rows.
   */
  lemma CellOnTracks(g: Geometry, cell: Cell)
    requires GeometryOk(g) && cell.rowSpan >= 1 && cell.colSpan >= 1
    ensures var t := CellTracks(g, cell);
            var b := CellBox(g, cell);
            b.x == Origin(g.x0, g.cw, g.gapX, t.c0) && b.x + b.w == Origin(g.x0, g.cw, g.gapX, t.c1) + g.cw[t.c1] &&
            b.y == Origin(g.y0, g.rh, g.gapY, t.r0) && b.y + b.h == Origin(g.y0, g.rh, g.gapY, t.r1) + g.rh[t.r1]
  {
    var t := CellTracks(g, cell);
    SpanEnds(g.x0, g.cw, g.gapX, t.c0, t.c1);
    SpanEnds(g.y0, g.rh, g.gapY, t.r0, t.r1);
  }

  /** When the gaps fit and are not negative, every cell lies within the pane's content area. */
  lemma CellInside(pane: Node, cell: Cell)
    requires Shaped(pane.kind) && cell.rowSpan >= 1 && cell.colSpan >= 1
    requires pane.kind.gridGapX >= 0.0 && pane.kind.gridGapY >= 0.0
    requires GapsFit(pane.kind.cols, ContentW(pane), pane.kind.gridGapX)
    requires GapsFit(pane.kind.rows, ContentH(pane), pane.kind.gridGapY)
    ensures var b := CellBox(GridGeometry(pane), cell);
            pane.padding.left <= b.x && b.x + b.w <= pane.padding.left + ContentW(pane) &&
            pane.padding.top <= b.y && b.y + b.h <= pane.padding.top + ContentH(pane)
  {
    var k := pane.kind;
    var g := GridGeometry(pane);
    var t := CellTracks(g, cell);
    var b := CellBox(g, cell);
    assert |g.cw| == k.cols && |g.rh| == k.rows;
    assert pane.padding.left <= b.x && b.x + b.w <= pane.padding.left + ContentW(pane) by {
      AxisInside(g.x0, ContentW(pane), k.gridGapX, k.cols, k.colWeights, t.c0, t.c1);
    }
    assert pane.padding.top <= b.y && b.y + b.h <= pane.padding.top + ContentH(pane) by {
      AxisInside(g.y0, ContentH(pane), k.gridGapY, k.rows, k.rowWeights, t.r0, t.r1);
    }
  }

  /** One axis of `CellInside`: a span of tracks lies between the start and the far edge. */
  lemma AxisInside(start: real, total: real, gap: real, count: nat, weights: Option<seq<real>>, c0: nat, c1: nat)
    requires c0 <= c1 < count && gap >= 0.0 && GapsFit(count, total, gap)
    ensures var s := Sizes(count, total, gap, weights);
            start <= Origin(start, s, gap, c0) && Origin(start, s, gap, c0) + Span(s, gap, c0, c1) <= start + total
  {
    var s := Sizes(count, total, gap, weights);
    SizesShare(count, total, gap, weights);
    SpanEnds(start, s, gap, c0, c1);
    OriginMonotone(start, s, gap, 0, c0);
    assert s[..0] == [];
    FarEdgeMonotone(start, s, gap, c1);
    TracksFill(start, total, gap, count, weights);
  }

  /** A track's far edge is never beyond the last track's far edge. */
  lemma FarEdgeMonotone(start: real, sizes: seq<real>, gap: real, c: nat)
    requires c < |sizes| && gap >= 0.0
    requires forall i :: 0 <= i < |sizes| ==> sizes[i] >= 0.0
    ensures Origin(start, sizes, gap, c) + sizes[c] <= Origin(start, sizes, gap, |sizes| - 1) + sizes[|sizes| - 1]
  {
    if c < |sizes| - 1 {
      assert sizes[..c + 1][..c] == sizes[..c];
      assert Origin(start, sizes, gap, c + 1) == Origin(start, sizes, gap, c) + sizes[c] + gap;
      OriginMonotone(start, sizes, gap, c + 1, |sizes| - 1);
    }
  }

  // ---- the imperative `onLayout` ----

  /** `computeSizes`: equal tracks without weights, weighted shares otherwise. */
  method ComputeSizes(count: nat, total: real, gap: real, weights: Option<seq<real>>) returns (out: array<real>)
    ensures fresh(out) && out[..] == Sizes(count, total, gap, weights)
  {
    var usable := Max(0.0, total - gap * (count - 1) as real);
    if weights.None? || |weights.value| == 0 {
      var each := if count > 0 then usable / count as real else 0.0;
      out := FillEqual(count, each);
      assert forall j :: 0 <= j < count ==> out[j] == Sizes(count, total, gap, weights)[j];
      return;
    }
    var ww, sum := NormalizeWeights(count, weights.value);
    out := FillShares(usable, ww, sum);
  }

  /** The loop of the unweighted case: every track gets `each`. */
  method FillEqual(count: nat, each: real) returns (out: array<real>)
    ensures fresh(out) && out.Length == count && forall j :: 0 <= j < count ==> out[j] == each
  {
    out := new real[count];
    var i := 0;
    while i < count
      invariant 0 <= i <= count
      invariant forall j :: 0 <= j < i ==> out[j] == each
    {
      out[i] := each;
      i := i + 1;
    }
  }

  /** The normalising loop: missing or non-positive weights become 1, and their sum is kept. */
  method NormalizeWeights(count: nat, w: seq<real>) returns (ww: array<real>, sum: real)
    ensures fresh(ww) && ww[..] == Normalized(count, w) && sum == Sum(ww[..])
  {
    sum := 0.0;
    ww := new real[count];
    var i := 0;
    while i < count
      invariant 0 <= i <= count
      invariant forall j :: 0 <= j < i ==> ww[j] == Weight(w, j)
      invariant sum == Sum(ww[..i])
    {
      var wi := if i < |w| then w[i] else 0.0;
      if wi <= 0.0 {
        wi := 1.0;
      }
      ww[i] := wi;
      assert ww[..i + 1][..i] == ww[..i];
      sum := sum + wi;
      i := i + 1;
    }
    assert ww[..count] == ww[..];
  }

  /** The loop writing each track's share. */
  method FillShares(usable: real, ww: array<real>, sum: real) returns (out: array<real>)
    ensures fresh(out) && out[..] == Shares(usable, ww[..], sum)
  {
    out := new real[ww.Length];
    var i := 0;
    while i < ww.Length
      invariant 0 <= i <= ww.Length
      invariant forall j :: 0 <= j < i ==> out[j] == Share(usable, ww[j], sum)
    {
      out[i] := if sum > 0.0 then usable * (ww[i] / sum) else 0.0;
      i := i + 1;
    }
  }

  /** The origin loop: each track's leading edge, adding a gap after every track but the last. */
  method Origins(start: real, sizes: array<real>, gap: real) returns (xs: array<real>)
    ensures fresh(xs) && xs.Length == sizes.Length
    ensures forall c :: 0 <= c < sizes.Length ==> xs[c] == Origin(start, sizes[..], gap, c)
  {
    xs := new real[sizes.Length];
    var x := start;
    var c := 0;
    while c < sizes.Length
      invariant 0 <= c <= sizes.Length
      invariant c < sizes.Length ==> x == Origin(start, sizes[..], gap, c)
      invariant forall j :: 0 <= j < c ==> xs[j] == Origin(start, sizes[..], gap, j)
    {
      xs[c] := x;
      ghost var s := sizes[..];
      assert s[..c + 1][..c] == s[..c];
      assert Sum(s[..c + 1]) == Sum(s[..c]) + s[c];
      x := x + sizes[c] + (if c < sizes.Length - 1 then gap else 0.0);
      c := c + 1;
    }
  }

  /** The span loop: the sizes of tracks `c0..c1` plus the gaps between them. */
  method SpanOf(sizes: array<real>, gap: real, c0: nat, c1: nat) returns (n: real)
    requires c0 <= c1 < sizes.Length
    ensures n == Span(sizes[..], gap, c0, c1)
  {
    n := 0.0;
    var c := c0;
    while c <= c1
      invariant c0 <= c <= c1 + 1
      invariant n == Sum(sizes[c0..c])
    {
      assert sizes[c0..c + 1][..c - c0] == sizes[c0..c];
      assert Sum(sizes[c0..c + 1]) == Sum(sizes[c0..c]) + sizes[c];
      n := n + sizes[c];
      c := c + 1;
    }
    assert c == c1 + 1 && sizes[..][c0..c1 + 1] == sizes[c0..c];
    n := n + gap * (c1 - c0) as real;
  }

  /** The body of the cell pass: clamp the cell to the grid and measure its span. */
  method CellBoxOf(cw: array<real>, rh: array<real>, colX: array<real>, rowY: array<real>,
                   gapX: real, gapY: real, cell: Cell, ghost g: Geometry)
    returns (b: Box)
    requires GeometryOk(g) && cell.rowSpan >= 1 && cell.colSpan >= 1 && gapX == g.gapX && gapY == g.gapY
    requires cw[..] == g.cw && rh[..] == g.rh && colX.Length == cw.Length && rowY.Length == rh.Length
    requires forall c :: 0 <= c < cw.Length ==> colX[c] == Origin(g.x0, g.cw, g.gapX, c)
    requires forall c :: 0 <= c < rh.Length ==> rowY[c] == Origin(g.y0, g.rh, g.gapY, c)
    ensures b == CellBox(g, cell)
  {
    var rows := rh.Length;
    var cols := cw.Length;
    var r0 := Clamp(cell.row, 0, rows - 1);
    var c0 := Clamp(cell.col, 0, cols - 1);
    var r1 := Clamp(r0 + cell.rowSpan - 1, 0, rows - 1);
    var c1 := Clamp(c0 + cell.colSpan - 1, 0, cols - 1);
    var nx := colX[c0];
    var ny := rowY[r0];
    var nw := SpanOf(cw, gapX, c0, c1);
    var nh := SpanOf(rh, gapY, r0, r1);
    b := Box(nx, ny, nw, nh);
  }

  /** The cell pass: each visible cell's node gets its cell's box; nothing else changes. */
  method PlaceAll(ns: map<Id, Node>, cells: seq<Cell>, cw: array<real>, rh: array<real>,
                  colX: array<real>, rowY: array<real>, gapX: real, gapY: real, ghost g: Geometry)
    returns (r: map<Id, Node>)
    requires GeometryOk(g) && SpansOk(cells) && gapX == g.gapX && gapY == g.gapY
    requires cw[..] == g.cw && rh[..] == g.rh && colX.Length == cw.Length && rowY.Length == rh.Length
    requires forall c :: 0 <= c < cw.Length ==> colX[c] == Origin(g.x0, g.cw, g.gapX, c)
    requires forall c :: 0 <= c < rh.Length ==> rowY[c] == Origin(g.y0, g.rh, g.gapY, c)
    ensures r == PlaceCells(ns, g, cells)
  {
    r := ns;
    var i := 0;
    while i < |cells|
      invariant 0 <= i <= |cells|
      invariant r == PlaceCells(ns, g, cells[..i])
    {
      var cell := cells[i];
      assert cells[..i + 1][..i] == cells[..i] && cells[..i + 1][i] == cell;
      if cell.node in r && r[cell.node].visible {
        assert cell in cells;
        var b := CellBoxOf(cw, rh, colX, rowY, gapX, gapY, cell, g);
        r := r[cell.node := WithBox(r[cell.node], b.x, b.y, b.w, b.h)];
      }
      i := i + 1;
    }
    assert cells[..i] == cells;
  }

  /** The grid's `onLayout`: sizes, origins, then one pass over the cells. */
  method LayoutCells(ns: map<Id, Node>, pane: Node) returns (r: map<Id, Node>)
    requires Shaped(pane.kind)
    ensures r == Layout(ns, pane)
  {
    var k := pane.kind;
    var cw := ComputeSizes(k.cols, ContentW(pane), k.gridGapX, k.colWeights);
    var rh := ComputeSizes(k.rows, ContentH(pane), k.gridGapY, k.rowWeights);
    var colX := Origins(pane.padding.left, cw, k.gridGapX);
    var rowY := Origins(pane.padding.top, rh, k.gridGapY);
    ghost var g := GridGeometry(pane);
    r := PlaceAll(ns, k.cells, cw, rh, colX, rowY, k.gridGapX, k.gridGapY, g);
  }
}

=== FILE: input_manager.dfy ===
/**
 * Keyboard and mouse state polled once per tick (InputManager.java). The AWT listener
 * callbacks become methods taking the event's key code, button, position or wheel rotation.
 * "Pressed" and "released" are edge flags that live until the next `Update`.
 */
module Input {
  const MAX_KEYS := 512
  const MAX_MOUSE_BUTTONS := 8

  predicate InKeyRange(key: int)
  {
    0 <= key < MAX_KEYS
  }

  predicate InButtonRange(button: int)
  {
    0 <= button < MAX_MOUSE_BUTTONS
  }

  class InputManager {
    const keysDown: array<bool>
    const keysPressed: array<bool>
    const keysReleased: array<bool>
    const mouseDown: array<bool>
    const mousePressed: array<bool>
    const mouseReleased: array<bool>
    var mouseX: int
    var mouseY: int
    var mouseDX: int
    var mouseDY: int
    var scroll: int
    /** Mouse position at the last `Update` (or at construction). */
    ghost var anchorX: int
    ghost var anchorY: int

    /** The six flag arrays have their fixed sizes and are distinct; the deltas are measured from the anchor. */
    ghost predicate Valid()
      reads this
    {
      keysDown.Length == MAX_KEYS && keysPressed.Length == MAX_KEYS && keysReleased.Length == MAX_KEYS &&
      mouseDown.Length == MAX_MOUSE_BUTTONS && mousePressed.Length == MAX_MOUSE_BUTTONS &&
      mouseReleased.Length == MAX_MOUSE_BUTTONS &&
      keysDown != keysPressed && keysDown != keysReleased && keysPressed != keysReleased &&
      mouseDown != mousePressed && mouseDown != mouseReleased && mousePressed != mouseReleased &&
      mouseDX == mouseX - anchorX && mouseDY == mouseY - anchorY
    }

    constructor ()
      ensures Valid()
      ensures fresh(keysDown) && fresh(keysPressed) && fresh(keysReleased)
      ensures fresh(mouseDown) && fresh(mousePressed) && fresh(mouseReleased)
      ensures forall k :: 0 <= k < MAX_KEYS ==> !keysDown[k] && !keysPressed[k] && !keysReleased[k]
      ensures forall b :: 0 <= b < MAX_MOUSE_BUTTONS ==> !mouseDown[b] && !mousePressed[b] && !mouseReleased[b]
      ensures mouseX == 0 && mouseY == 0 && mouseDX == 0 && mouseDY == 0 && scroll == 0
    {
      keysDown := new bool[MAX_KEYS](_ => false);
      keysPressed := new bool[MAX_KEYS](_ => false);
      keysReleased := new bool[MAX_KEYS](_ => false);
      mouseDown := new bool[MAX_MOUSE_BUTTONS](_ => false);
      mousePressed := new bool[MAX_MOUSE_BUTTONS](_ => false);
      mouseReleased := new bool[MAX_MOUSE_BUTTONS](_ => false);
      mouseX, mouseY, mouseDX, mouseDY, scroll := 0, 0, 0, 0, 0;
      anchorX, anchorY := 0, 0;
    }

    /** Once per tick: every edge flag is cleared and the accumulators restart; held state and position stay. */
    method Update()
      requires Valid()
      modifies keysPressed, keysReleased, mousePressed, mouseReleased
      modifies this`mouseDX, this`mouseDY, this`scroll, this`anchorX, this`anchorY
      ensures Valid()
      ensures forall k :: 0 <= k < MAX_KEYS ==> !keysPressed[k] && !keysReleased[k]
      ensures forall b :: 0 <= b < MAX_MOUSE_BUTTONS ==> !mousePressed[b] && !mouseReleased[b]
      ensures mouseDX == 0 && mouseDY == 0 && scroll == 0
      ensures anchorX == mouseX && anchorY == mouseY
    {
      for i := 0 to MAX_KEYS
        invariant forall k :: 0 <= k < i ==> !keysPressed[k] && !keysReleased[k]
      {
        keysPressed[i] := false;
        keysReleased[i] := false;
      }
      for i := 0 to MAX_MOUSE_BUTTONS
        invariant forall b :: 0 <= b < i ==> !mousePressed[b] && !mouseReleased[b]
        invariant forall k :: 0 <= k < MAX_KEYS ==> !keysPressed[k] && !keysReleased[k]
      {
        mousePressed[i] := false;
        mouseReleased[i] := false;
      }
      mouseDX, mouseDY, scroll := 0, 0, 0;
      anchorX, anchorY := mouseX, mouseY;
    }

    function IsKeyDown(key: int): (b: bool)
      requires Valid()
      reads this, keysDown
      ensures b ==> InKeyRange(key)
    {
      InKeyRange(key) && keysDown[key]
    }

    function IsKeyPressed(key: int): (b: bool)
      requires Valid()
      reads this, keysPressed
      ensures b ==> InKeyRange(key)
    {
      InKeyRange(key) && keysPressed[key]
    }

    function IsKeyReleased(key: int): (b: bool)
      requires Valid()
      reads this, keysReleased
      ensures b ==> InKeyRange(key)
    {
      InKeyRange(key) && keysReleased[key]
    }

    function IsMouseDown(button: int): (b: bool)
      requires Valid()
      reads this, mouseDown
      ensures b ==> InButtonRange(button)
    {
      InButtonRange(button) && mouseDown[button]
    }

    function IsMousePressed(button: int): (b: bool)
      requires Valid()
      reads this, mousePressed
      ensures b ==> InButtonRange(button)
    {
      InButtonRange(button) && mousePressed[button]
    }

    function IsMouseReleased(button: int): (b: bool)
      requires Valid()
      reads this, mouseReleased
      ensures b ==> InButtonRange(button)
    {
      InButtonRange(button) && mouseReleased[button]
    }

    /**
     * `keyPressed`: an in-range key becomes down, and becomes pressed only if it was up before
     * (auto-repeat of a held key does not re-fire). Out-of-range codes are ignored.
     */
    method KeyPressed(key: int)
      requires Valid()
      modifies keysDown, keysPressed
      ensures Valid()
      ensures keysDown[..] == if InKeyRange(key) then old(keysDown[..])[key := true] else old(keysDown[..])
      ensures keysPressed[..] ==
                if InKeyRange(key) && !old(keysDown[key]) then old(keysPressed[..])[key := true] else old(keysPressed[..])
      ensures IsKeyDown(key) <==> InKeyRange(key)
      ensures IsKeyPressed(key) <==> InKeyRange(key) && (old(keysPressed[key]) || !old(keysDown[key]))
    {
      if 0 <= key < MAX_KEYS {
        if !keysDown[key] {
          keysPressed[key] := true;
        }
        keysDown[key] := true;
      }
    }

    /** `keyReleased`: an in-range key becomes up and released. */
    method KeyReleased(key: int)
      requires Valid()
      modifies keysDown, keysReleased
      ensures Valid()
      ensures keysDown[..] == if InKeyRange(key) then old(keysDown[..])[key := false] else old(keysDown[..])
      ensures keysReleased[..] == if InKeyRange(key) then old(keysReleased[..])[key := true] else old(keysReleased[..])
      ensures !IsKeyDown(key) && (IsKeyReleased(key) <==> InKeyRange(key))
    {
      if 0 <= key < MAX_KEYS {
        keysDown[key] := false;
        keysReleased[key] := true;
      }
    }

    /** `mousePressed`: the key rule over buttons 0..7. */
    method MousePressed(button: int)
      requires Valid()
      modifies mouseDown, mousePressed
      ensures Valid()
      ensures mouseDown[..] == if InButtonRange(button) then old(mouseDown[..])[button := true] else old(mouseDown[..])
      ensures mousePressed[..] ==
                if InButtonRange(button) && !old(mouseDown[button]) then old(mousePressed[..])[button := true]
                else old(mousePressed[..])
      ensures IsMouseDown(button) <==> InButtonRange(button)
      ensures IsMousePressed(button) <==> InButtonRange(button) && (old(mousePressed[button]) || !old(mouseDown[button]))
    {
      if 0 <= button < MAX_MOUSE_BUTTONS {
        if !mouseDown[button] {
          mousePressed[button] := true;
        }
        mouseDown[button] := true;
      }
    }

    /** `mouseReleased`: an in-range button becomes up and released. */
    method MouseReleased(button: int)
      requires Valid()
      modifies mouseDown, mouseReleased
      ensures Valid()
      ensures mouseDown[..] == if InButtonRange(button) then old(mouseDown[..])[button := false] else old(mouseDown[..])
      ensures mouseReleased[..] ==
                if InButtonRange(button) then old(mouseReleased[..])[button := true] else old(mouseReleased[..])
      ensures !IsMouseDown(button) && (IsMouseReleased(button) <==> InButtonRange(button))
    {
      if 0 <= button < MAX_MOUSE_BUTTONS {
        mouseDown[button] := false;
        mouseReleased[button] := true;
      }
    }

    /** `mouseMoved` (and `mouseDragged`, which delegates to it): the deltas accumulate the movement. */
    method MouseMoved(x: int, y: int)
      requires Valid()
      modifies this`mouseX, this`mouseY, this`mouseDX, this`mouseDY
      ensures Valid()
      ensures mouseX == x && mouseY == y
      ensures mouseDX == old(mouseDX) + (x - old(mouseX)) && mouseDY == old(mouseDY) + (y - old(mouseY))
    {
      mouseDX := mouseDX + (x - mouseX);
      mouseDY := mouseDY + (y - mouseY);
      mouseX := x;
      mouseY := y;
    }

    method MouseDragged(x: int, y: int)
      requires Valid()
      modifies this`mouseX, this`mouseY, this`mouseDX, this`mouseDY
      ensures Valid()
      ensures mouseX == x && mouseY == y
      ensures mouseDX == old(mouseDX) + (x - old(mouseX)) && mouseDY == old(mouseDY) + (y - old(mouseY))
    {
      MouseMoved(x, y);
    }

    /** `mouseWheelMoved`: rotations add into the scroll accumulator. */
    method MouseWheelMoved(rotation: int)
      requires Valid()
      modifies this`scroll
      ensures Valid()
      ensures scroll == old(scroll) + rotation
    {
      scroll := scroll + rotation;
    }
  }
}

=== FILE: insets.dfy ===
/** Immutable padding value of a UI node (ui/Insets.java). */
module UIInsets {
  datatype Insets = Insets(left: real, top: real, right: real, bottom: real)
  {
    /** Combined left and right padding. */
    function Horizontal(): real { left + right }
    /** Combined top and bottom padding. */
    function Vertical(): real { top + bottom }
  }

  /** The shared zero padding every node starts with. */
  const ZERO: Insets := Insets(0.0, 0.0, 0.0, 0.0)

  /** The same padding on every side. */
  function All(v: real): (r: Insets)
    ensures r.Horizontal() == 2.0 * v && r.Vertical() == 2.0 * v
    ensures r.left == r.top == r.right == r.bottom == v
  {
    Insets(v, v, v, v)
  }

  /** `h` on the left and right, `v` on the top and bottom. */
  function Hv(h: real, v: real): (r: Insets)
    ensures r.Horizontal() == 2.0 * h && r.Vertical() == 2.0 * v
    ensures r.left == r.right == h && r.top == r.bottom == v
  {
    Insets(h, v, h, v)
  }

  lemma ZeroHasNoExtent()
    ensures ZERO.Horizontal() == 0.0 && ZERO.Vertical() == 0.0
    ensures All(0.0) == ZERO && Hv(0.0, 0.0) == ZERO
  {
  }
}

=== FILE: java_strings.dfy ===
/**
 * The few java.lang.String / Character operations the assets code relies on:
 * `trim`, `isBlank` and the `\s+` split.
 */
module JavaStrings {
  /** `String.trim` removes characters at or below U+0020 from both ends. */
  predicate TrimmedChar(c: char) { c <= ' ' }

  /** Leading trimmable characters removed; the rest is a suffix of the input. */
  function TrimLeading(s: string): (r: string)
    ensures |r| <= |s| && r == s[|s| - |r|..]
    ensures forall k :: 0 <= k < |s| - |r| ==> TrimmedChar(s[k])
    ensures r == [] || !TrimmedChar(r[0])
  {
    if s == [] || !TrimmedChar(s[0]) then s else TrimLeading(s[1..])
  }

  /** Trailing trimmable characters removed; the rest is a prefix of the input. */
  function TrimTrailing(s: string): (r: string)
    ensures |r| <= |s| && r == s[..|r|]
    ensures forall k :: |r| <= k < |s| ==> TrimmedChar(s[k])
    ensures r == [] || !TrimmedChar(r[|r| - 1])
  {
    if s == [] || !TrimmedChar(s[|s| - 1]) then s else TrimTrailing(s[..|s| - 1])
  }

  /** `r` is `s[i..j]`, and every character of `s` outside that slice is trimmable. */
  predicate TrimmedSlice(s: string, r: string, i: int, j: int)
  {
    0 <= i <= j <= |s| && r == s[i..j]
    && (forall k :: 0 <= k < i ==> TrimmedChar(s[k]))
    && (forall k :: j <= k < |s| ==> TrimmedChar(s[k]))
  }

  /** `String.trim`: it starts and ends with a kept character, or is empty. */
  function Trim(s: string): (r: string)
    ensures r == [] || (!TrimmedChar(r[0]) && !TrimmedChar(r[|r| - 1]))
  {
    TrimTrailing(TrimLeading(s))
  }

  /**
   * The trim is the slice left after dropping every trimmable character at either end: with
   * its first and last characters kept, no longer slice has only trimmable characters outside.
   */
  lemma TrimDropsOnlyTrimmable(s: string)
    ensures exists i, j :: TrimmedSlice(s, Trim(s), i, j)
  {
    var a := TrimLeading(s);
    var r := TrimTrailing(a);
    assert r == Trim(s);
    var i := |s| - |a|;
    SliceOfSuffix(s, i, |r|);
    DroppedBack(s, a, i, |r|);
    assert TrimmedSlice(s, r, i, i + |r|);
  }

  lemma SliceOfSuffix(s: string, i: nat, n: nat)
    requires i + n <= |s|
    ensures s[i..][..n] == s[i..i + n]
  {
  }

  /** Characters dropped from the back of the suffix `s[i..]` are dropped from the back of `s`. */
  lemma DroppedBack(s: string, a: string, i: nat, n: nat)
    requires i <= |s| && a == s[i..] && n <= |a|
    requires forall k :: n <= k < |a| ==> TrimmedChar(a[k])
    ensures forall k :: i + n <= k < |s| ==> TrimmedChar(s[k])
  {
    forall k | i + n <= k < |s| ensures TrimmedChar(s[k]) {
      assert s[k] == a[k - i];
    }
  }

  /** A string that starts and ends with a kept character is its own trim. */
  lemma {:induction false} TrimFixpoint(s: string)
    requires s == [] || (!TrimmedChar(s[0]) && !TrimmedChar(s[|s| - 1]))
    ensures Trim(s) == s
  {
  }

  /** Trimming twice is trimming once. */
  lemma TrimIdempotent(s: string)
    ensures Trim(Trim(s)) == Trim(s)
  {
    TrimFixpoint(Trim(s));
  }

  /** `Character.isWhitespace`: the ASCII controls TAB..CR and FS..US, and the Unicode space,
   *  line and paragraph separators except the three no-break spaces. */
  predicate IsWhitespace(c: char)
  {
    ('\U{9}' <= c <= '\U{D}') || ('\U{1C}' <= c <= '\U{1F}') || c == ' '
    || c == '\U{1680}' || ('\U{2000}' <= c <= '\U{2006}') || ('\U{2008}' <= c <= '\U{200A}')
    || c == '\U{2028}' || c == '\U{2029}' || c == '\U{205F}' || c == '\U{3000}'
  }

  /** `String.isBlank`: empty or whitespace only. */
  predicate IsBlank(s: string)
  {
    forall k :: 0 <= k < |s| ==> IsWhitespace(s[k])
  }

  /** The regular-expression class `\s`: space, TAB, LF, VT, FF, CR. */
  predicate RegexSpace(c: char)
  {
    c == ' ' || c == '\t' || c == '\n' || c == '\U{B}' || c == '\U{C}' || c == '\r'
  }

  /** Length of the leading run of non-`\s` characters. */
  function TokenLength(s: string): (n: nat)
    ensures n <= |s|
    ensures forall k :: 0 <= k < n ==> !RegexSpace(s[k])
    ensures n == |s| || RegexSpace(s[n])
  {
    if s == [] || RegexSpace(s[0]) then 0 else 1 + TokenLength(s[1..])
  }

  /** Length of the leading run of `\s` characters. */
  function SpaceLength(s: string): (n: nat)
    ensures n <= |s|
    ensures forall k :: 0 <= k < n ==> RegexSpace(s[k])
    ensures n == |s| || !RegexSpace(s[n])
  {
    if s == [] || !RegexSpace(s[0]) then 0 else 1 + SpaceLength(s[1..])
  }

  /** A field of the split: non-empty and free of `\s` characters. */
  predicate IsField(t: string)
  {
    t != [] && forall k :: 0 <= k < |t| ==> !RegexSpace(t[k])
  }

  /**
   * `s.split("\\s+")` on a string that is non-empty and does not start with `\s` (a trimmed,
   * non-blank line): the maximal runs of non-`\s` characters, in order. Java's dropping of
   * the trailing empty string is the `tail == []` case.
   */
  function SplitSpaces(s: string): (r: seq<string>)
    requires s != [] && !RegexSpace(s[0])
    ensures r != [] && r[0] != [] && r[0] <= s
    decreases |s|
  {
    var n := TokenLength(s);
    var rest := s[n..];
    var m := SpaceLength(rest);
    var tail := rest[m..];
    if tail == [] then [s[..n]] else [s[..n]] + SplitSpaces(tail)
  }

  /** Every field of the split is non-empty and free of `\s` characters. */
  lemma {:induction false} SplitSpacesFields(s: string)
    requires s != [] && !RegexSpace(s[0])
    ensures forall t :: t in SplitSpaces(s) ==> IsField(t)
    decreases |s|
  {
    var n := TokenLength(s);
    assert IsField(s[..n]);
    var rest := s[n..];
    var m := SpaceLength(rest);
    var tail := rest[m..];
    if tail != [] {
      SplitSpacesFields(tail);
    }
  }

  /** Fields joined by single spaces, the inverse of the split. */
  function JoinSpaces(ts: seq<string>): (s: string)
    ensures ts != [] ==> |s| >= |ts[0]| && s[..|ts[0]|] == ts[0]
    ensures ts != [] && ts[0] != [] ==> s != [] && s[0] == ts[0][0]
  {
    if ts == [] then [] else if |ts| == 1 then ts[0] else ts[0] + " " + JoinSpaces(ts[1..])
  }

  /** The leading token of a token followed by a space, or by nothing, is that token. */
  lemma {:induction false} TokenLengthOfToken(t: string, u: string)
    requires forall k :: 0 <= k < |t| ==> !RegexSpace(t[k])
    requires u == [] || RegexSpace(u[0])
    ensures TokenLength(t + u) == |t|
    decreases |t|
  {
    if t == [] {
      assert t + u == u;
    } else {
      assert (t + u)[0] == t[0];
      assert (t + u)[1..] == t[1..] + u;
      TokenLengthOfToken(t[1..], u);
    }
  }

  /** A field on its own splits into itself. */
  lemma SplitOne(t: string)
    requires IsField(t)
    ensures SplitSpaces(t) == [t]
  {
    TokenLengthOfToken(t, []);
    assert t + [] == t;
  }

  /** A field, a single space and more text split into that field and the split of the rest. */
  lemma SplitStep(t: string, w: string)
    requires IsField(t)
    requires w != [] && !RegexSpace(w[0])
    ensures SplitSpaces(t + " " + w) == [t] + SplitSpaces(w)
  {
    var s := t + " " + w;
    var rest := " " + w;
    assert s == t + rest;
    TokenLengthOfToken(t, rest);
    assert s[..|t|] == t && s[|t|..] == rest;
    assert rest[1] == w[0];
    assert rest[1..] == w;
  }

  lemma HeadTail(ts: seq<string>)
    requires ts != []
    ensures [ts[0]] + ts[1..] == ts
  {
  }

  /** Splitting non-empty, space-free fields joined by single spaces gives the fields back. */
  lemma {:induction false} SplitJoin(ts: seq<string>)
    requires ts != []
    requires forall i :: 0 <= i < |ts| ==> IsField(ts[i])
    ensures JoinSpaces(ts) != [] && !RegexSpace(JoinSpaces(ts)[0])
    ensures SplitSpaces(JoinSpaces(ts)) == ts
    decreases |ts|
  {
    if |ts| == 1 {
      SplitOne(ts[0]);
    } else {
      var w := JoinSpaces(ts[1..]);
      SplitJoin(ts[1..]);
      SplitStep(ts[0], w);
      assert JoinSpaces(ts) == ts[0] + " " + w;
      HeadTail(ts);
    }
  }
}

/** `Integer.parseInt` on ASCII decimal text, with the 32-bit range check. */
module JavaIntegers {
  import opened Base

  predicate IsDigit(c: char) { '0' <= c <= '9' }

  predicate AllDigits(s: string) { forall k :: 0 <= k < |s| ==> IsDigit(s[k]) }

  function DigitValue(c: char): nat
    requires IsDigit(c)
  {
    (c as int) - ('0' as int)
  }

  function DigitChar(d: nat): (c: char)
    requires d < 10
    ensures IsDigit(c) && DigitValue(c) == d
  {
    (('0' as int) + d) as char
  }

  /** The value of a string of decimal digits, most significant first. */
  function DigitsValue(s: string): nat
    requires AllDigits(s)
  {
    if s == [] then 0 else DigitsValue(s[..|s| - 1]) * 10 + DigitValue(s[|s| - 1])
  }

  const MIN_INT: int := -0x8000_0000
  const MAX_INT: int := 0x7FFF_FFFF

  /**
   * An optional '+' or '-' followed by at least one digit, and a value that fits a Java int;
   * anything else is a NumberFormatException (None).
   */
  function ParseInt(s: string): (r: Option<int>)
    ensures r.Some? ==> MIN_INT <= r.value <= MAX_INT
    ensures r.Some? ==> |s| > 0 && (IsDigit(s[0]) || s[0] == '-' || s[0] == '+')
  {
    if s == [] then None
    else
      var neg := s[0] == '-';
      var digits := if s[0] == '-' || s[0] == '+' then s[1..] else s;
      if digits == [] || !AllDigits(digits) then None
      else
        var d: int := DigitsValue(digits);
        var v := if neg then -d else d;
        if MIN_INT <= v <= MAX_INT then Some(v) else None
  }

  /** Decimal text of a natural number, without sign or leading zeros. */
  function DecimalString(n: nat): (s: string)
    ensures |s| > 0 && AllDigits(s)
  {
    if n < 10 then [DigitChar(n)] else DecimalString(n / 10) + [DigitChar(n % 10)]
  }

  /** Reading back the decimal text of a number gives the number. */
  lemma {:induction false} DigitsOfDecimal(n: nat)
    ensures DigitsValue(DecimalString(n)) == n
  {
    var s := DecimalString(n);
    if n >= 10 {
      DigitsOfDecimal(n / 10);
      assert s[..|s| - 1] == DecimalString(n / 10);
    }
  }

  /** `Integer.parseInt` accepts the decimal text of every int, with a '-' for negatives. */
  lemma ParseDecimal(v: int)
    requires MIN_INT <= v <= MAX_INT
    ensures v >= 0 ==> ParseInt(DecimalString(v)) == Some(v)
    ensures v < 0 ==> ParseInt("-" + DecimalString(-v)) == Some(v)
  {
    if v >= 0 {
      DigitsOfDecimal(v);
    } else {
      DigitsOfDecimal(-v);
      assert ("-" + DecimalString(-v))[1..] == DecimalString(-v);
    }
  }

  /** A lone sign and an empty string are rejected, and so is every number beyond 32 bits. */
  lemma ParseIntRejects(n: nat)
    requires n > MAX_INT
    ensures ParseInt("") == None && ParseInt("-") == None && ParseInt("+") == None
    ensures ParseInt(DecimalString(n)) == None
  {
    DigitsOfDecimal(n);
  }
}

=== FILE: key_codes.dfy ===
/** The AWT virtual key codes (java.awt.event.KeyEvent) the widgets and the UI root react to. */
module KeyCodes {
  const VK_BACK_SPACE := 8
  const VK_TAB := 9
  const VK_SHIFT := 16
  const VK_ENTER := 10
  const VK_SPACE := 32
  const VK_END := 35
  const VK_HOME := 36
  const VK_LEFT := 37
  const VK_RIGHT := 39
  const VK_DELETE := 127
}

=== FILE: rectf.dfy ===
/** Axis-aligned rectangle (math/Rectf.java), used here as a value. */
module Rects {
  datatype Rectf = Rectf(x: real, y: real, w: real, h: real)
  {
    function Left(): real { x }
    function Right(): real { x + w }
    function Top(): real { y }
    function Bottom(): real { y + h }

    /** Inclusive containment: points on every edge are inside. */
    predicate Contains(px: real, py: real)
    {
      px >= x && py >= y && px <= x + w && py <= y + h
    }
  }

  /** The no-argument constructor: a degenerate rectangle at the origin. */
  const EMPTY: Rectf := Rectf(0.0, 0.0, 0.0, 0.0)

  /** Containment is exactly "between the edges" on both axes. */
  lemma ContainsIsBetweenEdges(r: Rectf, px: real, py: real)
    ensures r.Contains(px, py) <==> r.Left() <= px <= r.Right() && r.Top() <= py <= r.Bottom()
  {
  }

  /** Edges are inclusive: all four corners are inside a rectangle of non-negative size. */
  lemma CornersInside(r: Rectf)
    requires r.w >= 0.0 && r.h >= 0.0
    ensures r.Contains(r.Left(), r.Top()) && r.Contains(r.Right(), r.Top())
    ensures r.Contains(r.Left(), r.Bottom()) && r.Contains(r.Right(), r.Bottom())
  {
  }

  /** A rectangle with negative width or height contains no point. */
  lemma NegativeSizeContainsNothing(r: Rectf, px: real, py: real)
    requires r.w < 0.0 || r.h < 0.0
    ensures !r.Contains(px, py)
  {
  }

  /** The default rectangle contains exactly the origin. */
  lemma EmptyContainsOnlyOrigin(px: real, py: real)
    ensures EMPTY.Contains(px, py) <==> px == 0.0 && py == 0.0
  {
  }
}

=== FILE: resources.dfy ===
/** Class-path resource path normalisation (assets/Resources.java); the loading itself is I/O and not modelled. */
module Resources {
  import opened Base
  import opened JavaStrings

  /**
   * `normalize`: a null path is a NullPointerException; otherwise the path is trimmed and
   * one leading '/' is dropped.
   */
  function Normalize(path: Option<string>): (r: Result<string, JavaError>)
    ensures path.None? <==> r == Err(NullPointer)
    ensures path.Some? ==> r.Ok? && |r.value| <= |Trim(path.value)|
    ensures path.Some? ==> r.value == Trim(path.value)[|Trim(path.value)| - |r.value|..]
    ensures path.Some? ==> |Trim(path.value)| - |r.value| == (if StartsWithSlash(Trim(path.value)) then 1 else 0)
  {
    match path
    case None => Err(NullPointer)
    case Some(p) =>
      var t := Trim(p);
      if StartsWithSlash(t) then Ok(t[1..]) else Ok(t)
  }

  predicate StartsWithSlash(s: string) { |s| > 0 && s[0] == '/' }

  /**
   * A path is left unchanged exactly when it is already trimmed and does not start with '/'.
   * Normalising is therefore not idempotent: "//a" becomes "/a", and "/ a" becomes " a".
   */
  lemma NormalizeFixpoints(q: string)
    ensures Normalize(Some(q)) == Ok(q) <==> Trim(q) == q && !StartsWithSlash(q)
  {
  }

  /** Only one leading slash is stripped. */
  lemma DoubleSlashKeepsOne()
    ensures Normalize(Some("//a")) == Ok("/a")
  {
    assert Trim("//a") == "//a" by { TrimFixpoint("//a"); }
  }
}

=== FILE: root_pass.dfy ===
/**
 * What one call of `UIRoot.handleInput` (ui/UIRoot.java) does, as functions over a value: the
 * node arena, the callbacks fired so far, the hovered, pressed and focused references and the
 * `consumed` flag. The class in module UIRoots is proved to follow these functions; the lemmas
 * here say what the functions guarantee.
 *
 * The node handlers (`onMouseMove`, `onMouseDown`, ...) are code the model does not see: each
 * fired callback is recorded as an `Event`, and what the handler answers is the parameter
 * `answer`.
 */
module RootInput {
  import opened Base
  import opened KeyCodes
  import opened UINodes
  import opened UITree
  import opened UILayout
  import Input

  /** The state one input pass works on. */
  datatype Pass = Pass(nodes: map<Id, Node>, events: seq<Event>, hovered: Option<Id>, pressed: Option<Id>,
                       focused: Option<Id>, consumed: bool)

  /** The input state the pass polls: the mouse, the edge flags of buttons and keys, Shift, the typed text. */
  datatype Polled = Polled(mx: real, my: real, buttonsPressed: set<int>, buttonsReleased: set<int>, scroll: int,
                           keysPressed: set<int>, keysReleased: set<int>, shift: bool, typed: Option<string>)

  /** What a handler answers to a callback: whether it consumed the input. */
  type Answer = Event -> bool

  /** The three references name nodes of the arena. */
  predicate Tracked(u: Pass)
  {
    (u.hovered.Some? ==> u.hovered.value in u.nodes) &&
    (u.pressed.Some? ==> u.pressed.value in u.nodes) &&
    (u.focused.Some? ==> u.focused.value in u.nodes)
  }

  /**
   * The references agree with the nodes' own flags: the hovered and the pressed node carry
   * their flag, and exactly the focused node, and no other, is marked focused.
   */
  predicate Coherent(u: Pass)
  {
    Tracked(u) &&
    (u.hovered.Some? ==> u.nodes[u.hovered.value].hovered) &&
    (u.pressed.Some? ==> u.nodes[u.pressed.value].pressed) &&
    forall k :: k in u.nodes ==> (u.nodes[k].focused <==> u.focused == Some(k))
  }

  /** A node with its three interaction flags cleared: what the flags leave unchanged. */
  function Unflagged(n: Node): Node
  {
    n.(hovered := false, pressed := false, focused := false)
  }

  /** The arenas differ at most in the hovered, pressed and focused flags of their nodes. */
  predicate FlagsOnly(ns: map<Id, Node>, ns': map<Id, Node>)
  {
    ns'.Keys == ns.Keys && forall k {:trigger Unflagged(ns'[k])} :: k in ns ==> Unflagged(ns'[k]) == Unflagged(ns[k])
  }

  /** The arenas agree on the hovered, pressed and focused flags of every node. */
  predicate SameFlags(ns: map<Id, Node>, ns': map<Id, Node>)
  {
    ns'.Keys == ns.Keys &&
    forall k :: k in ns ==> ns'[k].hovered == ns[k].hovered && ns'[k].pressed == ns[k].pressed && ns'[k].focused == ns[k].focused
  }

  /** Callbacks are only ever appended. */
  predicate Extends(u: Pass, r: Pass)
  {
    |u.events| <= |r.events| && r.events[..|u.events|] == u.events
  }

  /** What every step of the pass keeps: only flags change, callbacks are appended, consumption sticks. */
  predicate Grows(u: Pass, r: Pass)
  {
    FlagsOnly(u.nodes, r.nodes) && Extends(u, r) && (u.consumed ==> r.consumed)
  }

  lemma GrowsTrans(a: Pass, b: Pass, c: Pass)
    requires Grows(a, b) && Grows(b, c)
    ensures Grows(a, c)
  {
    assert c.events[..|a.events|] == c.events[..|b.events|][..|a.events|];
  }

  // ---------------------------------------------------------------------------------------------
  // The node setters and the callbacks

  /** `setHovered(v)`: on a change the flag flips and `onMouseEnter` or `onMouseExit` fires. */
  function Hover(u: Pass, id: Id, v: bool): (r: Pass)
    requires id in u.nodes
    ensures Grows(u, r) && r.hovered == u.hovered && r.pressed == u.pressed && r.focused == u.focused
  {
    var n := u.nodes[id];
    if n.hovered == v then u
    else u.(nodes := u.nodes[id := n.(hovered := v)], events := u.events + [if v then MouseEnter(id) else MouseExit(id)])
  }

  /** `setPressed(v)`. */
  function Press(u: Pass, id: Id, v: bool): (r: Pass)
    requires id in u.nodes
    ensures Grows(u, r) && r.events == u.events && r.hovered == u.hovered && r.pressed == u.pressed && r.focused == u.focused
  {
    u.(nodes := u.nodes[id := u.nodes[id].(pressed := v)])
  }

  /** `setFocused(v)`. */
  function Mark(u: Pass, id: Id, v: bool): (r: Pass)
    requires id in u.nodes
    ensures Grows(u, r) && r.events == u.events && r.hovered == u.hovered && r.pressed == u.pressed && r.focused == u.focused
  {
    u.(nodes := u.nodes[id := u.nodes[id].(focused := v)])
  }

  /** `consumed |= handler(...)`: the callback fires and its answer joins the flag. */
  function Fire(u: Pass, e: Event, answer: Answer): (r: Pass)
    ensures r.events == u.events + [e] && r.consumed == (u.consumed || answer(e))
    ensures Grows(u, r) && r.nodes == u.nodes
  {
    u.(events := u.events + [e], consumed := u.consumed || answer(e))
  }

  /**
   * `setFocus(n)`: nothing when `n` is focused already; otherwise the old node loses its flag and
   * `n`, when given, gains it.
   */
  function Refocus(u: Pass, f: Option<Id>): (r: Pass)
    requires Tracked(u) && (f.Some? ==> f.value in u.nodes)
    ensures Tracked(r) && r.focused == f && Grows(u, r)
    ensures r.events == u.events && r.hovered == u.hovered && r.pressed == u.pressed && r.consumed == u.consumed
  {
    if u.focused == f then u
    else
      var a := if u.focused.Some? then Mark(u, u.focused.value, false) else u;
      var b := a.(focused := f);
      var r := if f.Some? then Mark(b, f.value, true) else b;
      GrowsTrans(u, b, r);
      r
  }

  /** `setFocused(v)` changes the focused flag of that node alone. */
  lemma MarkFlags(u: Pass, id: Id, v: bool)
    requires id in u.nodes
    ensures var r := Mark(u, id, v);
            forall k :: k in u.nodes ==>
              r.nodes[k].hovered == u.nodes[k].hovered && r.nodes[k].pressed == u.nodes[k].pressed &&
              r.nodes[k].focused == if k == id then v else u.nodes[k].focused
  {
  }

  /** `setHovered(v)` changes the hovered flag of that node alone. */
  lemma HoverFlags(u: Pass, id: Id, v: bool)
    requires id in u.nodes
    ensures var r := Hover(u, id, v);
            forall k :: k in u.nodes ==>
              r.nodes[k].pressed == u.nodes[k].pressed && r.nodes[k].focused == u.nodes[k].focused &&
              r.nodes[k].hovered == if k == id then v else u.nodes[k].hovered
  {
  }

  /** `setPressed(v)` changes the pressed flag of that node alone. */
  lemma PressFlags(u: Pass, id: Id, v: bool)
    requires id in u.nodes
    ensures var r := Press(u, id, v);
            forall k :: k in u.nodes ==>
              r.nodes[k].hovered == u.nodes[k].hovered && r.nodes[k].focused == u.nodes[k].focused &&
              r.nodes[k].pressed == if k == id then v else u.nodes[k].pressed
  {
  }

  /**
   * After `setFocus(n)` the references still agree with the flags: exactly `n` is marked
   * focused, and the hovered and pressed nodes keep their flags.
   */
  lemma RefocusCoherent(u: Pass, f: Option<Id>)
    requires Coherent(u) && (f.Some? ==> f.value in u.nodes)
    ensures Coherent(Refocus(u, f))
  {
    if u.focused != f {
      if u.focused.Some? {
        MarkFlags(u, u.focused.value, false);
      }
      var a := if u.focused.Some? then Mark(u, u.focused.value, false) else u;
      var b := a.(focused := f);
      if f.Some? {
        MarkFlags(b, f.value, true);
      }
    }
  }

  // ---------------------------------------------------------------------------------------------
  // Hover

  /**
   * Hover tracking: when the hit differs from the hovered node, the old node is un-hovered and
   * the hit becomes the hovered node and is hovered; then the hovered node, if any, gets the
   * mouse move.
   */
  function Track(u: Pass, hit: Option<Id>, mx: real, my: real, answer: Answer): (r: Pass)
    requires Tracked(u) && (hit.Some? ==> hit.value in u.nodes)
    ensures Tracked(r) && Grows(u, r)
    ensures r.hovered == hit && r.pressed == u.pressed && r.focused == u.focused
  {
    var t := if hit == u.hovered then u else Rehover(u, hit);
    var r := if t.hovered.Some? then Fire(t, MouseMove(t.hovered.value, mx, my), answer) else t;
    GrowsTrans(u, t, r);
    r
  }

  /** The change of hovered node: the old one is un-hovered, then the new one hovered. */
  function Rehover(u: Pass, hit: Option<Id>): (r: Pass)
    requires Tracked(u) && (hit.Some? ==> hit.value in u.nodes)
    ensures Tracked(r) && Grows(u, r)
    ensures r.hovered == hit && r.pressed == u.pressed && r.focused == u.focused
  {
    var a := if u.hovered.Some? then Hover(u, u.hovered.value, false) else u;
    var b := a.(hovered := hit);
    var r := if hit.Some? then Hover(b, hit.value, true) else b;
    GrowsTrans(u, b, r);
    r
  }

  /**
   * The callbacks of the hover step: an unchanged target fires no enter or exit; a changed one
   * fires the exit of the old node (whose flag is set), then the enter of the new one unless its
   * flag was set already; the hovered node then receives the move.
   */
  lemma TrackEvents(u: Pass, hit: Option<Id>, mx: real, my: real, answer: Answer)
    requires Coherent(u) && (hit.Some? ==> hit.value in u.nodes)
    ensures var r := Track(u, hit, mx, my, answer);
            var exit := if hit != u.hovered && u.hovered.Some? then [MouseExit(u.hovered.value)] else [];
            var enter := if hit != u.hovered && hit.Some? && !u.nodes[hit.value].hovered then [MouseEnter(hit.value)] else [];
            var move := if hit.Some? then [MouseMove(hit.value, mx, my)] else [];
            r.events == u.events + exit + enter + move
  {
    if hit != u.hovered {
      if u.hovered.Some? {
        HoverFlags(u, u.hovered.value, false);
      }
    }
  }

  /**
   * The hover step keeps the references coherent; the new hovered node is flagged and a node
   * that stops being hovered loses its flag.
   */
  lemma TrackCoherent(u: Pass, hit: Option<Id>, mx: real, my: real, answer: Answer)
    requires Coherent(u) && (hit.Some? ==> hit.value in u.nodes)
    ensures var r := Track(u, hit, mx, my, answer);
            Coherent(r) && (hit != u.hovered && u.hovered.Some? ==> !r.nodes[u.hovered.value].hovered)
  {
    if hit != u.hovered {
      var a := if u.hovered.Some? then Hover(u, u.hovered.value, false) else u;
      if u.hovered.Some? {
        HoverFlags(u, u.hovered.value, false);
      }
      var b := a.(hovered := hit);
      if hit.Some? {
        HoverFlags(b, hit.value, true);
      }
    }
  }

  // ---------------------------------------------------------------------------------------------
  // Buttons

  /**
   * A press of `btn`: over a hovered, enabled node, that node becomes the pressed node with its
   * flag set, takes the focus when it can, and receives the mouse down.
   */
  function Down(u: Pass, btn: int, answer: Answer): (r: Pass)
    requires Tracked(u)
    ensures Tracked(r) && Grows(u, r) && r.hovered == u.hovered
  {
    if u.hovered.Some? && u.nodes[u.hovered.value].enabled then
      var h := u.hovered.value;
      var a := Press(u, h, true).(pressed := Some(h));
      var b := if CanFocus(a.nodes[h]) then Refocus(a, Some(h)) else a;
      var r := Fire(b, MouseDown(h, btn), answer);
      GrowsTrans(u, a, b);
      GrowsTrans(u, b, r);
      r
    else u
  }

  /**
   * A release of `btn`: the pressed node, if any, is released and receives the mouse up, then
   * the click when it is still the hovered node and is clickable (which counts as consumed);
   * then no node is pressed.
   */
  function Up(u: Pass, btn: int, answer: Answer): (r: Pass)
    requires Tracked(u)
    ensures Tracked(r) && Grows(u, r) && r.hovered == u.hovered && r.focused == u.focused && r.pressed.None?
  {
    if u.pressed.Some? then
      var p := u.pressed.value;
      var a0 := Press(u, p, false);
      var a := Fire(a0, MouseUp(p, btn), answer);
      GrowsTrans(u, a0, a);
      var b := if a.hovered == Some(p) && Clickable(a.nodes[p].kind) then Clicked(a, p, btn) else a;
      GrowsTrans(u, a, b);
      b.(pressed := None)
    else u
  }

  /** `onClick(btn)` on a `Clickable` node: it fires, and the input counts as consumed. */
  function Clicked(u: Pass, p: Id, btn: int): (r: Pass)
    ensures Grows(u, r) && r.nodes == u.nodes && r.consumed
    ensures r.hovered == u.hovered && r.pressed == u.pressed && r.focused == u.focused
  {
    u.(events := u.events + [Click(p, btn)], consumed := true)
  }

  /** One turn of the button loop: the press of `btn`, then its release. */
  function Button(u: Pass, p: Polled, btn: int, answer: Answer): (r: Pass)
    requires Tracked(u)
    ensures Tracked(r) && Grows(u, r) && r.hovered == u.hovered
  {
    var a := if btn in p.buttonsPressed then Down(u, btn, answer) else u;
    var r := if btn in p.buttonsReleased then Up(a, btn, answer) else a;
    GrowsTrans(u, a, r);
    r
  }

  /** The button loop after buttons `1 .. n-1`. */
  function Buttons(u: Pass, p: Polled, n: int, answer: Answer): (r: Pass)
    requires Tracked(u)
    ensures Tracked(r) && Grows(u, r) && r.hovered == u.hovered
    decreases n
  {
    if n <= 1 then u
    else
      var a := Buttons(u, p, n - 1, answer);
      var r := Button(a, p, n - 1, answer);
      GrowsTrans(u, a, r);
      r
  }

  /** One more turn of the button loop. */
  lemma ButtonsNext(u: Pass, p: Polled, n: int, answer: Answer)
    requires Tracked(u) && n >= 1
    ensures Buttons(u, p, n + 1, answer) == Button(Buttons(u, p, n, answer), p, n, answer)
  {
  }

  /** The rest of the button loop, from button `n` up to the last. */
  function ButtonsFrom(u: Pass, p: Polled, n: int, answer: Answer): (r: Pass)
    requires Tracked(u)
    ensures Tracked(r)
    decreases Input.MAX_MOUSE_BUTTONS - n
  {
    if n >= Input.MAX_MOUSE_BUTTONS then u else ButtonsFrom(Button(u, p, n, answer), p, n + 1, answer)
  }

  /** The loop so far, then the rest of it, is the whole loop. */
  lemma {:induction false} ButtonsSplit(u: Pass, p: Polled, n: int, answer: Answer)
    requires Tracked(u) && 1 <= n <= Input.MAX_MOUSE_BUTTONS
    ensures ButtonsFrom(Buttons(u, p, n, answer), p, n, answer) == Buttons(u, p, Input.MAX_MOUSE_BUTTONS, answer)
    decreases Input.MAX_MOUSE_BUTTONS - n
  {
    if n < Input.MAX_MOUSE_BUTTONS {
      ButtonsNext(u, p, n, answer);
      ButtonsSplit(u, p, n + 1, answer);
    }
  }

  /**
   * Pressing: the press takes effect exactly over a hovered, enabled node; that node is then
   * pressed and flagged, and it holds the focus exactly when it can be focused (else the focus
   * stays where it was).
   */
  lemma DownPresses(u: Pass, btn: int, answer: Answer)
    requires Coherent(u)
    ensures var r := Down(u, btn, answer);
            if u.hovered.Some? && u.nodes[u.hovered.value].enabled then
              var h := u.hovered.value;
              r.pressed == Some(h) && r.nodes[h].pressed && r.nodes[h].hovered &&
              r.focused == (if CanFocus(u.nodes[h]) then Some(h) else u.focused) &&
              r.events[|r.events| - 1] == MouseDown(h, btn)
            else r == u
  {
  }

  /**
   * Clicking: a release fires `Click(p)` exactly when `p` was pressed, is still hovered and is
   * clickable; it un-flags the pressed node and always leaves no node pressed.
   */
  lemma UpClicks(u: Pass, btn: int, answer: Answer)
    requires Coherent(u)
    ensures var r := Up(u, btn, answer);
            r.pressed.None? &&
            (u.pressed.None? ==> r == u) &&
            (u.pressed.Some? ==>
               var p := u.pressed.value;
               !r.nodes[p].pressed &&
               r.events[|u.events|] == MouseUp(p, btn) &&
               ((u.hovered == Some(p) && Clickable(u.nodes[p].kind)) <==> r.events == u.events + [MouseUp(p, btn), Click(p, btn)]) &&
               (u.hovered == Some(p) && Clickable(u.nodes[p].kind) ==> r.consumed))
  {
  }

  lemma DownCoherent(u: Pass, btn: int, answer: Answer)
    requires Coherent(u)
    ensures Coherent(Down(u, btn, answer))
  {
    if u.hovered.Some? && u.nodes[u.hovered.value].enabled {
      var h := u.hovered.value;
      PressFlags(u, h, true);
      var a := Press(u, h, true).(pressed := Some(h));
      if CanFocus(a.nodes[h]) {
        RefocusCoherent(a, Some(h));
      }
    }
  }

  lemma UpCoherent(u: Pass, btn: int, answer: Answer)
    requires Coherent(u)
    ensures Coherent(Up(u, btn, answer))
  {
    if u.pressed.Some? {
      PressFlags(u, u.pressed.value, false);
    }
  }

  /**
   * The whole button loop keeps the references coherent: the pressed node is always flagged
   * and exactly the focused node is marked focused.
   */
  lemma {:induction false} ButtonsCoherent(u: Pass, p: Polled, n: int, answer: Answer)
    requires Coherent(u)
    ensures Coherent(Buttons(u, p, n, answer))
    decreases n
  {
    if n > 1 {
      ButtonsCoherent(u, p, n - 1, answer);
      var a := Buttons(u, p, n - 1, answer);
      if n - 1 in p.buttonsPressed {
        DownCoherent(a, n - 1, answer);
      }
      var b := if n - 1 in p.buttonsPressed then Down(a, n - 1, answer) else a;
      if n - 1 in p.buttonsReleased {
        UpCoherent(b, n - 1, answer);
      }
    }
  }

  /** The wheel: a non-zero amount goes to the hovered node. */
  function Wheel(u: Pass, amount: int, answer: Answer): (r: Pass)
    requires Tracked(u)
    ensures Tracked(r) && Grows(u, r) && r.nodes == u.nodes
    ensures r.hovered == u.hovered && r.pressed == u.pressed && r.focused == u.focused
    ensures r.events == u.events + if amount != 0 && u.hovered.Some? then [MouseWheel(u.hovered.value, amount)] else []
  {
    if amount != 0 && u.hovered.Some? then Fire(u, MouseWheel(u.hovered.value, amount), answer) else u
  }

  // ---------------------------------------------------------------------------------------------
  // Focus traversal

  /** `List.indexOf`: the first position of `x`, or -1. */
  function IndexOf(list: seq<Id>, x: Id): (r: int)
    ensures -1 <= r < |list|
    ensures r == -1 <==> x !in list
    ensures r >= 0 ==> list[r] == x && forall j :: 0 <= j < r ==> list[j] != x
  {
    if |list| == 0 then -1
    else if list[0] == x then 0
    else
      var i := IndexOf(list[1..], x);
      if i == -1 then -1 else i + 1
  }

  /** The step of `focusNext` from position `idx` in a list of `size` entries, wrapping at both ends. */
  function NextIndex(size: nat, idx: int, backwards: bool): (r: nat)
    requires 0 <= idx < size
    ensures r < size
  {
    var next := if backwards then idx - 1 else idx + 1;
    var a := if next < 0 then size - 1 else next;
    if a >= size then 0 else a
  }

  /** The wrap-around is arithmetic modulo the list length, in both directions. */
  lemma NextIndexModular(size: nat, idx: int, backwards: bool)
    requires 0 <= idx < size
    ensures NextIndex(size, idx, backwards) == if backwards then (idx - 1 + size) % size else (idx + 1) % size
  {
    if backwards {
      ModBelowTwice(idx - 1 + size, size);
    } else {
      ModBelowTwice(idx + 1, size);
    }
  }

  /** Below twice the modulus, the remainder takes the modulus off at most once. */
  lemma ModBelowTwice(a: int, n: int)
    requires 0 < n && 0 <= a < 2 * n
    ensures a % n == if a < n then a else a - n
  {
    var q, r := a / n, a % n;
    assert a == n * q + r && 0 <= r < n;
    if q <= 0 {
      assert n * q <= 0;
    }
    assert q == if a < n then 0 else 1;
  }

  /** Stepping forwards then backwards comes back: Tab and Shift+Tab undo each other. */
  lemma NextIndexInverse(size: nat, idx: int, backwards: bool)
    requires 0 <= idx < size
    ensures NextIndex(size, NextIndex(size, idx, backwards), !backwards) == idx
  {
  }

  /**
   * `focusNext`: an empty list clears the focus; otherwise the focus moves one entry on (or
   * back) from the focused entry, or from entry 0 when the focus is not in the list.
   */
  function FocusNext(u: Pass, list: seq<Id>, backwards: bool): (r: Pass)
    requires Tracked(u) && AllIn(list, u.nodes)
    ensures Tracked(r) && Grows(u, r) && r.events == u.events && r.consumed == u.consumed
    ensures r.hovered == u.hovered && r.pressed == u.pressed
    ensures |list| == 0 ==> r.focused.None?
    ensures |list| > 0 ==> r.focused.Some? && r.focused.value in list
  {
    if |list| == 0 then Refocus(u, None)
    else
      var at := if u.focused.Some? then IndexOf(list, u.focused.value) else -1;
      var idx := if at >= 0 then at else 0;
      Refocus(u, Some(list[NextIndex(|list|, idx, backwards)]))
  }

  /**
   * Tab from the focused entry `i` (its first occurrence) focuses entry `i + 1` modulo the
   * length, and Shift+Tab entry `i - 1`; from outside the list it counts from entry 0.
   */
  lemma FocusNextCycles(u: Pass, list: seq<Id>, backwards: bool)
    requires Tracked(u) && AllIn(list, u.nodes) && |list| > 0
    ensures var i := if u.focused.Some? && u.focused.value in list then IndexOf(list, u.focused.value) else 0;
            var j := if backwards then (i - 1 + |list|) % |list| else (i + 1) % |list|;
            0 <= i < |list| && (u.focused.Some? && u.focused.value in list ==> list[i] == u.focused.value) &&
            FocusNext(u, list, backwards).focused == Some(list[j])
  {
    var i := if u.focused.Some? && u.focused.value in list then IndexOf(list, u.focused.value) else 0;
    var at := if u.focused.Some? then IndexOf(list, u.focused.value) else -1;
    assert i == if at >= 0 then at else 0;
    NextIndexModular(|list|, i, backwards);
  }

  /** Tab or Shift+Tab: focus traversal, which always counts as consumed. */
  function Tab(u: Pass, p: Polled, list: seq<Id>): (r: Pass)
    requires Tracked(u) && AllIn(list, u.nodes)
    ensures Tracked(r) && Grows(u, r) && r.events == u.events
    ensures r.hovered == u.hovered && r.pressed == u.pressed
    ensures VK_TAB in p.keysPressed ==> r.consumed
    ensures VK_TAB !in p.keysPressed ==> r == u
  {
    if VK_TAB in p.keysPressed then
      var a := FocusNext(u, list, p.shift);
      var r := a.(consumed := true);
      assert Grows(a, r);
      GrowsTrans(u, a, r);
      r
    else u
  }

  // ---------------------------------------------------------------------------------------------
  // Keys and text

  /** One turn of the key loop: the press of `key`, then its release, both to node `f`. */
  function Key(u: Pass, f: Id, p: Polled, key: int, answer: Answer): (r: Pass)
    ensures Grows(u, r) && r.nodes == u.nodes && r.hovered == u.hovered && r.pressed == u.pressed && r.focused == u.focused
  {
    var a := if key in p.keysPressed then Fire(u, KeyDown(f, key), answer) else u;
    if key in p.keysReleased then Fire(a, KeyUp(f, key), answer) else a
  }

  /** The key loop after keys `0 .. n-1`. */
  function Keys(u: Pass, f: Id, p: Polled, n: int, answer: Answer): (r: Pass)
    ensures Grows(u, r) && r.nodes == u.nodes && r.hovered == u.hovered && r.pressed == u.pressed && r.focused == u.focused
    decreases n
  {
    if n <= 0 then u
    else
      var a := Keys(u, f, p, n - 1, answer);
      var r := Key(a, f, p, n - 1, answer);
      GrowsTrans(u, a, r);
      r
  }

  /**
   * Keys and typed text: only when a node is focused and enabled, the codes `0 .. 511` pressed
   * or released, then the typed text when there is some, go to it.
   */
  function Typing(u: Pass, p: Polled, answer: Answer): (r: Pass)
    requires Tracked(u)
    ensures Tracked(r) && Grows(u, r) && r.nodes == u.nodes && r.hovered == u.hovered && r.pressed == u.pressed && r.focused == u.focused
  {
    if u.focused.Some? && u.nodes[u.focused.value].enabled then
      var f := u.focused.value;
      var a := Keys(u, f, p, Input.MAX_KEYS, answer);
      if p.typed.Some? && |p.typed.value| > 0 then
        var r := Fire(a, TextInput(f, p.typed.value), answer);
        GrowsTrans(u, a, r);
        r
      else a
    else u
  }

  /** The callbacks one turn of the key loop sends for code `k`: its key down, then its key up. */
  function KeyEvents(f: Id, p: Polled, k: int): seq<Event>
  {
    (if k in p.keysPressed then [KeyDown(f, k)] else []) + (if k in p.keysReleased then [KeyUp(f, k)] else [])
  }

  /** The callbacks the key loop has sent after codes `0 .. n-1`. */
  lemma KeysSplit(u: Pass, f: Id, p: Polled, n: int, answer: Answer)
    requires n > 0
    ensures Keys(u, f, p, n, answer).events == Keys(u, f, p, n - 1, answer).events + KeyEvents(f, p, n - 1)
  {
    var a := Keys(u, f, p, n - 1, answer);
    var r := Keys(u, f, p, n, answer);
    assert r.events == a.events + KeyEvents(f, p, n - 1);
  }

  /** The callbacks the key loop sends for codes `0 .. n-1`, in order. */
  function KeyStream(f: Id, p: Polled, n: int): seq<Event>
    decreases n
  {
    if n <= 0 then [] else KeyStream(f, p, n - 1) + KeyEvents(f, p, n - 1)
  }

  /** The key loop appends exactly its stream of callbacks to what was sent before it. */
  lemma {:induction false} KeysStream(u: Pass, f: Id, p: Polled, n: int, answer: Answer)
    ensures Keys(u, f, p, n, answer).events == u.events + KeyStream(f, p, n)
    decreases n
  {
    if n > 0 {
      KeysStream(u, f, p, n - 1, answer);
      KeysSplit(u, f, p, n, answer);
    }
  }

  lemma {:induction false} StreamTarget(f: Id, p: Polled, n: int)
    ensures forall i :: 0 <= i < |KeyStream(f, p, n)| ==>
              KeyStream(f, p, n)[i].node == f && (KeyStream(f, p, n)[i].KeyDown? || KeyStream(f, p, n)[i].KeyUp?)
    decreases n
  {
    if n > 0 {
      StreamTarget(f, p, n - 1);
    }
  }

  lemma {:induction false} StreamDown(f: Id, p: Polled, n: int, k: int)
    ensures KeyDown(f, k) in KeyStream(f, p, n) <==> 0 <= k < n && k in p.keysPressed
    decreases n
  {
    if n > 0 {
      StreamDown(f, p, n - 1, k);
    }
  }

  lemma {:induction false} StreamUp(f: Id, p: Polled, n: int, k: int)
    ensures KeyUp(f, k) in KeyStream(f, p, n) <==> 0 <= k < n && k in p.keysReleased
    decreases n
  {
    if n > 0 {
      StreamUp(f, p, n - 1, k);
    }
  }

  /** The key loop over codes `0 .. n-1` sends only key events, and all of them to `f`. */
  lemma KeysTarget(u: Pass, f: Id, p: Polled, n: int, answer: Answer)
    ensures var r := Keys(u, f, p, n, answer);
            forall i :: |u.events| <= i < |r.events| ==> r.events[i].node == f && (r.events[i].KeyDown? || r.events[i].KeyUp?)
  {
    KeysStream(u, f, p, n, answer);
    StreamTarget(f, p, n);
    var r := Keys(u, f, p, n, answer);
    forall i | |u.events| <= i < |r.events|
      ensures r.events[i].node == f && (r.events[i].KeyDown? || r.events[i].KeyUp?)
    {
      assert r.events[i] == KeyStream(f, p, n)[i - |u.events|];
    }
  }

  /** Node `f` receives the key down of code `k` exactly when `k` is one of `0 .. n-1` and was pressed. */
  lemma KeysDown(u: Pass, f: Id, p: Polled, n: int, answer: Answer, k: int)
    ensures KeyDown(f, k) in Keys(u, f, p, n, answer).events[|u.events|..] <==> 0 <= k < n && k in p.keysPressed
  {
    KeysStream(u, f, p, n, answer);
    StreamDown(f, p, n, k);
    assert Keys(u, f, p, n, answer).events[|u.events|..] == KeyStream(f, p, n);
  }

  /** Node `f` receives the key up of code `k` exactly when `k` is one of `0 .. n-1` and was released. */
  lemma KeysUp(u: Pass, f: Id, p: Polled, n: int, answer: Answer, k: int)
    ensures KeyUp(f, k) in Keys(u, f, p, n, answer).events[|u.events|..] <==> 0 <= k < n && k in p.keysReleased
  {
    KeysStream(u, f, p, n, answer);
    StreamUp(f, p, n, k);
    assert Keys(u, f, p, n, answer).events[|u.events|..] == KeyStream(f, p, n);
  }

  /** Keys and text reach the focused node only. */
  lemma TypingTargets(u: Pass, p: Polled, answer: Answer)
    requires Tracked(u)
    ensures var r := Typing(u, p, answer);
            forall i :: |u.events| <= i < |r.events| ==> Some(r.events[i].node) == u.focused
  {
    if u.focused.Some? && u.nodes[u.focused.value].enabled {
      var f := u.focused.value;
      KeysTarget(u, f, p, Input.MAX_KEYS, answer);
      var a := Keys(u, f, p, Input.MAX_KEYS, answer);
      var r := Typing(u, p, answer);
      var text := if p.typed.Some? && |p.typed.value| > 0 then [TextInput(f, p.typed.value)] else [];
      assert r.events == a.events + text;
      forall i | |u.events| <= i < |r.events|
        ensures r.events[i].node == f
      {
        if i < |a.events| {
          assert Keys(u, f, p, Input.MAX_KEYS, answer).events[i].node == f;
          assert r.events[i] == a.events[i];
        } else {
          assert r.events[i] == text[i - |a.events|];
        }
      }
    }
  }

  /**
   * Keys and text go nowhere unless the focused node is enabled; the typed text, when there is
   * some, comes last.
   */
  lemma TypingText(u: Pass, p: Polled, answer: Answer)
    requires Tracked(u)
    ensures var r := Typing(u, p, answer);
            (u.focused.None? || !u.nodes[u.focused.value].enabled ==> r == u) &&
            (u.focused.Some? && u.nodes[u.focused.value].enabled && p.typed.Some? && |p.typed.value| > 0 ==>
               r.events[|r.events| - 1] == TextInput(u.focused.value, p.typed.value))
  {
  }

  // ---------------------------------------------------------------------------------------------
  // The whole pass

  /** The mouse half of `handleInput`: hover tracking and the move, the buttons 1 .. 7, the wheel. */
  function Pointer(u: Pass, p: Polled, hit: Option<Id>, answer: Answer): (r: Pass)
    requires Tracked(u) && (hit.Some? ==> hit.value in u.nodes)
    ensures Tracked(r) && Grows(u, r) && r.hovered == hit
  {
    var a := Track(u, hit, p.mx, p.my, answer);
    var b := Buttons(a, p, Input.MAX_MOUSE_BUTTONS, answer);
    GrowsTrans(u, a, b);
    var r := Wheel(b, p.scroll, answer);
    GrowsTrans(u, b, r);
    r
  }

  /** The keyboard half of `handleInput`: Tab / Shift+Tab over `list`, then keys and text. */
  function Keyboard(u: Pass, p: Polled, list: seq<Id>, answer: Answer): (r: Pass)
    requires Tracked(u) && AllIn(list, u.nodes)
    ensures Tracked(r) && Grows(u, r) && r.hovered == u.hovered
    ensures VK_TAB in p.keysPressed ==> r.consumed
  {
    var a := Tab(u, p, list);
    var r := Typing(a, p, answer);
    GrowsTrans(u, a, r);
    r
  }

  /**
   * `handleInput`: the mouse, then the keyboard, with `consumed` starting false. `hit` is the
   * hit under the mouse and `list` the focusable nodes of the active tree, both read from the
   * arena as it stands before the pass (the pass changes neither).
   */
  function Handle(u: Pass, p: Polled, hit: Option<Id>, list: seq<Id>, answer: Answer): (r: Pass)
    requires Tracked(u) && (hit.Some? ==> hit.value in u.nodes) && AllIn(list, u.nodes)
    ensures Tracked(r) && Grows(u.(consumed := false), r)
  {
    var a := Pointer(u.(consumed := false), p, hit, answer);
    var r := Keyboard(a, p, list, answer);
    GrowsTrans(u.(consumed := false), a, r);
    r
  }

  lemma FocusNextCoherent(u: Pass, list: seq<Id>, backwards: bool)
    requires Coherent(u) && AllIn(list, u.nodes)
    ensures Coherent(FocusNext(u, list, backwards))
  {
    if |list| == 0 {
      RefocusCoherent(u, None);
    } else {
      var at := if u.focused.Some? then IndexOf(list, u.focused.value) else -1;
      var idx := if at >= 0 then at else 0;
      RefocusCoherent(u, Some(list[NextIndex(|list|, idx, backwards)]));
    }
  }

  lemma PointerCoherent(u: Pass, p: Polled, hit: Option<Id>, answer: Answer)
    requires Coherent(u) && (hit.Some? ==> hit.value in u.nodes)
    ensures Coherent(Pointer(u, p, hit, answer))
  {
    TrackCoherent(u, hit, p.mx, p.my, answer);
    ButtonsCoherent(Track(u, hit, p.mx, p.my, answer), p, Input.MAX_MOUSE_BUTTONS, answer);
  }

  lemma KeyboardCoherent(u: Pass, p: Polled, list: seq<Id>, answer: Answer)
    requires Coherent(u) && AllIn(list, u.nodes)
    ensures Coherent(Keyboard(u, p, list, answer))
  {
    if VK_TAB in p.keysPressed {
      FocusNextCoherent(u, list, p.shift);
    }
  }

  /**
   * The pass keeps the references and the flags in agreement; in particular exactly the focused
   * node is marked focused (so at most one node is, FocusUnique).
   */
  lemma HandleCoherent(u: Pass, p: Polled, hit: Option<Id>, list: seq<Id>, answer: Answer)
    requires Coherent(u) && (hit.Some? ==> hit.value in u.nodes) && AllIn(list, u.nodes)
    ensures Coherent(Handle(u, p, hit, list, answer))
  {
    PointerCoherent(u.(consumed := false), p, hit, answer);
    KeyboardCoherent(Pointer(u.(consumed := false), p, hit, answer), p, list, answer);
  }

  /** In a coherent state at most one node is marked focused. */
  lemma FocusUnique(u: Pass)
    requires Coherent(u)
    ensures forall j, k :: j in u.nodes && k in u.nodes && u.nodes[j].focused && u.nodes[k].focused ==> j == k
  {
  }

  /** A pass that starts unconsumed is its mouse half followed by its keyboard half. */
  lemma HandleHalves(u: Pass, p: Polled, hit: Option<Id>, list: seq<Id>, answer: Answer)
    requires Tracked(u) && !u.consumed && (hit.Some? ==> hit.value in u.nodes) && AllIn(list, u.nodes)
    ensures AllIn(list, Pointer(u, p, hit, answer).nodes)
    ensures Handle(u, p, hit, list, answer) == Keyboard(Pointer(u, p, hit, answer), p, list, answer)
  {
    assert u.(consumed := false) == u;
  }

  /** A Tab press is always consumed, and the pass ends on the hovered node it tracked. */
  lemma HandleTab(u: Pass, p: Polled, hit: Option<Id>, list: seq<Id>, answer: Answer)
    requires Tracked(u) && (hit.Some? ==> hit.value in u.nodes) && AllIn(list, u.nodes)
    ensures var r := Handle(u, p, hit, list, answer);
            (VK_TAB in p.keysPressed ==> r.consumed) && r.hovered == hit
  {
  }
}

=== FILE: scene_manager.dfy ===
/**
 * The deferred scene stack (scene/SceneManager.java). Scenes are opaque: a scene is an
 * identity and its `isOverlay` answer, and its callbacks (`onEnter`, `onExit`, `update`,
 * `render`) are recorded as events in `log`, in the order the manager makes them.
 * A scene's own update may request stack changes; those requests are a parameter of `Update`.
 */
module SceneStack {
  import opened Base

  datatype Scene = Scene(id: nat, overlay: bool)

  datatype Event = Enter(scene: Scene) | Exit(scene: Scene) | Updated(scene: Scene, dt: real) | Rendered(scene: Scene)

  /** A stack request as a scene (or its update) makes it; None is a Java null argument. */
  datatype Request = SetReq(s: Option<Scene>) | PushReq(s: Option<Scene>) | PopReq | ReplaceTopReq(s: Option<Scene>)

  /** The whole manager state: the stack (bottom first, top last), the pending requests and the callback log. */
  datatype Machine = Machine(
    stack: seq<Scene>,
    pendingSet: Option<Scene>,
    pendingPush: Option<Scene>,
    pendingPop: bool,
    pendingReplaceTop: Option<Scene>,
    log: seq<Event>)

  predicate NoPending(m: Machine)
  {
    m.pendingSet == None && m.pendingPush == None && !m.pendingPop && m.pendingReplaceTop == None
  }

  /** Recording a request: `set` cancels every other pending request, `replaceTop` cancels a pending push and pop. */
  function Issue(m: Machine, r: Request): (m': Machine)
    ensures m'.stack == m.stack && m'.log == m.log
  {
    match r
    case SetReq(s) => m.(pendingSet := s, pendingReplaceTop := None, pendingPush := None, pendingPop := false)
    case PushReq(s) => m.(pendingPush := s)
    case PopReq => m.(pendingPop := true)
    case ReplaceTopReq(s) => m.(pendingReplaceTop := s, pendingPush := None, pendingPop := false)
  }

  function IssueAll(m: Machine, rs: seq<Request>): (m': Machine)
    ensures m'.stack == m.stack && m'.log == m.log
    decreases |rs|
  {
    if rs == [] then m else IssueAll(Issue(m, rs[0]), rs[1..])
  }

  /** Exit events for every scene of a stack, top first. */
  function ExitAll(s: seq<Scene>): (es: seq<Event>)
    decreases |s|
  {
    if s == [] then [] else [Exit(s[|s| - 1])] + ExitAll(s[..|s| - 1])
  }

  lemma {:induction false} ExitAllTopDown(s: seq<Scene>)
    ensures |ExitAll(s)| == |s|
    ensures forall i :: 0 <= i < |s| ==> ExitAll(s)[i] == Exit(s[|s| - 1 - i])
    decreases |s|
  {
    if s != [] {
      var init := s[..|s| - 1];
      ExitAllTopDown(init);
      var e := ExitAll(s);
      assert e == [Exit(s[|s| - 1])] + ExitAll(init);
      forall i | 0 <= i < |s|
        ensures e[i] == Exit(s[|s| - 1 - i])
      {
        if i > 0 {
          assert e[i] == ExitAll(init)[i - 1];
          assert init[|init| - 1 - (i - 1)] == s[|s| - 1 - i];
        }
      }
    }
  }

  function ApplySet(m: Machine): (m': Machine)
    requires m.pendingSet.Some?
  {
    Machine([m.pendingSet.value], None, None, false, None, m.log + ExitAll(m.stack) + [Enter(m.pendingSet.value)])
  }

  function ApplyReplaceTop(m: Machine): (m': Machine)
  {
    match m.pendingReplaceTop
    case None => m
    case Some(s) =>
      if m.stack == [] then m.(stack := [s], log := m.log + [Enter(s)], pendingReplaceTop := None)
      else
        var top := m.stack[|m.stack| - 1];
        m.(stack := m.stack[..|m.stack| - 1] + [s], log := m.log + [Exit(top), Enter(s)], pendingReplaceTop := None)
  }

  function ApplyPush(m: Machine): (m': Machine)
  {
    match m.pendingPush
    case None => m
    case Some(s) => m.(stack := m.stack + [s], log := m.log + [Enter(s)], pendingPush := None)
  }

  function ApplyPop(m: Machine): (m': Machine)
  {
    if !m.pendingPop then m
    else if m.stack == [] then m.(pendingPop := false)
    else m.(stack := m.stack[..|m.stack| - 1], log := m.log + [Exit(m.stack[|m.stack| - 1])], pendingPop := false)
  }

  /** `applyPendingTransitions`: a pending set wins and discards the rest; otherwise replaceTop, push, pop. */
  function Apply(m: Machine): (m': Machine)
    ensures NoPending(m')
    ensures NoPending(m) ==> m' == m
    ensures m.log <= m'.log
  {
    if m.pendingSet.Some? then ApplySet(m) else ApplyPop(ApplyPush(ApplyReplaceTop(m)))
  }

  /** The top scene, if any. */
  function Top(stack: seq<Scene>): (r: Option<Scene>)
    ensures r.Some? <==> stack != []
    ensures r.Some? ==> r.value == stack[|stack| - 1]
  {
    if stack == [] then None else Some(stack[|stack| - 1])
  }

  /** `update`: apply, let the top scene update (issuing `rs`), apply again. */
  function UpdateSpec(m: Machine, dt: real, rs: seq<Request>): (m': Machine)
  {
    var a := Apply(m);
    var b := if a.stack == [] then a else IssueAll(a.(log := a.log + [Updated(a.stack[|a.stack| - 1], dt)]), rs);
    Apply(b)
  }

  /** Applying twice is applying once: each request is applied at most once. */
  lemma ApplyIdempotent(m: Machine)
    ensures Apply(Apply(m)) == Apply(m)
  {
  }

  /** A pending set leaves exactly the new scene, after exiting every old scene top-down and entering the new one. */
  lemma SetReplacesAll(m: Machine)
    requires m.pendingSet.Some?
    ensures Apply(m).stack == [m.pendingSet.value]
    ensures |Apply(m).log| == |m.log| + |m.stack| + 1
    ensures forall i :: 0 <= i < |m.stack| ==> Apply(m).log[|m.log|..][i] == Exit(m.stack[|m.stack| - 1 - i])
    ensures Apply(m).log[|Apply(m).log| - 1] == Enter(m.pendingSet.value)
  {
    ExitAllTopDown(m.stack);
    var l := m.log + ExitAll(m.stack) + [Enter(m.pendingSet.value)];
    assert Apply(m).log == l;
    forall i | 0 <= i < |m.stack|
      ensures l[|m.log|..][i] == Exit(m.stack[|m.stack| - 1 - i])
    {
      assert l[|m.log|..][i] == ExitAll(m.stack)[i];
    }
  }

  /** Without a set, the stack grows by a push and by a replaceTop on an empty stack, and shrinks by an effective pop. */
  lemma ApplyStackSize(m: Machine)
    requires m.pendingSet.None?
    ensures var afterReplace := |m.stack| + (if m.pendingReplaceTop.Some? && m.stack == [] then 1 else 0);
            var afterPush := afterReplace + (if m.pendingPush.Some? then 1 else 0);
            |Apply(m).stack| == afterPush - (if m.pendingPop && afterPush > 0 then 1 else 0)
  {
  }

  /** A pop on an empty stack exits nobody. */
  lemma PopOnEmptyIsSilent(m: Machine)
    requires m.stack == [] && m.pendingSet.None? && m.pendingReplaceTop.None? && m.pendingPush.None? && m.pendingPop
    ensures Apply(m).stack == [] && Apply(m).log == m.log
  {
  }

  /** A replaceTop on an empty stack still pushes and enters the new scene. */
  lemma ReplaceTopOnEmptyEnters(m: Machine, s: Scene)
    requires m.stack == [] && m.pendingSet.None? && m.pendingReplaceTop == Some(s) && m.pendingPush.None? && !m.pendingPop
    ensures Apply(m).stack == [s] && Apply(m).log == m.log + [Enter(s)]
  {
  }

  /** Because push applies before pop, a push and a pop requested in the same tick cancel on the stack. */
  lemma PushThenPopInOneApply(m: Machine, s: Scene)
    requires m.pendingSet.None? && m.pendingReplaceTop.None? && m.pendingPush == Some(s) && m.pendingPop
    ensures Apply(m).stack == m.stack && Apply(m).log == m.log + [Enter(s), Exit(s)]
  {
    assert (m.stack + [s])[..|m.stack|] == m.stack;
  }

  /** An update whose top issues no request changes the stack exactly as one apply does, and updates the top once. */
  lemma UpdateWithoutRequests(m: Machine, dt: real)
    ensures UpdateSpec(m, dt, []).stack == Apply(m).stack
    ensures Apply(m).stack != [] ==>
              UpdateSpec(m, dt, []).log == Apply(m).log + [Updated(Apply(m).stack[|Apply(m).stack| - 1], dt)]
    ensures Apply(m).stack == [] ==> UpdateSpec(m, dt, []).log == Apply(m).log
  {
  }

  /** Rendered events for a run of scenes, bottom to top. */
  function RenderEvents(ss: seq<Scene>): (es: seq<Event>)
    ensures |es| == |ss| && forall i :: 0 <= i < |ss| ==> es[i] == Rendered(ss[i])
    decreases |ss|
  {
    if ss == [] then [] else RenderEvents(ss[..|ss| - 1]) + [Rendered(ss[|ss| - 1])]
  }

  class SceneManager {
    var stack: seq<Scene>
    var pendingSet: Option<Scene>
    var pendingPush: Option<Scene>
    var pendingPop: bool
    var pendingReplaceTop: Option<Scene>
    var log: seq<Event>

    function State(): (m: Machine)
      reads this
      ensures m.stack == stack && m.log == log
    {
      Machine(stack, pendingSet, pendingPush, pendingPop, pendingReplaceTop, log)
    }

    constructor ()
      ensures State() == Machine([], None, None, false, None, [])
    {
      stack, pendingSet, pendingPush, pendingPop, pendingReplaceTop, log := [], None, None, false, None, [];
    }

    /** `set`: replace everything at the next apply; cancels any pending replaceTop, push and pop. */
    method Set(scene: Option<Scene>)
      modifies this
      ensures State() == Issue(old(State()), SetReq(scene))
      ensures pendingSet == scene && pendingReplaceTop == None && pendingPush == None && !pendingPop
    {
      pendingSet := scene;
      pendingReplaceTop := None;
      pendingPush := None;
      pendingPop := false;
    }

    /** `push`: overwrites any earlier pending push. */
    method Push(scene: Option<Scene>)
      modifies this
      ensures State() == Issue(old(State()), PushReq(scene))
      ensures pendingPush == scene
    {
      pendingPush := scene;
    }

    method Pop()
      modifies this
      ensures State() == Issue(old(State()), PopReq)
      ensures pendingPop
    {
      pendingPop := true;
    }

    /** `replaceTop`: cancels a pending push and pop but keeps a pending set. */
    method ReplaceTop(scene: Option<Scene>)
      modifies this
      ensures State() == Issue(old(State()), ReplaceTopReq(scene))
      ensures pendingReplaceTop == scene && pendingPush == None && !pendingPop && pendingSet == old(pendingSet)
    {
      pendingReplaceTop := scene;
      pendingPush := None;
      pendingPop := false;
    }

    function TopScene(): (r: Option<Scene>)
      reads this
      ensures r == Top(stack)
    {
      if stack == [] then None else Some(stack[|stack| - 1])
    }

    function IsEmpty(): (b: bool)
      reads this
      ensures b <==> TopScene() == None
    {
      stack == []
    }

    /** `peekBelowTop`: takes the top off, reads the new top and puts the old top back. */
    method PeekBelowTop() returns (r: Option<Scene>)
      modifies this
      ensures stack == old(stack) && State() == old(State())
      ensures r.Some? <==> |stack| >= 2
      ensures r.Some? ==> r.value == stack[|stack| - 2]
    {
      if |stack| < 2 {
        return None;
      }
      var last := stack[|stack| - 1];
      stack := stack[..|stack| - 1];
      r := Some(stack[|stack| - 1]);
      stack := stack + [last];
    }

    /** `applyPendingTransitions`. */
    method ApplyPending()
      modifies this
      ensures State() == Apply(old(State()))
    {
      if pendingSet.Some? {
        ApplySetStep();
        return;
      }
      ApplyReplaceTopStep();
      ApplyPushStep();
      ApplyPopStep();
    }

    /** The pending set: exit and remove every scene top-down, then push and enter the new one. */
    method ApplySetStep()
      requires pendingSet.Some?
      modifies this
      ensures State() == ApplySet(old(State()))
    {
      ghost var s0 := stack;
      var ps := pendingSet.value;
      while stack != []
        invariant |stack| <= |s0| && stack == s0[..|stack|]
        invariant log + ExitAll(stack) == old(log) + ExitAll(s0)
        decreases |stack|
      {
        var s := stack[|stack| - 1];
        stack := stack[..|stack| - 1];
        log := log + [Exit(s)];
      }
      stack := stack + [ps];
      log := log + [Enter(ps)];
      pendingSet := None;
      pendingReplaceTop := None;
      pendingPush := None;
      pendingPop := false;
    }

    method ApplyReplaceTopStep()
      modifies this
      ensures State() == ApplyReplaceTop(old(State()))
    {
      if pendingReplaceTop.Some? {
        if stack != [] {
          var oldTop := stack[|stack| - 1];
          stack := stack[..|stack| - 1];
          log := log + [Exit(oldTop)];
        }
        stack := stack + [pendingReplaceTop.value];
        log := log + [Enter(pendingReplaceTop.value)];
        pendingReplaceTop := None;
      }
    }

    method ApplyPushStep()
      modifies this
      ensures State() == ApplyPush(old(State()))
    {
      if pendingPush.Some? {
        stack := stack + [pendingPush.value];
        log := log + [Enter(pendingPush.value)];
        pendingPush := None;
      }
    }

    method ApplyPopStep()
      modifies this
      ensures State() == ApplyPop(old(State()))
    {
      if pendingPop {
        if stack != [] {
          var s := stack[|stack| - 1];
          stack := stack[..|stack| - 1];
          log := log + [Exit(s)];
        }
        pendingPop := false;
      }
    }

    /** `update`: apply, update the top scene (which may issue `requests`), apply again. */
    method Update(dt: real, requests: seq<Request>)
      modifies this
      ensures State() == UpdateSpec(old(State()), dt, requests)
    {
      ApplyPending();
      if stack != [] {
        log := log + [Updated(stack[|stack| - 1], dt)];
        ghost var m0 := State();
        for i := 0 to |requests|
          invariant State() == IssueAll(m0, requests[..i])
        {
          IssueAllSnoc(m0, requests[..i], requests[i]);
          assert requests[..i + 1] == requests[..i] + [requests[i]];
          Issue1(requests[i]);
        }
        assert requests[..|requests|] == requests;
      }
      ApplyPending();
    }

    /** Issues one request through the matching public method. */
    method Issue1(r: Request)
      modifies this
      ensures State() == Issue(old(State()), r)
    {
      match r
      case SetReq(s) => Set(s);
      case PushReq(s) => Push(s);
      case PopReq => Pop();
      case ReplaceTopReq(s) => ReplaceTop(s);
    }

    /**
     * `render`: draws, bottom to top, the stack from the highest non-overlay scene (or from the
     * bottom when every scene above it is an overlay); returns where drawing started.
     */
    method Render() returns (start: nat)
      modifies this`log
      ensures stack == [] ==> log == old(log) && start == 0
      ensures stack != [] ==>
                start < |stack| &&
                (start == 0 || !stack[start].overlay) &&
                (forall j :: start < j < |stack| ==> stack[j].overlay) &&
                log == old(log) + RenderEvents(stack[start..])
    {
      if stack == [] {
        return 0;
      }
      var i := |stack| - 1;
      while i > 0 && stack[i].overlay
        invariant 0 <= i < |stack|
        invariant forall j :: i < j < |stack| ==> stack[j].overlay
      {
        i := i - 1;
      }
      start := i;
      var k := start;
      while k < |stack|
        invariant start <= k <= |stack|
        invariant log == old(log) + RenderEvents(stack[start..k])
      {
        assert stack[start..k + 1][..k - start] == stack[start..k];
        log := log + [Rendered(stack[k])];
        k := k + 1;
      }
      assert stack[start..k] == stack[start..];
    }
  }

  lemma {:induction false} IssueAllSnoc(m: Machine, rs: seq<Request>, r: Request)
    ensures IssueAll(m, rs + [r]) == Issue(IssueAll(m, rs), r)
    decreases |rs|
  {
    if rs == [] {
      assert IssueAll(m, [r]) == IssueAll(Issue(m, r), []);
    } else {
      assert (rs + [r])[1..] == rs[1..] + [r];
      IssueAllSnoc(Issue(m, rs[0]), rs[1..], r);
    }
  }
}

=== FILE: scheduler.dfy ===
/**
 * Delayed and repeating tasks driven by the frame clock (core/time/Scheduler.java).
 * A task's Runnable is opaque: running it is recorded by its identifier in `ran`;
 * what it does, and any exception it throws (which the source swallows), is not modelled.
 */
module Scheduling {
  import opened Base
  import opened TimerHandles

  /** A pending task: its handle, its runnable (None for null), its interval (0 = one-shot) and time left. */
  datatype Task = Task(handle: TimerHandle, runnable: Option<nat>, interval: real, remaining: real)

  /** The outcome of one update for one task: the task kept (if any) and the runnables run. */
  datatype Outcome = Outcome(kept: seq<Task>, ran: seq<nat>)

  /**
   * One task in one update: a cancelled task is dropped without running; otherwise its time
   * left shrinks by dt and, once it is at or below zero, its runnable runs and the task is
   * re-armed by one interval (repeating) or dropped (one-shot).
   */
  function TaskStep(t: Task, dt: real): (o: Outcome)
    reads t.handle
    ensures |o.kept| <= 1 && |o.ran| <= 1
    ensures t.handle.cancelled ==> o == Outcome([], [])
    ensures |o.ran| == 1 <==> !t.handle.cancelled && t.remaining - dt <= 0.0 && t.runnable.Some?
    ensures o.ran == [] || o.ran == [t.runnable.value]
    ensures |o.kept| == 1 <==> !t.handle.cancelled && (t.remaining - dt > 0.0 || t.interval > 0.0)
    ensures |o.kept| == 1 ==>
              o.kept[0].handle == t.handle && o.kept[0].interval == t.interval && o.kept[0].runnable == t.runnable
    ensures |o.kept| == 1 ==>
              o.kept[0].remaining ==
                (if t.remaining - dt <= 0.0 then t.remaining - dt + t.interval else t.remaining - dt)
  {
    if t.handle.cancelled then Outcome([], [])
    else
      var rem := t.remaining - dt;
      if rem <= 0.0 then
        var ran := if t.runnable.Some? then [t.runnable.value] else [];
        if t.interval > 0.0 then Outcome([t.(remaining := rem + t.interval)], ran)
        else Outcome([], ran)
      else Outcome([t.(remaining := rem)], [])
  }

  function Handles(ts: seq<Task>): set<TimerHandle>
  {
    set i | 0 <= i < |ts| :: ts[i].handle
  }

  /** A whole update: every task stepped in list order. */
  function Tick(ts: seq<Task>, dt: real): (o: Outcome)
    reads Handles(ts)
    ensures |o.kept| <= |ts| && |o.ran| <= |ts|
  {
    if ts == [] then Outcome([], [])
    else
      var before := Tick(ts[..|ts| - 1], dt);
      var last := TaskStep(ts[|ts| - 1], dt);
      Outcome(before.kept + last.kept, before.ran + last.ran)
  }

  /** Only tasks that were scheduled, and whose handle is not cancelled, survive an update. */
  lemma {:induction false} TickKeepsLiveTasks(ts: seq<Task>, dt: real)
    ensures forall t :: t in Tick(ts, dt).kept ==> t.handle in Handles(ts) && !t.handle.cancelled
    decreases |ts|
  {
    if ts != [] {
      TickKeepsLiveTasks(ts[..|ts| - 1], dt);
      assert Handles(ts[..|ts| - 1]) <= Handles(ts);
      assert ts[|ts| - 1].handle in Handles(ts);
    }
  }

  /** No task of a cancelled handle survives an update (that it does not run is `RanAreDueTasks`). */
  lemma {:induction false} CancelledTaskDropped(ts: seq<Task>, dt: real, i: nat)
    requires i < |ts| && ts[i].handle.cancelled
    ensures forall t :: t in Tick(ts, dt).kept ==> t.handle != ts[i].handle
    decreases |ts|
  {
    TickKeepsLiveTasks(ts, dt);
  }

  /** Every runnable that runs belongs to a task that was not cancelled and had fallen due. */
  lemma {:induction false} RanAreDueTasks(ts: seq<Task>, dt: real)
    ensures forall x :: x in Tick(ts, dt).ran ==>
      exists i :: 0 <= i < |ts| && ts[i].runnable == Some(x) && !ts[i].handle.cancelled && ts[i].remaining - dt <= 0.0
    decreases |ts|
  {
    if ts != [] {
      RanAreDueTasks(ts[..|ts| - 1], dt);
      var init := ts[..|ts| - 1];
      forall x | x in Tick(ts, dt).ran
        ensures exists i :: 0 <= i < |ts| && ts[i].runnable == Some(x) && !ts[i].handle.cancelled && ts[i].remaining - dt <= 0.0
      {
        if x in Tick(init, dt).ran {
          var i :| 0 <= i < |init| && init[i].runnable == Some(x) && !init[i].handle.cancelled && init[i].remaining - dt <= 0.0;
          assert ts[i] == init[i];
        } else {
          assert ts[|ts| - 1].runnable == Some(x);
        }
      }
    }
  }

  /** A live task that falls due runs its runnable in that update. */
  lemma {:induction false} TickRunsDue(ts: seq<Task>, dt: real, i: nat)
    requires i < |ts| && !ts[i].handle.cancelled && ts[i].remaining - dt <= 0.0 && ts[i].runnable.Some?
    ensures ts[i].runnable.value in Tick(ts, dt).ran
    decreases |ts|
  {
    if i < |ts| - 1 {
      TickRunsDue(ts[..|ts| - 1], dt, i);
    }
  }

  /** A live task that is not yet due, or that repeats, is kept, re-armed as `TaskStep` says. */
  lemma {:induction false} TickKeepsDue(ts: seq<Task>, dt: real, i: nat)
    requires i < |ts| && !ts[i].handle.cancelled && (ts[i].remaining - dt > 0.0 || ts[i].interval > 0.0)
    ensures TaskStep(ts[i], dt).kept[0] in Tick(ts, dt).kept
    decreases |ts|
  {
    if i < |ts| - 1 {
      TickKeepsDue(ts[..|ts| - 1], dt, i);
    }
  }

  /**
   * The iterator walks the list front to back: an update of `ts + us` is the update of `ts`
   * followed by the update of `us`, so survivors keep their relative order and runnables run
   * in list order.
   */
  lemma {:induction false} TickSplit(ts: seq<Task>, us: seq<Task>, dt: real)
    ensures Tick(ts + us, dt).kept == Tick(ts, dt).kept + Tick(us, dt).kept
    ensures Tick(ts + us, dt).ran == Tick(ts, dt).ran + Tick(us, dt).ran
    decreases |us|
  {
    if us != [] {
      var init := us[..|us| - 1];
      assert (ts + us)[..|ts + us| - 1] == ts + init;
      TickSplit(ts, init, dt);
    } else {
      assert ts + us == ts;
    }
  }

  /** An update of a single task is that task's step. */
  lemma TickOne(t: Task, dt: real)
    ensures Tick([t], dt) == TaskStep(t, dt)
  {
    assert [t][..0] == [];
  }

  class Scheduler {
    var tasks: seq<Task>
    /** Identifiers of the runnables run so far, in order. */
    var ran: seq<nat>

    constructor ()
      ensures tasks == [] && ran == []
    {
      tasks, ran := [], [];
    }

    /** `after`: a one-shot task due in `seconds` (negative delays count as 0). */
    method After(seconds: real, r: Option<nat>) returns (h: TimerHandle)
      modifies this`tasks
      ensures fresh(h) && !h.cancelled
      ensures tasks == old(tasks) + [Task(h, r, 0.0, Max(0.0, seconds))]
    {
      h := new TimerHandle();
      tasks := tasks + [Task(h, r, 0.0, Max(0.0, seconds))];
    }

    /** `every`: a repeating task; the period is at least a millisecond and the first run is one period away. */
    method Every(seconds: real, r: Option<nat>) returns (h: TimerHandle)
      modifies this`tasks
      ensures fresh(h) && !h.cancelled
      ensures tasks == old(tasks) + [Task(h, r, Max(0.001, seconds), Max(0.001, seconds))]
      ensures tasks[|tasks| - 1].interval > 0.0
    {
      var s := Max(0.001, seconds);
      h := new TimerHandle();
      tasks := tasks + [Task(h, r, s, Max(0.0, s))];
    }

    method Clear()
      modifies this`tasks
      ensures tasks == []
    {
      tasks := [];
    }

    /** Advance every task by `dt` seconds, running the ones that fall due. */
    method Update(dt: real)
      modifies this`tasks, this`ran
      ensures tasks == Tick(old(tasks), dt).kept
      ensures ran == old(ran) + Tick(old(tasks), dt).ran
    {
      if tasks == [] {
        return;
      }
      var ts := tasks;
      var kept: seq<Task> := [];
      var fired: seq<nat> := [];
      var i := 0;
      while i < |ts|
        invariant 0 <= i <= |ts|
        invariant kept == Tick(ts[..i], dt).kept
        invariant fired == Tick(ts[..i], dt).ran
      {
        assert ts[..i + 1][..i] == ts[..i];
        var t := ts[i];
        i := i + 1;
        if t.handle.cancelled {
          continue;
        }
        var rem := t.remaining - dt;
        if rem <= 0.0 {
          if t.runnable.Some? {
            fired := fired + [t.runnable.value];
          }
          if t.interval > 0.0 {
            kept := kept + [t.(remaining := rem + t.interval)];
          }
        } else {
          kept := kept + [t.(remaining := rem)];
        }
      }
      assert ts[..i] == ts;
      assert forall o :: o in Handles(ts) ==> o as object != this;
      ran := ran + fired;
      tasks := kept;
    }
  }

  /** A one-shot task whose delay has elapsed runs once and is gone. */
  lemma OneShotFiresOnce(h: TimerHandle, r: nat, delay: real, dt: real)
    requires !h.cancelled && dt >= Max(0.0, delay)
    ensures Tick([Task(h, Some(r), 0.0, Max(0.0, delay))], dt) == Outcome([], [r])
  {
    assert [Task(h, Some(r), 0.0, Max(0.0, delay))][..0] == [];
  }

  /** A repeating task that falls due runs and is re-armed one period later, keeping its phase. */
  lemma RepeatingRearms(h: TimerHandle, r: nat, period: real, remaining: real, dt: real)
    requires !h.cancelled && period > 0.0 && remaining - dt <= 0.0
    ensures Tick([Task(h, Some(r), period, remaining)], dt) == Outcome([Task(h, Some(r), period, remaining - dt + period)], [r])
  {
    assert [Task(h, Some(r), period, remaining)][..0] == [];
  }
}

=== FILE: slider.dfy ===
/**
 * A horizontal slider holding a value in [0, 1] (ui/widgets/Slider.java). Its `onChanged`
 * runnable is opaque: `changes` counts how often it has run. The mouse position comes from
 * the UI context, which passes it in as `mouseX`.
 */
module Sliders {
  import opened Base
  import opened UIInsets
  import opened KeyCodes
  import opened Input

  /** Change of the value per Left/Right key. */
  const KEY_STEP: real := 0.05

  function Clamp01(v: real): (r: real)
    ensures 0.0 <= r <= 1.0
    ensures 0.0 <= v <= 1.0 ==> r == v
    ensures v < 0.0 ==> r == 0.0
    ensures v > 1.0 ==> r == 1.0
  {
    if v < 0.0 then 0.0 else if v > 1.0 then 1.0 else v
  }

  class Slider {
    var value: real
    var enabled: bool
    var focused: bool
    var pressed: bool
    var gx: real
    var gw: real
    var padding: Insets
    var hasOnChanged: bool
    var changes: nat

    ghost predicate Valid()
      reads this
    {
      0.0 <= value <= 1.0
    }

    /** The initial value is clamped into [0, 1]; padding is 10 on each axis. */
    constructor (initial01: real)
      ensures Valid() && value == Clamp01(initial01)
      ensures enabled && !focused && !pressed && !hasOnChanged && changes == 0
      ensures padding == Hv(10.0, 10.0)
    {
      value := Clamp01(initial01);
      enabled, focused, pressed := true, false, false;
      gx, gw := 0.0, 0.0;
      padding := Hv(10.0, 10.0);
      hasOnChanged, changes := false, 0;
    }

    /** `value(v)`: stores the clamped value and notifies only when it differs from the current one. */
    method SetValue(v: real)
      modifies this`value, this`changes
      ensures Valid() && value == Clamp01(v)
      ensures changes == old(changes) + (if Clamp01(v) != old(value) && hasOnChanged then 1 else 0)
    {
      var nv := Clamp01(v);
      if nv != value {
        value := nv;
        if hasOnChanged {
          changes := changes + 1;
        }
      }
    }

    /** `onKeyDown`: a focused, enabled slider moves by one step on Left/Right, bounded by 0 and 1. */
    method OnKeyDown(keyCode: int) returns (consumed: bool)
      requires Valid()
      modifies this`value, this`changes
      ensures Valid()
      ensures consumed <==> focused && enabled && (keyCode == VK_LEFT || keyCode == VK_RIGHT)
      ensures !consumed ==> value == old(value) && changes == old(changes)
      ensures consumed && keyCode == VK_LEFT ==> value == Max(0.0, old(value) - KEY_STEP)
      ensures consumed && keyCode == VK_RIGHT ==> value == Min(1.0, old(value) + KEY_STEP)
      ensures consumed ==> changes == old(changes) + (if value != old(value) && hasOnChanged then 1 else 0)
    {
      if !focused || !enabled {
        return false;
      }
      if keyCode == VK_LEFT {
        SetValue(Max(0.0, value - KEY_STEP));
        return true;
      }
      if keyCode == VK_RIGHT {
        SetValue(Min(1.0, value + KEY_STEP));
        return true;
      }
      return false;
    }

    /**
     * `setFromMouse`: with an inner width above one pixel the value follows the mouse's fraction
     * of the inner width, clamped; otherwise nothing changes.
     */
    method SetFromMouse(mouseX: real)
      requires Valid()
      modifies this`value, this`changes
      ensures Valid()
      ensures gw - padding.Horizontal() <= 1.0 ==> value == old(value) && changes == old(changes)
      ensures gw - padding.Horizontal() > 1.0 ==>
                var innerW := gw - padding.Horizontal();
                value == Clamp01((mouseX - (gx + padding.left)) / innerW) &&
                changes == old(changes) + (if value != old(value) && hasOnChanged then 1 else 0)
    {
      var innerX := gx + padding.left;
      var innerW := gw - padding.Horizontal();
      if innerW <= 1.0 {
        return;
      }
      var v := (mouseX - innerX) / innerW;
      SetValue(v);
    }

    /** `onMouseDown`: jumps to the mouse and consumes the press. */
    method OnMouseDown(mouseX: real, button: int) returns (consumed: bool)
      requires Valid()
      modifies this`value, this`changes
      ensures Valid() && consumed
      ensures gw - padding.Horizontal() <= 1.0 ==> value == old(value) && changes == old(changes)
      ensures gw - padding.Horizontal() > 1.0 ==>
                value == Clamp01((mouseX - (gx + padding.left)) / (gw - padding.Horizontal())) &&
                changes == old(changes) + (if value != old(value) && hasOnChanged then 1 else 0)
    {
      SetFromMouse(mouseX);
      return true;
    }

    /** `onMouseMove`: while the slider is pressed and some button 0..7 is held, the value follows the mouse. */
    method OnMouseMove(input: InputManager, mouseX: real) returns (consumed: bool)
      requires Valid() && input.Valid()
      modifies this`value, this`changes
      ensures Valid()
      ensures consumed <==> pressed && exists b :: 0 <= b < MAX_MOUSE_BUTTONS && input.IsMouseDown(b)
      ensures !consumed ==> value == old(value) && changes == old(changes)
      ensures consumed && gw - padding.Horizontal() <= 1.0 ==> value == old(value) && changes == old(changes)
      ensures consumed && gw - padding.Horizontal() > 1.0 ==>
                value == Clamp01((mouseX - (gx + padding.left)) / (gw - padding.Horizontal())) &&
                changes == old(changes) + (if value != old(value) && hasOnChanged then 1 else 0)
    {
      if pressed {
        var any := AnyMouseDown(input);
        if any {
          ghost var w :| 0 <= w < MAX_MOUSE_BUTTONS && input.IsMouseDown(w);
          SetFromMouse(mouseX);
          assert input.IsMouseDown(w);
          return true;
        }
      }
      return false;
    }
  }

  /** `anyMouseDown`: scans buttons 0..7. */
  method AnyMouseDown(input: InputManager) returns (any: bool)
    requires input.Valid()
    ensures any <==> exists b :: 0 <= b < MAX_MOUSE_BUTTONS && input.IsMouseDown(b)
  {
    for b := 0 to MAX_MOUSE_BUTTONS
      invariant forall c :: 0 <= c < b ==> !input.IsMouseDown(c)
    {
      if input.IsMouseDown(b) {
        return true;
      }
    }
    return false;
  }
}

=== FILE: sprite_atlas.dfy ===
/**
 * Named regions of one atlas image, read from a text descriptor (assets/SpriteAtlas.java).
 * Reading the descriptor file is I/O: `Load` receives its lines.
 */
module Atlas {
  import opened Base
  import opened JavaStrings
  import opened JavaIntegers
  import opened Sprites

  datatype Region = Region(name: string, x: int, y: int, w: int, h: int)

  /** One descriptor line `name x y w h`, after parsing. */
  datatype Entry = Entry(name: string, x: int, y: int, w: int, h: int)

  /** How a single descriptor line reads. */
  datatype LineKind =
    | Skip                            // empty after trimming, or a '#' comment
    | Parsed(entry: Entry)
    | WrongFieldCount(line: string)   // not exactly five fields; carries the trimmed line
    | BadNumber(token: string)        // a coordinate Integer.parseInt rejects

  /** The two exceptions `load` can throw while reading the descriptor. */
  datatype LoadError =
    | BadAtlasLine(lineNumber: nat, line: string)  // IllegalArgumentException "Bad atlas line ..."
    | NumberFormatError(token: string)             // NumberFormatException from parseInt

  /** The first of the four coordinate tokens that does not parse, if any. */
  function FirstBadNumber(parts: seq<string>): (r: Option<string>)
    requires |parts| == 5
    ensures r.None? <==> forall k :: 1 <= k < 5 ==> ParseInt(parts[k]).Some?
    ensures r.Some? ==> exists k :: 1 <= k < 5 && r.value == parts[k] && ParseInt(parts[k]).None?
  {
    if ParseInt(parts[1]).None? then Some(parts[1])
    else if ParseInt(parts[2]).None? then Some(parts[2])
    else if ParseInt(parts[3]).None? then Some(parts[3])
    else if ParseInt(parts[4]).None? then Some(parts[4])
    else None
  }

  /**
   * One descriptor line: trimmed, skipped when blank or a comment, else split into five
   * fields. A rejected line carries its trimmed text.
   */
  function ParseLine(raw: string): (r: LineKind)
    ensures r.Skip? <==> Trim(raw) == [] || Trim(raw)[0] == '#'
    ensures r.WrongFieldCount? ==>
              r.line == Trim(raw) && r.line != [] && !RegexSpace(r.line[0]) && |SplitSpaces(r.line)| != 5
  {
    var line := Trim(raw);
    if line == [] || line[0] == '#' then Skip else ParseFields(line)
  }

  /** A trimmed line that is neither blank nor a comment, split into five fields. */
  function ParseFields(line: string): (r: LineKind)
    requires line != [] && !TrimmedChar(line[0])
    ensures !r.Skip?
    ensures r.WrongFieldCount? ==> r.line == line && |SplitSpaces(line)| != 5
  {
    var parts := SplitSpaces(line);
    if |parts| != 5 then WrongFieldCount(line)
    else
      match FirstBadNumber(parts)
      case Some(t) => BadNumber(t)
      case None =>
        Parsed(NumberedEntry(parts))
  }

  /** An entry is named by the first field and placed by the four ints that follow. */
  lemma ParseLineEntry(raw: string)
    requires ParseLine(raw).Parsed?
    ensures var f := SplitSpaces(Trim(raw));
            var e := ParseLine(raw).entry;
            |f| == 5 && e.name == f[0] && ParseInt(f[1]) == Some(e.x) && ParseInt(f[2]) == Some(e.y)
            && ParseInt(f[3]) == Some(e.w) && ParseInt(f[4]) == Some(e.h)
  {
  }

  /** A bad number is one of the four coordinate fields, and it does not parse. */
  lemma ParseLineBadNumber(raw: string)
    requires ParseLine(raw).BadNumber?
    ensures var f := SplitSpaces(Trim(raw));
            |f| == 5 && exists k :: 1 <= k < 5 && f[k] == ParseLine(raw).token && ParseInt(f[k]).None?
  {
  }

  /** Every line of a descriptor, read on its own. */
  function Classify(lines: seq<string>): (ks: seq<LineKind>)
    ensures |ks| == |lines|
  {
    if lines == [] then [] else Classify(lines[..|lines| - 1]) + [ParseLine(lines[|lines| - 1])]
  }

  lemma {:induction false} ClassifyAt(lines: seq<string>, i: nat)
    requires i < |lines|
    ensures Classify(lines)[i] == ParseLine(lines[i])
    decreases |lines|
  {
    if i < |lines| - 1 {
      ClassifyAt(lines[..|lines| - 1], i);
    }
  }

  /**
   * `load`'s reading loop: the entries of a descriptor, in order, or the exception of the
   * first bad line. Line numbers count every line, skipped ones included, from 1.
   */
  function ParseDescriptor(lines: seq<string>): (r: Result<seq<Entry>, LoadError>)
    ensures r.Ok? <==> forall i :: 0 <= i < |lines| ==> !IsBad(ParseLine(lines[i]))
    ensures r.Ok? ==> r.value == Entries(Classify(lines))
  {
    var ks := Classify(lines);
    ReadKindsOk(ks);
    assert forall i :: 0 <= i < |lines| ==> ks[i] == ParseLine(lines[i]) by {
      forall i | 0 <= i < |lines| ensures ks[i] == ParseLine(lines[i]) {
        ClassifyAt(lines, i);
      }
    }
    if ReadKinds(ks).Ok? then AllGoodLines(ks); ReadKinds(ks) else ReadKinds(ks)
  }

  /** Reading succeeds exactly when no line is bad. */
  lemma {:induction false} ReadKindsOk(ks: seq<LineKind>)
    ensures ReadKinds(ks).Ok? <==> forall i :: 0 <= i < |ks| ==> !IsBad(ks[i])
    decreases |ks|
  {
    if ks != [] {
      var init := ks[..|ks| - 1];
      ReadKindsOk(init);
      assert forall i :: 0 <= i < |init| ==> init[i] == ks[i];
    }
  }

  function ReadKinds(ks: seq<LineKind>): (r: Result<seq<Entry>, LoadError>)
    ensures r.Err? && r.error.BadAtlasLine? ==> 1 <= r.error.lineNumber <= |ks|
  {
    if ks == [] then Ok([])
    else ReadLine(ReadKinds(ks[..|ks| - 1]), ks[|ks| - 1], |ks|)
  }

  /** One turn of the reading loop: line number `ln` after the lines before it gave `acc`. */
  function ReadLine(acc: Result<seq<Entry>, LoadError>, k: LineKind, ln: nat): (r: Result<seq<Entry>, LoadError>)
    ensures acc.Err? ==> r == acc
    ensures r.Err? && r.error.BadAtlasLine? && acc.Ok? ==> r.error.lineNumber == ln
  {
    match acc
    case Err(e) => Err(e)
    case Ok(es) =>
      match k
      case Skip => Ok(es)
      case Parsed(e) => Ok(es + [e])
      case WrongFieldCount(line) => Err(BadAtlasLine(ln, line))
      case BadNumber(t) => Err(NumberFormatError(t))
  }

  predicate IsBad(k: LineKind) { k.WrongFieldCount? || k.BadNumber? }

  /** The error a bad line raises when it is line number `ln`. */
  function LineError(k: LineKind, ln: nat): LoadError
    requires IsBad(k)
  {
    if k.WrongFieldCount? then BadAtlasLine(ln, k.line) else NumberFormatError(k.token)
  }

  /** Reading stops at the first bad line: whatever follows it is never looked at. */
  lemma {:induction false} FirstBadLineWins(good: seq<LineKind>, bad: LineKind, rest: seq<LineKind>)
    requires ReadKinds(good).Ok? && IsBad(bad)
    ensures ReadKinds(good + [bad] + rest) == Err(LineError(bad, |good| + 1))
    decreases |rest|
  {
    var all := good + [bad] + rest;
    if rest == [] {
      assert all[..|all| - 1] == good;
    } else {
      assert all[..|all| - 1] == good + [bad] + rest[..|rest| - 1];
      FirstBadLineWins(good, bad, rest[..|rest| - 1]);
    }
  }

  /** Blank and comment lines add nothing. */
  lemma SkippedLinesAddNothing(ks: seq<LineKind>)
    ensures ReadKinds(ks + [Skip]) == ReadKinds(ks)
  {
    assert (ks + [Skip])[..|ks|] == ks;
  }

  /** When every line is good, the entries are exactly the parsed lines, in order. */
  lemma {:induction false} AllGoodLines(ks: seq<LineKind>)
    requires forall i :: 0 <= i < |ks| ==> !IsBad(ks[i])
    ensures ReadKinds(ks).Ok?
    ensures ReadKinds(ks).value == Entries(ks)
    decreases |ks|
  {
    if ks != [] {
      AllGoodLines(ks[..|ks| - 1]);
    }
  }

  /** The entries of the parsed lines, in order. */
  function Entries(ks: seq<LineKind>): seq<Entry>
  {
    if ks == [] then []
    else Entries(ks[..|ks| - 1]) + (if ks[|ks| - 1].Parsed? then [ks[|ks| - 1].entry] else [])
  }

  /** Adding a batch of entries, in order: later entries with the same key replace earlier ones. */
  function AddAll(regions: map<string, Region>, es: seq<Entry>): map<string, Region>
  {
    if es == [] then regions
    else AddEntry(AddAll(regions, es[..|es| - 1]), es[|es| - 1])
  }

  /** `add`: null or blank names are ignored; the key is the name as given, the region keeps it trimmed. */
  function AddEntry(regions: map<string, Region>, e: Entry): (r: map<string, Region>)
    ensures IsBlank(e.name) ==> r == regions
    ensures !IsBlank(e.name) ==> e.name in r && r[e.name].name == Trim(e.name)
    ensures forall k :: k in regions && k != e.name ==> k in r && r[k] == regions[k]
  {
    if IsBlank(e.name) then regions else regions[e.name := Region(Trim(e.name), e.x, e.y, e.w, e.h)]
  }

  /** The last non-blank entry for a name decides its region. */
  lemma {:induction false} LastEntryWins(regions: map<string, Region>, es: seq<Entry>, i: nat)
    requires i < |es| && !IsBlank(es[i].name)
    requires forall j :: i < j < |es| ==> es[j].name != es[i].name
    ensures es[i].name in AddAll(regions, es)
    ensures AddAll(regions, es)[es[i].name] == Region(Trim(es[i].name), es[i].x, es[i].y, es[i].w, es[i].h)
    decreases |es|
  {
    if i < |es| - 1 {
      LastEntryWins(regions, es[..|es| - 1], i);
    }
  }

  class SpriteAtlas {
    /** Regions by the name they were added under. */
    var regions: map<string, Region>
    /** Sprites already cut, by name. */
    var cache: map<string, Image>
    /** Every call to the atlas image's slicing, in order. */
    var slices: seq<PixelRect>

    /** The cache only holds images that were cut, and null is never a key. */
    ghost predicate Valid()
      reads this
    {
      forall n :: n in cache ==> cache[n].serial < |slices| && slices[cache[n].serial] == cache[n].rect
    }

    constructor ()
      ensures Valid() && regions == map[] && cache == map[] && slices == []
    {
      regions, cache, slices := map[], map[], [];
    }

    /** `region`: the region stored under a name; null finds nothing. */
    function RegionOf(name: Option<string>): (r: Option<Region>)
      reads this
      ensures r.Some? <==> name.Some? && name.value in regions
      ensures r.Some? ==> r.value == regions[name.value]
    {
      if name.Some? && name.value in regions then Some(regions[name.value]) else None
    }

    /**
     * `sprite`: null gives null; a cached sprite is returned as it is, even if the region was
     * replaced since; otherwise an unknown name is an IllegalArgumentException and a known one
     * is cut once and cached.
     */
    method Sprite(name: Option<string>) returns (r: Result<Option<Image>, JavaError>)
      requires Valid()
      modifies this`cache, this`slices
      ensures Valid()
      ensures name.None? ==> r == Ok(None) && cache == old(cache) && slices == old(slices)
      ensures name.Some? && name.value in old(cache) ==>
        r == Ok(Some(old(cache)[name.value])) && cache == old(cache) && slices == old(slices)
      ensures name.Some? && name.value !in old(cache) && name.value !in regions ==>
        r.Err? && r.error.IllegalArgument? && cache == old(cache) && slices == old(slices)
      ensures name.Some? && name.value !in old(cache) && name.value in regions ==>
        var g := regions[name.value];
        r == Ok(Some(Image(PixelRect(g.x, g.y, g.w, g.h), |old(slices)|)))
        && slices == old(slices) + [PixelRect(g.x, g.y, g.w, g.h)]
        && cache == old(cache)[name.value := r.value.value]
    {
      if name.None? {
        return Ok(None);
      }
      var n := name.value;
      if n in cache {
        return Ok(Some(cache[n]));
      }
      if n !in regions {
        return Err(IllegalArgument("Atlas region not found: " + n));
      }
      var g := regions[n];
      var rect := PixelRect(g.x, g.y, g.w, g.h);
      var img := Image(rect, |slices|);
      slices := slices + [rect];
      cache := cache[n := img];
      return Ok(Some(img));
    }

    /** `add`: ignores null and blank names; otherwise stores the region under the untrimmed name. */
    method Add(name: Option<string>, x: int, y: int, w: int, h: int)
      modifies this`regions
      ensures name.None? ==> regions == old(regions)
      ensures name.Some? ==> regions == AddEntry(old(regions), Entry(name.value, x, y, w, h))
    {
      if name.None? || IsBlank(name.value) {
        return;
      }
      regions := regions[name.value := Region(Trim(name.value), x, y, w, h)];
    }
  }

  /**
   * `load` after the descriptor has been read into lines: a fresh atlas holding the regions
   * of every entry, or the exception of the first bad line.
   */
  method Load(lines: seq<string>) returns (r: Result<SpriteAtlas, LoadError>)
    ensures ParseDescriptor(lines).Err? <==> r.Err?
    ensures r.Err? ==> r.error == ParseDescriptor(lines).error
    ensures r.Ok? ==> fresh(r.value) && r.value.Valid() && r.value.cache == map[]
    ensures r.Ok? ==> ParseDescriptor(lines).Ok? && r.value.regions == AddAll(map[], ParseDescriptor(lines).value)
  {
    var atlas := new SpriteAtlas();
    var ln := 0;
    while ln < |lines|
      invariant 0 <= ln <= |lines|
      invariant ReadKinds(Classify(lines[..ln])).Ok?
      invariant fresh(atlas) && atlas.cache == map[] && atlas.slices == []
      invariant atlas.regions == AddAll(map[], ReadKinds(Classify(lines[..ln])).value)
    {
      ghost var before := Classify(lines[..ln]);
      ghost var es := ReadKinds(before).value;
      var raw := lines[ln];
      ln := ln + 1;
      assert lines[..ln][..ln - 1] == lines[..ln - 1];
      ghost var k := ParseLine(raw);
      assert Classify(lines[..ln]) == before + [k];
      var err := ReadDescriptorLine(atlas, raw, ln);
      assert atlas.cache == map[] && atlas.slices == [];
      if err.Some? {
        FailureIsFinal(lines, ln);
        return Err(err.value);
      }
      if k.Parsed? {
        assert ReadKinds(before + [k]) == Ok(es + [k.entry]);
        assert (es + [k.entry])[..|es|] == es;
      } else {
        SkippedLinesAddNothing(before);
      }
    }
    assert lines[..ln] == lines;
    assert atlas.Valid();
    return Ok(atlas);
  }

  /**
   * The body of `load`'s loop for line number `ln`: trim, skip blanks and comments, split,
   * check the field count, parse the four numbers and add the region.
   */
  method ReadDescriptorLine(atlas: SpriteAtlas, raw: string, ln: nat) returns (err: Option<LoadError>)
    modifies atlas`regions
    ensures err.None? <==> !IsBad(ParseLine(raw))
    ensures err.Some? ==> err.value == LineError(ParseLine(raw), ln) && atlas.regions == old(atlas.regions)
    ensures ParseLine(raw).Skip? ==> atlas.regions == old(atlas.regions)
    ensures ParseLine(raw).Parsed? ==> atlas.regions == AddEntry(old(atlas.regions), ParseLine(raw).entry)
  {
    ghost var k := ParseLine(raw);
    var line := Trim(raw);
    if line == [] || line[0] == '#' {
      assert k == Skip;
      return None;
    }
    var parts := SplitSpaces(line);
    if |parts| != 5 {
      assert k == WrongFieldCount(line);
      return Some(BadAtlasLine(ln, line));
    }
    var bad := FirstBadNumber(parts);
    if bad.Some? {
      assert k == BadNumber(bad.value);
      return Some(NumberFormatError(bad.value));
    }
    assert k == Parsed(NumberedEntry(parts));
    AddNumbered(atlas, parts);
    return None;
  }

  /** The entry a line of five well-formed fields describes: a name and four integers. */
  function NumberedEntry(parts: seq<string>): Entry
    requires |parts| == 5 && FirstBadNumber(parts).None?
  {
    Entry(parts[0], ParseInt(parts[1]).value, ParseInt(parts[2]).value,
          ParseInt(parts[3]).value, ParseInt(parts[4]).value)
  }

  /** The tail of `load`'s loop body: parse the four numbers and add the region. */
  method AddNumbered(atlas: SpriteAtlas, parts: seq<string>)
    modifies atlas`regions
    requires |parts| == 5 && FirstBadNumber(parts).None?
    ensures atlas.regions == AddEntry(old(atlas.regions), NumberedEntry(parts))
  {
    var x := ParseInt(parts[1]).value;
    var y := ParseInt(parts[2]).value;
    var w := ParseInt(parts[3]).value;
    var h := ParseInt(parts[4]).value;
    atlas.Add(Some(parts[0]), x, y, w, h);
  }

  /** Once a prefix of the descriptor fails, the whole descriptor fails the same way. */
  lemma {:induction false} FailureIsFinal(lines: seq<string>, n: nat)
    requires n <= |lines| && ParseDescriptor(lines[..n]).Err?
    ensures ParseDescriptor(lines) == ParseDescriptor(lines[..n])
    decreases |lines| - n
  {
    if n < |lines| {
      assert lines[..n + 1][..n] == lines[..n];
      FailureIsFinal(lines, n + 1);
    } else {
      assert lines[..n] == lines;
    }
  }
}

=== FILE: sprite_sheet.dfy ===
/**
 * Sprite sheet slicing with a per-rectangle cache (assets/SpriteSheet.java).
 * The sheet image is opaque: a slice is identified by the rectangle it was cut from and
 * by the serial number of the slicing call that produced it.
 */
module Sprites {
  import opened Base

  /** The pixel rectangle a sprite is cut from; the source keys its cache by the text "x,y,w,h" of it. */
  datatype PixelRect = PixelRect(x: int, y: int, w: int, h: int)

  /** A sub-image: which rectangle, and which call to the sheet's slicing produced it. */
  datatype Image = Image(rect: PixelRect, serial: nat)

  /** Java's `/` on int: truncates toward zero. */
  function JavaDiv(a: int, b: int): int
    requires b != 0
  {
    var q := (if a < 0 then -a else a) / (if b < 0 then -b else b);
    if (a < 0) == (b < 0) then q else -q
  }

  /** Java's `%` on int: the remainder of the truncating division, with the sign of `a`. */
  function JavaRem(a: int, b: int): int
    requires b != 0
  {
    a - b * JavaDiv(a, b)
  }

  /** Division and remainder recombine to the dividend; the remainder has the dividend's sign. */
  lemma {:induction false} JavaDivRem(a: int, b: int)
    requires b != 0
    ensures JavaDiv(a, b) * b + JavaRem(a, b) == a
    ensures a >= 0 ==> 0 <= JavaRem(a, b) < (if b < 0 then -b else b)
    ensures a < 0 ==> -(if b < 0 then -b else b) < JavaRem(a, b) <= 0
  {
    var m := if b < 0 then -b else b;
    var n := if a < 0 then -a else a;
    var q, r0 := n / m, n % m;
    assert n == m * q + r0 && 0 <= r0 < m;
    var d := JavaDiv(a, b);
    assert b * d == (if a < 0 then -(m * q) else m * q) by {
      if (a < 0) == (b < 0) {
        assert d == q;
        if b < 0 {
          assert b * q == -(m * q);
        }
      } else {
        assert d == -q;
        if b < 0 {
          assert b * -q == m * q;
        } else {
          assert b * -q == -(m * q);
        }
      }
    }
    assert JavaRem(a, b) == (if a < 0 then -r0 else r0);
    assert d * b == b * d;
  }

  /**
   * The grid cell (column, row) of a linear index: Java `index % columns` and
   * `index / columns`; zero columns throws ArithmeticException.
   */
  function IndexCell(index: int, columns: int): (r: Result<(int, int), JavaError>)
    ensures columns == 0 <==> r == Err(Arithmetic)
    ensures r.Ok? ==> r.value.1 * columns + r.value.0 == index
  {
    if columns == 0 then Err(Arithmetic)
    else
      JavaDivRem(index, columns);
      Ok((JavaRem(index, columns), JavaDiv(index, columns)))
  }

  /** For a non-negative index and positive column count, the cell is a true column/row pair. */
  lemma IndexCellInGrid(index: int, columns: int)
    requires index >= 0 && columns > 0
    ensures IndexCell(index, columns).Ok?
    ensures 0 <= IndexCell(index, columns).value.0 < columns
    ensures 0 <= IndexCell(index, columns).value.1
  {
    DivOfNatural(index, columns);
    var q, m := index / columns, index % columns;
    NaturalDivBounds(index, columns);
    assert IndexCell(index, columns) == Ok((m, q));
  }

  lemma NaturalDivBounds(a: int, b: int)
    requires a >= 0 && b > 0
    ensures a / b >= 0 && 0 <= a % b < b
  {
  }

  lemma DivOfNatural(a: int, b: int)
    requires a >= 0 && b > 0
    ensures JavaDiv(a, b) == a / b
    ensures JavaRem(a, b) == a % b
  {
    DivOfNaturalQuotient(a, b);
  }

  lemma DivOfNaturalQuotient(a: int, b: int)
    requires a >= 0 && b > 0
    ensures JavaDiv(a, b) == a / b
  {
  }

  /** A negative index gives a column at or below zero (Java truncation, not floor). */
  lemma NegativeIndexCell()
    ensures IndexCell(-1, 4) == Ok((-1, 0))
  {
    JavaDivRem(-1, 4);
  }

  class SpriteSheet {
    const tileW: int
    const tileH: int
    /** Cache from rectangle to the image first cut for it. */
    var cache: map<PixelRect, Image>
    /** Every call to the sheet's slicing, in order. */
    var slices: seq<PixelRect>

    /** Each rectangle is sliced at most once, and the cache holds exactly the sliced rectangles. */
    ghost predicate Valid()
      reads this
    {
      (forall r :: r in cache <==> r in slices)
      && (forall i, j :: 0 <= i < j < |slices| ==> slices[i] != slices[j])
      && (forall r :: r in cache ==> cache[r].rect == r && cache[r].serial < |slices| && slices[cache[r].serial] == r)
    }

    constructor (tileW: int, tileH: int)
      ensures Valid() && this.tileW == tileW && this.tileH == tileH
      ensures cache == map[] && slices == []
    {
      this.tileW := tileW;
      this.tileH := tileH;
      cache := map[];
      slices := [];
    }

    /** Cut (or fetch from the cache) the sprite at a pixel rectangle. */
    method SpritePx(x: int, y: int, w: int, h: int) returns (img: Image)
      requires Valid()
      modifies this
      ensures Valid()
      ensures img.rect == PixelRect(x, y, w, h)
      ensures PixelRect(x, y, w, h) in old(cache) ==> img == old(cache)[PixelRect(x, y, w, h)] && slices == old(slices) && cache == old(cache)
      ensures PixelRect(x, y, w, h) !in old(cache) ==>
        slices == old(slices) + [PixelRect(x, y, w, h)] && img.serial == |old(slices)| && cache == old(cache)[PixelRect(x, y, w, h) := img]
    {
      var key := PixelRect(x, y, w, h);
      if key in cache {
        return cache[key];
      }
      img := Image(key, |slices|);
      slices := slices + [key];
      cache := cache[key := img];
    }

    /** The pixel rectangle of grid cell (col, row). */
    function TileRect(col: int, row: int): PixelRect
    {
      PixelRect(col * tileW, row * tileH, tileW, tileH)
    }

    /** The sprite at grid cell (col, row), through the same cache as `SpritePx`. */
    method SpriteGrid(col: int, row: int) returns (img: Image)
      requires Valid()
      modifies this
      ensures Valid()
      ensures img.rect == TileRect(col, row)
      ensures TileRect(col, row) in old(cache) ==>
        img == old(cache)[TileRect(col, row)] && slices == old(slices) && cache == old(cache)
      ensures TileRect(col, row) !in old(cache) ==>
        slices == old(slices) + [TileRect(col, row)] && img.serial == |old(slices)| && cache == old(cache)[TileRect(col, row) := img]
    {
      img := SpritePx(col * tileW, row * tileH, tileW, tileH);
    }

    /**
     * The sprite at a linear index in a sheet of `columns` columns; zero columns is an error.
     * Otherwise it is the sprite of the index's cell, through the same cache as `SpritePx`.
     */
    method SpriteIndex(index: int, columns: int) returns (r: Result<Image, JavaError>)
      requires Valid()
      modifies this
      ensures Valid()
      ensures columns == 0 ==> r == Err(Arithmetic) && slices == old(slices) && cache == old(cache)
      ensures columns != 0 ==> r.Ok? && IndexCell(index, columns).Ok?
      ensures columns != 0 ==>
                var t := TileRect(IndexCell(index, columns).value.0, IndexCell(index, columns).value.1);
                r.Ok? && r.value.rect == t &&
                (t in old(cache) ==> r.value == old(cache)[t] && slices == old(slices) && cache == old(cache)) &&
                (t !in old(cache) ==>
                  slices == old(slices) + [t] && r.value.serial == |old(slices)| && cache == old(cache)[t := r.value])
    {
      if columns == 0 {
        return Err(Arithmetic);
      }
      var col := JavaRem(index, columns);
      var row := JavaDiv(index, columns);
      var img := SpriteGrid(col, row);
      return Ok(img);
    }
  }
}

=== FILE: stack_panel.dfy ===
/**
 * StackPanel layout (ui/layout/StackPanel.java): the visible children one after another along
 * the main axis (down for VERTICAL, right for HORIZONTAL), `spacing` only between two placed
 * children, every child inset by the same margin, and optionally stretched across the cross
 * axis. The setters, which mark the pane dirty, belong to the arena (UIArena.Arena).
 */
module StackPanels {
  import opened Base
  import opened UIInsets
  import opened UINodes

  const DEFAULT_SPACING: real := 10.0

  /** Where the main axis starts inside the pane: its leading padding. */
  function MainStart(pane: Node): real
    requires pane.kind.StackPanel?
  {
    if pane.kind.dir == VERTICAL then pane.padding.top else pane.padding.left
  }

  /** The margin before a child on the main axis. */
  function MarginStart(k: Kind): real
    requires k.StackPanel?
  {
    if k.dir == VERTICAL then k.childMargin.top else k.childMargin.left
  }

  /** The margin a child takes up on the main axis, both sides together. */
  function MarginMain(k: Kind): real
    requires k.StackPanel?
  {
    if k.dir == VERTICAL then k.childMargin.Vertical() else k.childMargin.Horizontal()
  }

  /** A child's own extent on the main axis: explicit, else preferred, else 0. */
  function MainSize(dir: Direction, c: Node): (s: real)
    ensures s >= 0.0
  {
    if dir == VERTICAL then Resolve0(c.height, c.prefH) else Resolve0(c.width, c.prefW)
  }

  /** A placed node's leading coordinate and extent on the main axis. */
  function MainLead(dir: Direction, n: Node): real
  {
    if dir == VERTICAL then n.y else n.x
  }

  function MainLength(dir: Direction, n: Node): real
  {
    if dir == VERTICAL then n.height else n.width
  }

  /**
   * The box of child `c` when the main-axis cursor is at `at` (spacing already added). On the
   * main axis the child starts after the margin and keeps its own size; across, it starts after
   * the margin and, when filling, reaches the content's far edge less the margin.
   */
  function Slot(pane: Node, at: real, c: Node): (b: Box)
    requires pane.kind.StackPanel?
    ensures var k := pane.kind; var m := k.childMargin;
            k.dir == VERTICAL ==>
              b.y == pane.padding.top + at + m.top && b.h == MainSize(VERTICAL, c) && b.x == pane.padding.left + m.left &&
              (!k.fillCrossAxis ==> b.w == Resolve0(c.width, c.prefW)) &&
              (k.fillCrossAxis ==> b.w >= 0.0) &&
              (k.fillCrossAxis && m.Horizontal() <= ContentW(pane) ==> b.x + b.w + m.right == pane.padding.left + ContentW(pane))
    ensures var k := pane.kind; var m := k.childMargin;
            k.dir == HORIZONTAL ==>
              b.x == pane.padding.left + at + m.left && b.w == MainSize(HORIZONTAL, c) && b.y == pane.padding.top + m.top &&
              (!k.fillCrossAxis ==> b.h == Resolve0(c.height, c.prefH)) &&
              (k.fillCrossAxis ==> b.h >= 0.0) &&
              (k.fillCrossAxis && m.Vertical() <= ContentH(pane) ==> b.y + b.h + m.bottom == pane.padding.top + ContentH(pane))
  {
    var k := pane.kind;
    var m := k.childMargin;
    var w := Resolve0(c.width, c.prefW);
    var h := Resolve0(c.height, c.prefH);
    if k.dir == VERTICAL then
      Box(pane.padding.left + m.left, pane.padding.top + at + m.top,
          if k.fillCrossAxis then Max(0.0, ContentW(pane) - m.Horizontal()) else w, h)
    else
      Box(pane.padding.left + at + m.left, pane.padding.top + m.top,
          w, if k.fillCrossAxis then Max(0.0, ContentH(pane) - m.Vertical()) else h)
  }

  /** The state of the pass over the children: the arena, the main-axis cursor, the count placed. */
  datatype Pass = Pass(ns: map<Id, Node>, cursor: real, placed: nat)

  /** A child the pass places: present and visible. */
  predicate Shows(ns: map<Id, Node>, id: Id)
  {
    id in ns && ns[id].visible
  }

  /** One iteration of the loop: skip an invisible child, otherwise place it and advance. */
  function Step(pane: Node, p: Pass, id: Id): (q: Pass)
    requires pane.kind.StackPanel?
    ensures q.ns.Keys == p.ns.Keys
  {
    if Shows(p.ns, id) then
      var at := if p.placed > 0 then p.cursor + pane.kind.spacing else p.cursor;
      var c := p.ns[id];
      Pass(p.ns[id := Placed(c, Slot(pane, at, c))], at + MainSize(pane.kind.dir, c) + MarginMain(pane.kind), p.placed + 1)
    else p
  }

  /** The pass over `kids`, from a cursor of 0 with nothing placed. */
  function Stack(ns: map<Id, Node>, pane: Node, kids: seq<Id>): (p: Pass)
    requires pane.kind.StackPanel?
    ensures p.ns.Keys == ns.Keys && p.placed <= |kids|
    decreases |kids|
  {
    if |kids| == 0 then Pass(ns, 0.0, 0)
    else Step(pane, Stack(ns, pane, kids[..|kids| - 1]), kids[|kids| - 1])
  }

  /** What `onLayout` leaves in the arena: only the boxes of the pane's children change. */
  function Layout(ns: map<Id, Node>, pane: Node): (r: map<Id, Node>)
    requires pane.kind.StackPanel?
    ensures BoxesOnly(ns, r, set k | k in pane.children)
  {
    StackTouches(ns, pane, pane.children);
    Stack(ns, pane, pane.children).ns
  }

  /** How many of `kids` are shown, and the main-axis room they take with their margins. */
  function Shown(ns: map<Id, Node>, kids: seq<Id>): (n: nat)
    ensures n <= |kids|
    decreases |kids|
  {
    if |kids| == 0 then 0
    else Shown(ns, kids[..|kids| - 1]) + if Shows(ns, kids[|kids| - 1]) then 1 else 0
  }

  function Used(ns: map<Id, Node>, k: Kind, kids: seq<Id>): real
    requires k.StackPanel?
    decreases |kids|
  {
    if |kids| == 0 then 0.0
    else
      var id := kids[|kids| - 1];
      Used(ns, k, kids[..|kids| - 1]) + if Shows(ns, id) then MainSize(k.dir, ns[id]) + MarginMain(k) else 0.0
  }

  /** The number of gaps between `n` placed children. */
  function Gaps(n: nat): (g: nat)
    ensures n > 0 ==> g + 1 == n
  {
    if n == 0 then 0 else n - 1
  }

  /** `n` spacings end to end. */
  function Spacings(s: real, n: nat): real
  {
    if n == 0 then 0.0 else Spacings(s, n - 1) + s
  }

  /** That is, `n` times the spacing. */
  lemma {:induction false} SpacingsScale(s: real, n: nat)
    ensures Spacings(s, n) == s * n as real
  {
    if n > 0 {
      SpacingsScale(s, n - 1);
      assert s * n as real == s * (n - 1) as real + s;
    }
  }

  /** With a spacing that is not negative, more spacings take more room. */
  lemma {:induction false} SpacingsGrow(s: real, a: nat, b: nat)
    requires s >= 0.0 && a <= b
    ensures Spacings(s, a) <= Spacings(s, b)
    decreases b - a
  {
    if a < b {
      SpacingsGrow(s, a, b - 1);
    }
  }

  /** The pass rewrites only boxes, and only those of the listed children. */
  lemma {:induction false} StackTouches(ns: map<Id, Node>, pane: Node, kids: seq<Id>)
    requires pane.kind.StackPanel?
    ensures BoxesOnly(ns, Stack(ns, pane, kids).ns, set id | id in kids)
    decreases |kids|
  {
    if |kids| > 0 {
      var prev := kids[..|kids| - 1];
      var id := kids[|kids| - 1];
      StackTouches(ns, pane, prev);
      var p := Stack(ns, pane, prev);
      var q := Step(pane, p, id);
      assert BoxesOnly(p.ns, q.ns, {id});
      BoxesOnlyTrans(ns, p.ns, q.ns, set i | i in prev, {id});
      assert (set i | i in prev) + {id} == set i | i in kids;
    }
  }

  /**
   * After the pass every shown child is counted, and the cursor has advanced by the children's
   * sizes and margins plus one spacing between each two of them: none after the last.
   */
  lemma {:induction false} StackCursor(ns: map<Id, Node>, pane: Node, kids: seq<Id>)
    requires pane.kind.StackPanel? && Distinct(kids)
    ensures var p := Stack(ns, pane, kids);
            p.placed == Shown(ns, kids) &&
            p.cursor == Used(ns, pane.kind, kids) + Spacings(pane.kind.spacing, Gaps(Shown(ns, kids)))
    decreases |kids|
  {
    if |kids| > 0 {
      var prev := kids[..|kids| - 1];
      var id := kids[|kids| - 1];
      StackCursor(ns, pane, prev);
      StackTouches(ns, pane, prev);
      var p := Stack(ns, pane, prev);
      assert id !in prev;
      assert Shows(p.ns, id) == Shows(ns, id);
      if Shows(ns, id) {
        assert p.ns[id] == ns[id];
        var n := Shown(ns, prev);
        var s := pane.kind.spacing;
        var at := if n > 0 then p.cursor + s else p.cursor;
        assert at == Used(ns, pane.kind, prev) + Spacings(s, n);
        StepCursor(pane, p, id);
        var q := Stack(ns, pane, kids);
        assert q == Step(pane, p, id);
        assert Shown(ns, kids) == n + 1;
        assert Used(ns, pane.kind, kids) == Used(ns, pane.kind, prev) + MainSize(pane.kind.dir, ns[id]) + MarginMain(pane.kind);
      } else {
        assert Stack(ns, pane, kids) == p;
        assert Shown(ns, kids) == Shown(ns, prev);
        assert Used(ns, pane.kind, kids) == Used(ns, pane.kind, prev);
      }
    }
  }

  /** What placing one shown child does to the cursor and the count. */
  lemma StepCursor(pane: Node, p: Pass, id: Id)
    requires pane.kind.StackPanel? && Shows(p.ns, id)
    ensures var q := Step(pane, p, id);
            q.placed == p.placed + 1 &&
            q.cursor == (if p.placed > 0 then p.cursor + pane.kind.spacing else p.cursor) +
                        MainSize(pane.kind.dir, p.ns[id]) + MarginMain(pane.kind)
  {
  }

  /**
   * With each child listed once, the shown child at position `j` ends up in the slot at the
   * cursor reached by the shown children before it: their sizes and margins plus one spacing each.
   */
  lemma {:induction false} StackAt(ns: map<Id, Node>, pane: Node, kids: seq<Id>, j: nat)
    requires pane.kind.StackPanel? && Distinct(kids) && j < |kids| && Shows(ns, kids[j])
    ensures Stack(ns, pane, kids).ns[kids[j]] ==
            Placed(ns[kids[j]], Slot(pane, Used(ns, pane.kind, kids[..j]) + Spacings(pane.kind.spacing, Shown(ns, kids[..j])), ns[kids[j]]))
    decreases |kids|
  {
    var prev := kids[..|kids| - 1];
    var id := kids[j];
    var p := Stack(ns, pane, prev);
    if j == |kids| - 1 {
      assert prev == kids[..j];
      StackAtLast(ns, pane, kids);
    } else {
      assert prev[j] == id && prev[..j] == kids[..j] && kids[|kids| - 1] != id;
      StackAt(ns, pane, prev, j);
      assert Step(pane, p, kids[|kids| - 1]).ns[id] == p.ns[id];
    }
  }

  /** The last child, when shown, lands at the cursor the others left. */
  lemma StackAtLast(ns: map<Id, Node>, pane: Node, kids: seq<Id>)
    requires pane.kind.StackPanel? && Distinct(kids) && |kids| > 0 && Shows(ns, kids[|kids| - 1])
    ensures var prev := kids[..|kids| - 1]; var id := kids[|kids| - 1];
            Stack(ns, pane, kids).ns[id] ==
            Placed(ns[id], Slot(pane, Used(ns, pane.kind, prev) + Spacings(pane.kind.spacing, Shown(ns, prev)), ns[id]))
  {
    var prev := kids[..|kids| - 1];
    var id := kids[|kids| - 1];
    StackCursor(ns, pane, prev);
    StackTouches(ns, pane, prev);
    assert id !in prev;
    assert Stack(ns, pane, prev).ns[id] == ns[id];
  }

  /** The shown child at position `j` on the main axis: after the margin, at its cursor, its own size. */
  lemma StackLead(ns: map<Id, Node>, pane: Node, kids: seq<Id>, j: nat)
    requires pane.kind.StackPanel? && Distinct(kids) && j < |kids| && Shows(ns, kids[j])
    ensures var n := Stack(ns, pane, kids).ns[kids[j]]; var d := pane.kind.dir;
            MainLead(d, n) == MainStart(pane) + Used(ns, pane.kind, kids[..j]) + Spacings(pane.kind.spacing, Shown(ns, kids[..j])) +
                              MarginStart(pane.kind) &&
            MainLength(d, n) == MainSize(d, ns[kids[j]])
  {
    StackAt(ns, pane, kids, j);
    SlotMain(pane, Used(ns, pane.kind, kids[..j]) + Spacings(pane.kind.spacing, Shown(ns, kids[..j])), ns[kids[j]]);
  }

  /** Sizes, margins and counts only grow along the list when margins are not negative. */
  lemma {:induction false} UsedGrows(ns: map<Id, Node>, k: Kind, kids: seq<Id>, a: nat, b: nat)
    requires k.StackPanel? && MarginMain(k) >= 0.0 && a <= b <= |kids|
    ensures Used(ns, k, kids[..a]) <= Used(ns, k, kids[..b]) && Shown(ns, kids[..a]) <= Shown(ns, kids[..b])
    decreases b - a
  {
    if a < b {
      UsedGrows(ns, k, kids, a, b - 1);
      assert kids[..b][..b - 1] == kids[..b - 1];
    }
  }

  /**
   * With spacing and the main-axis margin not negative, a later shown child starts after an
   * earlier one ends, by at least the margin and the spacing: the stack never overlaps.
   */
  lemma StackOrdered(ns: map<Id, Node>, pane: Node, kids: seq<Id>, i: nat, j: nat)
    requires pane.kind.StackPanel? && Distinct(kids) && i < j < |kids|
    requires Shows(ns, kids[i]) && Shows(ns, kids[j])
    requires pane.kind.spacing >= 0.0 && MarginMain(pane.kind) >= 0.0
    ensures var r := Stack(ns, pane, kids).ns; var d := pane.kind.dir;
            MainLead(d, r[kids[i]]) + MainLength(d, r[kids[i]]) + MarginMain(pane.kind) + pane.kind.spacing
              <= MainLead(d, r[kids[j]])
  {
    var k := pane.kind;
    var s := k.spacing;
    StackLead(ns, pane, kids, i);
    StackLead(ns, pane, kids, j);
    assert kids[..i + 1][..i] == kids[..i];
    assert Used(ns, k, kids[..i + 1]) == Used(ns, k, kids[..i]) + MainSize(k.dir, ns[kids[i]]) + MarginMain(k);
    assert Shown(ns, kids[..i + 1]) == Shown(ns, kids[..i]) + 1;
    UsedGrows(ns, k, kids, i + 1, j);
    SpacingsGrow(s, Shown(ns, kids[..i]) + 1, Shown(ns, kids[..j]));
  }

  /** Where a slot puts a child on the main axis. */
  lemma SlotMain(pane: Node, at: real, c: Node)
    requires pane.kind.StackPanel?
    ensures var n := Placed(c, Slot(pane, at, c)); var d := pane.kind.dir;
            MainLead(d, n) == MainStart(pane) + at + MarginStart(pane.kind) && MainLength(d, n) == MainSize(d, c)
  {
  }

  /** The pane's `onLayout`: the loop over the children with its cursor and placed count. */
  method LayoutChildren(ns: map<Id, Node>, pane: Node) returns (r: map<Id, Node>)
    requires pane.kind.StackPanel?
    ensures r == Layout(ns, pane)
  {
    var kids := pane.children;
    var cursor := 0.0;
    var placed := 0;
    r := ns;
    var i := 0;
    while i < |kids|
      invariant 0 <= i <= |kids|
      invariant Pass(r, cursor, placed) == Stack(ns, pane, kids[..i])
    {
      var id := kids[i];
      assert kids[..i + 1][..i] == kids[..i];
      if id in r && r[id].visible {
        var c := r[id];
        if placed > 0 {
          cursor := cursor + pane.kind.spacing;
        }
        var b := Slot(pane, cursor, c);
        r := r[id := Placed(c, b)];
        cursor := cursor + MainSize(pane.kind.dir, c) + MarginMain(pane.kind);
        placed := placed + 1;
      }
      i := i + 1;
    }
    assert kids[..i] == kids;
  }
}

=== FILE: text_field.dfy ===
/**
 * A single-line text field: a character buffer edited at a caret, and a horizontal scroll
 * that keeps the caret in view (ui/widgets/TextField.java). Font metrics are outside the
 * model: whether a font is available is a parameter `hasFont`, and the pixel width of a
 * string is a parameter function `measure`.
 */
module TextFields {
  import opened Base
  import opened UIInsets
  import opened KeyCodes

  /** Pixels kept between the caret and either edge of the visible text when scrolling. */
  const CARET_MARGIN := 6

  /** Java's `(int)` cast of a float: truncation toward zero. */
  function TruncToInt(x: real): (n: int)
    ensures x >= 0.0 ==> n as real <= x < n as real + 1.0
    ensures x < 0.0 ==> n as real - 1.0 < x <= n as real
  {
    if x >= 0.0 then x.Floor else -((-x).Floor)
  }

  /** The scroll after `ensureCaretVisible` moved it towards the caret, before clamping. */
  function ScrollTowards(scroll: int, caretPx: int, innerW: int): int
  {
    if caretPx < scroll + CARET_MARGIN then IMax(0, caretPx - CARET_MARGIN)
    else if caretPx > scroll + innerW - CARET_MARGIN then caretPx - innerW + CARET_MARGIN
    else scroll
  }

  /** Clamping into [0, max(0, textWidth - innerW)]: too far right first, then below zero. */
  function ClampToText(scroll: int, textWidth: int, innerW: int): (r: int)
    ensures 0 <= r <= IMax(0, textWidth - innerW)
    ensures 0 <= scroll <= IMax(0, textWidth - innerW) ==> r == scroll
  {
    var maxScroll := IMax(0, textWidth - innerW);
    var s := if scroll > maxScroll then maxScroll else scroll;
    if s < 0 then 0 else s
  }

  /**
   * When the caret's pixel offset lies within the text and the view is at least a margin wide,
   * the scroll chosen by `ensureCaretVisible` shows the caret: scroll <= caretPx <= scroll + innerW.
   */
  lemma CaretVisible(scroll: int, caretPx: int, textWidth: int, innerW: int)
    requires 0 <= caretPx <= textWidth && innerW >= CARET_MARGIN
    ensures var s := ClampToText(ScrollTowards(scroll, caretPx, innerW), textWidth, innerW);
            s <= caretPx <= s + innerW
  {
  }

  /**
   * The scroll `ensureCaretVisible` leaves for text `v` with the caret at `c`: unchanged without a
   * font, 0 with no room or no text, and otherwise moved towards the caret and clamped to the text.
   * Whenever the caret's offset lies within the text and the view is at least a margin wide, the
   * caret is then inside the view.
   */
  function CaretScroll(scroll: int, hasFont: bool, v: string, c: int, innerW: int, measure: string -> int): (r: int)
    requires 0 <= c <= |v|
    ensures !hasFont ==> r == scroll
    ensures hasFont && (innerW <= 0 || |v| == 0) ==> r == 0
    ensures hasFont ==> 0 <= r <= IMax(0, measure(v) - innerW)
    ensures hasFont && innerW >= CARET_MARGIN && |v| > 0 && 0 <= measure(v[..c]) <= measure(v) ==>
              r <= measure(v[..c]) <= r + innerW
  {
    if !hasFont then scroll
    else if innerW <= 0 || |v| == 0 then 0
    else
      var caretPx := measure(v[..c]);
      var textWidth := measure(v);
      if 0 <= caretPx <= textWidth && innerW >= CARET_MARGIN then
        CaretVisible(scroll, caretPx, textWidth, innerW);
        ClampToText(ScrollTowards(scroll, caretPx, innerW), textWidth, innerW)
      else
        ClampToText(ScrollTowards(scroll, caretPx, innerW), textWidth, innerW)
  }

  class TextField {
    var value: seq<char>
    var caret: int
    var scrollX: int
    var focused: bool
    var layoutDirty: bool
    /** The node's computed width and padding (`gw`, `padding`), which fix the inner width. */
    var gw: real
    var padding: Insets

    /** The caret lies within the text. */
    ghost predicate Valid()
      reads this
    {
      0 <= caret <= |value|
    }

    /** A new field: empty, unfocused, with padding 10 on each axis. */
    constructor ()
      ensures Valid() && value == [] && caret == 0 && scrollX == 0 && !focused
      ensures padding == Hv(10.0, 10.0)
    {
      value, caret, scrollX, focused, layoutDirty := [], 0, 0, false, false;
      gw := 0.0;
      padding := Hv(10.0, 10.0);
    }

    function InnerW(): (w: int)
      reads this
    {
      TruncToInt(gw - padding.Horizontal())
    }

    function GetText(): (s: string)
      reads this
      ensures |s| == |value|
    {
      value
    }

    /** `setText`: replaces the text (null is empty), pulls the caret back inside it, resets the scroll. */
    method SetText(s: Option<string>)
      modifies this`value, this`caret, this`scrollX, this`layoutDirty
      requires Valid()
      ensures Valid()
      ensures value == (if s.Some? then s.value else [])
      ensures caret == IMin(old(caret), |value|) && scrollX == 0 && layoutDirty
    {
      value := if s.Some? then s.value else [];
      caret := IMin(caret, |value|);
      scrollX := 0;
      layoutDirty := true;
    }

    /**
     * `ensureCaretVisible`: without a font nothing changes; with no room or no text the scroll is 0;
     * otherwise the scroll moves to show the caret and is clamped to the text.
     */
    method EnsureCaretVisible(hasFont: bool, measure: string -> int)
      requires Valid()
      modifies this`scrollX
      ensures !hasFont ==> scrollX == old(scrollX)
      ensures hasFont && (InnerW() <= 0 || |value| == 0) ==> scrollX == 0
      ensures hasFont ==> 0 <= scrollX <= IMax(0, measure(value) - InnerW())
      ensures hasFont && InnerW() > 0 && |value| > 0 ==>
                scrollX == ClampToText(ScrollTowards(old(scrollX), measure(value[..caret]), InnerW()), measure(value), InnerW())
      ensures scrollX == CaretScroll(old(scrollX), hasFont, value, caret, InnerW(), measure)
    {
      if !hasFont {
        return;
      }
      var innerW := TruncToInt(gw - padding.Horizontal());
      if innerW <= 0 {
        scrollX := 0;
        return;
      }
      if |value| == 0 {
        scrollX := 0;
        return;
      }
      var caretPx := measure(value[..caret]);
      var textWidth := measure(value);
      if caretPx < scrollX + CARET_MARGIN {
        scrollX := IMax(0, caretPx - CARET_MARGIN);
      } else if caretPx > scrollX + innerW - CARET_MARGIN {
        scrollX := caretPx - innerW + CARET_MARGIN;
      }
      var maxScroll := IMax(0, textWidth - innerW);
      if scrollX > maxScroll {
        scrollX := maxScroll;
      }
      if scrollX < 0 {
        scrollX := 0;
      }
    }

    /** `clampScroll`: without a font or without room the scroll is 0; otherwise it is clamped to the text. */
    method ClampScroll(hasFont: bool, measure: string -> int)
      modifies this`scrollX
      ensures !hasFont || InnerW() <= 0 ==> scrollX == 0
      ensures hasFont && InnerW() > 0 ==> scrollX == ClampToText(old(scrollX), measure(value), InnerW())
      ensures hasFont ==> 0 <= scrollX <= IMax(0, measure(value) - InnerW())
    {
      if !hasFont {
        scrollX := 0;
        return;
      }
      var innerW := TruncToInt(gw - padding.Horizontal());
      if innerW <= 0 {
        scrollX := 0;
        return;
      }
      var textWidth := measure(value);
      var maxScroll := IMax(0, textWidth - innerW);
      if scrollX > maxScroll {
        scrollX := maxScroll;
      }
      if scrollX < 0 {
        scrollX := 0;
      }
    }

    /**
     * `onKeyDown`: only a focused field reacts. Backspace deletes before the caret, Delete at it,
     * Left/Right move by one within the text, Home/End jump to its ends; those keys are consumed
     * even when they change nothing. Every consumed key except Backspace at the start and Delete at
     * the end then scrolls the caret into view.
     * Every other key is refused.
     */
    method OnKeyDown(keyCode: int, hasFont: bool, measure: string -> int) returns (consumed: bool)
      requires Valid()
      modifies this`value, this`caret, this`scrollX
      ensures Valid()
      ensures !focused ==> !consumed && value == old(value) && caret == old(caret) && scrollX == old(scrollX)
      ensures focused ==>
                (consumed <==> keyCode in {VK_BACK_SPACE, VK_DELETE, VK_LEFT, VK_RIGHT, VK_HOME, VK_END})
      ensures !consumed ==> value == old(value) && caret == old(caret) && scrollX == old(scrollX)
      ensures focused && keyCode == VK_BACK_SPACE ==>
                if old(caret) > 0 then
                  value == old(value)[..old(caret) - 1] + old(value)[old(caret)..] && caret == old(caret) - 1
                else value == old(value) && caret == old(caret)
      ensures focused && keyCode == VK_DELETE ==>
                caret == old(caret) &&
                if old(caret) < |old(value)| then value == old(value)[..old(caret)] + old(value)[old(caret) + 1..]
                else value == old(value)
      ensures focused && keyCode in {VK_LEFT, VK_RIGHT, VK_HOME, VK_END} ==> value == old(value)
      ensures focused && keyCode == VK_LEFT ==> caret == IMax(0, old(caret) - 1)
      ensures focused && keyCode == VK_RIGHT ==> caret == IMin(|value|, old(caret) + 1)
      ensures focused && keyCode == VK_HOME ==> caret == 0
      ensures focused && keyCode == VK_END ==> caret == |value|
      ensures focused && keyCode == VK_BACK_SPACE && old(caret) == 0 ==> scrollX == old(scrollX)
      ensures focused && keyCode == VK_DELETE && old(caret) == |old(value)| ==> scrollX == old(scrollX)
      ensures consumed && !(keyCode == VK_BACK_SPACE && old(caret) == 0) &&
              !(keyCode == VK_DELETE && old(caret) == |old(value)|) ==>
                scrollX == CaretScroll(old(scrollX), hasFont, value, caret, InnerW(), measure)
    {
      if !focused {
        return false;
      }
      if keyCode == VK_BACK_SPACE {
        if caret > 0 && |value| > 0 {
          value := value[..caret - 1] + value[caret..];
          caret := caret - 1;
          EnsureCaretVisible(hasFont, measure);
        }
        return true;
      } else if keyCode == VK_DELETE {
        if caret < |value| {
          value := value[..caret] + value[caret + 1..];
          EnsureCaretVisible(hasFont, measure);
        }
        return true;
      } else if keyCode == VK_LEFT {
        caret := IMax(0, caret - 1);
        EnsureCaretVisible(hasFont, measure);
        return true;
      } else if keyCode == VK_RIGHT {
        caret := IMin(|value|, caret + 1);
        EnsureCaretVisible(hasFont, measure);
        return true;
      } else if keyCode == VK_HOME {
        caret := 0;
        EnsureCaretVisible(hasFont, measure);
        return true;
      } else if keyCode == VK_END {
        caret := |value|;
        EnsureCaretVisible(hasFont, measure);
        return true;
      }
      return false;
    }

    /**
     * `onTextInput`: a focused field inserts non-empty text at the caret and moves the caret past it;
     * the text before the caret is kept, and the caret is scrolled into view.
     */
    method OnTextInput(text: Option<string>, hasFont: bool, measure: string -> int) returns (consumed: bool)
      requires Valid()
      modifies this`value, this`caret, this`scrollX
      ensures Valid()
      ensures consumed <==> focused && text.Some? && text.value != []
      ensures !consumed ==> value == old(value) && caret == old(caret) && scrollX == old(scrollX)
      ensures consumed ==>
                value == old(value)[..old(caret)] + text.value + old(value)[old(caret)..] &&
                caret == old(caret) + |text.value| &&
                value[..old(caret)] == old(value)[..old(caret)] &&
                value[old(caret)..caret] == text.value
      ensures consumed ==> scrollX == CaretScroll(old(scrollX), hasFont, value, caret, InnerW(), measure)
    {
      if !focused || text.None? || text.value == [] {
        return false;
      }
      var t := text.value;
      value := value[..caret] + t + value[caret..];
      caret := caret + |t|;
      EnsureCaretVisible(hasFont, measure);
      return true;
    }
  }
}

=== FILE: timer_handle.dfy ===
/** Cancellation token of a scheduled task (core/time/TimerHandle.java). */
module TimerHandles {
  class TimerHandle {
    var cancelled: bool

    constructor ()
      ensures !cancelled
    {
      cancelled := false;
    }

    /** Cancelling is permanent and idempotent: the flag is set whatever it was. */
    method Cancel()
      modifies this
      ensures cancelled
    {
      cancelled := true;
    }

    method IsCancelled() returns (c: bool)
      ensures c == cancelled
    {
      return cancelled;
    }
  }
}

=== FILE: transition_scene.dfy ===
/**
 * A scene that plays a transition between two scenes and then asks the manager to finish
 * the stack change (scene/TransitionScene.java). The transition's duration is a fixed
 * number; its drawing is not modelled. Callbacks into `from` and `to` are recorded in the
 * manager's event log.
 */
module Transitions {
  import opened Base
  import opened SceneStack

  datatype Mode = SET | PUSH | POP

  /** The request `finish` makes of the manager: set(to), replaceTop(to) or pop(). */
  function FinishRequest(mode: Mode, to: Option<Scene>): (r: Request)
    ensures mode == SET <==> r.SetReq?
    ensures mode == PUSH <==> r.ReplaceTopReq?
    ensures mode == POP <==> r == PopReq
    ensures !r.PopReq? ==> r.s == to
  {
    match mode
    case SET => SetReq(to)
    case PUSH => ReplaceTopReq(to)
    case POP => PopReq
  }

  /** The update events a scene that may be null receives. */
  function UpdateOf(s: Option<Scene>, dt: real): (es: seq<Event>)
    ensures s.None? <==> es == []
  {
    if s.Some? then [Updated(s.value, dt)] else []
  }

  class TransitionScene {
    const scenes: SceneManager
    const from: Option<Scene>
    const to: Option<Scene>
    const duration: real
    const mode: Mode
    var t: real
    var completed: bool
    /** How many times `finish` has run. */
    ghost var finishes: nat

    /** `finish` has run exactly when the transition is completed, and never more than once. */
    ghost predicate Valid()
      reads this
    {
      finishes == (if completed then 1 else 0)
    }

    constructor (scenes: SceneManager, from: Option<Scene>, to: Option<Scene>, duration: real, mode: Mode)
      ensures this.scenes == scenes && this.from == from && this.to == to
      ensures this.duration == duration && this.mode == mode
      ensures t == 0.0 && !completed && Valid()
    {
      this.scenes := scenes;
      this.from := from;
      this.to := to;
      this.duration := duration;
      this.mode := mode;
      t := 0.0;
      completed := false;
      finishes := 0;
    }

    /** `onEnter`: for SET and PUSH the incoming scene is entered here; for POP it is already on the stack. */
    method OnEnter()
      modifies scenes`log
      ensures (mode == SET || mode == PUSH) && to.Some? ==> scenes.log == old(scenes.log) + [Enter(to.value)]
      ensures !((mode == SET || mode == PUSH) && to.Some?) ==> scenes.log == old(scenes.log)
    {
      if mode == SET || mode == PUSH {
        if to.Some? {
          scenes.log := scenes.log + [Enter(to.value)];
        }
      }
    }

    /**
     * `update`: a completed transition ignores updates. Otherwise both scenes update, the clock
     * advances, and on the first update where it reaches the duration the transition completes
     * and requests its stack change.
     */
    method Update(dt: real)
      requires Valid()
      modifies this`t, this`completed, this`finishes, scenes
      ensures Valid() && finishes <= 1
      ensures old(completed) ==> t == old(t) && completed && finishes == old(finishes) &&
                                 scenes.State() == old(scenes.State())
      ensures !old(completed) ==> t == old(t) + dt && (completed <==> t >= duration)
      ensures !old(completed) && !completed ==>
                scenes.State() == old(scenes.State()).(log := old(scenes.log) + UpdateOf(from, dt) + UpdateOf(to, dt))
      ensures !old(completed) && completed ==>
                finishes == old(finishes) + 1 &&
                scenes.State() ==
                  Issue(old(scenes.State()).(log := old(scenes.log) + UpdateOf(from, dt) + UpdateOf(to, dt)),
                        FinishRequest(mode, to))
    {
      if completed {
        return;
      }
      if from.Some? {
        scenes.log := scenes.log + [Updated(from.value, dt)];
      }
      if to.Some? {
        scenes.log := scenes.log + [Updated(to.value, dt)];
      }
      t := t + dt;
      if t >= duration {
        completed := true;
        Finish();
      }
    }

    /** `finish`: asks the manager for the stack change matching the mode. */
    method Finish()
      requires finishes == 0
      modifies scenes, this`finishes
      ensures finishes == 1
      ensures scenes.State() == Issue(old(scenes.State()), FinishRequest(mode, to))
    {
      finishes := finishes + 1;
      match mode
      case SET => scenes.Set(to);
      case PUSH => scenes.ReplaceTop(to);
      case POP => scenes.Pop();
    }

    /** Render progress: 1 when the duration is not positive, else t / duration, clamped to [0, 1]. */
    function Alpha(): (a: real)
      reads this
      ensures 0.0 <= a <= 1.0
      ensures duration <= 0.0 ==> a == 1.0
      ensures duration > 0.0 && 0.0 <= t <= duration ==> a * duration == t
      ensures duration > 0.0 && t >= duration ==> a == 1.0
    {
      var raw := if duration <= 0.0 then 1.0 else t / duration;
      if raw < 0.0 then 0.0 else if raw > 1.0 then 1.0 else raw
    }

    /** PUSH and POP transitions draw over the scene below; SET replaces everything. */
    function IsOverlay(): (b: bool)
      ensures b <==> mode != SET
    {
      mode == PUSH || mode == POP
    }
  }
}

=== FILE: ui_edits.dfy ===
/**
 * The container setters that change the tree as well as the container's own tables:
 * `GridPanel.add` (ui/layout/GridPanel.java), `DockPane.setDock` (ui/layout/DockPane.java) and
 * `Center.set` (ui/layout/Center.java), and the move of a child to the end of its parent's list
 * that `UIRoot.pushModal` (ui/UIRoot.java) performs, each as the arena it leaves, with what that
 * arena satisfies. The methods that perform them in place are in UIArena.Arena.
 */
module UIEdits {
  import opened Base
  import opened UINodes
  import opened UITree
  import DockPanes
  import GridPanels

  // ---------------------------------------------------------------------------------------------
  // Shared facts about `add`

  /** `add` touches no table but that of the old parent: `p`'s own only when `c` was already its child. */
  lemma AddedKind(ns: map<Id, Node>, rank: map<Id, nat>, p: Id, c: Id)
    requires Chained(ns, rank) && p in ns && c in ns && forall k :: k in ns ==> KindOk(ns[k])
    ensures KindOk(ns[p])
    ensures Added(ns, rank, p, c)[p].kind == if ns[c].parent == Some(p) then Forget(ns[p].kind, c) else ns[p].kind
  {
    assert KindOk(ns[p]);
    var u := Unparented(ns, rank, c);
    if ns[c].parent.Some? {
      var q := ns[c].parent.value;
      assert KindOk(ns[q]);
      var forgot := ns[q := ns[q].(kind := Forget(ns[q].kind, c))];
      if c in ns[q].children {
        FlaggedTree(Detach(forgot, q, c), Ancestry(ns, rank, q));
      }
      assert u[p].kind == forgot[p].kind;
    }
    FlaggedTree(Link(u, p, c), Ancestry(ns, rank, p));
  }

  /** After `add`, `p` and its ancestors are marked: a `markLayoutDirty` on `p` changes nothing more. */
  lemma AddedDirty(ns: map<Id, Node>, rank: map<Id, nat>, p: Id, c: Id)
    requires Chained(ns, rank) && p in ns && c in ns && forall k :: k in ns ==> KindOk(ns[k])
    ensures forall k :: k in Ancestry(ns, rank, p) ==> Added(ns, rank, p, c)[k].layoutDirty
  {
    FlaggedTree(Link(Unparented(ns, rank, c), p, c), Ancestry(ns, rank, p));
  }

  /** `add` re-links only `c`: every other node keeps its parent. */
  lemma AddedAgrees(ns: map<Id, Node>, rank: map<Id, nat>, bound: nat, p: Id, c: Id)
    requires Wf(ns, rank, bound) && p in ns && c in ns
    ensures LinksAgree(ns, Added(ns, rank, p, c), Some(c))
  {
    UnparentedWf(ns, rank, bound, c);
    var l := Link(Unparented(ns, rank, c), p, c);
    FlaggedTree(l, Ancestry(ns, rank, p));
  }

  /** Replacing a node by one with the same links and consistent tables keeps the arena well formed and every ancestry. */
  lemma ReplacedWf(ns: map<Id, Node>, rank: map<Id, nat>, bound: nat, p: Id, m: Node, x: Id)
    requires Wf(ns, rank, bound) && p in ns && x in ns
    requires m.parent == ns[p].parent && m.children == ns[p].children && KindOk(m)
    ensures Wf(ns[p := m], rank, bound) && Ancestry(ns[p := m], rank, x) == Ancestry(ns, rank, x)
  {
    var r := ns[p := m];
    SameLinksWf(ns, r, rank, bound);
    SameLinksPreserve(ns, r);
    AncestryKept(ns, r, rank, rank, None, x);
  }

  // ---------------------------------------------------------------------------------------------
  // GridPanel.add

  /** `GridPanel.add(c, row, col, rowSpan, colSpan)`: the base `add`, then a cell record for `c` ends the list. */
  ghost function GridAdded(ns: map<Id, Node>, rank: map<Id, nat>, p: Id, c: Id,
                           row: int, col: int, rowSpan: int, colSpan: int): (r: map<Id, Node>)
    requires Chained(ns, rank) && p in ns && c in ns && ns[p].kind.GridPanel?
    requires forall k :: k in ns ==> KindOk(ns[k])
  {
    AddedKind(ns, rank, p, c);
    var a := Added(ns, rank, p, c);
    var k := a[p].kind;
    a[p := a[p].(kind := k.(cells := k.cells + [GridPanels.NewCell(c, row, col, rowSpan, colSpan)]))]
  }

  /** After the base `add`, `p` is still a grid, lists `c`, and holds no record for `c`; other nodes' records are kept. */
  lemma AddedCells(ns: map<Id, Node>, rank: map<Id, nat>, bound: nat, p: Id, c: Id)
    requires Wf(ns, rank, bound) && p in ns && c in ns && ns[p].kind.GridPanel? && !Within(ns, rank, p, c)
    ensures var a := Added(ns, rank, p, c); var k := a[p].kind;
            Wf(a, AddedRank(ns, rank, bound, p, c), bound + rank[p] + 1) && KindOk(a[p]) && k.GridPanel? &&
            a[c].parent == Some(p) && |a[p].children| > 0 && a[p].children[|a[p].children| - 1] == c &&
            (forall i :: 0 <= i < |k.cells| ==> k.cells[i].node != c) &&
            (forall x :: x in ns[p].kind.cells && x.node != c ==> x in k.cells)
  {
    AddedWf(ns, rank, bound, p, c);
    AddedLinks(ns, rank, bound, p, c);
    AddedKind(ns, rank, p, c);
    ForgetDrops(ns[p].kind, c);
    var a := Added(ns, rank, p, c);
    var k := a[p].kind;
    assert KindOk(a[p]);
    if ns[c].parent != Some(p) {
      assert KindOk(ns[p]);
      forall i | 0 <= i < |k.cells|
        ensures k.cells[i].node != c
      {
        if k.cells[i].node == c {
          ListedByParent(ns, p, c);
        }
      }
    }
  }

  /**
   * After `GridPanel.add` the arena is well formed and `c` is the last child of `p`, and its
   * parent is `p`.
   */
  lemma GridAddedWf(ns: map<Id, Node>, rank: map<Id, nat>, bound: nat, p: Id, c: Id,
                    row: int, col: int, rowSpan: int, colSpan: int)
    requires Wf(ns, rank, bound) && p in ns && c in ns && ns[p].kind.GridPanel? && !Within(ns, rank, p, c)
    ensures var r := GridAdded(ns, rank, p, c, row, col, rowSpan, colSpan);
            Wf(r, AddedRank(ns, rank, bound, p, c), bound + rank[p] + 1) &&
            r[c].parent == Some(p) && |r[p].children| > 0 && r[p].children[|r[p].children| - 1] == c
  {
    AddedCells(ns, rank, bound, p, c);
    var a := Added(ns, rank, p, c);
    var k := a[p].kind;
    var cell := GridPanels.NewCell(c, row, col, rowSpan, colSpan);
    var m := a[p].(kind := k.(cells := k.cells + [cell]));
    CellAppended(a[p], cell);
    ReplacedWf(a, AddedRank(ns, rank, bound, p, c), bound + rank[p] + 1, p, m, p);
    assert GridAdded(ns, rank, p, c, row, col, rowSpan, colSpan) == a[p := m];
  }

  /**
   * After `GridPanel.add` the new record for `c`, with spans of at least 1, ends `p`'s list and is
   * the only one for `c`; the records of every other node are kept. A child added twice thus
   * keeps only its latest cell.
   */
  lemma GridAddedCells(ns: map<Id, Node>, rank: map<Id, nat>, bound: nat, p: Id, c: Id,
                       row: int, col: int, rowSpan: int, colSpan: int)
    requires Wf(ns, rank, bound) && p in ns && c in ns && ns[p].kind.GridPanel? && !Within(ns, rank, p, c)
    ensures var cells := GridAdded(ns, rank, p, c, row, col, rowSpan, colSpan)[p].kind.cells;
            |cells| > 0 && cells[|cells| - 1] == GridPanels.NewCell(c, row, col, rowSpan, colSpan) &&
            (forall i :: 0 <= i < |cells| - 1 ==> cells[i].node != c) &&
            (forall x :: x in ns[p].kind.cells && x.node != c ==> x in cells)
  {
    AddedCells(ns, rank, bound, p, c);
    var a := Added(ns, rank, p, c);
    var before := a[p].kind.cells;
    var cells := GridAdded(ns, rank, p, c, row, col, rowSpan, colSpan)[p].kind.cells;
    assert cells == before + [GridPanels.NewCell(c, row, col, rowSpan, colSpan)];
    assert forall i :: 0 <= i < |before| ==> cells[i] == before[i];
  }

  /** A record for a child that has none, with spans of at least 1, keeps a grid's tables consistent. */
  lemma CellAppended(n: Node, cell: Cell)
    requires KindOk(n) && n.kind.GridPanel? && cell.rowSpan >= 1 && cell.colSpan >= 1 && cell.node in n.children
    requires forall i :: 0 <= i < |n.kind.cells| ==> n.kind.cells[i].node != cell.node
    ensures KindOk(n.(kind := n.kind.(cells := n.kind.cells + [cell])))
  {
    var cells := n.kind.cells + [cell];
    assert forall i :: 0 <= i < |n.kind.cells| ==> cells[i] == n.kind.cells[i];
    assert cells[|n.kind.cells|] == cell;
  }

  // ---------------------------------------------------------------------------------------------
  // DockPane.setDock

  /** A DockPane's occupied slot holds one of its children, registered under that slot. */
  lemma Occupant(ns: map<Id, Node>, rank: map<Id, nat>, bound: nat, p: Id, d: Dock)
    requires Wf(ns, rank, bound) && p in ns && ns[p].kind.DockPane? && d in ns[p].kind.slots
    ensures var e := ns[p].kind.slots[d];
            KindOk(ns[p]) && e in ns[p].children && e in ns && ns[e].parent == Some(p) &&
            e in ns[p].kind.docks && ns[p].kind.docks[e] == d && !Within(ns, rank, p, e)
  {
    assert KindOk(ns[p]);
    ListedByParent(ns, p, ns[p].kind.slots[d]);
  }

  /** The first step of `setDock`: the node holding slot `d`, if there is one, leaves the pane. */
  ghost function Vacated(ns: map<Id, Node>, rank: map<Id, nat>, bound: nat, p: Id, d: Dock): map<Id, Node>
    requires Wf(ns, rank, bound) && p in ns && ns[p].kind.DockPane?
  {
    var k := ns[p].kind;
    if d in k.slots then
      Occupant(ns, rank, bound, p, d);
      Removed(ns, rank, p, k.slots[d])
    else ns
  }

  /**
   * Emptying slot `d` keeps the arena well formed and `p`'s chain of ancestors; slot `d` is free,
   * every other slot keeps its node, and the old occupant is detached.
   */
  lemma VacatedWf(ns: map<Id, Node>, rank: map<Id, nat>, bound: nat, p: Id, d: Dock, x: Id)
    requires Wf(ns, rank, bound) && p in ns && ns[p].kind.DockPane? && x in ns
    ensures var v := Vacated(ns, rank, bound, p, d); var k := v[p].kind; var k0 := ns[p].kind;
            Wf(v, rank, bound) && v.Keys == ns.Keys && k.DockPane? && d !in k.slots &&
            Within(v, rank, p, x) == Within(ns, rank, p, x) &&
            (forall d' :: d' in k.slots <==> d' in k0.slots && d' != d) &&
            (forall d' :: d' in k.slots ==> k.slots[d'] == k0.slots[d']) &&
            (d in k0.slots ==> v[k0.slots[d]].parent.None?) &&
            (forall y :: y in ns && (d !in k0.slots || y != k0.slots[d]) ==> v[y].parent == ns[y].parent)
  {
    var k0 := ns[p].kind;
    if d in k0.slots {
      var e := k0.slots[d];
      Occupant(ns, rank, bound, p, d);
      RemovedOutcome(ns, rank, bound, p, e);
      var v := Removed(ns, rank, p, e);
      assert LinksAgree(ns, v, Some(e));
      WithinAvoiding(ns, v, rank, rank, Some(e), p, x);
    }
  }

  /** The second step of `setDock`: `c` added to the emptied pane. */
  ghost function Docking(ns: map<Id, Node>, rank: map<Id, nat>, bound: nat, p: Id, d: Dock, c: Id): (a: map<Id, Node>)
    requires Wf(ns, rank, bound) && p in ns && c in ns && ns[p].kind.DockPane?
    ensures a.Keys == ns.Keys && a[p].kind.DockPane?
  {
    VacatedWf(ns, rank, bound, p, d, c);
    AddedKind(Vacated(ns, rank, bound, p, d), rank, p, c);
    Added(Vacated(ns, rank, bound, p, d), rank, p, c)
  }

  /**
   * `setDock(d, c)`: the occupant of `d` leaves, `c` is added to the pane (leaving its old
   * parent, or its old slot of this pane, first), and the tables record `c` in `d`. `add` has
   * already marked `p` and its ancestors, so the closing `markLayoutDirty` changes nothing.
   */
  ghost function Redocked(ns: map<Id, Node>, rank: map<Id, nat>, bound: nat, p: Id, d: Dock, c: Id): map<Id, Node>
    requires Wf(ns, rank, bound) && p in ns && c in ns && ns[p].kind.DockPane?
  {
    var a := Docking(ns, rank, bound, p, d, c);
    var k := a[p].kind;
    a[p := a[p].(kind := DockPane(k.docks[c := d], k.slots[d := c]))]
  }

  /** The rank that witnesses the arena `Redocked` returns. */
  ghost function RedockedRank(ns: map<Id, Node>, rank: map<Id, nat>, bound: nat, p: Id, d: Dock, c: Id): map<Id, nat>
    requires Wf(ns, rank, bound) && p in ns && c in ns && ns[p].kind.DockPane?
  {
    VacatedWf(ns, rank, bound, p, d, c);
    AddedRank(Vacated(ns, rank, bound, p, d), rank, bound, p, c)
  }

  /** After the `add` of `setDock`, the arena is well formed and `c` is `p`'s last child; only `c` was re-linked. */
  lemma DockingWf(ns: map<Id, Node>, rank: map<Id, nat>, bound: nat, p: Id, d: Dock, c: Id)
    requires Wf(ns, rank, bound) && p in ns && c in ns && ns[p].kind.DockPane? && !Within(ns, rank, p, c)
    ensures var a := Docking(ns, rank, bound, p, d, c);
            Wf(a, RedockedRank(ns, rank, bound, p, d, c), bound + rank[p] + 1) &&
            a[c].parent == Some(p) && |a[p].children| > 0 && a[p].children[|a[p].children| - 1] == c &&
            LinksAgree(Vacated(ns, rank, bound, p, d), a, Some(c))
  {
    VacatedWf(ns, rank, bound, p, d, c);
    var v := Vacated(ns, rank, bound, p, d);
    AddedWf(v, rank, bound, p, c);
    AddedLinks(v, rank, bound, p, c);
    AddedAgrees(v, rank, bound, p, c);
  }

  /**
   * Just before `setDock` records `c`, `p`'s tables are inverse and within its children, slot `d`
   * is free and `c` is in no slot; every slot but `d` kept its node unless that node was `c`.
   */
  lemma DockingTables(ns: map<Id, Node>, rank: map<Id, nat>, bound: nat, p: Id, d: Dock, c: Id)
    requires Wf(ns, rank, bound) && p in ns && c in ns && ns[p].kind.DockPane? && !Within(ns, rank, p, c)
    ensures var a := Docking(ns, rank, bound, p, d, c); var k := a[p].kind; var k0 := ns[p].kind;
            DockPanes.Inverse(k.docks, k.slots) && d !in k.slots && c !in k.docks &&
            (forall d' :: d' in k.slots ==> d' in k0.slots && k.slots[d'] == k0.slots[d']) &&
            (forall d' :: d' in k0.slots && d' != d && k0.slots[d'] != c ==> d' in k.slots) &&
            (forall n :: n in k.docks ==> n in a[p].children)
  {
    VacatedWf(ns, rank, bound, p, d, c);
    var v := Vacated(ns, rank, bound, p, d);
    AddedWf(v, rank, bound, p, c);
    AddedKind(v, rank, p, c);
    var a := Added(v, rank, p, c);
    assert KindOk(a[p]);
    var kv := v[p].kind;
    if v[c].parent != Some(p) {
      if c in kv.docks {
        ListedByParent(v, p, c);
      }
    } else {
      ForgetDrops(kv, c);
    }
  }

  /** `setDock` keeps the arena well formed. */
  lemma RedockedKeepsWf(ns: map<Id, Node>, rank: map<Id, nat>, bound: nat, p: Id, d: Dock, c: Id)
    requires Wf(ns, rank, bound) && p in ns && c in ns && ns[p].kind.DockPane? && !Within(ns, rank, p, c)
    ensures Wf(Redocked(ns, rank, bound, p, d, c), RedockedRank(ns, rank, bound, p, d, c), bound + rank[p] + 1)
  {
    DockingWf(ns, rank, bound, p, d, c);
    DockingTables(ns, rank, bound, p, d, c);
    var a := Docking(ns, rank, bound, p, d, c);
    var ka := a[p].kind;
    var t := DockPanes.Register(DockPanes.Tables(ka.docks, ka.slots), d, c);
    ReplacedWf(a, RedockedRank(ns, rank, bound, p, d, c), bound + rank[p] + 1, p, a[p].(kind := DockPane(t.docks, t.slots)), p);
  }

  /**
   * After `setDock(d, c)` the arena is well formed, `c` is the last child of `p` and points at
   * it, and both tables hold `c` in slot `d`.
   */
  lemma RedockedWf(ns: map<Id, Node>, rank: map<Id, nat>, bound: nat, p: Id, d: Dock, c: Id)
    requires Wf(ns, rank, bound) && p in ns && c in ns && ns[p].kind.DockPane? && !Within(ns, rank, p, c)
    ensures var r := Redocked(ns, rank, bound, p, d, c); var k := r[p].kind;
            Wf(r, RedockedRank(ns, rank, bound, p, d, c), bound + rank[p] + 1) &&
            r[c].parent == Some(p) && |r[p].children| > 0 && r[p].children[|r[p].children| - 1] == c &&
            k.DockPane? && d in k.slots && k.slots[d] == c && c in k.docks && k.docks[c] == d
  {
    RedockedKeepsWf(ns, rank, bound, p, d, c);
    DockingWf(ns, rank, bound, p, d, c);
  }

  /** `setDock(d, c)` leaves every other slot with its node unless that node was `c`, and gains no slot but `d`. */
  lemma RedockedSlots(ns: map<Id, Node>, rank: map<Id, nat>, bound: nat, p: Id, d: Dock, c: Id)
    requires Wf(ns, rank, bound) && p in ns && c in ns && ns[p].kind.DockPane? && !Within(ns, rank, p, c)
    ensures var k := Redocked(ns, rank, bound, p, d, c)[p].kind; var k0 := ns[p].kind;
            k.DockPane? &&
            (forall d' :: d' != d && d' in k0.slots && k0.slots[d'] != c ==> d' in k.slots && k.slots[d'] == k0.slots[d']) &&
            (forall d' :: d' in k.slots && d' != d ==> d' in k0.slots && k.slots[d'] == k0.slots[d'])
  {
    DockingTables(ns, rank, bound, p, d, c);
  }

  /** A different node that held slot `d` before `setDock(d, c)` is detached afterwards and in no table. */
  lemma RedockedEvicts(ns: map<Id, Node>, rank: map<Id, nat>, bound: nat, p: Id, d: Dock, c: Id)
    requires Wf(ns, rank, bound) && p in ns && c in ns && ns[p].kind.DockPane? && !Within(ns, rank, p, c)
    requires d in ns[p].kind.slots && ns[p].kind.slots[d] != c
    ensures var r := Redocked(ns, rank, bound, p, d, c); var e := ns[p].kind.slots[d];
            e in r && r[e].parent.None? && r[p].kind.DockPane? && e !in r[p].kind.docks &&
            forall d' :: d' in r[p].kind.slots ==> r[p].kind.slots[d'] != e
  {
    var e := ns[p].kind.slots[d];
    Occupant(ns, rank, bound, p, d);
    VacatedWf(ns, rank, bound, p, d, c);
    DockingWf(ns, rank, bound, p, d, c);
    DockingTables(ns, rank, bound, p, d, c);
    var a := Docking(ns, rank, bound, p, d, c);
    assert a[e].parent.None?;
    if e in a[p].kind.docks {
      ListedByParent(a, p, e);
    }
  }

  // ---------------------------------------------------------------------------------------------
  // Center.set

  /** The first step of `Center.set`: the child list emptied (parent links left as they are) and the child remembered. */
  function Cleared(ns: map<Id, Node>, p: Id, c: Option<Id>): (r: map<Id, Node>)
    requires p in ns
    ensures r.Keys == ns.Keys && r[p].children == [] && r[p].kind == Center(c)
  {
    ns[p := ns[p].(children := [], kind := Center(c))]
  }

  /** Emptying a Center's list keeps the arena well formed, since only parent links are checked against lists. */
  lemma ClearedWf(ns: map<Id, Node>, rank: map<Id, nat>, bound: nat, p: Id, c: Option<Id>)
    requires Wf(ns, rank, bound) && p in ns && ns[p].kind.Center?
    ensures Wf(Cleared(ns, p, c), rank, bound) && LinksAgree(ns, Cleared(ns, p, c), None)
  {
    var z := Cleared(ns, p, c);
    forall k | k in z
      ensures KindOk(z[k])
    {
      assert KindOk(ns[k]);
    }
    assert Linked(z) by {
      forall q, i | q in z && 0 <= i < |z[q].children|
        ensures z[q].children[i] in z && z[z[q].children[i]].parent == Some(q)
      {
        assert q != p && z[q].children[i] == ns[q].children[i];
      }
    }
  }

  /**
   * `Center.set(c)`: the list emptied, `c` remembered and, when given, added; then `p` and its
   * ancestors are marked. With a child, `add` has already marked them.
   */
  ghost function Recentered(ns: map<Id, Node>, rank: map<Id, nat>, bound: nat, p: Id, c: Option<Id>): map<Id, Node>
    requires Wf(ns, rank, bound) && p in ns && ns[p].kind.Center? && (c.Some? ==> c.value in ns)
  {
    ClearedWf(ns, rank, bound, p, c);
    var z := Cleared(ns, p, c);
    if c.Some? then Added(z, rank, p, c.value) else Flagged(z, Ancestry(z, rank, p))
  }

  /** The rank that witnesses the arena `Recentered` returns. */
  ghost function RecenteredRank(ns: map<Id, Node>, rank: map<Id, nat>, bound: nat, p: Id, c: Option<Id>): map<Id, nat>
    requires Wf(ns, rank, bound) && p in ns && ns[p].kind.Center? && (c.Some? ==> c.value in ns)
  {
    ClearedWf(ns, rank, bound, p, c);
    if c.Some? then AddedRank(Cleared(ns, p, c), rank, bound, p, c.value) else rank
  }

  /** `Center.set(c)` keeps the arena well formed. */
  lemma RecenteredWf(ns: map<Id, Node>, rank: map<Id, nat>, bound: nat, p: Id, c: Option<Id>)
    requires Wf(ns, rank, bound) && p in ns && ns[p].kind.Center?
    requires c.Some? ==> c.value in ns && !Within(ns, rank, p, c.value)
    ensures Wf(Recentered(ns, rank, bound, p, c), RecenteredRank(ns, rank, bound, p, c), bound + rank[p] + 1)
  {
    ClearedWf(ns, rank, bound, p, c);
    var z := Cleared(ns, p, c);
    if c.Some? {
      WithinAvoiding(ns, z, rank, rank, None, p, c.value);
      AddedWf(z, rank, bound, p, c.value);
    } else {
      FlaggedWf(z, Ancestry(z, rank, p), rank, bound);
    }
  }

  /**
   * After `Center.set(c)`, `p` is marked, remembers `c` and lists exactly `c`, or nothing when
   * no child is given; `c`'s parent is `p`.
   */
  lemma RecenteredChild(ns: map<Id, Node>, rank: map<Id, nat>, bound: nat, p: Id, c: Option<Id>)
    requires Wf(ns, rank, bound) && p in ns && ns[p].kind.Center?
    requires c.Some? ==> c.value in ns && !Within(ns, rank, p, c.value)
    ensures var r := Recentered(ns, rank, bound, p, c);
            p in r && r[p].kind == Center(c) && r[p].layoutDirty &&
            r[p].children == (if c.Some? then [c.value] else []) &&
            (c.Some? ==> r[c.value].parent == Some(p))
  {
    ClearedWf(ns, rank, bound, p, c);
    var z := Cleared(ns, p, c);
    if c.Some? {
      WithinAvoiding(ns, z, rank, rank, None, p, c.value);
      AddedToEmpty(z, rank, bound, p, c.value);
    } else {
      FlaggedTree(z, Ancestry(z, rank, p));
    }
  }

  /** Adding to a node that lists nothing leaves it listing exactly the new child, marked, with its tables as `add` leaves them. */
  lemma AddedToEmpty(ns: map<Id, Node>, rank: map<Id, nat>, bound: nat, p: Id, c: Id)
    requires Wf(ns, rank, bound) && p in ns && c in ns && ns[p].children == [] && !Within(ns, rank, p, c)
    ensures var r := Added(ns, rank, p, c);
            r[p].children == [c] && r[p].layoutDirty && r[c].parent == Some(p) &&
            r[p].kind == if ns[c].parent == Some(p) then Forget(ns[p].kind, c) else ns[p].kind
  {
    AddedLinks(ns, rank, bound, p, c);
    AddedKind(ns, rank, p, c);
    AddedDirty(ns, rank, p, c);
    UnparentedEmpty(ns, rank, bound, p, c);
    FlaggedTree(Link(Unparented(ns, rank, c), p, c), Ancestry(ns, rank, p));
  }

  /** A node that lists nothing still lists nothing after `c` leaves its parent. */
  lemma UnparentedEmpty(ns: map<Id, Node>, rank: map<Id, nat>, bound: nat, p: Id, c: Id)
    requires Wf(ns, rank, bound) && p in ns && c in ns && ns[p].children == []
    ensures Unparented(ns, rank, c)[p].children == []
  {
    if ns[c].parent.Some? {
      var q := ns[c].parent.value;
      assert KindOk(ns[q]);
      RemovedOutcome(ns, rank, bound, q, c);
    }
  }

  /** The children `p` listed before `Center.set(c)`, other than `c`, still name `p` as their parent though `p` no longer lists them. */
  lemma RecenteredStale(ns: map<Id, Node>, rank: map<Id, nat>, bound: nat, p: Id, c: Option<Id>, k: Id)
    requires Wf(ns, rank, bound) && p in ns && ns[p].kind.Center?
    requires c.Some? ==> c.value in ns && !Within(ns, rank, p, c.value)
    requires k in ns[p].children && Some(k) != c
    ensures var r := Recentered(ns, rank, bound, p, c);
            k in r && r[k].parent == Some(p) && k !in r[p].children
  {
    ClearedWf(ns, rank, bound, p, c);
    RecenteredChild(ns, rank, bound, p, c);
    var z := Cleared(ns, p, c);
    ListedByParent(ns, p, k);
    if c.Some? {
      AddedAgrees(z, rank, bound, p, c.value);
    } else {
      FlaggedTree(z, Ancestry(z, rank, p));
    }
  }

  // ---------------------------------------------------------------------------------------------
  // Moving a child to the top of the drawing order

  /** `children.remove(c); children.add(c)`: `c` moves to the end of `p`'s list. */
  function Reordered(ns: map<Id, Node>, p: Id, c: Id): (r: map<Id, Node>)
    requires p in ns
    ensures r.Keys == ns.Keys
  {
    ns[p := ns[p].(children := Without(ns[p].children, c) + [c])]
  }

  /** The move, then `markLayoutDirty` on `p`. */
  ghost function Raised(ns: map<Id, Node>, rank: map<Id, nat>, p: Id, c: Id): (r: map<Id, Node>)
    requires Chained(ns, rank) && p in ns
    ensures r.Keys == ns.Keys
  {
    Flagged(Reordered(ns, p, c), Ancestry(ns, rank, p))
  }

  /**
   * Moving `c`, whose parent is `p`, to the end of `p`'s list keeps the arena well formed and
   * every ancestry: the list holds the nodes it held, and `c`, each once, and no parent link
   * changes.
   */
  lemma ReorderedWf(ns: map<Id, Node>, rank: map<Id, nat>, bound: nat, p: Id, c: Id)
    requires Wf(ns, rank, bound) && p in ns && c in ns && ns[c].parent == Some(p)
    ensures var r := Reordered(ns, p, c);
            Wf(r, rank, bound) && Ancestry(r, rank, p) == Ancestry(ns, rank, p) &&
            forall y :: y in r[p].children <==> y in ns[p].children || y == c
  {
    var r := Reordered(ns, p, c);
    var s := ns[p].children;
    MovedLast(s, c);
    var t := Without(s, c) + [c];
    assert Linked(r) by {
      forall q, i | q in r && 0 <= i < |r[q].children|
        ensures r[q].children[i] in r && r[r[q].children[i]].parent == Some(q)
      {
        if q == p {
          if t[i] != c {
            ListedByParent(ns, p, t[i]);
          }
        } else {
          assert r[q].children[i] == ns[q].children[i];
        }
      }
    }
    assert KindOk(ns[p]);
    assert forall k :: k in r ==> KindOk(r[k]);
    assert LinksAgree(ns, r, None);
    AncestryKept(ns, r, rank, rank, None, p);
  }

  /**
   * After the move `c` is the last child of `p` and is listed once; the list holds the nodes it
   * held, and `c`; every node keeps its parent.
   */
  lemma RaisedOrder(ns: map<Id, Node>, rank: map<Id, nat>, bound: nat, p: Id, c: Id)
    requires Wf(ns, rank, bound) && p in ns && c in ns && ns[c].parent == Some(p)
    ensures var r := Raised(ns, rank, p, c);
            var kids := r[p].children;
            |kids| == |ns[p].children| + (if c in ns[p].children then 0 else 1) && kids[|kids| - 1] == c &&
            (forall y :: y in kids <==> y in ns[p].children || y == c) && Distinct(kids) && LinksAgree(ns, r, None) &&
            r[p].kind == ns[p].kind
  {
    ReorderedWf(ns, rank, bound, p, c);
    FlaggedTree(Reordered(ns, p, c), Ancestry(ns, rank, p));
  }
}

=== FILE: ui_layout.dfy ===
/**
 * The layout pass and hit-testing of the UI tree (ui/UINode.java `computeLayout` and `hitTest`):
 * what a pass started at one node leaves in the arena, as ghost recursive functions, the
 * methods that walk the arena as the Java recursion does, and what the pass guarantees.
 *
 * The pass never changes the shape of the tree, so its specification reads the links and kinds
 * from a fixed arena `t` (well formed) while the geometry evolves in `ns` (`Reshaped(t, ns)`).
 */
module UILayout {
  import opened Base
  import opened UIInsets
  import opened UINodes
  import opened UITree
  import AnchorPanes
  import Centers
  import DockPanes
  import GridPanels
  import StackPanels
  import WrapPanels

  // ---------------------------------------------------------------------------------------------
  // Tree facts the recursion uses

  /**
   * The part of well-formedness the pass relies on: each child's parent link names the node
   * listing it, and ranks grow from parent to child under the bound.
   */
  ghost predicate Ranked(t: map<Id, Node>, rank: map<Id, nat>, bound: nat)
  {
    Chained(t, rank) && (forall k :: k in t ==> rank[k] < bound) &&
    forall p, i :: p in t && 0 <= i < |t[p].children| ==> t[p].children[i] in t && t[t[p].children[i]].parent == Some(p)
  }

  lemma WfRanked(t: map<Id, Node>, rank: map<Id, nat>, bound: nat)
    requires Wf(t, rank, bound)
    ensures Ranked(t, rank, bound)
  {
  }

  /** A child sits strictly below its parent in rank, and under the bound. */
  lemma ChildRank(t: map<Id, Node>, rank: map<Id, nat>, bound: nat, p: Id, c: Id)
    requires Ranked(t, rank, bound) && p in t && c in t[p].children
    ensures c in t && t[c].parent == Some(p) && rank[p] < rank[c] < bound
  {
    var i :| 0 <= i < |t[p].children| && t[p].children[i] == c;
  }

  /** Whatever lies in a child's subtree lies in the parent's. */
  lemma {:induction false} WithinParent(t: map<Id, Node>, rank: map<Id, nat>, x: Id, c: Id, p: Id)
    requires Chained(t, rank) && x in t && c in t && t[c].parent == Some(p) && Within(t, rank, x, c)
    ensures Within(t, rank, x, p)
    decreases rank[x]
  {
    if x != c {
      WithinParent(t, rank, t[x].parent.value, c, p);
    }
  }

  /** A node is in the subtree of no child of its own parent but itself. */
  lemma SiblingApart(t: map<Id, Node>, rank: map<Id, nat>, bound: nat, p: Id, c: Id, s: Id)
    requires Ranked(t, rank, bound) && p in t && c in t[p].children && s in t[p].children && s != c
    ensures !Within(t, rank, c, s)
  {
    ChildRank(t, rank, bound, p, c);
    ChildRank(t, rank, bound, p, s);
  }

  /** What lies outside a node's subtree lies outside each of its children's. */
  lemma OutsideKids(t: map<Id, Node>, rank: map<Id, nat>, bound: nat, p: Id, k: Id)
    requires Ranked(t, rank, bound) && p in t && k in t && !Within(t, rank, k, p)
    ensures forall c :: c in t[p].children ==> !Within(t, rank, k, c)
  {
    forall c | c in t[p].children
      ensures !Within(t, rank, k, c)
    {
      ChildRank(t, rank, bound, p, c);
      if Within(t, rank, k, c) {
        WithinParent(t, rank, k, c, p);
      }
    }
  }

  /** What the `onLayout` dispatch needs of every node: consistent tables and children listed once. */
  ghost predicate Dispatchable(t: map<Id, Node>)
  {
    forall k :: k in t ==> KindOk(t[k]) && Distinct(t[k].children) && AllIn(t[k].children, t)
  }

  lemma WfDispatchable(t: map<Id, Node>, rank: map<Id, nat>, bound: nat)
    requires Wf(t, rank, bound)
    ensures Dispatchable(t)
  {
  }

  lemma ReshapedTrans(a: map<Id, Node>, b: map<Id, Node>, c: map<Id, Node>)
    requires Reshaped(a, b) && Reshaped(b, c)
    ensures Reshaped(a, c)
  {
  }

  /** Clearing a dirty flag is a layout-only change. */
  lemma ReshapedClear(t: map<Id, Node>, ns: map<Id, Node>, id: Id)
    requires Reshaped(t, ns) && id in ns
    ensures Reshaped(t, ns[id := ns[id].(layoutDirty := false)])
  {
  }

  /** Layout keeps the arena well formed: it never touches links or kinds. */
  lemma ReshapedWf(t: map<Id, Node>, ns: map<Id, Node>, rank: map<Id, nat>, bound: nat)
    requires Wf(t, rank, bound) && Reshaped(t, ns)
    ensures Wf(ns, rank, bound)
  {
    SameTreeWf(t, ns, rank, bound);
  }

  // ---------------------------------------------------------------------------------------------
  // onLayout, dispatched on the class of the node

  /** The area a node hands its children: its computed bounds inside its padding, never negative. */
  datatype Area = Area(x: real, y: real, w: real, h: real)

  function ContentArea(n: Node): (a: Area)
    ensures a.w >= 0.0 && a.h >= 0.0
    ensures a.x == n.gx + n.padding.left && a.y == n.gy + n.padding.top
    ensures a.w == Max(0.0, n.gw - n.padding.Horizontal()) && a.h == Max(0.0, n.gh - n.padding.Vertical())
  {
    Area(n.gx + n.padding.left, n.gy + n.padding.top, ContentW(n), ContentH(n))
  }

  /** The nodes a container's `onLayout` may move: its children, and a Center's recorded child. */
  function Placeable(pane: Node): set<Id>
  {
    (set k | k in pane.children) + (if pane.kind.Center? && pane.kind.child.Some? then {pane.kind.child.value} else {})
  }

  /** `onLayout` of the node's class; the root and the widgets keep the base, which places nothing. */
  function OnLayout(ns: map<Id, Node>, pane: Node): (r: map<Id, Node>)
    requires KindOk(pane)
  {
    match pane.kind
    case AnchorPane => AnchorPanes.Layout(ns, pane)
    case Center(_) => Centers.Layout(ns, pane)
    case DockPane(_, _) => DockPanes.Layout(ns, pane)
    case GridPanel(_, _, _, _, _, _, _) => GridPanels.Layout(ns, pane)
    case StackPanel(_, _, _, _) => StackPanels.Layout(ns, pane)
    case WrapPanel(_, _) => WrapPanels.Layout(ns, pane)
    case _ => ns
  }

  lemma BoxesOnlyWiden(a: map<Id, Node>, b: map<Id, Node>, t1: set<Id>, t2: set<Id>)
    requires BoxesOnly(a, b, t1) && t1 <= t2
    ensures BoxesOnly(a, b, t2)
  {
  }

  /** Every `onLayout` rewrites local boxes only, and only those of the nodes it may place. */
  lemma OnLayoutBoxes(ns: map<Id, Node>, pane: Node)
    requires KindOk(pane)
    ensures BoxesOnly(ns, OnLayout(ns, pane), Placeable(pane))
  {
    var r := OnLayout(ns, pane);
    var kids := set k | k in pane.children;
    match pane.kind
    case AnchorPane =>
      BoxesOnlyWiden(ns, r, kids, Placeable(pane));
    case Center(child) =>
      if !Centers.HasVisibleChild(ns, pane) {
        assert r == ns;
      }
    case DockPane(docks, _) =>
      BoxesOnlyWiden(ns, r, docks.Keys, Placeable(pane));
    case GridPanel(_, _, _, _, _, _, cells) =>
      assert GridPanels.CellNodes(ns, cells) <= kids by {
        forall k | k in GridPanels.CellNodes(ns, cells)
          ensures k in kids
        {
          var c :| c in cells && c.node in ns && ns[c.node].visible && c.node == k;
          var i :| 0 <= i < |cells| && cells[i] == c;
        }
      }
      BoxesOnlyWiden(ns, r, GridPanels.CellNodes(ns, cells), Placeable(pane));
    case StackPanel(_, _, _, _) =>
      BoxesOnlyWiden(ns, r, kids, Placeable(pane));
    case WrapPanel(_, _) =>
      BoxesOnlyWiden(ns, r, kids, Placeable(pane));
    case _ =>
  }

  /** `onLayout` run: each container's own loop. */
  method RunOnLayout(ns: map<Id, Node>, pane: Node) returns (r: map<Id, Node>)
    requires KindOk(pane) && Distinct(pane.children) && AllIn(pane.children, ns)
    ensures r == OnLayout(ns, pane)
  {
    match pane.kind {
      case AnchorPane =>
        r := AnchorPanes.LayoutChildren(ns, pane);
      case Center(_) =>
        r := Centers.Layout(ns, pane);
      case DockPane(_, _) =>
        r := DockPanes.LayoutSlots(ns, pane);
      case GridPanel(_, _, _, _, _, _, _) =>
        r := GridPanels.LayoutCells(ns, pane);
      case StackPanel(_, _, _, _) =>
        r := StackPanels.LayoutChildren(ns, pane);
      case WrapPanel(_, _) =>
        r := WrapPanels.LayoutChildren(ns, pane);
      case _ =>
        r := ns;
    }
  }

  /**
   * `onLayout` as the hook the pass calls: the class's own override. A node whose tables are
   * inconsistent, which no well-formed arena holds, places nothing.
   */
  function Place(ns: map<Id, Node>, pane: Node): (r: map<Id, Node>)
  {
    if KindOk(pane) then OnLayout(ns, pane) else ns
  }

  /** The type of an `onLayout` hook: the arena and the (already sized) node give the new arena. */
  type Hook = (map<Id, Node>, Node) -> map<Id, Node>

  /** The arena keeps every node's global bounds and dirty flag. */
  predicate KeepsGlobals(ns: map<Id, Node>, ns': map<Id, Node>)
  {
    forall k :: k in ns && k in ns' ==> SameGlobals(ns[k], ns'[k])
  }

  /** What a layout hook may change: local boxes alone; shape, global bounds and flags stay. */
  ghost predicate MovesBoxes(lay: Hook)
  {
    forall ns: map<Id, Node>, pane: Node :: Reshaped(ns, lay(ns, pane)) && KeepsGlobals(ns, lay(ns, pane))
  }

  /** Every container's `onLayout`, and the base one, is such a hook. */
  lemma PlaceMovesBoxes()
    ensures MovesBoxes(Place)
  {
    forall ns: map<Id, Node>, pane: Node
      ensures Reshaped(ns, Place(ns, pane)) && KeepsGlobals(ns, Place(ns, pane))
    {
      if KindOk(pane) {
        OnLayoutBoxes(ns, pane);
        BoxesOnlyReshaped(ns, Place(ns, pane), Placeable(pane));
      }
    }
  }

  /** What only `computeLayout` writes: the global bounds and the dirty flag. */
  predicate SameGlobals(a: Node, b: Node)
  {
    a.gx == b.gx && a.gy == b.gy && a.gw == b.gw && a.gh == b.gh && a.layoutDirty == b.layoutDirty
  }

  // ---------------------------------------------------------------------------------------------
  // computeLayout

  /** The node's own step: global position from the parent's content origin, size by the sizing rule. */
  function Sized(n: Node, a: Area): (m: Node)
    ensures SameShape(n, m) && m.x == n.x && m.y == n.y && m.width == n.width && m.height == n.height
    ensures m.gx == a.x + n.x && m.gy == a.y + n.y
    ensures m.gw == Resolve(n.width, n.prefW, a.w) && m.gh == Resolve(n.height, n.prefH, a.h)
    ensures m.layoutDirty == n.layoutDirty
  {
    n.(gx := a.x + n.x, gy := a.y + n.y, gw := Resolve(n.width, n.prefW, a.w), gh := Resolve(n.height, n.prefH, a.h))
  }

  /** The arena once a visible node has sized itself and run its `onLayout`, before its children. */
  function Prepared(lay: Hook, ns: map<Id, Node>, id: Id, a: Area): (r: map<Id, Node>)
    requires id in ns
  {
    var m := Sized(ns[id], a);
    lay(ns[id := m], m)
  }

  lemma PreparedShape(t: map<Id, Node>, lay: Hook, ns: map<Id, Node>, id: Id, a: Area)
    requires MovesBoxes(lay) && Reshaped(t, ns) && id in t
    ensures Reshaped(t, Prepared(lay, ns, id, a))
    ensures forall k :: k in ns ==> SameGlobals(ns[id := Sized(ns[id], a)][k], Prepared(lay, ns, id, a)[k])
  {
    var m := Sized(ns[id], a);
    assert Reshaped(ns[id := m], lay(ns[id := m], m)) && KeepsGlobals(ns[id := m], lay(ns[id := m], m));
    ReshapedTrans(t, ns[id := m], Prepared(lay, ns, id, a));
  }

  /**
   * `computeLayout(px, py, pw, ph)` on node `id`, with `onLayout` given by the hook `lay`: an
   * invisible node returns at once; otherwise the node sizes itself, runs `onLayout`, lays out
   * each child in order inside its content area, and clears its dirty flag. The tree's links
   * come from `t`; the membership tests never fail on an arena of the tree's shape (LaidShape).
   */
  ghost function Laid(t: map<Id, Node>, rank: map<Id, nat>, bound: nat, lay: Hook,
                      ns: map<Id, Node>, id: Id, a: Area): (r: map<Id, Node>)
    requires Ranked(t, rank, bound) && id in t
    decreases bound - rank[id], 1, 0
  {
    if id !in ns || !ns[id].visible then ns
    else
      var l := LaidKids(t, rank, bound, lay, Prepared(lay, ns, id, a), id, |t[id].children|, ContentArea(Sized(ns[id], a)));
      if id in l then l[id := l[id].(layoutDirty := false)] else l
  }

  /** The children loop after its first `i` turns: children `0 .. i-1` of `p` laid out in order in `a`. */
  ghost function LaidKids(t: map<Id, Node>, rank: map<Id, nat>, bound: nat, lay: Hook, ns: map<Id, Node>,
                          p: Id, i: nat, a: Area): (r: map<Id, Node>)
    requires Ranked(t, rank, bound) && p in t && i <= |t[p].children|
    decreases bound - rank[p], 0, i
  {
    if i == 0 then ns
    else
      ChildRank(t, rank, bound, p, t[p].children[i - 1]);
      Laid(t, rank, bound, lay, LaidKids(t, rank, bound, lay, ns, p, i - 1, a), t[p].children[i - 1], a)
  }

  /** One turn of the children loop: the pass of the next child on what the earlier turns left. */
  lemma LaidKidsStep(t: map<Id, Node>, rank: map<Id, nat>, bound: nat, lay: Hook, ns: map<Id, Node>, p: Id, i: nat, a: Area)
    requires Ranked(t, rank, bound) && p in t && 0 < i <= |t[p].children|
    ensures t[p].children[i - 1] in t
    ensures LaidKids(t, rank, bound, lay, ns, p, i, a) ==
            Laid(t, rank, bound, lay, LaidKids(t, rank, bound, lay, ns, p, i - 1, a), t[p].children[i - 1], a)
  {
    ChildRank(t, rank, bound, p, t[p].children[i - 1]);
  }

  /** The pass changes only layout: every node keeps its links, kind, flags and settings. */
  lemma {:induction false} LaidShape(t: map<Id, Node>, rank: map<Id, nat>, bound: nat, lay: Hook,
                                     ns: map<Id, Node>, id: Id, a: Area)
    requires Ranked(t, rank, bound) && MovesBoxes(lay) && Reshaped(t, ns) && id in t
    ensures Reshaped(t, Laid(t, rank, bound, lay, ns, id, a))
    decreases bound - rank[id], 1, 0
  {
    if ns[id].visible {
      PreparedShape(t, lay, ns, id, a);
      var l := LaidKids(t, rank, bound, lay, Prepared(lay, ns, id, a), id, |t[id].children|, ContentArea(Sized(ns[id], a)));
      LaidKidsShape(t, rank, bound, lay, Prepared(lay, ns, id, a), id, |t[id].children|, ContentArea(Sized(ns[id], a)));
      ReshapedClear(t, l, id);
    }
  }

  lemma {:induction false} LaidKidsShape(t: map<Id, Node>, rank: map<Id, nat>, bound: nat, lay: Hook,
                                         ns: map<Id, Node>, p: Id, i: nat, a: Area)
    requires Ranked(t, rank, bound) && MovesBoxes(lay) && Reshaped(t, ns) && p in t && i <= |t[p].children|
    ensures Reshaped(t, LaidKids(t, rank, bound, lay, ns, p, i, a))
    decreases bound - rank[p], 0, i
  {
    if i > 0 {
      ChildRank(t, rank, bound, p, t[p].children[i - 1]);
      LaidKidsShape(t, rank, bound, lay, ns, p, i - 1, a);
      LaidShape(t, rank, bound, lay, LaidKids(t, rank, bound, lay, ns, p, i - 1, a), t[p].children[i - 1], a);
    }
  }

  /** A visible node's pass: its children's pass on the prepared arena, then its flag cleared. */
  lemma LaidVisible(t: map<Id, Node>, rank: map<Id, nat>, bound: nat, lay: Hook, ns: map<Id, Node>, id: Id, a: Area)
    requires Ranked(t, rank, bound) && MovesBoxes(lay) && Reshaped(t, ns) && id in t && ns[id].visible
    ensures Reshaped(t, Prepared(lay, ns, id, a))
    ensures var l := LaidKids(t, rank, bound, lay, Prepared(lay, ns, id, a), id, |t[id].children|, ContentArea(Sized(ns[id], a)));
            Reshaped(t, l) && Laid(t, rank, bound, lay, ns, id, a) == l[id := l[id].(layoutDirty := false)]
  {
    PreparedShape(t, lay, ns, id, a);
    LaidKidsShape(t, rank, bound, lay, Prepared(lay, ns, id, a), id, |t[id].children|, ContentArea(Sized(ns[id], a)));
  }

  /**
   * A pass started at `id` writes global bounds and dirty flags inside `id`'s subtree only. (A
   * container may still move the local box of a node elsewhere: a Center keeps placing a child
   * that has since moved to another parent.)
   */
  lemma {:induction false} LaidFrame(t: map<Id, Node>, rank: map<Id, nat>, bound: nat, lay: Hook,
                                     ns: map<Id, Node>, id: Id, a: Area, k: Id)
    requires Ranked(t, rank, bound) && MovesBoxes(lay) && Reshaped(t, ns) && id in t && k in t
    requires !Within(t, rank, k, id)
    ensures var r := Laid(t, rank, bound, lay, ns, id, a); k in r && SameGlobals(ns[k], r[k])
    decreases bound - rank[id], 1, 0
  {
    var n := ns[id];
    if n.visible {
      LaidVisible(t, rank, bound, lay, ns, id, a);
      PreparedShape(t, lay, ns, id, a);
      OutsideKids(t, rank, bound, id, k);
      LaidKidsFrame(t, rank, bound, lay, Prepared(lay, ns, id, a), id, |t[id].children|, ContentArea(Sized(n, a)), k);
    }
  }

  lemma {:induction false} LaidKidsFrame(t: map<Id, Node>, rank: map<Id, nat>, bound: nat, lay: Hook,
                                         ns: map<Id, Node>, p: Id, i: nat, a: Area, k: Id)
    requires Ranked(t, rank, bound) && MovesBoxes(lay) && Reshaped(t, ns) && p in t && k in t && i <= |t[p].children|
    requires forall c :: c in t[p].children ==> !Within(t, rank, k, c)
    ensures var r := LaidKids(t, rank, bound, lay, ns, p, i, a); k in r && SameGlobals(ns[k], r[k])
    decreases bound - rank[p], 0, i
  {
    if i > 0 {
      var c := t[p].children[i - 1];
      ChildRank(t, rank, bound, p, c);
      var prev := LaidKids(t, rank, bound, lay, ns, p, i - 1, a);
      LaidKidsFrame(t, rank, bound, lay, ns, p, i - 1, a, k);
      LaidKidsShape(t, rank, bound, lay, ns, p, i - 1, a);
      LaidFrame(t, rank, bound, lay, prev, c, a, k);
      LaidKidsStep(t, rank, bound, lay, ns, p, i, a);
      SameGlobalsTrans(ns[k], prev[k], Laid(t, rank, bound, lay, prev, c, a)[k]);
    }
  }

  lemma SameGlobalsTrans(a: Node, b: Node, c: Node)
    requires SameGlobals(a, b) && SameGlobals(b, c)
    ensures SameGlobals(a, c)
  {
  }

  /** No child's subtree holds its parent. */
  lemma KidsAbove(t: map<Id, Node>, rank: map<Id, nat>, bound: nat, p: Id)
    requires Ranked(t, rank, bound) && p in t
    ensures forall c :: c in t[p].children ==> !Within(t, rank, p, c)
  {
    forall c | c in t[p].children
      ensures !Within(t, rank, p, c)
    {
      ChildRank(t, rank, bound, p, c);
    }
  }

  /**
   * What `computeLayout` does to the node itself: an invisible node leaves the whole arena as it
   * was; a visible one ends at the parent's content origin plus its own offset, sized by the
   * sizing rule (explicit size, else preferred size, else the whole content area), and clean.
   */
  lemma LaidOwn(t: map<Id, Node>, rank: map<Id, nat>, bound: nat, lay: Hook, ns: map<Id, Node>, id: Id, a: Area)
    requires Ranked(t, rank, bound) && MovesBoxes(lay) && Reshaped(t, ns) && id in t
    ensures var r := Laid(t, rank, bound, lay, ns, id, a); var n := ns[id];
            (!n.visible ==> r == ns) &&
            (n.visible ==> id in r && r[id].gx == a.x + n.x && r[id].gy == a.y + n.y &&
                           r[id].gw == Resolve(n.width, n.prefW, a.w) && r[id].gh == Resolve(n.height, n.prefH, a.h) &&
                           !r[id].layoutDirty)
  {
    var n := ns[id];
    if n.visible {
      LaidVisible(t, rank, bound, lay, ns, id, a);
      PreparedShape(t, lay, ns, id, a);
      KidsAbove(t, rank, bound, id);
      LaidKidsFrame(t, rank, bound, lay, Prepared(lay, ns, id, a), id, |t[id].children|, ContentArea(Sized(n, a)), id);
    }
  }

  /** Once the loop is past child `j`, the later siblings' passes leave that child's globals alone. */
  lemma {:induction false} LaidKidsKeeps(t: map<Id, Node>, rank: map<Id, nat>, bound: nat, lay: Hook,
                                         ns: map<Id, Node>, p: Id, a: Area, j: nat, i: nat)
    requires Ranked(t, rank, bound) && MovesBoxes(lay) && Reshaped(t, ns) && p in t && j < i <= |t[p].children|
    requires Distinct(t[p].children)
    ensures var c := t[p].children[j];
            var l := LaidKids(t, rank, bound, lay, ns, p, j + 1, a); var r := LaidKids(t, rank, bound, lay, ns, p, i, a);
            c in l && c in r && SameGlobals(l[c], r[c])
    decreases i
  {
    var c := t[p].children[j];
    ChildRank(t, rank, bound, p, c);
    LaidKidsShape(t, rank, bound, lay, ns, p, j + 1, a);
    if j + 1 < i {
      LaidKidsKeeps(t, rank, bound, lay, ns, p, a, j, i - 1);
      LaidKidsKeepsStep(t, rank, bound, lay, ns, p, a, j, i);
    }
  }

  /** One more sibling's pass leaves child `j`'s globals alone. */
  lemma LaidKidsKeepsStep(t: map<Id, Node>, rank: map<Id, nat>, bound: nat, lay: Hook,
                          ns: map<Id, Node>, p: Id, a: Area, j: nat, i: nat)
    requires Ranked(t, rank, bound) && MovesBoxes(lay) && Reshaped(t, ns) && p in t && j + 1 < i <= |t[p].children|
    requires Distinct(t[p].children)
    requires var c := t[p].children[j];
             var l := LaidKids(t, rank, bound, lay, ns, p, j + 1, a); var prev := LaidKids(t, rank, bound, lay, ns, p, i - 1, a);
             c in l && c in prev && SameGlobals(l[c], prev[c])
    ensures var c := t[p].children[j];
            var l := LaidKids(t, rank, bound, lay, ns, p, j + 1, a); var r := LaidKids(t, rank, bound, lay, ns, p, i, a);
            c in l && c in r && SameGlobals(l[c], r[c])
  {
    var c := t[p].children[j];
    var last := t[p].children[i - 1];
    var prev := LaidKids(t, rank, bound, lay, ns, p, i - 1, a);
    assert last != c;
    SiblingApart(t, rank, bound, p, c, last);
    ChildRank(t, rank, bound, p, c);
    ChildRank(t, rank, bound, p, last);
    LaidKidsShape(t, rank, bound, lay, ns, p, i - 1, a);
    LaidFrame(t, rank, bound, lay, prev, last, a, c);
    LaidKidsStep(t, rank, bound, lay, ns, p, i, a);
  }

  /** Within the children loop, a visible child gets the loop's area, offset by its own position. */
  lemma LaidKidsChild(t: map<Id, Node>, rank: map<Id, nat>, bound: nat, lay: Hook, ns: map<Id, Node>,
                      p: Id, a: Area, j: nat)
    requires Ranked(t, rank, bound) && MovesBoxes(lay) && Reshaped(t, ns) && p in t && j < |t[p].children|
    requires Distinct(t[p].children)
    ensures var c := t[p].children[j];
            var l := LaidKids(t, rank, bound, lay, ns, p, j, a); var r := LaidKids(t, rank, bound, lay, ns, p, |t[p].children|, a);
            c in l && c in r &&
            (l[c].visible ==>
              r[c].gx == a.x + l[c].x && r[c].gy == a.y + l[c].y &&
              r[c].gw == Resolve(l[c].width, l[c].prefW, a.w) && r[c].gh == Resolve(l[c].height, l[c].prefH, a.h) &&
              !r[c].layoutDirty)
  {
    var c := t[p].children[j];
    ChildRank(t, rank, bound, p, c);
    LaidKidsShape(t, rank, bound, lay, ns, p, j, a);
    LaidOwn(t, rank, bound, lay, LaidKids(t, rank, bound, lay, ns, p, j, a), c, a);
    LaidKidsKeeps(t, rank, bound, lay, ns, p, a, j, |t[p].children|);
  }

  /** Two nodes with the same bounds and padding hand their children the same area. */
  lemma SameArea(m: Node, n: Node)
    requires m.gx == n.gx && m.gy == n.gy && m.gw == n.gw && m.gh == n.gh && m.padding == n.padding
    ensures ContentArea(m) == ContentArea(n)
  {
  }

  /** The state the children loop of a visible node `id` is in when it reaches child number `j`. */
  ghost function Before(t: map<Id, Node>, rank: map<Id, nat>, bound: nat, lay: Hook, ns: map<Id, Node>,
                        id: Id, a: Area, j: nat): (r: map<Id, Node>)
    requires Ranked(t, rank, bound) && id in t && id in ns && j <= |t[id].children|
  {
    LaidKids(t, rank, bound, lay, Prepared(lay, ns, id, a), id, j, ContentArea(Sized(ns[id], a)))
  }

  /**
   * The content area reaches each child once, padding included exactly once: a visible child
   * (as the loop finds it) ends at its parent's global position plus the parent's padding plus
   * its own offset, sized against the parent's content size, and clean.
   */
  lemma LaidChild(t: map<Id, Node>, rank: map<Id, nat>, bound: nat, lay: Hook, ns: map<Id, Node>, id: Id, a: Area, j: nat)
    requires Ranked(t, rank, bound) && MovesBoxes(lay) && Reshaped(t, ns) && id in t && ns[id].visible
    requires j < |t[id].children| && Distinct(t[id].children)
    ensures var c := t[id].children[j]; var b := Before(t, rank, bound, lay, ns, id, a, j);
            var r := Laid(t, rank, bound, lay, ns, id, a);
            c in b && c in r && id in r &&
            (b[c].visible ==>
              r[c].gx == r[id].gx + r[id].padding.left + b[c].x &&
              r[c].gy == r[id].gy + r[id].padding.top + b[c].y &&
              r[c].gw == Resolve(b[c].width, b[c].prefW, ContentW(r[id])) &&
              r[c].gh == Resolve(b[c].height, b[c].prefH, ContentH(r[id])) &&
              !r[c].layoutDirty)
  {
    var n := ns[id];
    var c := t[id].children[j];
    LaidVisible(t, rank, bound, lay, ns, id, a);
    LaidOwn(t, rank, bound, lay, ns, id, a);
    ChildRank(t, rank, bound, id, c);
    var r := Laid(t, rank, bound, lay, ns, id, a);
    SameArea(Sized(n, a), r[id]);
    LaidKidsChild(t, rank, bound, lay, Prepared(lay, ns, id, a), id, ContentArea(Sized(n, a)), j);
  }

  // ---------------------------------------------------------------------------------------------
  // hitTest

  /**
   * `hitTest(mx, my)` on node `id`: nothing when the node does not contain the point; else the
   * first hit among its children, tried from the last (drawn on top) to the first; else the node
   * itself when it is interactive.
   */
  ghost function Hit(ns: map<Id, Node>, rank: map<Id, nat>, bound: nat, id: Id, mx: real, my: real): (r: Option<Id>)
    requires Ranked(ns, rank, bound) && id in ns
    decreases bound - rank[id], 1, 0
  {
    if !Contains(ns[id], mx, my) then None
    else
      match HitKids(ns, rank, bound, id, |ns[id].children|, mx, my)
      case Some(h) => Some(h)
      case None => if Interactive(ns[id].kind) then Some(id) else None
  }

  /** The children loop of `hitTest` over children `i-1` down to `0`: the first hit found. */
  ghost function HitKids(ns: map<Id, Node>, rank: map<Id, nat>, bound: nat, p: Id, i: nat, mx: real, my: real): (r: Option<Id>)
    requires Ranked(ns, rank, bound) && p in ns && i <= |ns[p].children|
    decreases bound - rank[p], 0, i
  {
    if i == 0 then None
    else
      ChildRank(ns, rank, bound, p, ns[p].children[i - 1]);
      match Hit(ns, rank, bound, ns[p].children[i - 1], mx, my)
      case Some(h) => Some(h)
      case None => HitKids(ns, rank, bound, p, i - 1, mx, my)
  }

  /**
   * A hit is an interactive node that contains the point, inside the subtree searched, and the
   * node searched contains the point too.
   */
  lemma {:induction false} HitSound(ns: map<Id, Node>, rank: map<Id, nat>, bound: nat, id: Id, mx: real, my: real)
    requires Ranked(ns, rank, bound) && id in ns
    ensures var r := Hit(ns, rank, bound, id, mx, my);
            r.Some? ==> r.value in ns && Interactive(ns[r.value].kind) && Contains(ns[r.value], mx, my) &&
                        Within(ns, rank, r.value, id) && Contains(ns[id], mx, my)
    decreases bound - rank[id], 1, 0
  {
    if Contains(ns[id], mx, my) {
      HitKidsSound(ns, rank, bound, id, |ns[id].children|, mx, my);
    }
  }

  lemma {:induction false} HitKidsSound(ns: map<Id, Node>, rank: map<Id, nat>, bound: nat, p: Id, i: nat, mx: real, my: real)
    requires Ranked(ns, rank, bound) && p in ns && i <= |ns[p].children|
    ensures var r := HitKids(ns, rank, bound, p, i, mx, my);
            r.Some? ==> r.value in ns && Interactive(ns[r.value].kind) && Contains(ns[r.value], mx, my) &&
                        Within(ns, rank, r.value, p)
    decreases bound - rank[p], 0, i
  {
    if i > 0 {
      var c := ns[p].children[i - 1];
      ChildRank(ns, rank, bound, p, c);
      HitSound(ns, rank, bound, c, mx, my);
      var h := Hit(ns, rank, bound, c, mx, my);
      if h.Some? {
        WithinParent(ns, rank, h.value, c, p);
      } else {
        HitKidsSound(ns, rank, bound, p, i - 1, mx, my);
      }
    }
  }

  /** An interactive node that contains the point is never missed: some node under it is hit. */
  lemma HitComplete(ns: map<Id, Node>, rank: map<Id, nat>, bound: nat, id: Id, mx: real, my: real)
    requires Ranked(ns, rank, bound) && id in ns && Contains(ns[id], mx, my) && Interactive(ns[id].kind)
    ensures Hit(ns, rank, bound, id, mx, my).Some?
  {
  }

  /**
   * The loop honours drawing order: it finds nothing exactly when no child before `i` is hit,
   * and what it finds is the hit of the last such child, all later children being missed.
   */
  lemma {:induction false} HitKidsTopmost(ns: map<Id, Node>, rank: map<Id, nat>, bound: nat, p: Id, i: nat, mx: real, my: real)
    requires Ranked(ns, rank, bound) && p in ns && i <= |ns[p].children|
    ensures forall j :: 0 <= j < |ns[p].children| ==> ns[p].children[j] in ns
    ensures var r := HitKids(ns, rank, bound, p, i, mx, my);
            (r.None? <==> forall j :: 0 <= j < i ==> Hit(ns, rank, bound, ns[p].children[j], mx, my).None?) &&
            (r.Some? ==> exists j :: 0 <= j < i && Hit(ns, rank, bound, ns[p].children[j], mx, my) == r &&
                           forall k :: j < k < i ==> Hit(ns, rank, bound, ns[p].children[k], mx, my).None?)
    decreases i
  {
    if i > 0 {
      var c := ns[p].children[i - 1];
      ChildRank(ns, rank, bound, p, c);
      HitKidsTopmost(ns, rank, bound, p, i - 1, mx, my);
      var r := HitKids(ns, rank, bound, p, i, mx, my);
      if Hit(ns, rank, bound, c, mx, my).Some? {
        assert Hit(ns, rank, bound, ns[p].children[i - 1], mx, my) == r;
      }
    }
  }
}

=== FILE: ui_node.dfy ===
/**
 * One node of the retained-mode UI tree (ui/UINode.java) as a value. The tree itself is an
 * arena of these records keyed by node id (module UITree); a node's `parent` and `children`
 * hold ids. What the concrete subclasses add is the `kind`: the layout containers keep their
 * settings and side tables there, and the widgets only say whether they are interactive,
 * focusable and clickable. Java floats are reals.
 */
module UINodes {
  import opened Base
  import opened UIInsets
  import opened UIAnchors
  import opened Rects

  type Id = nat

  /** The five DockPane slots, in the order the pane consumes them. */
  datatype Dock = TOP | BOTTOM | LEFT | RIGHT | CENTER

  datatype Direction = VERTICAL | HORIZONTAL

  /** A GridPanel cell record: a node and its (unclamped) row, column and spans. */
  datatype Cell = Cell(node: Id, row: int, col: int, rowSpan: int, colSpan: int)

  /** What a node is: a layout container with its own state, the root, or a widget. */
  datatype Kind =
    | Widget(interactive: bool, focusable: bool, clickable: bool)
    | Root
    | AnchorPane
    | DockPane(docks: map<Id, Dock>, slots: map<Dock, Id>)
    | GridPanel(rows: int, cols: int, gridGapX: real, gridGapY: real,
                colWeights: Option<seq<real>>, rowWeights: Option<seq<real>>, cells: seq<Cell>)
    | StackPanel(dir: Direction, spacing: real, fillCrossAxis: bool, childMargin: Insets)
    | WrapPanel(wrapGapX: real, wrapGapY: real)
    | Center(child: Option<Id>)

  datatype Node = Node(
    // layout inputs
    x: real, y: real, width: real, height: real,
    visible: bool, enabled: bool, padding: Insets,
    prefW: real, prefH: real, anchors: Option<Anchors>,
    // computed layout outputs
    gx: real, gy: real, gw: real, gh: real,
    // tree structure
    parent: Option<Id>, children: seq<Id>,
    // interaction state
    hovered: bool, pressed: bool, focused: bool, layoutDirty: bool,
    kind: Kind)

  /** A freshly constructed node: visible, enabled, unpadded, no preferred size, detached, dirty. */
  function Fresh(kind: Kind): (n: Node)
    ensures n.visible && n.enabled && n.layoutDirty && n.parent.None? && n.children == []
    ensures n.prefW < 0.0 && n.prefH < 0.0 && n.padding.Horizontal() == 0.0 && n.padding.Vertical() == 0.0
    ensures !n.hovered && !n.pressed && !n.focused && n.kind == kind
  {
    Node(0.0, 0.0, 0.0, 0.0, true, true, ZERO, -1.0, -1.0, None,
         0.0, 0.0, 0.0, 0.0, None, [], false, false, false, true, kind)
  }

  /**
   * The sizing rule of `computeLayout`: a positive explicit size wins, then a positive
   * preferred size, and otherwise the fallback.
   */
  function Resolve(explicit: real, pref: real, fallback: real): (r: real)
    ensures explicit > 0.0 ==> r == explicit
    ensures explicit <= 0.0 && pref > 0.0 ==> r == pref
    ensures explicit <= 0.0 && pref <= 0.0 ==> r == fallback
    ensures r > 0.0 || r == fallback
  {
    if explicit > 0.0 then explicit else if pref > 0.0 then pref else fallback
  }

  /** The containers' own sizing of a child: as `Resolve`, falling back to 0, so never negative. */
  function Resolve0(explicit: real, pref: real): (r: real)
    ensures r >= 0.0
    ensures r > 0.0 ==> r == explicit || r == pref
  {
    Resolve(explicit, pref, 0.0)
  }

  /** Resolving twice changes nothing: a container writing the size back is stable. */
  lemma Resolve0Idempotent(explicit: real, pref: real)
    ensures Resolve0(Resolve0(explicit, pref), pref) == Resolve0(explicit, pref)
  {
  }

  /** Only widgets take part in hit-testing; every container and the root answer false. */
  function Interactive(k: Kind): (b: bool)
    ensures b ==> k.Widget?
  {
    k.Widget? && k.interactive
  }

  function Focusable(k: Kind): (b: bool)
    ensures b ==> k.Widget?
  {
    k.Widget? && k.focusable
  }

  /** Whether the node implements `UIRoot.Clickable`. */
  function Clickable(k: Kind): (b: bool)
    ensures b ==> k.Widget?
  {
    k.Widget? && k.clickable
  }

  /** `canFocus`: visible, enabled and focusable. */
  function CanFocus(n: Node): (b: bool)
    ensures b <==> n.visible && n.enabled && Focusable(n.kind)
  {
    n.visible && n.enabled && Focusable(n.kind)
  }

  /** The computed global bounds. */
  function Bounds(n: Node): Rectf
  {
    Rectf(n.gx, n.gy, n.gw, n.gh)
  }

  /** `contains`: a visible node holds the point when it lies within its bounds, edges included. */
  function Contains(n: Node, mx: real, my: real): (b: bool)
    ensures b <==> n.visible && Bounds(n).Contains(mx, my)
  {
    n.visible && mx >= n.gx && my >= n.gy && mx <= n.gx + n.gw && my <= n.gy + n.gh
  }

  /** A visible node holds its own top-left corner whenever its size is not negative. */
  lemma ContainsOrigin(n: Node)
    requires n.visible && n.gw >= 0.0 && n.gh >= 0.0
    ensures Contains(n, n.gx, n.gy) && Contains(n, n.gx + n.gw, n.gy + n.gh)
  {
  }

  /** `x`, `y`, `width` and `height`: the only fields a container's layout writes into a child. */
  function WithBox(n: Node, x: real, y: real, w: real, h: real): (r: Node)
    ensures r.x == x && r.y == y && r.width == w && r.height == h
    ensures SameExceptBox(n, r)
  {
    n.(x := x, y := y, width := w, height := h)
  }

  /** A local box: position within the parent's content area, and size. */
  datatype Box = Box(x: real, y: real, w: real, h: real)

  /** The node with its local box replaced by `b`. */
  function Placed(n: Node, b: Box): (r: Node)
    ensures r.x == b.x && r.y == b.y && r.width == b.w && r.height == b.h
    ensures SameExceptBox(n, r)
  {
    WithBox(n, b.x, b.y, b.w, b.h)
  }

  /** The two records agree on everything except the layout box. */
  predicate SameExceptBox(a: Node, b: Node)
  {
    a.(x := b.x, y := b.y, width := b.width, height := b.height) == b
  }

  /** The structural part of a node: what layout never touches. */
  predicate SameShape(a: Node, b: Node)
  {
    a.parent == b.parent && a.children == b.children && a.kind == b.kind &&
    a.visible == b.visible && a.enabled == b.enabled && a.padding == b.padding &&
    a.prefW == b.prefW && a.prefH == b.prefH && a.anchors == b.anchors &&
    a.hovered == b.hovered && a.pressed == b.pressed && a.focused == b.focused
  }

  lemma SameExceptBoxKeepsShape(a: Node, b: Node)
    requires SameExceptBox(a, b)
    ensures SameShape(a, b)
    ensures a.gx == b.gx && a.gy == b.gy && a.gw == b.gw && a.gh == b.gh && a.layoutDirty == b.layoutDirty
  {
  }

  /** No id occurs twice. */
  predicate Distinct(s: seq<Id>)
  {
    forall i, j :: 0 <= i < j < |s| ==> s[i] != s[j]
  }

  /** Every listed id names a node of the arena. */
  predicate AllIn(s: seq<Id>, ns: map<Id, Node>)
  {
    forall i :: 0 <= i < |s| ==> s[i] in ns
  }

  /** Layout-only change between two arenas: same ids, and every node keeps its shape. */
  predicate Reshaped(ns: map<Id, Node>, ns': map<Id, Node>)
  {
    ns'.Keys == ns.Keys && forall k :: k in ns ==> SameShape(ns[k], ns'[k])
  }

  /** A container's layout step: only boxes change, and only those of nodes in `touched`. */
  predicate BoxesOnly(ns: map<Id, Node>, ns': map<Id, Node>, touched: set<Id>)
  {
    ns'.Keys == ns.Keys &&
    forall k :: k in ns ==> SameExceptBox(ns[k], ns'[k]) && (k !in touched ==> ns'[k] == ns[k])
  }

  lemma BoxesOnlyTrans(a: map<Id, Node>, b: map<Id, Node>, c: map<Id, Node>, t1: set<Id>, t2: set<Id>)
    requires BoxesOnly(a, b, t1) && BoxesOnly(b, c, t2)
    ensures BoxesOnly(a, c, t1 + t2)
  {
    forall k | k in a
      ensures SameExceptBox(a[k], c[k])
    {
      assert SameExceptBox(a[k], b[k]) && SameExceptBox(b[k], c[k]);
    }
  }

  lemma BoxesOnlyReshaped(a: map<Id, Node>, b: map<Id, Node>, t: set<Id>)
    requires BoxesOnly(a, b, t)
    ensures Reshaped(a, b)
    ensures forall k :: k in a ==> a[k].gx == b[k].gx && a[k].gy == b[k].gy && a[k].gw == b[k].gw &&
                                    a[k].gh == b[k].gh && a[k].layoutDirty == b[k].layoutDirty
  {
    forall k | k in a
      ensures SameShape(a[k], b[k])
    {
      SameExceptBoxKeepsShape(a[k], b[k]);
    }
  }

  /** The content area of a node, relative to the node: its size minus padding, never negative. */
  function ContentW(n: Node): (w: real)
    ensures w >= 0.0
    ensures n.gw - n.padding.Horizontal() >= 0.0 ==> w == n.gw - n.padding.Horizontal()
  {
    Max(0.0, n.gw - n.padding.left - n.padding.right)
  }

  function ContentH(n: Node): (h: real)
    ensures h >= 0.0
    ensures n.gh - n.padding.Vertical() >= 0.0 ==> h == n.gh - n.padding.Vertical()
  {
    Max(0.0, n.gh - n.padding.top - n.padding.bottom)
  }
}

=== FILE: ui_root.dfy ===
/**
 * `UIRoot` (ui/UIRoot.java): the root of a UI tree, which owns the hovered, pressed and focused
 * references and the modal stack, and routes one frame of polled input to the nodes. The class
 * holds the node arena; each of its methods is proved to follow the functions of RootInput, or
 * the arena functions of UITree and UIEdits, whose properties are proved there.
 */
module UIRoots {
  import opened Base
  import opened KeyCodes
  import opened UINodes
  import opened UITree
  import opened UILayout
  import opened UIEdits
  import opened UIArena
  import opened RootInput
  import Input

  // ---------------------------------------------------------------------------------------------
  // Focus order

  /**
   * What `collectFocusable(node, out)` appends: the focusable nodes of `id`'s subtree, depth
   * first, the children's in list order, then `id` itself when it can take the focus.
   */
  ghost function Focusables(t: map<Id, Node>, rank: map<Id, nat>, bound: nat, id: Id): (r: seq<Id>)
    requires Ranked(t, rank, bound) && id in t
    decreases bound - rank[id], 1
  {
    FocusablesKids(t, rank, bound, id, |t[id].children|) + if CanFocus(t[id]) then [id] else []
  }

  /** The children loop of `collectFocusable` over the first `i` children of `p`. */
  ghost function FocusablesKids(t: map<Id, Node>, rank: map<Id, nat>, bound: nat, p: Id, i: nat): (r: seq<Id>)
    requires Ranked(t, rank, bound) && p in t && i <= |t[p].children|
    decreases bound - rank[p], 0, i
  {
    if i == 0 then []
    else
      ChildRank(t, rank, bound, p, t[p].children[i - 1]);
      FocusablesKids(t, rank, bound, p, i - 1) + Focusables(t, rank, bound, t[p].children[i - 1])
  }

  /**
   * Every node collected can take the focus and lies in the subtree searched; the node searched
   * is collected exactly when it can take the focus, and then last.
   */
  lemma {:induction false} FocusablesSound(t: map<Id, Node>, rank: map<Id, nat>, bound: nat, id: Id)
    requires Ranked(t, rank, bound) && id in t
    ensures var r := Focusables(t, rank, bound, id);
            (forall x :: x in r ==> x in t && CanFocus(t[x]) && Within(t, rank, x, id)) &&
            (id in r <==> CanFocus(t[id])) &&
            (CanFocus(t[id]) ==> r[|r| - 1] == id)
    decreases bound - rank[id], 1
  {
    FocusablesKidsSound(t, rank, bound, id, |t[id].children|);
  }

  lemma {:induction false} FocusablesKidsSound(t: map<Id, Node>, rank: map<Id, nat>, bound: nat, p: Id, i: nat)
    requires Ranked(t, rank, bound) && p in t && i <= |t[p].children|
    ensures forall x :: x in FocusablesKids(t, rank, bound, p, i) ==>
              x in t && CanFocus(t[x]) && Within(t, rank, x, p) && rank[p] < rank[x]
    decreases bound - rank[p], 0, i
  {
    if i > 0 {
      var c := t[p].children[i - 1];
      ChildRank(t, rank, bound, p, c);
      FocusablesKidsSound(t, rank, bound, p, i - 1);
      FocusablesSound(t, rank, bound, c);
      forall x | x in Focusables(t, rank, bound, c)
        ensures Within(t, rank, x, p)
      {
        WithinParent(t, rank, x, c, p);
      }
    }
  }

  /**
   * `x` is `id` or lies below it along children lists, the links `collectFocusable` follows
   * (a parent link alone, such as a Center's stale one, does not make a node reachable).
   */
  ghost predicate Reaches(t: map<Id, Node>, rank: map<Id, nat>, bound: nat, id: Id, x: Id): (b: bool)
    requires Ranked(t, rank, bound) && id in t
    ensures b ==> x in t
    decreases bound - rank[id]
  {
    x == id || exists j :: 0 <= j < |t[id].children| && Reaches(t, rank, bound, t[id].children[j], x)
  }

  /** Every node reachable through children lists that can take the focus is collected. */
  lemma {:induction false} FocusablesComplete(t: map<Id, Node>, rank: map<Id, nat>, bound: nat, id: Id, x: Id)
    requires Ranked(t, rank, bound) && id in t && Reaches(t, rank, bound, id, x) && CanFocus(t[x])
    ensures x in Focusables(t, rank, bound, id)
    decreases bound - rank[id]
  {
    if x != id {
      var j :| 0 <= j < |t[id].children| && Reaches(t, rank, bound, t[id].children[j], x);
      var c := t[id].children[j];
      ChildRank(t, rank, bound, id, c);
      FocusablesComplete(t, rank, bound, c, x);
      FocusablesKidsInclude(t, rank, bound, id, |t[id].children|, j, x);
    }
  }

  /** The children loop keeps what each earlier child's subtree contributed. */
  lemma {:induction false} FocusablesKidsInclude(t: map<Id, Node>, rank: map<Id, nat>, bound: nat, p: Id, i: nat, j: nat, x: Id)
    requires Ranked(t, rank, bound) && p in t && j < i <= |t[p].children|
    requires x in Focusables(t, rank, bound, t[p].children[j])
    ensures x in FocusablesKids(t, rank, bound, p, i)
    decreases i
  {
    ChildRank(t, rank, bound, p, t[p].children[i - 1]);
    if j < i - 1 {
      FocusablesKidsInclude(t, rank, bound, p, i - 1, j, x);
    }
  }

  /** Two ancestors of the same node lie on one chain: one is in the other's subtree. */
  lemma {:induction false} WithinLinear(t: map<Id, Node>, rank: map<Id, nat>, x: Id, a: Id, b: Id)
    requires Chained(t, rank) && x in t && Within(t, rank, x, a) && Within(t, rank, x, b)
    ensures a in t && b in t && (Within(t, rank, a, b) || Within(t, rank, b, a))
    decreases rank[x]
  {
    if x != a && x != b {
      WithinLinear(t, rank, t[x].parent.value, a, b);
    }
  }

  /** The subtrees of two different children of one parent share no node. */
  lemma SiblingSubtreesApart(t: map<Id, Node>, rank: map<Id, nat>, bound: nat, p: Id, c: Id, s: Id, y: Id)
    requires Ranked(t, rank, bound) && p in t && c in t[p].children && s in t[p].children && s != c
    requires y in t && Within(t, rank, y, c)
    ensures !Within(t, rank, y, s)
  {
    if Within(t, rank, y, s) {
      WithinLinear(t, rank, y, c, s);
      SiblingApart(t, rank, bound, p, c, s);
      SiblingApart(t, rank, bound, p, s, c);
    }
  }

  lemma DistinctConcat(a: seq<Id>, b: seq<Id>)
    requires Distinct(a) && Distinct(b) && forall x :: x in a ==> x !in b
    ensures Distinct(a + b)
  {
    forall i, j | 0 <= i < j < |a + b|
      ensures (a + b)[i] != (a + b)[j]
    {
      if i < |a| && j >= |a| {
        assert (a + b)[i] in a && (a + b)[j] == b[j - |a|];
      }
    }
  }

  /** Under a well-formed tree, `collectFocusable` collects no node twice. */
  lemma {:induction false} FocusablesDistinct(t: map<Id, Node>, rank: map<Id, nat>, bound: nat, id: Id)
    requires Wf(t, rank, bound) && id in t
    ensures Distinct(Focusables(t, rank, bound, id))
    decreases bound - rank[id], 1
  {
    var kids := FocusablesKids(t, rank, bound, id, |t[id].children|);
    FocusablesKidsDistinct(t, rank, bound, id, |t[id].children|);
    FocusablesKidsSound(t, rank, bound, id, |t[id].children|);
    DistinctConcat(kids, if CanFocus(t[id]) then [id] else []);
  }

  /** The children loop collects no node twice; each node comes from one of the children so far. */
  lemma {:induction false} FocusablesKidsDistinct(t: map<Id, Node>, rank: map<Id, nat>, bound: nat, p: Id, i: nat)
    requires Wf(t, rank, bound) && p in t && i <= |t[p].children|
    ensures var r := FocusablesKids(t, rank, bound, p, i);
            Distinct(r) && forall x :: x in r ==> x in t && exists j :: 0 <= j < i && Within(t, rank, x, t[p].children[j])
    decreases bound - rank[p], 0, i
  {
    if i > 0 {
      var ch := t[p].children;
      var c := ch[i - 1];
      ChildRank(t, rank, bound, p, c);
      var before := FocusablesKids(t, rank, bound, p, i - 1);
      var mine := Focusables(t, rank, bound, c);
      FocusablesKidsDistinct(t, rank, bound, p, i - 1);
      FocusablesDistinct(t, rank, bound, c);
      FocusablesSound(t, rank, bound, c);
      forall y | y in before
        ensures y !in mine
      {
        var j :| 0 <= j < i - 1 && Within(t, rank, y, ch[j]);
        assert ch[j] != c;
        SiblingSubtreesApart(t, rank, bound, p, ch[j], c, y);
      }
      DistinctConcat(before, mine);
      forall x | x in before + mine
        ensures exists j :: 0 <= j < i && Within(t, rank, x, ch[j])
      {
        if x in mine {
          assert Within(t, rank, x, ch[i - 1]);
        }
      }
    }
  }

  /** The arenas agree on ids and, at every node, on everything but the three interaction flags. */
  lemma FlagsOnlyNodes(t: map<Id, Node>, t': map<Id, Node>, k: Id)
    requires FlagsOnly(t, t') && k in t
    ensures t'[k].parent == t[k].parent && t'[k].children == t[k].children && t'[k].kind == t[k].kind
    ensures t'[k].visible == t[k].visible && t'[k].enabled == t[k].enabled
  {
    assert Unflagged(t'[k]) == Unflagged(t[k]);
  }

  /** Only flags changed: the ranking still holds. */
  lemma FlagsOnlyRanked(t: map<Id, Node>, t': map<Id, Node>, rank: map<Id, nat>, bound: nat)
    requires Ranked(t, rank, bound) && FlagsOnly(t, t')
    ensures Ranked(t', rank, bound)
  {
    forall k | k in t
      ensures t'[k].parent == t[k].parent && t'[k].children == t[k].children
    {
      FlagsOnlyNodes(t, t', k);
    }
  }

  /**
   * Hovering, pressing and focusing nodes does not change the focus order, so the list
   * `focusNext` collects in the middle of an input pass is the one the pass started with.
   */
  lemma {:induction false} FocusablesKept(t: map<Id, Node>, t': map<Id, Node>, rank: map<Id, nat>, bound: nat, id: Id)
    requires Ranked(t, rank, bound) && FlagsOnly(t, t') && id in t
    ensures Ranked(t', rank, bound) && Focusables(t', rank, bound, id) == Focusables(t, rank, bound, id)
    decreases bound - rank[id], 1
  {
    FlagsOnlyRanked(t, t', rank, bound);
    FlagsOnlyNodes(t, t', id);
    FocusablesKidsKept(t, t', rank, bound, id, |t[id].children|);
  }

  lemma {:induction false} FocusablesKidsKept(t: map<Id, Node>, t': map<Id, Node>, rank: map<Id, nat>, bound: nat, p: Id, i: nat)
    requires Ranked(t, rank, bound) && FlagsOnly(t, t') && p in t && i <= |t[p].children|
    ensures Ranked(t', rank, bound) && t'[p].children == t[p].children
    ensures FocusablesKids(t', rank, bound, p, i) == FocusablesKids(t, rank, bound, p, i)
    decreases bound - rank[p], 0, i
  {
    FlagsOnlyRanked(t, t', rank, bound);
    FlagsOnlyNodes(t, t', p);
    if i > 0 {
      var c := t[p].children[i - 1];
      ChildRank(t, rank, bound, p, c);
      FocusablesKidsKept(t, t', rank, bound, p, i - 1);
      FocusablesKept(t, t', rank, bound, c);
    }
  }

  // ---------------------------------------------------------------------------------------------
  // Tree edits leave the interaction flags alone

  /** The references stay coherent over any change that keeps the ids and every flag. */
  lemma CoherentKept(u: Pass, ns: map<Id, Node>)
    requires Coherent(u) && SameFlags(u.nodes, ns)
    ensures Coherent(u.(nodes := ns))
  {
  }

  /** A raised child is its parent's last child, and the parent keeps its kind. */
  lemma RaisedTop(ns: map<Id, Node>, rank: map<Id, nat>, bound: nat, p: Id, c: Id)
    requires Wf(ns, rank, bound) && p in ns && c in ns && ns[c].parent == Some(p)
    ensures var r := Raised(ns, rank, p, c);
            var kids := r[p].children;
            r[c].parent == Some(p) && |kids| > 0 && kids[|kids| - 1] == c && r[p].kind == ns[p].kind
  {
    RaisedOrder(ns, rank, bound, p, c);
  }

  /** Coherence does not look at the `consumed` flag. */
  lemma CoherentConsumed(u: Pass, c: bool)
    requires Coherent(u)
    ensures Coherent(u.(consumed := c))
  {
  }

  /** Dropping the hovered or the pressed reference, or both, keeps the references coherent. */
  lemma CoherentDropped(u: Pass, hovered: Option<Id>, pressed: Option<Id>)
    requires Coherent(u) && (hovered.None? || hovered == u.hovered) && (pressed.None? || pressed == u.pressed)
    ensures Coherent(u.(hovered := hovered, pressed := pressed))
  {
  }

  lemma SameFlagsTrans(a: map<Id, Node>, b: map<Id, Node>, c: map<Id, Node>)
    requires SameFlags(a, b) && SameFlags(b, c)
    ensures SameFlags(a, c)
  {
  }

  /** `markLayoutDirty` touches no interaction flag. */
  lemma FlaggedFlags(ns: map<Id, Node>, s: set<Id>)
    ensures SameFlags(ns, Flagged(ns, s))
  {
  }

  /** Changing one node's links or kind touches no interaction flag. */
  lemma RelinkFlags(ns: map<Id, Node>, k: Id, m: Node)
    requires k in ns && m.hovered == ns[k].hovered && m.pressed == ns[k].pressed && m.focused == ns[k].focused
    ensures SameFlags(ns, ns[k := m])
  {
  }

  /** `remove` leaves the parent's kind alone apart from the tables it forgets. */
  lemma RemovedKind(ns: map<Id, Node>, rank: map<Id, nat>, p: Id, c: Id)
    requires Chained(ns, rank) && p in ns && c in ns
    requires ns[p].kind.DockPane? ==> DockPanes.Inverse(ns[p].kind.docks, ns[p].kind.slots)
    ensures Removed(ns, rank, p, c)[p].kind == Forget(ns[p].kind, c)
  {
    var forgot := ns[p := ns[p].(kind := Forget(ns[p].kind, c))];
    if c in ns[p].children {
      FlaggedTree(Detach(forgot, p, c), Ancestry(ns, rank, p));
    }
  }

  /** `remove` touches no interaction flag. */
  lemma RemovedFlags(ns: map<Id, Node>, rank: map<Id, nat>, p: Id, c: Id)
    requires Chained(ns, rank) && p in ns && c in ns
    requires ns[p].kind.DockPane? ==> DockPanes.Inverse(ns[p].kind.docks, ns[p].kind.slots)
    ensures SameFlags(ns, Removed(ns, rank, p, c))
  {
    var forgot := ns[p := ns[p].(kind := Forget(ns[p].kind, c))];
    RelinkFlags(ns, p, ns[p].(kind := Forget(ns[p].kind, c)));
    if c in ns[p].children {
      var a := forgot[p := forgot[p].(children := Without(forgot[p].children, c))];
      RelinkFlags(forgot, p, forgot[p].(children := Without(forgot[p].children, c)));
      RelinkFlags(a, c, forgot[c].(parent := None));
      var d := a[c := forgot[c].(parent := None)];
      assert d == Detach(forgot, p, c);
      SameFlagsTrans(ns, forgot, a);
      SameFlagsTrans(ns, a, d);
      FlaggedFlags(d, Ancestry(ns, rank, p));
      SameFlagsTrans(ns, d, Removed(ns, rank, p, c));
    }
  }

  /** `add` touches no interaction flag. */
  lemma AddedFlags(ns: map<Id, Node>, rank: map<Id, nat>, p: Id, c: Id)
    requires Chained(ns, rank) && p in ns && c in ns && forall k :: k in ns ==> KindOk(ns[k])
    ensures SameFlags(ns, Added(ns, rank, p, c))
  {
    var u := Unparented(ns, rank, c);
    if ns[c].parent.Some? {
      var q := ns[c].parent.value;
      assert KindOk(ns[q]);
      RemovedFlags(ns, rank, q, c);
    }
    var a := u[c := u[c].(parent := Some(p))];
    RelinkFlags(u, c, u[c].(parent := Some(p)));
    RelinkFlags(a, p, u[p].(children := u[p].children + [c]));
    var l := Link(u, p, c);
    assert l == a[p := u[p].(children := u[p].children + [c])];
    SameFlagsTrans(ns, u, a);
    SameFlagsTrans(ns, a, l);
    FlaggedFlags(l, Ancestry(ns, rank, p));
    SameFlagsTrans(ns, l, Added(ns, rank, p, c));
  }

  /** Moving a child to the top of the drawing order touches no interaction flag. */
  lemma RaisedFlags(ns: map<Id, Node>, rank: map<Id, nat>, p: Id, c: Id)
    requires Chained(ns, rank) && p in ns
    ensures SameFlags(ns, Raised(ns, rank, p, c))
  {
    RelinkFlags(ns, p, ns[p].(children := Without(ns[p].children, c) + [c]));
    FlaggedFlags(Reordered(ns, p, c), Ancestry(ns, rank, p));
    SameFlagsTrans(ns, Reordered(ns, p, c), Raised(ns, rank, p, c));
  }

  /** A layout pass touches no interaction flag. */
  lemma ReshapedFlags(ns: map<Id, Node>, ns': map<Id, Node>)
    requires Reshaped(ns, ns')
    ensures SameFlags(ns, ns')
  {
  }

  /** Only flags changed: every node lies in the same subtrees as before. */
  lemma {:induction false} WithinFlags(t: map<Id, Node>, t': map<Id, Node>, rank: map<Id, nat>, bound: nat, x: Id, a: Id)
    requires Ranked(t, rank, bound) && FlagsOnly(t, t') && x in t
    ensures Ranked(t', rank, bound) && Within(t', rank, x, a) == Within(t, rank, x, a)
    decreases rank[x]
  {
    FlagsOnlyRanked(t, t', rank, bound);
    FlagsOnlyNodes(t, t', x);
    if x != a && t[x].parent.Some? {
      WithinFlags(t, t', rank, bound, t[x].parent.value, a);
    }
  }

  /** A reference that names a node of `m`'s subtree. */
  ghost predicate Inside(ns: map<Id, Node>, rank: map<Id, nat>, r: Option<Id>, m: Id)
    requires Chained(ns, rank) && (r.Some? ==> r.value in ns)
  {
    r.Some? && Within(ns, rank, r.value, m)
  }

  // ---------------------------------------------------------------------------------------------
  // Polled input

  /**
   * The input one pass reads: the mouse position as floats, the buttons and keys whose edge
   * flags are set, the wheel, whether Shift is held, and the typed text. Nothing in the pass
   * changes the input manager, so reading it once gives every answer the pass asks of it.
   */
  function Poll(input: Input.InputManager, typed: Option<string>): Polled
    requires input.Valid()
    reads input, input.keysDown, input.keysPressed, input.keysReleased, input.mousePressed, input.mouseReleased
  {
    Polled(input.mouseX as real, input.mouseY as real,
           (set b | 0 <= b < Input.MAX_MOUSE_BUTTONS && input.IsMousePressed(b)),
           (set b | 0 <= b < Input.MAX_MOUSE_BUTTONS && input.IsMouseReleased(b)),
           input.scroll,
           (set k | 0 <= k < Input.MAX_KEYS && input.IsKeyPressed(k)),
           (set k | 0 <= k < Input.MAX_KEYS && input.IsKeyReleased(k)),
           input.IsKeyDown(VK_SHIFT), typed)
  }

  /**
   * The index arithmetic of `focusNext`: from the focused entry's first position, or from 0
   * when the focus is not in the list, one step forward or back, wrapping at both ends.
   */
  method StepIndex(list: seq<Id>, focused: Option<Id>, backwards: bool) returns (next: nat)
    requires |list| > 0
    ensures next < |list|
    ensures var at := if focused.Some? then IndexOf(list, focused.value) else -1;
            next == NextIndex(|list|, if at >= 0 then at else 0, backwards)
  {
    var idx := 0;
    if focused.Some? {
      var current := IndexOf(list, focused.value);
      if current >= 0 {
        idx := current;
      }
    }
    var n := if backwards then idx - 1 else idx + 1;
    if n < 0 {
      n := |list| - 1;
    }
    if n >= |list| {
      n := 0;
    }
    next := n;
  }

  /**
   * The arena after `pushModal` puts `x` on top of root `r`'s children: added when it hangs
   * elsewhere, moved to the end of the children when it is one already.
   */
  ghost function Mounted(ns: map<Id, Node>, rank: map<Id, nat>, r: Id, x: Id): map<Id, Node>
    requires Chained(ns, rank) && r in ns && x in ns && (forall k :: k in ns ==> KindOk(ns[k]))
  {
    if ns[x].parent == Some(r) then Raised(ns, rank, r, x) else Added(ns, rank, r, x)
  }

  // ---------------------------------------------------------------------------------------------
  // The root

  /**
   * The root of a UI tree. `arena` holds every node, the root's own record under `id`;
   * `hovered`, `pressed` and `focused` are the references the root owns; `modals` is the modal
   * stack, its top at index 0.
   */
  class UIRoot {
    const arena: Arena
    const id: Id
    var hovered: Option<Id>
    var pressed: Option<Id>
    var focused: Option<Id>
    var modals: seq<Id>

    /** The arena is well formed and the root, the modals and the three references name its nodes. */
    ghost predicate Ready()
      reads this, arena
    {
      arena.Valid() && id in arena.nodes && AllIn(modals, arena.nodes) && Tracked(State(false))
    }

    /** Moreover the root's record is a root's, and the references agree with the nodes' flags. */
    ghost predicate Valid()
      reads this, arena
    {
      Ready() && arena.nodes[id].kind == Root && Coherent(State(false))
    }

    /** The state an input pass works on, with the pass's `consumed` flag `c`. */
    ghost function State(c: bool): Pass
      reads this, arena
    {
      Pass(arena.nodes, arena.events, hovered, pressed, focused, c)
    }

    /** The focus order of the active tree. */
    ghost function FocusList(): (r: seq<Id>)
      requires Ready()
      reads this, arena
      ensures AllIn(r, arena.nodes)
    {
      WfRanked(arena.nodes, arena.rank, arena.bound);
      FocusablesSound(arena.nodes, arena.rank, arena.bound, HitTreeRoot());
      Focusables(arena.nodes, arena.rank, arena.bound, HitTreeRoot())
    }

    /** What the active tree hits at a point. */
    ghost function Target(mx: real, my: real): (r: Option<Id>)
      requires Ready()
      reads this, arena
      ensures r.Some? ==> r.value in arena.nodes
    {
      WfRanked(arena.nodes, arena.rank, arena.bound);
      HitSound(arena.nodes, arena.rank, arena.bound, HitTreeRoot(), mx, my);
      Hit(arena.nodes, arena.rank, arena.bound, HitTreeRoot(), mx, my)
    }

    /** `UIRoot()`: a root record, at the origin, with width and height -1, in an arena of its own. */
    constructor (id: Id)
      ensures Valid() && fresh(arena) && this.id == id && modals == []
      ensures arena.nodes.Keys == {id} && arena.events == []
      ensures var r := arena.nodes[id];
              r.kind == Root && r.x == 0.0 && r.y == 0.0 && r.width == -1.0 && r.height == -1.0 &&
              r.parent.None? && r.children == [] && r.visible && r.enabled && r.layoutDirty &&
              !r.hovered && !r.pressed && !r.focused
      ensures hovered.None? && pressed.None? && focused.None?
    {
      // Fresh(Root) with the root's own size of -1 by -1, written out field by field
      arena := new Arena.Holding(id, Node(0.0, 0.0, -1.0, -1.0, true, true, UIInsets.ZERO, -1.0, -1.0, None,
                                          0.0, 0.0, 0.0, 0.0, None, [], false, false, false, true, Root));
      this.id := id;
      hovered := None;
      pressed := None;
      focused := None;
      modals := [];
    }

    /** `setSize(w, h)`: each side at least 1, then the root and its ancestors need layout. */
    method SetSize(w: int, h: int)
      modifies arena`nodes
      requires Valid()
      ensures Valid()
      ensures var n := old(arena.nodes[id]).(width := IMax(1, w) as real, height := IMax(1, h) as real);
              arena.nodes == Flagged(old(arena.nodes)[id := n], Ancestry(old(arena.nodes), arena.rank, id))
      ensures arena.nodes[id].width >= 1.0 && arena.nodes[id].height >= 1.0 && arena.nodes[id].layoutDirty
    {
      ghost var u := State(false);
      var n := arena.nodes[id];
      ghost var m := n.(width := IMax(1, w) as real, height := IMax(1, h) as real);
      arena.SetSize(id, IMax(1, w) as real, IMax(1, h) as real);
      RelinkFlags(u.nodes, id, m);
      FlaggedFlags(u.nodes[id := m], Ancestry(u.nodes, arena.rank, id));
      SameFlagsTrans(u.nodes, u.nodes[id := m], arena.nodes);
      CoherentKept(u, arena.nodes);
    }

    /**
     * `layoutIfNeeded`: a root that needs layout is laid out in the area at the origin of its
     * own width and height; a visible root is clean afterwards.
     */
    method LayoutIfNeeded()
      modifies arena`nodes
      requires Valid()
      ensures Valid()
      ensures !old(arena.nodes[id].layoutDirty) ==> arena.nodes == old(arena.nodes)
      ensures old(arena.nodes[id].layoutDirty) ==>
                var n := old(arena.nodes[id]);
                arena.nodes == Laid(old(arena.nodes), arena.rank, arena.bound, Place, old(arena.nodes), id, Area(0.0, 0.0, n.width, n.height))
      ensures arena.nodes[id].visible ==> !arena.nodes[id].layoutDirty
    {
      var n := arena.nodes[id];
      if n.layoutDirty {
        ghost var u := State(false);
        WfRanked(u.nodes, arena.rank, arena.bound);
        PlaceMovesBoxes();
        LaidOwn(u.nodes, arena.rank, arena.bound, Place, u.nodes, id, Area(0.0, 0.0, n.width, n.height));
        arena.Layout(id, Area(0.0, 0.0, n.width, n.height));
        ReshapedFlags(u.nodes, arena.nodes);
        CoherentKept(u, arena.nodes);
      }
    }

    /**
     * `pushModal(modal)`: a null modal changes nothing. Otherwise the modal joins the tree as the
     * root's last child (added when its parent is another node, moved to the end when it is the
     * root), goes on top of the stack, and the hovered and pressed references are dropped (the
     * nodes keep their flags).
     */
    method PushModal(m: Option<Id>)
      modifies this`modals, this`hovered, this`pressed, arena`nodes, arena`rank, arena`bound
      requires Valid()
      requires m.Some? ==> m.value in arena.nodes && !Within(arena.nodes, arena.rank, id, m.value)
      ensures Valid()
      ensures m.None? ==> modals == old(modals) && hovered == old(hovered) && pressed == old(pressed) && arena.nodes == old(arena.nodes)
      ensures m.Some? ==>
                var x := m.value;
                modals == [x] + old(modals) && hovered.None? && pressed.None? && focused == old(focused) &&
                arena.nodes == Mounted(old(arena.nodes), old(arena.rank), id, x)
      ensures m.Some? ==>
                var kids := arena.nodes[id].children;
                arena.nodes[m.value].parent == Some(id) && |kids| > 0 && kids[|kids| - 1] == m.value
    {
      if m.None? {
        return;
      }
      var x := m.value;
      Mount(x);
      Stack(x);
    }

    /** The tree half of `pushModal`: the modal ends as the root's last child. */
    method Mount(x: Id)
      modifies arena`nodes, arena`rank, arena`bound
      requires Valid() && x in arena.nodes && !Within(arena.nodes, arena.rank, id, x)
      ensures Valid()
      ensures arena.nodes == Mounted(old(arena.nodes), old(arena.rank), id, x)
      ensures var kids := arena.nodes[id].children;
              arena.nodes[x].parent == Some(id) && |kids| > 0 && kids[|kids| - 1] == x
    {
      if arena.nodes[x].parent != Some(id) {
        AddModal(x);
      } else {
        RaiseModal(x);
      }
    }

    /** The stack half of `pushModal`: the modal goes on top, and hovered and pressed are dropped. */
    method Stack(x: Id)
      modifies this`modals, this`hovered, this`pressed
      requires Valid() && x in arena.nodes
      ensures Valid() && modals == [x] + old(modals) && hovered.None? && pressed.None?
      ensures unchanged(arena)
    {
      ghost var v := State(false);
      CoherentDropped(v, None, None);
      modals := [x] + modals;
      hovered := None;
      pressed := None;
      assert State(false) == v.(hovered := None, pressed := None);
    }

    /** `addChild(modal)` on the root: the modal becomes the root's last child. */
    method AddModal(x: Id)
      modifies arena`nodes, arena`rank, arena`bound
      requires Valid() && x in arena.nodes && !Within(arena.nodes, arena.rank, id, x)
      ensures Valid() && arena.nodes == Added(old(arena.nodes), old(arena.rank), id, x)
      ensures var kids := arena.nodes[id].children;
              arena.nodes[x].parent == Some(id) && |kids| > 0 && kids[|kids| - 1] == x
    {
      ghost var u := State(false);
      AddedFlags(u.nodes, arena.rank, id, x);
      AddedKind(u.nodes, arena.rank, id, x);
      AddedLinks(u.nodes, arena.rank, arena.bound, id, x);
      arena.Add(id, x);
      CoherentKept(u, arena.nodes);
    }

    /** A modal the root already holds moves to the end of the root's children, drawn on top. */
    method RaiseModal(x: Id)
      modifies arena`nodes
      requires Valid() && x in arena.nodes && arena.nodes[x].parent == Some(id)
      ensures Valid() && arena.nodes == Raised(old(arena.nodes), arena.rank, id, x)
      ensures var kids := arena.nodes[id].children;
              arena.nodes[x].parent == Some(id) && |kids| > 0 && kids[|kids| - 1] == x
    {
      ghost var u := State(false);
      RaisedFlags(u.nodes, arena.rank, id, x);
      RaisedTop(u.nodes, arena.rank, arena.bound, id, x);
      arena.Raise(id, x);
      CoherentKept(u, arena.nodes);
    }

    /**
     * `popModal`: with a modal open, it leaves the stack; the focus (through `setFocus(null)`),
     * the hovered and the pressed reference are each dropped when they lie in its subtree; then
     * the root removes it.
     */
    method PopModal()
      modifies this`modals, this`hovered, this`pressed, this`focused, arena`nodes
      requires Valid()
      ensures Valid()
      ensures |old(modals)| == 0 ==> modals == old(modals) && State(false) == old(State(false))
      ensures |old(modals)| > 0 ==>
                var m := old(modals[0]);
                modals == old(modals[1..]) &&
                focused == (if Inside(old(arena.nodes), arena.rank, old(focused), m) then None else old(focused)) &&
                hovered == (if Inside(old(arena.nodes), arena.rank, old(hovered), m) then None else old(hovered)) &&
                pressed == (if Inside(old(arena.nodes), arena.rank, old(pressed), m) then None else old(pressed)) &&
                arena.nodes == Removed(Refocus(old(State(false)), focused).nodes, arena.rank, id, m)
    {
      if |modals| == 0 {
        return;
      }
      var m := modals[0];
      modals := modals[1..];
      DropInside(m);
      DropChild(m);
    }

    /** The references `popModal` drops: each one lying in `m`'s subtree, the focus through `setFocus(null)`. */
    method DropInside(m: Id)
      modifies this`hovered, this`pressed, this`focused, arena`nodes
      requires Valid() && m in arena.nodes
      ensures Valid()
      ensures focused == (if Inside(old(arena.nodes), arena.rank, old(focused), m) then None else old(focused))
      ensures hovered == (if Inside(old(arena.nodes), arena.rank, old(hovered), m) then None else old(hovered))
      ensures pressed == (if Inside(old(arena.nodes), arena.rank, old(pressed), m) then None else old(pressed))
      ensures arena.nodes == Refocus(old(State(false)), focused).nodes
    {
      ghost var u := State(false);
      DropFocus(m);
      WfRanked(u.nodes, arena.rank, arena.bound);
      if hovered.Some? {
        WithinFlags(u.nodes, arena.nodes, arena.rank, arena.bound, hovered.value, m);
      }
      if pressed.Some? {
        WithinFlags(u.nodes, arena.nodes, arena.rank, arena.bound, pressed.value, m);
      }
      DropPointer(m);
    }

    /** The pointer half: a hovered or pressed reference lying in `m`'s subtree is dropped. */
    method DropPointer(m: Id)
      modifies this`hovered, this`pressed
      requires Valid() && m in arena.nodes
      ensures Valid()
      ensures hovered == (if Inside(arena.nodes, arena.rank, old(hovered), m) then None else old(hovered))
      ensures pressed == (if Inside(arena.nodes, arena.rank, old(pressed), m) then None else old(pressed))
    {
      ghost var u := State(false);
      var h := IsDescendantOf(hovered, Some(m));
      var p := IsDescendantOf(pressed, Some(m));
      var hovered' := if hovered.Some? && h then None else hovered;
      var pressed' := if pressed.Some? && p then None else pressed;
      CoherentDropped(u, hovered', pressed');
      hovered, pressed := hovered', pressed';
      assert State(false) == u.(hovered := hovered', pressed := pressed');
    }

    /** The focus half of that: a focus inside `m`'s subtree is cleared through `setFocus(null)`. */
    method DropFocus(m: Id)
      modifies this`focused, arena`nodes
      requires Valid() && m in arena.nodes
      ensures Valid() && hovered == old(hovered) && pressed == old(pressed)
      ensures focused == (if Inside(old(arena.nodes), arena.rank, old(focused), m) then None else old(focused))
      ensures arena.nodes == Refocus(old(State(false)), focused).nodes
    {
      ghost var u := State(false);
      var inside := IsDescendantOf(focused, Some(m));
      if focused.Some? && inside {
        SetFocus(None, false);
        RefocusCoherent(u, None);
        FlagsOnlyNodes(u.nodes, arena.nodes, id);
      }
    }

    /** The root's `removeChild(m)` at the end of `popModal`; the references and the flags stay. */
    method DropChild(m: Id)
      modifies arena`nodes
      requires Valid() && m in arena.nodes
      ensures Valid() && arena.nodes == Removed(old(arena.nodes), arena.rank, id, m)
    {
      ghost var v := State(false);
      RemovedFlags(v.nodes, arena.rank, id, m);
      RemovedKind(v.nodes, arena.rank, id, m);
      arena.Remove(id, m);
      CoherentKept(v, arena.nodes);
    }

    /** `isDescendantOf(n, root)`: whether `n` is `root` or lies below it, walking up the parent links. */
    method IsDescendantOf(n: Option<Id>, root: Option<Id>) returns (b: bool)
      requires arena.Valid() && (n.Some? ==> n.value in arena.nodes)
      ensures b <==> n.Some? && root.Some? && Within(arena.nodes, arena.rank, n.value, root.value)
    {
      if n.None? || root.None? {
        return false;
      }
      var x := n.value;
      var a := root.value;
      if x == a {
        return true;
      }
      var p := arena.nodes[x].parent;
      while p.Some?
        invariant p.Some? ==> p.value in arena.nodes
        invariant Within(arena.nodes, arena.rank, x, a) <==> p.Some? && Within(arena.nodes, arena.rank, p.value, a)
        decreases if p.Some? then arena.rank[p.value] + 1 else 0
      {
        if p.value == a {
          return true;
        }
        p := arena.nodes[p.value].parent;
      }
      return false;
    }

    /** `hitTreeRoot()`: the top modal when one is open, else the root itself. */
    function HitTreeRoot(): (r: Id)
      requires Ready()
      reads this, arena
      ensures r in arena.nodes && (r == id || r in modals)
    {
      if |modals| > 0 then modals[0] else id
    }

    /**
     * `hitTarget(mx, my)`: the hit test of the active tree; a hit is an interactive node under
     * the point inside that tree.
     */
    method HitTarget(mx: real, my: real) returns (r: Option<Id>)
      requires Ready()
      ensures r == Target(mx, my)
      ensures r.Some? ==> r.value in arena.nodes && Interactive(arena.nodes[r.value].kind) &&
                          Contains(arena.nodes[r.value], mx, my) && Within(arena.nodes, arena.rank, r.value, HitTreeRoot())
    {
      WfRanked(arena.nodes, arena.rank, arena.bound);
      HitSound(arena.nodes, arena.rank, arena.bound, HitTreeRoot(), mx, my);
      r := arena.HitTest(HitTreeRoot(), mx, my);
    }

    /** `collectFocusable(node, out)`: `out` followed by the focus order of `node`'s subtree. */
    method CollectFocusable(node: Id, out: seq<Id>) returns (r: seq<Id>)
      requires arena.Valid() && node in arena.nodes
      ensures r == out + Focusables(arena.nodes, arena.rank, arena.bound, node)
      decreases arena.bound - arena.rank[node]
    {
      WfRanked(arena.nodes, arena.rank, arena.bound);
      var n := arena.nodes[node];
      r := out;
      var i := 0;
      while i < |n.children|
        invariant 0 <= i <= |n.children|
        invariant r == out + FocusablesKids(arena.nodes, arena.rank, arena.bound, node, i)
      {
        ChildRank(arena.nodes, arena.rank, arena.bound, node, n.children[i]);
        r := CollectFocusable(n.children[i], r);
        i := i + 1;
      }
      if CanFocus(n) {
        r := r + [node];
      }
    }

    /** `setFocus(n)`: nothing when `n` has the focus; else the old node loses it and `n`, if any, gains it. */
    method SetFocus(f: Option<Id>, ghost c: bool)
      modifies this`focused, arena`nodes
      requires Ready() && (f.Some? ==> f.value in arena.nodes)
      ensures Ready() && State(c) == Refocus(old(State(c)), f)
    {
      if focused == f {
        return;
      }
      if focused.Some? {
        MarkStep(focused.value, false, c);
      }
      focused := f;
      if focused.Some? {
        MarkStep(focused.value, true, c);
      }
    }

    /** `setFocused(v)` on a node of the arena, as a step of the pass. */
    method MarkStep(target: Id, v: bool, ghost c: bool)
      modifies arena`nodes
      requires Ready() && target in arena.nodes
      ensures Ready() && State(c) == Mark(old(State(c)), target, v)
    {
      ghost var u := State(c);
      arena.SetFocused(target, v);
      assert arena.nodes.Keys == u.nodes.Keys;
    }

    /**
     * `focusNext(backwards)`: the focus order of the active tree is collected, then the focus
     * steps through it as RootInput.FocusNext says.
     */
    method FocusNext(backwards: bool, ghost c: bool)
      modifies this`focused, arena`nodes
      requires Ready()
      ensures Ready() && State(c) == RootInput.FocusNext(old(State(c)), old(FocusList()), backwards)
    {
      var list := CollectFocusable(HitTreeRoot(), []);
      WfRanked(arena.nodes, arena.rank, arena.bound);
      FocusablesSound(arena.nodes, arena.rank, arena.bound, HitTreeRoot());
      assert list == FocusList();
      if |list| == 0 {
        SetFocus(None, c);
        return;
      }
      var next := StepIndex(list, focused, backwards);
      SetFocus(Some(list[next]), c);
    }

    /** A new hover target: the old hovered node is un-hovered, then the hit becomes the hovered node and is hovered. */
    method ChangeHover(hit: Option<Id>, ghost c: bool)
      modifies this`hovered, arena`nodes, arena`events
      requires Ready() && (hit.Some? ==> hit.value in arena.nodes)
      ensures Ready() && State(c) == Rehover(old(State(c)), hit)
    {
      if hovered.Some? {
        HoverStep(hovered.value, false, c);
      }
      hovered := hit;
      if hovered.Some? {
        HoverStep(hovered.value, true, c);
      }
    }

    /** `setHovered(v)` on a node of the arena, as a step of the pass. */
    method HoverStep(target: Id, v: bool, ghost c: bool)
      modifies arena`nodes, arena`events
      requires Ready() && target in arena.nodes
      ensures Ready() && State(c) == Hover(old(State(c)), target, v)
    {
      ghost var u := State(c);
      arena.SetHovered(target, v);
      assert arena.nodes.Keys == u.nodes.Keys;
    }

    /** The hover step of `handleInput`, then the mouse move to the hovered node. */
    method TrackHover(hit: Option<Id>, mx: real, my: real, answer: Answer, c: bool) returns (c': bool)
      modifies this`hovered, arena`nodes, arena`events
      requires Ready() && (hit.Some? ==> hit.value in arena.nodes)
      ensures Ready() && State(c') == Track(old(State(c)), hit, mx, my, answer)
    {
      c' := c;
      if hit != hovered {
        ChangeHover(hit, c);
      }
      if hovered.Some? {
        var e := MouseMove(hovered.value, mx, my);
        arena.Fire(e);
        c' := c' || answer(e);
      }
    }

    /** A press of `btn` in `handleInput`. */
    method PressButton(btn: int, answer: Answer, c: bool) returns (c': bool)
      modifies this`pressed, this`focused, arena`nodes, arena`events
      requires Ready()
      ensures Ready() && State(c') == Down(old(State(c)), btn, answer)
    {
      c' := c;
      if hovered.Some? && arena.nodes[hovered.value].enabled {
        var h := hovered.value;
        pressed := Some(h);
        arena.SetPressed(h, true);
        if CanFocus(arena.nodes[h]) {
          SetFocus(Some(h), c');
        }
        var e := MouseDown(h, btn);
        arena.Fire(e);
        c' := c' || answer(e);
      }
    }

    /** A release of `btn` in `handleInput`, with the click when press and release meet on a clickable node. */
    method ReleaseButton(btn: int, answer: Answer, c: bool) returns (c': bool)
      modifies this`pressed, arena`nodes, arena`events
      requires Ready()
      ensures Ready() && State(c') == Up(old(State(c)), btn, answer)
    {
      c' := c;
      if pressed.Some? {
        var p := pressed.value;
        arena.SetPressed(p, false);
        var e := MouseUp(p, btn);
        arena.Fire(e);
        c' := c' || answer(e);
        if hovered == Some(p) && Clickable(arena.nodes[p].kind) {
          arena.Fire(Click(p, btn));
          c' := true;
        }
        pressed := None;
      }
    }

    /** One turn of the button loop: the press of `btn`, then its release, as the input reports them. */
    method PollButton(p: Polled, btn: int, answer: Answer, c: bool) returns (c': bool)
      modifies this`pressed, this`focused, arena`nodes, arena`events
      requires Ready()
      ensures Ready() && State(c') == Button(old(State(c)), p, btn, answer)
    {
      c' := c;
      if btn in p.buttonsPressed {
        c' := PressButton(btn, answer, c');
      }
      if btn in p.buttonsReleased {
        c' := ReleaseButton(btn, answer, c');
      }
    }

    /** The button loop of `handleInput`, over buttons 1 to 7. */
    method PollButtons(p: Polled, answer: Answer, c: bool) returns (c': bool)
      modifies this`pressed, this`focused, arena`nodes, arena`events
      requires Ready()
      ensures Ready() && State(c') == Buttons(old(State(c)), p, Input.MAX_MOUSE_BUTTONS, answer)
    {
      ghost var u := State(c);
      c' := c;
      var btn := 1;
      while btn < Input.MAX_MOUSE_BUTTONS
        invariant 1 <= btn <= Input.MAX_MOUSE_BUTTONS
        invariant Ready() && ButtonsFrom(State(c'), p, btn, answer) == ButtonsFrom(u, p, 1, answer)
      {
        c' := PollButton(p, btn, answer, c');
        btn := btn + 1;
      }
      ButtonsSplit(u, p, 1, answer);
    }

    /** One turn of the key loop: the press of `key`, then its release, to node `f`. */
    method PollKey(p: Polled, f: Id, key: int, answer: Answer, c: bool) returns (c': bool)
      modifies arena`events
      requires Ready()
      ensures Ready() && State(c') == Key(old(State(c)), f, p, key, answer)
    {
      c' := c;
      if key in p.keysPressed {
        var e := KeyDown(f, key);
        arena.Fire(e);
        c' := c' || answer(e);
      }
      if key in p.keysReleased {
        var e := KeyUp(f, key);
        arena.Fire(e);
        c' := c' || answer(e);
      }
    }

    /** The key loop of `handleInput` over codes 0 to 511, to node `f`. */
    method PollKeyCodes(p: Polled, f: Id, answer: Answer, c: bool) returns (c': bool)
      modifies arena`events
      requires Ready()
      ensures Ready() && State(c') == Keys(old(State(c)), f, p, Input.MAX_KEYS, answer)
    {
      ghost var u := State(c);
      c' := c;
      var key := 0;
      while key < Input.MAX_KEYS
        invariant 0 <= key <= Input.MAX_KEYS
        invariant Ready() && State(c') == Keys(u, f, p, key, answer)
      {
        c' := PollKey(p, f, key, answer, c');
        key := key + 1;
      }
    }

    /** The keyboard loop of `handleInput`, then the typed text, to the focused node when it is enabled. */
    method PollKeys(p: Polled, answer: Answer, c: bool) returns (c': bool)
      modifies arena`events
      requires Ready()
      ensures Ready() && State(c') == Typing(old(State(c)), p, answer)
    {
      c' := c;
      if focused.Some? && arena.nodes[focused.value].enabled {
        ghost var u := State(c);
        var f := focused.value;
        c' := PollKeyCodes(p, f, answer, c');
        assert State(c') == Keys(u, f, p, Input.MAX_KEYS, answer);
        if p.typed.Some? && |p.typed.value| > 0 {
          var e := TextInput(f, p.typed.value);
          arena.Fire(e);
          c' := c' || answer(e);
        }
      }
    }

    /** The mouse half of `handleInput`: hover tracking and the move, the buttons, the wheel. */
    method HandlePointer(p: Polled, answer: Answer) returns (c: bool)
      modifies this`hovered, this`pressed, this`focused, arena`nodes, arena`events
      requires Ready()
      ensures Ready() && State(c) == Pointer(old(State(false)), p, old(Target(p.mx, p.my)), answer)
      ensures FocusList() == old(FocusList())
    {
      ghost var u := State(false);
      var hit := HitTarget(p.mx, p.my);
      c := TrackHover(hit, p.mx, p.my, answer, false);
      ghost var a := State(c);
      assert a == Track(u, hit, p.mx, p.my, answer);
      c := PollButtons(p, answer, c);
      assert State(c) == Buttons(a, p, Input.MAX_MOUSE_BUTTONS, answer);
      c := RollWheel(p.scroll, answer, c);
      WfRanked(u.nodes, arena.rank, arena.bound);
      FocusablesKept(u.nodes, arena.nodes, arena.rank, arena.bound, HitTreeRoot());
    }

    /** The wheel step of `handleInput`: a non-zero scroll goes to the hovered node. */
    method RollWheel(amount: int, answer: Answer, c: bool) returns (c': bool)
      modifies arena`events
      requires Ready()
      ensures Ready() && State(c') == Wheel(old(State(c)), amount, answer)
    {
      c' := c;
      if amount != 0 && hovered.Some? {
        var e := MouseWheel(hovered.value, amount);
        arena.Fire(e);
        c' := c' || answer(e);
      }
    }

    /** The keyboard half of `handleInput`: Tab or Shift+Tab, then keys and text. */
    method HandleKeyboard(p: Polled, answer: Answer, c: bool) returns (c': bool)
      modifies this`focused, arena`nodes, arena`events
      requires Ready()
      ensures Ready() && State(c') == Keyboard(old(State(c)), p, old(FocusList()), answer)
    {
      ghost var u := State(c);
      c' := c;
      if VK_TAB in p.keysPressed {
        FocusNext(p.shift, c');
        c' := true;
      }
      assert State(c') == Tab(u, p, old(FocusList()));
      c' := PollKeys(p, answer, c');
    }

    /** Both halves of `handleInput` in turn, from an unconsumed start. */
    method RunPass(p: Polled, answer: Answer) returns (consumed: bool)
      modifies this`hovered, this`pressed, this`focused, arena`nodes, arena`events
      requires Ready()
      ensures Ready() && State(consumed) == Handle(old(State(false)), p, old(Target(p.mx, p.my)), old(FocusList()), answer)
    {
      ghost var u := State(false);
      ghost var list := FocusList();
      ghost var hit := Target(p.mx, p.my);
      HandleHalves(u, p, hit, list, answer);
      var c := HandlePointer(p, answer);
      ghost var a := State(c);
      assert a == Pointer(u, p, hit, answer);
      consumed := HandleKeyboard(p, answer, c);
      assert State(consumed) == Keyboard(a, p, list, answer);
    }

    /**
     * `handleInput`: one pass over the polled input, as RootInput.Handle computes it from the
     * hit under the mouse and the focus order of the active tree before the pass. The pass keeps
     * the references coherent and answers whether any handler consumed the input.
     */
    method HandleInput(input: Input.InputManager, typed: Option<string>, answer: Answer) returns (consumed: bool)
      modifies this`hovered, this`pressed, this`focused, arena`nodes, arena`events
      requires Valid() && input.Valid()
      ensures Valid()
      ensures State(consumed) ==
              Handle(old(State(false)), old(Poll(input, typed)), old(Target(input.mouseX as real, input.mouseY as real)), old(FocusList()), answer)
    {
      ghost var u := State(false);
      var p := Poll(input, typed);
      ghost var list := FocusList();
      ghost var hit := Target(p.mx, p.my);
      consumed := RunPass(p, answer);
      HandleCoherent(u, p, hit, list, answer);
      CoherentConsumed(State(consumed), false);
      FlagsOnlyNodes(u.nodes, arena.nodes, id);
    }
  }
}

=== FILE: ui_tree.dfy ===
/**
 * The UI tree (ui/UINode.java and the containers' overrides) as an arena: a map from node id to
 * node record, with the `parent` / `children` links held as ids, and the functions that say what
 * each tree operation does to it. A ghost rank that strictly grows from parent to child witnesses
 * that parent chains end, which is what the recursion of `markLayoutDirty`, `computeLayout` and
 * `hitTest` relies on. The class that updates the arena in place is UIArena.Arena.
 */
module UITree {
  import opened Base
  import opened UIInsets
  import opened UIAnchors
  import opened UINodes
  import AnchorPanes
  import Centers
  import DockPanes
  import GridPanels
  import StackPanels
  import WrapPanels

  /** The node callbacks the tree and the root fire, recorded in order instead of run. */
  datatype Event =
    | MouseEnter(node: Id)
    | MouseExit(node: Id)
    | MouseMove(node: Id, mx: real, my: real)
    | MouseDown(node: Id, button: int)
    | MouseUp(node: Id, button: int)
    | Click(node: Id, button: int)
    | MouseWheel(node: Id, amount: int)
    | KeyDown(node: Id, key: int)
    | KeyUp(node: Id, key: int)
    | TextInput(node: Id, text: string)

  // ---------------------------------------------------------------------------------------------
  // Parent chains

  /** Every parent link points at a node of the arena of strictly smaller rank. */
  ghost predicate Chained(ns: map<Id, Node>, rank: map<Id, nat>)
  {
    (forall k :: k in ns ==> k in rank) &&
    forall k :: k in ns && ns[k].parent.Some? ==> ns[k].parent.value in ns && rank[ns[k].parent.value] < rank[k]
  }

  /** `x` lies in the subtree of `a`: `a` is `x` or one of its ancestors along parent links. */
  ghost function Within(ns: map<Id, Node>, rank: map<Id, nat>, x: Id, a: Id): (b: bool)
    requires Chained(ns, rank) && x in ns
    ensures b ==> a in ns && rank[a] <= rank[x]
    decreases rank[x]
  {
    x == a || (ns[x].parent.Some? && Within(ns, rank, ns[x].parent.value, a))
  }

  /** `x` and its ancestors. */
  ghost function Ancestry(ns: map<Id, Node>, rank: map<Id, nat>, x: Id): (s: set<Id>)
    requires Chained(ns, rank) && x in ns
    ensures x in s && s <= ns.Keys
  {
    set k | k in ns && Within(ns, rank, x, k)
  }

  /** The two arenas hold the same ids, and every node other than `c` keeps its parent. */
  predicate LinksAgree(ns: map<Id, Node>, ns': map<Id, Node>, c: Option<Id>)
  {
    ns'.Keys == ns.Keys && forall k :: k in ns && Some(k) != c ==> ns'[k].parent == ns[k].parent
  }

  /**
   * A chain that does not pass through `c` reads the same after `c` alone is re-linked, under
   * any ranking that keeps the new arena chained.
   */
  lemma {:induction false} WithinAvoiding(ns: map<Id, Node>, ns': map<Id, Node>, rank: map<Id, nat>,
                                          rank': map<Id, nat>, c: Option<Id>, x: Id, a: Id)
    requires Chained(ns, rank) && Chained(ns', rank') && LinksAgree(ns, ns', c) && x in ns
    requires c.None? || !Within(ns, rank, x, c.value)
    ensures Within(ns', rank', x, a) == Within(ns, rank, x, a)
    decreases rank[x]
  {
    if x != a && ns[x].parent.Some? {
      WithinAvoiding(ns, ns', rank, rank', c, ns[x].parent.value, a);
    }
  }

  /** Same ids and the same parent links give the same ancestry. */
  lemma AncestryKept(ns: map<Id, Node>, ns': map<Id, Node>, rank: map<Id, nat>, rank': map<Id, nat>,
                     c: Option<Id>, x: Id)
    requires Chained(ns, rank) && Chained(ns', rank') && LinksAgree(ns, ns', c) && x in ns
    requires c.None? || !Within(ns, rank, x, c.value)
    ensures Ancestry(ns', rank', x) == Ancestry(ns, rank, x)
  {
    forall k | k in ns
      ensures Within(ns', rank', x, k) == Within(ns, rank, x, k)
    {
      WithinAvoiding(ns, ns', rank, rank', c, x, k);
    }
  }

  // ---------------------------------------------------------------------------------------------
  // Well-formed arenas

  /** Child lists and parent links agree, and no child list names a node twice. */
  predicate Linked(ns: map<Id, Node>)
  {
    (forall p, i :: p in ns && 0 <= i < |ns[p].children| ==>
       ns[p].children[i] in ns && ns[ns[p].children[i]].parent == Some(p)) &&
    forall p :: p in ns ==> Distinct(ns[p].children)
  }

  /**
   * A container's own tables stay consistent with its children: a DockPane's two maps are
   * inverse and only register children; a GridPanel has at least one row and column, spans of
   * at least one, one cell per node, and cells only for children.
   */
  predicate KindOk(n: Node)
  {
    match n.kind
    case DockPane(docks, slots) =>
      DockPanes.Inverse(docks, slots) && forall c :: c in docks ==> c in n.children
    case GridPanel(_, _, _, _, _, _, cells) =>
      GridPanels.Shaped(n.kind) && GridPanels.DistinctNodes(cells) &&
      forall i :: 0 <= i < |cells| ==> cells[i].node in n.children
    case _ => true
  }

  /** The whole arena invariant, for a rank and a strict upper bound on it. */
  ghost predicate Wf(ns: map<Id, Node>, rank: map<Id, nat>, bound: nat)
  {
    Chained(ns, rank) && (forall k :: k in ns ==> rank[k] < bound) && Linked(ns) &&
    forall k :: k in ns ==> KindOk(ns[k])
  }

  /** The structural part of every node agrees: links and kind. */
  predicate SameTree(ns: map<Id, Node>, ns': map<Id, Node>)
  {
    ns'.Keys == ns.Keys &&
    forall k :: k in ns ==> ns'[k].parent == ns[k].parent && ns'[k].children == ns[k].children && ns'[k].kind == ns[k].kind
  }

  /** Links alone decide the chain and list invariants; the kinds then only need to be consistent. */
  lemma SameLinksWf(ns: map<Id, Node>, ns': map<Id, Node>, rank: map<Id, nat>, bound: nat)
    requires Wf(ns, rank, bound) && ns'.Keys == ns.Keys
    requires forall k :: k in ns ==> ns'[k].parent == ns[k].parent && ns'[k].children == ns[k].children
    requires forall k :: k in ns' ==> KindOk(ns'[k])
    ensures Wf(ns', rank, bound)
  {
    assert Linked(ns') by {
      forall q, i | q in ns' && 0 <= i < |ns'[q].children|
        ensures ns'[q].children[i] in ns' && ns'[ns'[q].children[i]].parent == Some(q)
      {
        assert ns'[q].children[i] == ns[q].children[i];
      }
    }
  }

  lemma SameTreeWf(ns: map<Id, Node>, ns': map<Id, Node>, rank: map<Id, nat>, bound: nat)
    requires Wf(ns, rank, bound) && SameTree(ns, ns')
    ensures Wf(ns', rank, bound)
  {
    forall k | k in ns'
      ensures KindOk(ns'[k])
    {
      assert KindOk(ns[k]);
    }
    SameLinksWf(ns, ns', rank, bound);
  }

  // ---------------------------------------------------------------------------------------------
  // Dirty flags

  /** The arena with the nodes of `s` marked as needing layout and nothing else changed. */
  function Flagged(ns: map<Id, Node>, s: set<Id>): (r: map<Id, Node>)
    ensures r.Keys == ns.Keys
  {
    map k | k in ns :: if k in s then ns[k].(layoutDirty := true) else ns[k]
  }

  /** Marking nodes dirty changes no link and no kind, and sets exactly the flags of `s`. */
  lemma FlaggedTree(ns: map<Id, Node>, s: set<Id>)
    ensures SameTree(ns, Flagged(ns, s))
    ensures forall k :: k in ns ==> Flagged(ns, s)[k].layoutDirty == (ns[k].layoutDirty || k in s)
  {
  }

  /** Dirty flags play no part in well-formedness. */
  lemma FlaggedWf(ns: map<Id, Node>, s: set<Id>, rank: map<Id, nat>, bound: nat)
    requires Wf(ns, rank, bound)
    ensures Wf(Flagged(ns, s), rank, bound)
  {
    FlaggedTree(ns, s);
    SameTreeWf(ns, Flagged(ns, s), rank, bound);
  }

  /** Flagging nodes that are all dirty already changes nothing. */
  lemma FlaggedIdle(ns: map<Id, Node>, s: set<Id>)
    requires forall k :: k in s && k in ns ==> ns[k].layoutDirty
    ensures Flagged(ns, s) == ns
  {
    assert forall k :: k in ns ==> Flagged(ns, s)[k] == ns[k];
  }

  /** Dirty flags play no part in parent chains: every ancestry stays as it was. */
  lemma FlaggedAncestry(ns: map<Id, Node>, rank: map<Id, nat>, s: set<Id>, x: Id)
    requires Chained(ns, rank) && x in ns
    ensures Chained(Flagged(ns, s), rank) && Ancestry(Flagged(ns, s), rank, x) == Ancestry(ns, rank, x)
  {
    FlaggedTree(ns, s);
    AncestryKept(ns, Flagged(ns, s), rank, rank, None, x);
  }

  // ---------------------------------------------------------------------------------------------
  // Child lists and container tables

  /** `List.remove(Object)`: the first occurrence of `x` cut out, the rest in order. */
  function Without(s: seq<Id>, x: Id): (r: seq<Id>)
    ensures x !in s ==> r == s
    ensures x in s ==> |r| == |s| - 1
  {
    if |s| == 0 then []
    else if s[0] == x then s[1..]
    else [s[0]] + Without(s[1..], x)
  }

  /** Removing `x` keeps every other element and adds none. */
  lemma {:induction false} WithoutMembers(s: seq<Id>, x: Id)
    ensures forall y :: y in Without(s, x) ==> y in s
    ensures forall y :: y in s && y != x ==> y in Without(s, x)
  {
    if |s| > 0 && s[0] != x {
      WithoutMembers(s[1..], x);
    }
  }

  /** Moving `x` to the end of a list without repeats keeps it without repeats, and adds only `x`. */
  lemma MovedLast(s: seq<Id>, x: Id)
    requires Distinct(s)
    ensures var t := Without(s, x) + [x];
            Distinct(t) && forall y :: y in t <==> y in s || y == x
  {
    WithoutDistinct(s, x);
    var t := Without(s, x) + [x];
    forall i, j | 0 <= i < j < |t|
      ensures t[i] != t[j]
    {
      if j == |t| - 1 {
        assert t[i] in Without(s, x);
      }
    }
  }

  /** In a list without repeats, removing `x` removes it altogether and leaves no repeats. */
  lemma {:induction false} WithoutDistinct(s: seq<Id>, x: Id)
    requires Distinct(s)
    ensures Distinct(Without(s, x)) && x !in Without(s, x)
    ensures forall y :: y in Without(s, x) <==> y in s && y != x
  {
    WithoutMembers(s, x);
    if |s| > 0 {
      assert Distinct(s[1..]) by {
        forall i, j | 0 <= i < j < |s[1..]|
          ensures s[1..][i] != s[1..][j]
        {
          assert s[1..][i] == s[i + 1] && s[1..][j] == s[j + 1];
        }
      }
      if s[0] == x {
        assert x !in s[1..] by {
          forall i | 0 <= i < |s[1..]|
            ensures s[1..][i] != x
          {
            assert s[1..][i] == s[i + 1];
          }
        }
      } else {
        WithoutDistinct(s[1..], x);
        var t := Without(s[1..], x);
        assert s[0] !in s[1..] by {
          forall i | 0 <= i < |s[1..]|
            ensures s[1..][i] != s[0]
          {
            assert s[1..][i] == s[i + 1];
          }
        }
        assert Distinct([s[0]] + t) by {
          forall i, j | 0 <= i < j < |[s[0]] + t|
            ensures ([s[0]] + t)[i] != ([s[0]] + t)[j]
          {
            if i > 0 {
              assert ([s[0]] + t)[i] == t[i - 1] && ([s[0]] + t)[j] == t[j - 1];
            } else {
              assert ([s[0]] + t)[j] == t[j - 1];
            }
          }
        }
      }
    }
  }

  /** The cell records of a grid with every record for `node` dropped, the rest in order. */
  function Sweep(cells: seq<Cell>, node: Id): (r: seq<Cell>)
    ensures |r| <= |cells|
  {
    if |cells| == 0 then []
    else (if cells[0].node == node then [] else [cells[0]]) + Sweep(cells[1..], node)
  }

  /**
   * Dropping records leaves none for `node`, keeps every other record, keeps one record per
   * node and valid spans.
   */
  lemma {:induction false} SweepKeeps(cells: seq<Cell>, node: Id)
    ensures forall i :: 0 <= i < |Sweep(cells, node)| ==> Sweep(cells, node)[i].node != node && Sweep(cells, node)[i] in cells
    ensures forall c :: c in cells && c.node != node ==> c in Sweep(cells, node)
    ensures GridPanels.SpansOk(cells) ==> GridPanels.SpansOk(Sweep(cells, node))
    ensures GridPanels.DistinctNodes(cells) ==> GridPanels.DistinctNodes(Sweep(cells, node))
  {
    if |cells| > 0 {
      SweepKeeps(cells[1..], node);
      var rest := Sweep(cells[1..], node);
      if cells[0].node != node && GridPanels.DistinctNodes(cells) {
        forall i | 0 <= i < |rest|
          ensures rest[i].node != cells[0].node
        {
          assert rest[i] in cells[1..];
        }
      }
    }
  }

  /**
   * What a container's own `remove` override does to its tables: a DockPane forgets the
   * child's slot, a GridPanel drops the child's cell records; other kinds keep nothing.
   */
  function Forget(k: Kind, c: Id): (r: Kind)
    requires k.DockPane? ==> DockPanes.Inverse(k.docks, k.slots)
    ensures r.DockPane? == k.DockPane? && r.GridPanel? == k.GridPanel?
    ensures r.GridPanel? ==> r == k.(cells := Sweep(k.cells, c))
    ensures !r.DockPane? && !r.GridPanel? ==> r == k
  {
    match k
    case DockPane(docks, slots) =>
      var t := DockPanes.Unregister(DockPanes.Tables(docks, slots), c);
      DockPane(t.docks, t.slots)
    case GridPanel(_, _, _, _, _, _, cells) => k.(cells := Sweep(cells, c))
    case _ => k
  }

  /**
   * After forgetting, no table names `c`: a DockPane's maps stay inverse and keep every other
   * registration, and a GridPanel keeps every other cell record.
   */
  lemma ForgetDrops(k: Kind, c: Id)
    requires k.DockPane? ==> DockPanes.Inverse(k.docks, k.slots)
    ensures var r := Forget(k, c);
            (r.DockPane? ==> DockPanes.Inverse(r.docks, r.slots) && c !in r.docks &&
                             (forall d :: d in r.slots ==> r.slots[d] != c) &&
                             (forall n :: n in r.docks <==> n in k.docks && n != c)) &&
            (r.GridPanel? ==> (forall i :: 0 <= i < |r.cells| ==> r.cells[i].node != c) &&
                              (forall x :: x in k.cells && x.node != c ==> x in r.cells))
  {
    if k.GridPanel? {
      SweepKeeps(k.cells, c);
    }
  }

  /** The base `remove`: when `c` is a child of `p`, cut it from the list and clear its parent. */
  function Detach(ns: map<Id, Node>, p: Id, c: Id): (r: map<Id, Node>)
    requires p in ns && c in ns
  {
    if c in ns[p].children then ns[p := ns[p].(children := Without(ns[p].children, c))][c := ns[c].(parent := None)]
    else ns
  }

  /**
   * `p.remove(c)` with the override of `p`'s class: the tables forget `c`, and when `c` was a
   * child it is cut out, detached, and `p` and its ancestors are marked dirty.
   */
  ghost function Removed(ns: map<Id, Node>, rank: map<Id, nat>, p: Id, c: Id): (r: map<Id, Node>)
    requires Chained(ns, rank) && p in ns && c in ns
    requires ns[p].kind.DockPane? ==> DockPanes.Inverse(ns[p].kind.docks, ns[p].kind.slots)
    ensures r.Keys == ns.Keys
  {
    var forgot := ns[p := ns[p].(kind := Forget(ns[p].kind, c))];
    if c in ns[p].children then Flagged(Detach(forgot, p, c), Ancestry(ns, rank, p)) else forgot
  }

  /** A container forgetting `c` in its own tables keeps the arena well formed. */
  lemma ForgotWf(ns: map<Id, Node>, rank: map<Id, nat>, bound: nat, p: Id, c: Id)
    requires Wf(ns, rank, bound) && p in ns
    ensures KindOk(ns[p]) && Wf(ns[p := ns[p].(kind := Forget(ns[p].kind, c))], rank, bound)
  {
    var n := ns[p];
    assert KindOk(n);
    var n' := n.(kind := Forget(n.kind, c));
    ForgetDrops(n.kind, c);
    if n.kind.GridPanel? {
      SweepKeeps(n.kind.cells, c);
      var cells := n'.kind.cells;
      forall i | 0 <= i < |cells|
        ensures cells[i].node in n.children
      {
        var j :| 0 <= j < |n.kind.cells| && n.kind.cells[j] == cells[i];
      }
    }
    assert KindOk(n');
    var ns' := ns[p := n'];
    forall k | k in ns'
      ensures KindOk(ns'[k])
    {
      if k != p {
        assert KindOk(ns[k]);
      }
    }
    SameLinksWf(ns, ns', rank, bound);
  }

  /** Cutting a child out of its parent's list and clearing its parent keeps lists and links in step. */
  lemma LinkedDetach(ns: map<Id, Node>, p: Id, c: Id)
    requires Linked(ns) && p in ns && c in ns[p].children && p != c
    ensures c in ns && Linked(Detach(ns, p, c))
  {
    var n := ns[p];
    WithoutDistinct(n.children, c);
    var d := Detach(ns, p, c);
    forall q, i | q in d && 0 <= i < |d[q].children|
      ensures d[q].children[i] in d && d[d[q].children[i]].parent == Some(q)
    {
      var y := d[q].children[i];
      if q == p {
        assert y in n.children && y != c;
        var j :| 0 <= j < |n.children| && n.children[j] == y;
      } else {
        assert y == ns[q].children[i];
      }
    }
  }

  /** Cutting a child out of its parent's list keeps the arena well formed when no table of the parent names it. */
  lemma DetachWf(ns: map<Id, Node>, rank: map<Id, nat>, bound: nat, p: Id, c: Id)
    requires Wf(ns, rank, bound) && p in ns && c in ns[p].children
    requires ns[p].kind.DockPane? ==> c !in ns[p].kind.docks
    requires ns[p].kind.GridPanel? ==> forall i :: 0 <= i < |ns[p].kind.cells| ==> ns[p].kind.cells[i].node != c
    ensures c in ns && p != c && Wf(Detach(ns, p, c), rank, bound)
  {
    var n := ns[p];
    assert c in ns && ns[c].parent == Some(p) by {
      var j :| 0 <= j < |n.children| && n.children[j] == c;
    }
    LinkedDetach(ns, p, c);
    DetachKinds(ns, p, c);
  }

  /** The parent's tables name only its remaining children, so every kind stays consistent. */
  lemma DetachKinds(ns: map<Id, Node>, p: Id, c: Id)
    requires p in ns && c in ns && p != c && Linked(ns) && c in ns[p].children
    requires forall k :: k in ns ==> KindOk(ns[k])
    requires ns[p].kind.DockPane? ==> c !in ns[p].kind.docks
    requires ns[p].kind.GridPanel? ==> forall i :: 0 <= i < |ns[p].kind.cells| ==> ns[p].kind.cells[i].node != c
    ensures forall k :: k in Detach(ns, p, c) ==> KindOk(Detach(ns, p, c)[k])
  {
    var n := ns[p];
    WithoutDistinct(n.children, c);
    var d := Detach(ns, p, c);
    assert KindOk(n);
    assert KindOk(d[p]);
    forall k | k in d
      ensures KindOk(d[k])
    {
      assert KindOk(ns[k]);
    }
  }

  /** What `p.remove(c)` leaves, as stated by RemovedWf. */
  ghost predicate RemoveOutcome(ns: map<Id, Node>, r: map<Id, Node>, rank: map<Id, nat>, bound: nat, p: Id, c: Id)
    requires p in ns && c in ns && KindOk(ns[p])
  {
    r.Keys == ns.Keys &&
    Wf(r, rank, bound) && c !in r[p].children &&
    r[p].children == Without(ns[p].children, c) && r[p].kind == Forget(ns[p].kind, c) &&
    r[p].parent == ns[p].parent &&
    (c in ns[p].children ==> r[c].parent.None?) &&
    (c !in ns[p].children ==> r[c].parent == ns[c].parent) &&
    Others(ns, r, p, c)
  }

  /** Every node other than `p` and `c` keeps its links and kind. */
  predicate Others(ns: map<Id, Node>, r: map<Id, Node>, p: Id, c: Id)
    requires r.Keys == ns.Keys
  {
    forall k :: k in ns && k != p && k != c ==>
      r[k].parent == ns[k].parent && r[k].children == ns[k].children && r[k].kind == ns[k].kind
  }

  /** The detached arena, before the flags are set. */
  lemma DetachedChild(ns: map<Id, Node>, rank: map<Id, nat>, bound: nat, p: Id, c: Id)
    requires Wf(ns, rank, bound) && p in ns && c in ns && c in ns[p].children
    ensures var d := Detach(ns[p := ns[p].(kind := Forget(ns[p].kind, c))], p, c);
            KindOk(ns[p]) && p != c && Wf(d, rank, bound) && d.Keys == ns.Keys && Others(ns, d, p, c) &&
            d[p].parent == ns[p].parent &&
            d[p].children == Without(ns[p].children, c) && d[p].kind == Forget(ns[p].kind, c) &&
            d[c].parent.None? && c !in d[p].children
  {
    ForgotWf(ns, rank, bound, p, c);
    ForgetDrops(ns[p].kind, c);
    var forgot := ns[p := ns[p].(kind := Forget(ns[p].kind, c))];
    WithoutDistinct(ns[p].children, c);
    DetachWf(forgot, rank, bound, p, c);
    DetachFields(ns, p, c, Forget(ns[p].kind, c));
  }

  /** Detaching after a kind update touches only `p` and `c`. */
  lemma DetachFields(ns: map<Id, Node>, p: Id, c: Id, k: Kind)
    requires p in ns && c in ns && p != c && c in ns[p].children
    ensures var d := Detach(ns[p := ns[p].(kind := k)], p, c);
            d.Keys == ns.Keys && Others(ns, d, p, c) && d[p].parent == ns[p].parent &&
            d[p].children == Without(ns[p].children, c) && d[p].kind == k && d[c].parent.None?
  {
  }

  /** Removing a child: the list loses it, its parent link is cleared. */
  lemma RemovedChild(ns: map<Id, Node>, rank: map<Id, nat>, bound: nat, p: Id, c: Id)
    requires Wf(ns, rank, bound) && p in ns && c in ns && c in ns[p].children
    ensures KindOk(ns[p]) && RemoveOutcome(ns, Removed(ns, rank, p, c), rank, bound, p, c)
  {
    DetachedChild(ns, rank, bound, p, c);
    var d := Detach(ns[p := ns[p].(kind := Forget(ns[p].kind, c))], p, c);
    var f := Flagged(d, Ancestry(ns, rank, p));
    FlaggedTree(d, Ancestry(ns, rank, p));
    SameTreeWf(d, f, rank, bound);
  }

  /** Removing a node that is not a child only updates the tables. */
  lemma RemovedStale(ns: map<Id, Node>, rank: map<Id, nat>, bound: nat, p: Id, c: Id)
    requires Wf(ns, rank, bound) && p in ns && c in ns && c !in ns[p].children
    ensures KindOk(ns[p]) && RemoveOutcome(ns, Removed(ns, rank, p, c), rank, bound, p, c)
  {
    ForgotWf(ns, rank, bound, p, c);
  }

  /**
   * After `p.remove(c)` the arena is still well formed; `c` is no child of `p` and in no table
   * of `p`; when `c` was a child its parent is cleared, otherwise it keeps its (stale) parent;
   * no other node changes its links or kind.
   */
  lemma RemovedOutcome(ns: map<Id, Node>, rank: map<Id, nat>, bound: nat, p: Id, c: Id)
    requires Wf(ns, rank, bound) && p in ns && c in ns
    ensures KindOk(ns[p]) && RemoveOutcome(ns, Removed(ns, rank, p, c), rank, bound, p, c)
  {
    if c in ns[p].children {
      RemovedChild(ns, rank, bound, p, c);
    } else {
      RemovedStale(ns, rank, bound, p, c);
    }
  }

  /** `remove` keeps the arena well formed. */
  lemma RemovedWf(ns: map<Id, Node>, rank: map<Id, nat>, bound: nat, p: Id, c: Id)
    requires Wf(ns, rank, bound) && p in ns && c in ns
    ensures KindOk(ns[p]) && Wf(Removed(ns, rank, p, c), rank, bound)
  {
    RemovedOutcome(ns, rank, bound, p, c);
  }

  /** Only a node's parent may list it as a child. */
  lemma ListedByParent(ns: map<Id, Node>, k: Id, c: Id)
    requires Linked(ns) && k in ns && c in ns[k].children
    ensures c in ns && ns[c].parent == Some(k)
  {
    var j :| 0 <= j < |ns[k].children| && ns[k].children[j] == c;
  }

  /** The first half of `add`: `c` leaves its current parent, if it has one. */
  ghost function Unparented(ns: map<Id, Node>, rank: map<Id, nat>, c: Id): (r: map<Id, Node>)
    requires Chained(ns, rank) && c in ns && (forall k :: k in ns ==> KindOk(ns[k]))
    ensures r.Keys == ns.Keys
  {
    if ns[c].parent.Some? then
      assert KindOk(ns[ns[c].parent.value]);
      Removed(ns, rank, ns[c].parent.value, c)
    else ns
  }

  /**
   * After `c` leaves its parent the arena is well formed, no list names `c`, and every parent
   * link other than `c`'s is unchanged.
   */
  lemma UnparentedWf(ns: map<Id, Node>, rank: map<Id, nat>, bound: nat, c: Id)
    requires Wf(ns, rank, bound) && c in ns
    ensures var r := Unparented(ns, rank, c);
            Wf(r, rank, bound) && LinksAgree(ns, r, Some(c)) && forall k :: k in r ==> c !in r[k].children
  {
    var r := Unparented(ns, rank, c);
    if ns[c].parent.Some? {
      var q := ns[c].parent.value;
      RemovedOutcome(ns, rank, bound, q, c);
      forall k | k in r
        ensures c !in r[k].children
      {
        if k != q && k != c && c in r[k].children {
          ListedByParent(ns, k, c);
        }
        if k == c && c in r[c].children {
          ListedByParent(r, c, c);
        }
      }
    } else {
      forall k | k in r
        ensures c !in r[k].children
      {
        if c in r[k].children {
          ListedByParent(ns, k, c);
        }
      }
    }
  }

  /** The second half of `add`: `c` points at `p` and ends `p`'s child list. */
  function Link(ns: map<Id, Node>, p: Id, c: Id): (r: map<Id, Node>)
    requires p in ns && c in ns
    ensures r.Keys == ns.Keys
  {
    ns[c := ns[c].(parent := Some(p))][p := ns[p].(children := ns[p].children + [c])]
  }

  /** After linking `c` under `p`, `c`'s subtree sits above `p` in rank. */
  ghost function Rerank(ns: map<Id, Node>, rank: map<Id, nat>, p: Id, c: Id): (r: map<Id, nat>)
    requires Chained(ns, rank) && p in ns
    ensures r.Keys == rank.Keys
  {
    map k | k in rank :: if k in ns && Within(ns, rank, k, c) then rank[k] + rank[p] + 1 else rank[k]
  }

  /** Linking a node no list names under a node outside its subtree keeps every chain finite. */
  lemma LinkChained(ns: map<Id, Node>, rank: map<Id, nat>, bound: nat, p: Id, c: Id)
    requires Chained(ns, rank) && (forall k :: k in ns ==> rank[k] < bound) && p in ns && c in ns
    requires !Within(ns, rank, p, c)
    ensures var rank' := Rerank(ns, rank, p, c);
            p != c && Chained(Link(ns, p, c), rank') &&
            forall k :: k in ns ==> rank'[k] < bound + rank[p] + 1
  {
    var l := Link(ns, p, c);
    var rank' := Rerank(ns, rank, p, c);
    forall k | k in l && l[k].parent.Some?
      ensures l[k].parent.value in l && rank'[l[k].parent.value] < rank'[k]
    {
      if k != c {
        var y := ns[k].parent.value;
        assert l[k].parent == ns[k].parent;
        assert Within(ns, rank, k, c) == Within(ns, rank, y, c);
      }
    }
  }

  /** Lists and links stay in step when `c`, listed nowhere, is appended to `p`'s list. */
  lemma LinkLinked(ns: map<Id, Node>, p: Id, c: Id)
    requires Linked(ns) && p in ns && c in ns && p != c && forall k :: k in ns ==> c !in ns[k].children
    ensures Linked(Link(ns, p, c))
  {
    var l := Link(ns, p, c);
    forall q, i | q in l && 0 <= i < |l[q].children|
      ensures l[q].children[i] in l && l[l[q].children[i]].parent == Some(q)
    {
      if q == p && i == |ns[p].children| {
      } else {
        assert l[q].children[i] == ns[q].children[i];
        assert ns[q].children[i] != c;
      }
    }
    assert Distinct(l[p].children) by {
      forall i, j | 0 <= i < j < |l[p].children|
        ensures l[p].children[i] != l[p].children[j]
      {
        if j == |ns[p].children| {
          assert l[p].children[i] == ns[p].children[i];
        } else {
          assert l[p].children[i] == ns[p].children[i] && l[p].children[j] == ns[p].children[j];
        }
      }
    }
  }

  /** A longer child list keeps every container's tables within its children. */
  lemma LinkKinds(ns: map<Id, Node>, p: Id, c: Id)
    requires p in ns && c in ns && p != c && forall k :: k in ns ==> KindOk(ns[k])
    ensures forall k :: k in Link(ns, p, c) ==> KindOk(Link(ns, p, c)[k])
  {
    var l := Link(ns, p, c);
    forall k | k in l
      ensures KindOk(l[k])
    {
      assert KindOk(ns[k]);
      if k == p && l[k].kind.GridPanel? {
        var cells := l[k].kind.cells;
        forall i | 0 <= i < |cells|
          ensures cells[i].node in l[k].children
        {
          assert cells[i].node in ns[p].children;
        }
      }
    }
  }

  /**
   * `p.add(c)`: `c` is first removed from its current parent by that parent's own `remove`,
   * then linked under `p` as its last child, and `p` and its ancestors are marked dirty.
   */
  ghost function Added(ns: map<Id, Node>, rank: map<Id, nat>, p: Id, c: Id): (r: map<Id, Node>)
    requires Chained(ns, rank) && p in ns && c in ns && (forall k :: k in ns ==> KindOk(ns[k]))
    ensures r.Keys == ns.Keys
  {
    Flagged(Link(Unparented(ns, rank, c), p, c), Ancestry(ns, rank, p))
  }

  /** The rank that witnesses the arena `Added` returns. */
  ghost function AddedRank(ns: map<Id, Node>, rank: map<Id, nat>, bound: nat, p: Id, c: Id): map<Id, nat>
    requires Wf(ns, rank, bound) && p in ns && c in ns
  {
    UnparentedWf(ns, rank, bound, c);
    Rerank(Unparented(ns, rank, c), rank, p, c)
  }

  /** Linking a node that no list names under a node outside its subtree keeps the arena well formed. */
  lemma LinkWf(ns: map<Id, Node>, rank: map<Id, nat>, bound: nat, p: Id, c: Id)
    requires Wf(ns, rank, bound) && p in ns && c in ns && !Within(ns, rank, p, c)
    requires forall k :: k in ns ==> c !in ns[k].children
    ensures p != c && Wf(Link(ns, p, c), Rerank(ns, rank, p, c), bound + rank[p] + 1)
  {
    LinkChained(ns, rank, bound, p, c);
    LinkLinked(ns, p, c);
    LinkKinds(ns, p, c);
  }

  /** Linking `c` under `p` re-links `c` alone. */
  lemma LinkAgrees(ns: map<Id, Node>, p: Id, c: Id)
    requires p in ns && c in ns
    ensures LinksAgree(ns, Link(ns, p, c), Some(c))
  {
  }

  /** Linking `c` under `p` leaves `p`'s own ancestors as they were. */
  lemma LinkAncestry(ns: map<Id, Node>, rank: map<Id, nat>, bound: nat, p: Id, c: Id)
    requires Wf(ns, rank, bound) && p in ns && c in ns && !Within(ns, rank, p, c)
    requires forall k :: k in ns ==> c !in ns[k].children
    ensures Ancestry(Link(ns, p, c), Rerank(ns, rank, p, c), p) == Ancestry(ns, rank, p)
  {
    LinkChained(ns, rank, bound, p, c);
    LinkAgrees(ns, p, c);
    AncestryKept(ns, Link(ns, p, c), rank, Rerank(ns, rank, p, c), Some(c), p);
  }

  /**
   * The second half of `add` as a whole: linking, then marking `p` and its ancestors, leaves a
   * well-formed arena in which `p` keeps its ancestors.
   */
  lemma LinkFlagged(ns: map<Id, Node>, rank: map<Id, nat>, bound: nat, p: Id, c: Id)
    requires Wf(ns, rank, bound) && p in ns && c in ns && !Within(ns, rank, p, c)
    requires forall k :: k in ns ==> c !in ns[k].children
    ensures var l := Link(ns, p, c); var rank' := Rerank(ns, rank, p, c); var s := Ancestry(ns, rank, p);
            Chained(l, rank') && Ancestry(l, rank', p) == s &&
            Wf(Flagged(l, s), rank', bound + rank[p] + 1) && Ancestry(Flagged(l, s), rank', p) == s
  {
    var l := Link(ns, p, c);
    var rank' := Rerank(ns, rank, p, c);
    LinkWf(ns, rank, bound, p, c);
    LinkAncestry(ns, rank, bound, p, c);
    FlaggedWf(l, Ancestry(ns, rank, p), rank', bound + rank[p] + 1);
    FlaggedAncestry(l, rank', Ancestry(ns, rank, p), p);
  }

  /** `add` keeps the arena well formed (the tree stays acyclic) when `p` is not in `c`'s subtree. */
  lemma AddedWf(ns: map<Id, Node>, rank: map<Id, nat>, bound: nat, p: Id, c: Id)
    requires Wf(ns, rank, bound) && p in ns && c in ns && !Within(ns, rank, p, c)
    ensures Wf(Added(ns, rank, p, c), AddedRank(ns, rank, bound, p, c), bound + rank[p] + 1)
  {
    UnparentedWf(ns, rank, bound, c);
    var u := Unparented(ns, rank, c);
    WithinAvoiding(ns, u, rank, rank, Some(c), p, c);
    LinkWf(u, rank, bound, p, c);
    var l := Link(u, p, c);
    FlaggedTree(l, Ancestry(ns, rank, p));
    SameTreeWf(l, Flagged(l, Ancestry(ns, rank, p)), Rerank(u, rank, p, c), bound + rank[p] + 1);
  }

  /** After `p.add(c)`, `c`'s parent is `p`, `c` ends `p`'s child list, and no other list names it. */
  lemma AddedLinks(ns: map<Id, Node>, rank: map<Id, nat>, bound: nat, p: Id, c: Id)
    requires Wf(ns, rank, bound) && p in ns && c in ns && !Within(ns, rank, p, c)
    ensures var r := Added(ns, rank, p, c);
            r[c].parent == Some(p) && |r[p].children| > 0 && r[p].children[|r[p].children| - 1] == c &&
            forall k :: k in r && k != p ==> c !in r[k].children
  {
    UnparentedWf(ns, rank, bound, c);
    var u := Unparented(ns, rank, c);
    var l := Link(u, p, c);
    FlaggedTree(l, Ancestry(ns, rank, p));
  }

  /** `x`'s ancestry is `x` followed by its parent's ancestry. */
  lemma AncestryStep(ns: map<Id, Node>, rank: map<Id, nat>, x: Id)
    requires Chained(ns, rank) && x in ns
    ensures ns[x].parent.None? ==> Ancestry(ns, rank, x) == {x}
    ensures ns[x].parent.Some? ==> Ancestry(ns, rank, x) == {x} + Ancestry(ns, rank, ns[x].parent.value)
  {
  }

  /** Setting one flag first and then a set of flags sets them all. */
  lemma FlaggedStep(ns: map<Id, Node>, id: Id, s: set<Id>)
    requires id in ns
    ensures Flagged(ns[id := ns[id].(layoutDirty := true)], s) == Flagged(ns, s + {id})
  {
  }

  /** Marking `id` and then its parent's chain of ancestors marks `id`'s whole chain. */
  lemma FlaggedUp(ns: map<Id, Node>, rank: map<Id, nat>, id: Id)
    requires Chained(ns, rank) && id in ns
    ensures var mid := ns[id := ns[id].(layoutDirty := true)];
            Chained(mid, rank) &&
            (ns[id].parent.None? ==> mid == Flagged(ns, Ancestry(ns, rank, id))) &&
            (ns[id].parent.Some? ==>
               ns[id].parent.value in mid &&
               Flagged(mid, Ancestry(mid, rank, ns[id].parent.value)) == Flagged(ns, Ancestry(ns, rank, id)))
  {
    var mid := ns[id := ns[id].(layoutDirty := true)];
    AncestryStep(ns, rank, id);
    FlaggedStep(ns, id, {});
    if ns[id].parent.Some? {
      var p := ns[id].parent.value;
      assert LinksAgree(ns, mid, None);
      AncestryKept(ns, mid, rank, rank, None, p);
      FlaggedStep(ns, id, Ancestry(ns, rank, p));
    }
  }

  /** What a constructor leaves in a container's own state: empty dock tables, a grid with no cells, no centred child. */
  predicate Newborn(k: Kind)
  {
    match k
    case DockPane(docks, slots) => docks == map[] && slots == map[]
    case GridPanel(_, _, _, _, _, _, cells) => GridPanels.Shaped(k) && cells == []
    case Center(child) => child.None?
    case _ => true
  }

  /** A newborn node under an unused id, ranked 0, keeps the arena well formed. */
  lemma BornWf(ns: map<Id, Node>, rank: map<Id, nat>, bound: nat, id: Id, kind: Kind)
    requires Wf(ns, rank, bound) && id !in ns && Newborn(kind)
    ensures Wf(ns[id := Fresh(kind)], rank[id := 0], bound + 1)
  {
    var ns' := ns[id := Fresh(kind)];
    forall q, i | q in ns' && 0 <= i < |ns'[q].children|
      ensures ns'[q].children[i] in ns' && ns'[ns'[q].children[i]].parent == Some(q)
    {
      assert q != id && ns'[q].children[i] == ns[q].children[i];
    }
    forall k | k in ns'
      ensures KindOk(ns'[k])
    {
      if k != id {
        assert KindOk(ns[k]);
      }
    }
  }

  /** The sweep of `GridPanel.remove`: walk the records from the last and delete those for `node`. */
  method SweepCells(cells: seq<Cell>, node: Id) returns (r: seq<Cell>)
    ensures r == Sweep(cells, node)
  {
    r := cells;
    var i := |cells|;
    while i > 0
      invariant 0 <= i <= |cells|
      invariant r == cells[..i] + Sweep(cells[i..], node)
    {
      i := i - 1;
      assert cells[i..][0] == cells[i] && cells[i..][1..] == cells[i + 1..];
      assert cells[..i + 1] == cells[..i] + [cells[i]];
      if r[i].node == node {
        r := r[..i] + r[i + 1..];
      }
    }
  }

  /** Changing only kinds keeps links, and so list/link agreement and chains. */
  lemma SameLinksPreserve(ns: map<Id, Node>, ns': map<Id, Node>)
    requires ns'.Keys == ns.Keys && Linked(ns)
    requires forall k :: k in ns ==> ns'[k].parent == ns[k].parent && ns'[k].children == ns[k].children
    ensures LinksAgree(ns, ns', None) && Linked(ns')
  {
    forall q, i | q in ns' && 0 <= i < |ns'[q].children|
      ensures ns'[q].children[i] in ns' && ns'[ns'[q].children[i]].parent == Some(q)
    {
      assert ns'[q].children[i] == ns[q].children[i];
    }
  }

  /** Updating a kind commutes with detaching a child. */
  lemma DetachKindCommute(ns: map<Id, Node>, p: Id, c: Id, k: Kind)
    requires p in ns && c in ns && p != c
    ensures var d := Detach(ns, p, c);
            Detach(ns[p := ns[p].(kind := k)], p, c) == d[p := d[p].(kind := k)]
  {
  }

  /** Updating a kind commutes with setting dirty flags. */
  lemma FlaggedKindCommute(ns: map<Id, Node>, s: set<Id>, p: Id, k: Kind)
    requires p in ns
    ensures var f := Flagged(ns, s);
            Flagged(ns[p := ns[p].(kind := k)], s) == f[p := f[p].(kind := k)]
  {
    var f := Flagged(ns, s);
    var l := Flagged(ns[p := ns[p].(kind := k)], s);
    assert forall x :: x in l ==> l[x] == f[p := f[p].(kind := k)][x];
  }

  /** The grid's order, base removal first and sweep second, ends where `Removed` says. */
  lemma GridRemoveOrder(ns: map<Id, Node>, rank: map<Id, nat>, p: Id, c: Id)
    requires Chained(ns, rank) && Linked(ns) && p in ns && c in ns && ns[p].kind.GridPanel?
    ensures var k := ns[p].kind.(cells := Sweep(ns[p].kind.cells, c));
            var b := if c in ns[p].children then Flagged(Detach(ns, p, c), Ancestry(ns, rank, p)) else ns;
            b[p := b[p].(kind := k)] == Removed(ns, rank, p, c)
  {
    var k := ns[p].kind.(cells := Sweep(ns[p].kind.cells, c));
    assert Forget(ns[p].kind, c) == k;
    if c in ns[p].children {
      ListedByParent(ns, p, c);
      DetachKindCommute(ns, p, c, k);
      FlaggedKindCommute(Detach(ns, p, c), Ancestry(ns, rank, p), p, k);
    }
  }

  /** For a kind without its own `remove`, `Removed` is the base removal alone. */
  lemma RemovedPlain(ns: map<Id, Node>, rank: map<Id, nat>, p: Id, c: Id)
    requires Chained(ns, rank) && p in ns && c in ns && !ns[p].kind.DockPane? && !ns[p].kind.GridPanel?
    ensures Removed(ns, rank, p, c) ==
            if c in ns[p].children then Flagged(Detach(ns, p, c), Ancestry(ns, rank, p)) else ns
  {
    assert ns[p := ns[p].(kind := Forget(ns[p].kind, c))] == ns;
  }
}

=== FILE: wrap_panel.dfy ===
/**
 * WrapPanel layout (ui/layout/WrapPanel.java): the visible children left to right at their own
 * size, starting a new line below when the next child would cross the content's right edge.
 * `gaps`, which marks the pane dirty, belongs to the arena (UIArena.Arena.WrapGaps).
 */
module WrapPanels {
  import opened Base
  import opened UIInsets
  import opened UINodes

  const DEFAULT_GAP: real := 10.0

  /** The state of the pass: the arena, the cursor, and the height of the current line. */
  datatype Flow = Flow(ns: map<Id, Node>, x: real, y: real, lineH: real)

  /** A child the pass places: present and visible. */
  predicate Shows(ns: map<Id, Node>, id: Id)
  {
    id in ns && ns[id].visible
  }

  /** Whether a child `cw` wide starts a new line: the line already holds something and it would overflow. */
  predicate Wraps(pane: Node, f: Flow, cw: real)
  {
    f.x > pane.padding.left && f.x + cw > pane.padding.left + ContentW(pane)
  }

  /** One iteration of the loop: skip an invisible child, otherwise place it (see StepPlaces). */
  function Step(pane: Node, f: Flow, id: Id): (q: Flow)
    requires pane.kind.WrapPanel?
    ensures q.ns.Keys == f.ns.Keys
    ensures !Shows(f.ns, id) ==> q == f
  {
    if Shows(f.ns, id) then
      var c := f.ns[id];
      var cw := Resolve0(c.width, c.prefW);
      var ch := Resolve0(c.height, c.prefH);
      var wrap := Wraps(pane, f, cw);
      var x := if wrap then pane.padding.left else f.x;
      var y := if wrap then f.y + f.lineH + pane.kind.wrapGapY else f.y;
      var lineH := if wrap then 0.0 else f.lineH;
      Flow(f.ns[id := Placed(c, Box(x, y, cw, ch))], x + cw + pane.kind.wrapGapX, y, if ch > lineH then ch else lineH)
    else f
  }

  /**
   * A shown child keeps its own size (explicit, preferred, or 0) and lands either at the cursor
   * or, after a wrap, at the start of the next line, `gapY` below the tallest child of the
   * current one; either way it starts a line or ends inside the content. Nothing else changes.
   */
  lemma StepPlaces(pane: Node, f: Flow, id: Id)
    requires pane.kind.WrapPanel? && Shows(f.ns, id)
    ensures var q := Step(pane, f, id); var c := f.ns[id]; var n := q.ns[id];
            BoxesOnly(f.ns, q.ns, {id}) &&
            n.width == Resolve0(c.width, c.prefW) && n.height == Resolve0(c.height, c.prefH) &&
            (n.x <= pane.padding.left || n.x + n.width <= pane.padding.left + ContentW(pane)) &&
            ((n.x == f.x && n.y == f.y) ||
             (n.x == pane.padding.left && n.y == f.y + f.lineH + pane.kind.wrapGapY)) &&
            q.y == n.y && q.x == n.x + n.width + pane.kind.wrapGapX && q.lineH >= n.height
  {
  }

  /** The pass over `kids`, from the content's top-left corner with an empty line. */
  function Wrap(ns: map<Id, Node>, pane: Node, kids: seq<Id>): (f: Flow)
    requires pane.kind.WrapPanel?
    ensures f.ns.Keys == ns.Keys
    decreases |kids|
  {
    if |kids| == 0 then Flow(ns, pane.padding.left, pane.padding.top, 0.0)
    else Step(pane, Wrap(ns, pane, kids[..|kids| - 1]), kids[|kids| - 1])
  }

  /** What `onLayout` leaves in the arena: only the boxes of the pane's children change. */
  function Layout(ns: map<Id, Node>, pane: Node): (r: map<Id, Node>)
    requires pane.kind.WrapPanel?
    ensures BoxesOnly(ns, r, set k | k in pane.children)
  {
    WrapTouches(ns, pane, pane.children);
    Wrap(ns, pane, pane.children).ns
  }

  /** The pass rewrites only boxes, and only those of the listed children. */
  lemma {:induction false} WrapTouches(ns: map<Id, Node>, pane: Node, kids: seq<Id>)
    requires pane.kind.WrapPanel?
    ensures BoxesOnly(ns, Wrap(ns, pane, kids).ns, set id | id in kids)
    decreases |kids|
  {
    if |kids| > 0 {
      var prev := kids[..|kids| - 1];
      var id := kids[|kids| - 1];
      WrapTouches(ns, pane, prev);
      var f := Wrap(ns, pane, prev);
      var q := Step(pane, f, id);
      if Shows(f.ns, id) {
        StepPlaces(pane, f, id);
      }
      BoxesOnlyTrans(ns, f.ns, q.ns, set i | i in prev, {id});
      assert (set i | i in prev) + {id} == set i | i in kids;
    }
  }

  /** With each child listed once, a child's box is final once the pass has gone past it. */
  lemma {:induction false} WrapKeeps(ns: map<Id, Node>, pane: Node, kids: seq<Id>, m: nat, j: nat)
    requires pane.kind.WrapPanel? && Distinct(kids) && j < m <= |kids| && kids[j] in ns
    ensures Wrap(ns, pane, kids).ns[kids[j]] == Wrap(ns, pane, kids[..m]).ns[kids[j]]
    decreases |kids|
  {
    if m < |kids| {
      var prev := kids[..|kids| - 1];
      assert prev[..m] == kids[..m] && prev[j] == kids[j];
      WrapKeeps(ns, pane, prev, m, j);
      var f := Wrap(ns, pane, prev);
      assert kids[|kids| - 1] != kids[j];
      assert Step(pane, f, kids[|kids| - 1]).ns[kids[j]] == f.ns[kids[j]];
    } else {
      assert kids[..m] == kids;
    }
  }

  /** The shown child at position `j` is placed from the state the children before it left. */
  lemma WrapPlaced(ns: map<Id, Node>, pane: Node, kids: seq<Id>, j: nat)
    requires pane.kind.WrapPanel? && Distinct(kids) && j < |kids| && Shows(ns, kids[j])
    ensures var f := Wrap(ns, pane, kids[..j]);
            Shows(f.ns, kids[j]) && f.ns[kids[j]] == ns[kids[j]] &&
            Wrap(ns, pane, kids).ns[kids[j]] == Step(pane, f, kids[j]).ns[kids[j]]
  {
    var id := kids[j];
    WrapKeeps(ns, pane, kids, j + 1, j);
    assert kids[..j + 1][..j] == kids[..j];
    WrapTouches(ns, pane, kids[..j]);
    assert id !in kids[..j];
  }

  /**
   * Every shown child keeps its own size and either starts a line or ends within the content's
   * right edge: only a child wider than the whole line overflows, and then alone at its start.
   */
  lemma WrapFits(ns: map<Id, Node>, pane: Node, kids: seq<Id>, j: nat)
    requires pane.kind.WrapPanel? && Distinct(kids) && j < |kids| && Shows(ns, kids[j])
    ensures var c := ns[kids[j]]; var n := Wrap(ns, pane, kids).ns[kids[j]];
            SameExceptBox(c, n) && n.width == Resolve0(c.width, c.prefW) && n.height == Resolve0(c.height, c.prefH) &&
            (n.x <= pane.padding.left || n.x + n.width <= pane.padding.left + ContentW(pane))
  {
    WrapPlaced(ns, pane, kids, j);
    StepPlaces(pane, Wrap(ns, pane, kids[..j]), kids[j]);
  }

  /**
   * Where a placed child stands against the current state: on the current line (at its top, no
   * taller than the line) or on an earlier one, ending at least `gapY` above the current line.
   */
  predicate Settled(n: Node, f: Flow, gapY: real)
  {
    n.height >= 0.0 && ((n.y == f.y && n.height <= f.lineH) || n.y + n.height + gapY <= f.y)
  }

  /** With a vertical gap that is not negative, every child placed so far is settled. */
  lemma {:induction false} WrapSettled(ns: map<Id, Node>, pane: Node, kids: seq<Id>)
    requires pane.kind.WrapPanel? && Distinct(kids) && pane.kind.wrapGapY >= 0.0
    ensures var f := Wrap(ns, pane, kids);
            f.lineH >= 0.0 &&
            forall i :: 0 <= i < |kids| && Shows(ns, kids[i]) ==> Settled(f.ns[kids[i]], f, pane.kind.wrapGapY)
    decreases |kids|
  {
    if |kids| > 0 {
      var prev := kids[..|kids| - 1];
      var id := kids[|kids| - 1];
      WrapSettled(ns, pane, prev);
      WrapTouches(ns, pane, prev);
      var f := Wrap(ns, pane, prev);
      var q := Step(pane, f, id);
      var g := pane.kind.wrapGapY;
      assert id !in prev;
      forall i | 0 <= i < |kids| && Shows(ns, kids[i])
        ensures Settled(q.ns[kids[i]], q, g)
      {
        if i < |kids| - 1 {
          assert prev[i] == kids[i] && kids[i] != id;
          assert Settled(f.ns[kids[i]], f, g);
          if Shows(f.ns, id) {
            StepPlaces(pane, f, id);
            assert q.ns[kids[i]] == f.ns[kids[i]];
            WrapSettles(pane, f, id, f.ns[kids[i]]);
          }
        }
      }
    }
  }

  /** Placing one child keeps every earlier child settled. */
  lemma WrapSettles(pane: Node, f: Flow, id: Id, n: Node)
    requires pane.kind.WrapPanel? && pane.kind.wrapGapY >= 0.0 && f.lineH >= 0.0 && Shows(f.ns, id)
    requires Settled(n, f, pane.kind.wrapGapY)
    ensures Settled(n, Step(pane, f, id), pane.kind.wrapGapY)
  {
    StepPlaces(pane, f, id);
  }

  /**
   * With a vertical gap that is not negative, lines run down the pane: a later child is never
   * above an earlier one, and when it is lower it clears the earlier one by at least `gapY`.
   */
  lemma WrapLines(ns: map<Id, Node>, pane: Node, kids: seq<Id>, i: nat, j: nat)
    requires pane.kind.WrapPanel? && Distinct(kids) && pane.kind.wrapGapY >= 0.0 && i < j < |kids|
    requires Shows(ns, kids[i]) && Shows(ns, kids[j])
    ensures var r := Wrap(ns, pane, kids).ns; var a := r[kids[i]]; var b := r[kids[j]];
            a.y <= b.y && (a.y == b.y || a.y + a.height + pane.kind.wrapGapY <= b.y)
  {
    var f := Wrap(ns, pane, kids[..j]);
    WrapPlaced(ns, pane, kids, j);
    WrapSettled(ns, pane, kids[..j]);
    assert kids[..j][i] == kids[i];
    WrapKeeps(ns, pane, kids, j, i);
    StepPlaces(pane, f, kids[j]);
    assert Settled(f.ns[kids[i]], f, pane.kind.wrapGapY);
  }

  /** The pane's `onLayout`: the loop over the children with its cursor and line height. */
  method LayoutChildren(ns: map<Id, Node>, pane: Node) returns (r: map<Id, Node>)
    requires pane.kind.WrapPanel?
    ensures r == Layout(ns, pane)
  {
    var innerX := pane.padding.left;
    var innerW := ContentW(pane);
    var cursorX := innerX;
    var cursorY := pane.padding.top;
    var lineH := 0.0;
    var kids := pane.children;
    r := ns;
    var i := 0;
    while i < |kids|
      invariant 0 <= i <= |kids|
      invariant Flow(r, cursorX, cursorY, lineH) == Wrap(ns, pane, kids[..i])
    {
      var id := kids[i];
      assert kids[..i + 1][..i] == kids[..i];
      ghost var f := Flow(r, cursorX, cursorY, lineH);
      if id in r && r[id].visible {
        var c := r[id];
        var cw := Resolve0(c.width, c.prefW);
        var ch := Resolve0(c.height, c.prefH);
        if cursorX > innerX && cursorX + cw > innerX + innerW {
          cursorX := innerX;
          cursorY := cursorY + lineH + pane.kind.wrapGapY;
          lineH := 0.0;
        }
        r := r[id := Placed(c, Box(cursorX, cursorY, cw, ch))];
        cursorX := cursorX + cw + pane.kind.wrapGapX;
        if ch > lineH {
          lineH := ch;
        }
      }
      assert Flow(r, cursorX, cursorY, lineH) == Step(pane, f, id);
      i := i + 1;
    }
    assert kids[..i] == kids;
  }
}
